=== FILE: README.md ===
# arboris-novel: a Dafny model of the sequential core

arboris-novel is a web application for writing novels with a language model.
A FastAPI backend generates a story blueprint in seven steps. It writes
chapters in several versions, tracks plot events and indexes confirmed
chapters in a vector store for retrieval-augmented generation (RAG). A Vue
front end streams generation progress over server-sent events (SSE) and keeps
the open project in a store.

This project models the sequential logic under that glue and proves
properties of it. Language-model calls, SQL, HTTP, hashing and JSON
parsing become function parameters; JSON output is written out. Tables become maps keyed by id, or
sequences of rows in scan order.

One module per component, one file per module:

| module | file | what it models |
|---|---|---|
| `Wrappers` | wrappers.dfy | `Option` and `Result` |
| `Text` | text.dfy | `strip`/`trim`, `split`, `join`, `find`/`rfind`, `str(int)` and `int(str)` |
| `Escapes` | escapes.dfy | backslash escapes and the `replace` chains that undo them |
| `Chunker` | chunker.dfy | the built-in chapter chunker (`_legacy_split`, `_find_split_offset`) |
| `Ingest` | ingest.dfy | chapter ingestion: delete, split, embed, upsert with deterministic ids |
| `VectorCodec` | vector_codec.dfy | the float32 blob codec, the 64-bit point id, metadata parsing |
| `VectorStore` | vector_store.dfy | backend selection, upsert-on-conflict, delete-by-chapters, counters |
| `VectorQuery` | vector_query.dfy | query guards, `top_k` resolution, the in-process fallback ranking |
| `Context` | context.dfy | the chapter context service: query normalisation and prompt blocks |
| `Metrics` | metrics.dfy | the retrieval-metrics log and its windowed statistics |
| `JsonUtils` | json_utils.dfy | `remove_think_tags`, `unwrap_markdown_json` |
| `Sanitizer` | sanitize.dfy | the `sanitize_json_like_text` state machine |
| `TextFormatter` | text_formatter.dfy | the front end's `text-formatter.ts` |
| `PyJson` | py_json.dfy | Python's `json.dumps` with `ensure_ascii=False`, and reading a string literal back |
| `NovelText` | novel_text.dfy | `_clean_string` and `_coerce_text` |
| `NovelService` | novel_service.dfy | conversations, chapter versions, event progress and switching, character rows |
| `PlotEvents` | plot_events.dfy | plot-event creation, progress, status and key-point validation |
| `Writer` | writer.dfy | helpers of the chapter-writing router |
| `Llm` | llm.dfy | config lookup, embedding-dimension cache, daily limit, response checks |
| `Users` | users.dfy | user lookups and the per-day request counters |
| `Auth` | auth.dfy | verification codes, `_parse_bool`, the password-reset rule, password change |
| `Settings` | settings.dfy | field validators and numeric bounds of the settings |
| `ConfigDefaults` | config_defaults.dfy | the configuration defaults and their text conversions |
| `Bootstrap` | bootstrap.dfy | the administrator bootstrap, default sync and default prompts |
| `BlueprintService` | blueprint_service.dfy | retry with back-off, step validators, assembly, saved rows |
| `Drafts` | drafts.dfy | blueprint drafts in a project's metadata |
| `BlueprintRoutes` | blueprint_routes.dfy | the query-token check and the two SSE generators |
| `Sse` | sse.dfy | SSE frames written by the server and parsed by the client |
| `UpdateLogs` | update_logs.dfy | update logs with at most one pinned |
| `Repository` | repository.dfy | the generic repository (`get`, `list`, `add`, `update_fields`) |
| `Stores` | stores.dfy | configuration entries, administrator settings, usage counters |
| `Prompts` | prompts.dfy | the prompt cache and the tag split of the read schema |
| `RouterGuard` | router_guard.dfy | the front end's `beforeEach` navigation guard |
| `NovelStore` | novel_store.dfy | the front end's novel store |

Python and JavaScript floats are modelled as `real`, and integers are
unbounded. Python's floor division, `int()` and slicing with negative indices
are written out where the source uses them.

## Model

| member | source | states |
|---|---|---|
| Auth.VerifyCode | backend/app/services/auth_service.py:102-115 | a missing address or cached code is refused; an expired code is refused and dropped; a wrong code is refused and kept; the right, unexpired code is accepted and dropped |
| Auth.CodeIsOneTimeUse | backend/app/services/auth_service.py:112-115 | a code that was accepted once is refused the second time |
| Auth.SendVerificationCode | backend/app/services/auth_service.py:85-170 | closed registration is 403 and a resend within 60 seconds is 429, both without touching the cache; otherwise a six-digit code is cached until now + 300 and the send time recorded, and these stay even when a later step fails: no mailer configuration 500, an address that is not ASCII 400, a failed delivery 500; success exactly when all of these pass |
| Auth.SentCodeVerifies | backend/app/services/auth_service.py:92-115 | the code just sent is accepted at any time up to 300 seconds later |
| Auth.ResendWithinCooldown | backend/app/services/auth_service.py:88-100 | a second request within the minute is refused with 429 even when the first one failed for want of a mailer, on a non-ASCII address or in delivery |
| Auth.ParseBool | backend/app/services/auth_service.py:340-344 | the fallback for a missing value; otherwise true exactly for the stripped, lower-cased spellings 1, true, yes and on |
| Auth.ParseBoolIgnoresPadding | backend/app/services/auth_service.py:343-344 | surrounding whitespace does not change the reading of a switch |
| Auth.RegistrationEnabled | backend/app/services/auth_service.py:346-348 | registration is open as the stored switch reads, and as the setting says when nothing is stored |
| Auth.RequiresPasswordReset | backend/app/services/auth_service.py:364-372 | a reset is required exactly for an administrator with the default username whose non-empty hash still verifies against the default password |
| Auth.ResetIffDefaultPassword | backend/app/services/auth_service.py:364-372 | with a faithful hash, a reset is required exactly for an administrator with the default username whose stored password is the default password |
| Auth.ChangePassword | backend/app/services/auth_service.py:374-389 | the checks fail in the order unknown user 404, wrong current password 400, unchanged password 400, default password for the default username 400, and a change passing all four succeeds; on success only that user's hash changes, to the hash of the new password |
| Auth.ChangePasswordClearsReset | backend/app/services/auth_service.py:364-389 | with a faithful hash, a successful change clears the reset requirement of that account |
| BlueprintRoutes.UserFromQuery | backend/app/api/routers/blueprint/stage.py:31-56 | a missing or empty token, one that does not decode and an unknown subject are each 401; otherwise the stored user with its password-reset flag |
| BlueprintRoutes.MissingStageIndices | backend/app/api/routers/blueprint/stage.py:217-223 | the indices of the absent stages among the first three, ascending, each absent stage listed |
| BlueprintRoutes.MissingStages | backend/app/api/routers/blueprint/stage.py:217-226 | the labels 阶段1..阶段3 of the absent stages, in stage order; empty exactly when all three are present |
| BlueprintRoutes.Stage4Stream | backend/app/api/routers/blueprint/stage.py:207-269 | owner errors pass through, an unreadable draft is 500, no draft is 400 and missing stages are 400, all before streaming; otherwise one chapter frame per reported chapter in order, then exactly one complete frame, or a single error frame when generation raises |
| BlueprintRoutes.Stage4StreamAsWritten | backend/app/api/routers/blueprint/stage.py:234-269 | as written, the checks before streaming fail exactly as in the intended route, and a stream that gets past them is the single error frame carrying the AttributeError of the missing generator |
| BlueprintRoutes.Stage4AsWrittenNeverCompletes | backend/app/api/routers/blueprint/stage.py:253-269 | for an owned project with its first three stages saved, the written stream has no complete frame, while the intended one ends with one |
| BlueprintRoutes.NoStagesMessage | backend/app/api/routers/blueprint/stage.py:224-228 | with every stage missing the detail names 阶段1, 阶段2, 阶段3 in that order |
| BlueprintRoutes.Percentage | backend/app/api/routers/blueprint/blueprint.py:102 | the percentage is step/total times 100 rounded down |
| BlueprintRoutes.ProgressEvents | backend/app/api/routers/blueprint/blueprint.py:97-104 | the n progress frames carry steps 1..n with their messages, in the order reported |
| BlueprintRoutes.BlueprintEvents | backend/app/api/routers/blueprint/blueprint.py:78-133 | a missing project gives exactly one error frame; otherwise the progress frames in queue order, then one complete frame when the generation task finished or one error frame when it raised |
| BlueprintRoutes.KindsAreSafe | backend/app/api/routers/blueprint/blueprint.py:86-133 | the three event names the server writes contain no line break, so a frame's event line cannot split |
| BlueprintRoutes.PayloadFields | backend/app/api/routers/blueprint/blueprint.py:98-103 | the client finds step, total, message and percentage in a progress payload |
| BlueprintRoutes.ProgressStep | frontend/src/composables/useBlueprintSSE.ts:90-94 | the progress frame of step n moves the client from the state of step n-1 to that of step n |
| BlueprintRoutes.ProgressFold | frontend/src/composables/useBlueprintSSE.ts:67-110 | reading the progress frames of n steps leaves the client in the state of step n with the promise pending |
| BlueprintRoutes.ReadFinalFrame | frontend/src/composables/useBlueprintSSE.ts:67-110 | after n progress frames the next frame is handled in the state of step n |
| BlueprintRoutes.HandleErrorPayload | frontend/src/composables/useBlueprintSSE.ts:101-105 | an error payload rejects with its message and shows it, or the default message when it is empty |
| BlueprintRoutes.HandleCompletePayload | frontend/src/composables/useBlueprintSSE.ts:95-100 | a complete payload resolves with its blueprint at 100 percent |
| BlueprintRoutes.MissingProjectStream | backend/app/api/routers/blueprint/blueprint.py:84-87 | the client reading the stream for a missing project rejects with 项目不存在 |
| BlueprintRoutes.CompletedStream | backend/app/api/routers/blueprint/blueprint.py:119-129 | the client reading a finished generation resolves with the blueprint after all seven steps |
| BlueprintRoutes.CompleteAfter | frontend/src/composables/useBlueprintSSE.ts:95-100 | a complete frame after the progress frames of n steps resolves with its blueprint |
| BlueprintRoutes.FailedStream | backend/app/api/routers/blueprint/blueprint.py:130-133 | the client reading a failed generation rejects with the server's message after the steps it reported |
| BlueprintRoutes.ClientReadsBlueprintStream | backend/app/api/routers/blueprint/blueprint.py:78-133 | server and client agree: missing project and failed generation reject with the server's message, a finished one resolves with the blueprint at 100 percent after seven steps |
| BlueprintService.BackoffSchedule | backend/app/services/blueprint/blueprint_service.py:81-84 | the wait before attempt a+1 is 2^(a-1) seconds: 1, 2, 4, ... |
| BlueprintService.ExecuteWithRetry | backend/app/services/blueprint/blueprint_service.py:57-93 | attempts run from 1 and stop at the first success, which is returned, or after max_retries failures, when the last error is raised; every earlier attempt failed; the waits follow the doubling schedule with none after the last attempt; success exactly when some attempt within the limit succeeds |
| BlueprintService.BackoffTotal | backend/app/services/blueprint/blueprint_service.py:81-84 | with n waits the total waiting time is 2^n - 1 seconds |
| BlueprintService.PyContains | backend/app/services/blueprint/blueprint_service.py:252-253 | Python's membership test on a parsed reply: key of an object, element of an array, substring of a string, and an error on numbers, booleans and null |
| BlueprintService.Lacking | backend/app/services/blueprint/blueprint_service.py:293 | the required fields absent from the reply, in the order they are listed |
| BlueprintService.Step1 | backend/app/services/blueprint/blueprint_service.py:251-257 | the step passes exactly when the reply is an object holding title, genre and tone; a container lacking one fails naming the missing fields, and a list or string holding all three still fails on `data.get`; the reply becomes basic_info and nothing else changes |
| BlueprintService.Synopsis | backend/app/services/blueprint/blueprint_service.py:298-304 | the five synopsis sections in the fixed order 故事背景, 主角起点, 核心冲突, 发展预期, 结构规划, each heading on its own line, separated by blank lines |
| BlueprintService.Step2 | backend/app/services/blueprint/blueprint_service.py:283-308 | the reply must contain the five synopsis fields, the missing ones listed in order; the assembled synopsis becomes full_synopsis |
| BlueprintService.CheckWorld | backend/app/services/blueprint/blueprint_service.py:339-352 | the three fields must be present, then exactly 3 core rules, 3 to 4 key locations and 2 to 3 factions, each a list; a missing field is reported before any count, and the core rules are checked first |
| BlueprintService.CountProblem | backend/app/services/blueprint/blueprint_service.py:345-352 | a list of the right length passes; a wrong-length list, a string or an object fails with the count error; a number, boolean or null fails with a type error, because the error message takes its `len` |
| BlueprintService.Step3 | backend/app/services/blueprint/blueprint_service.py:330-360 | the reply must hold a world_setting passing those checks, stored under that name |
| BlueprintService.NonEmptyListStep | backend/app/services/blueprint/blueprint_service.py:383-390 | steps 4 and 6: the named field, default empty, must be a non-empty list, stored under the same name |
| BlueprintService.Step5 | backend/app/services/blueprint/blueprint_service.py:411-414 | the step passes exactly when the reply is an object whose relationships value, default empty, has a length; that value is stored unchecked otherwise, and a number, boolean or null fails as `len` does |
| BlueprintService.MissingRequired | backend/app/services/blueprint/blueprint_service.py:465 | the required fields, in order, that are absent or falsy |
| BlueprintService.Overlay | backend/app/services/blueprint/blueprint_service.py:470-477 | the later fields replace same-named keys of basic_info and every other key of basic_info is kept |
| BlueprintService.Assemble | backend/app/services/blueprint/blueprint_service.py:456-480 | step 7 fails naming the absent or falsy fields; otherwise the blueprint is basic_info with the five later fields laid over it |
| BlueprintService.RunStepsStores | backend/app/services/blueprint/blueprint_service.py:151-202 | six passing steps leave the first reply as basic_info and each later field truthy, except the relationships, which are whatever the fifth reply held |
| BlueprintService.StepsFeedAssembly | backend/app/services/blueprint/blueprint_service.py:151-210 | when the six steps pass, the first reply is an object and the relationships are non-empty, step 7 assembles a blueprint carrying what the steps stored |
| BlueprintService.EmptyRelationshipsRejected | backend/app/services/blueprint/blueprint_service.py:411-467 | a reply without relationships passes step 5, yet step 7 then rejects the state on every attempt, naming only the relationships |
| BlueprintService.OnlyRelationshipsMissing | backend/app/services/blueprint/blueprint_service.py:456-467 | a filled state whose relationship list is falsy lacks that field alone and step 7 rejects it for that alone |
| BlueprintService.OrElse | backend/app/services/blueprint/blueprint_service.py:538-539 | Python's a or b on two lookups: the first when truthy, else the second |
| BlueprintService.RelationshipRows | backend/app/services/blueprint/blueprint_service.py:536-552 | the save goes through exactly when every relationship is an object; there are never more rows than relationships, and every row has truthy endpoints; what each row holds and their order are stated by RelationshipRowsOne and RelationshipRowsConcat |
| BlueprintService.RelationshipRowsOne | backend/app/services/blueprint/blueprint_service.py:538-551 | a relationship whose endpoints (character_from or from, character_to or to) are not both truthy gives no row; otherwise one row holding those endpoints, its description and its position, 0 when absent |
| BlueprintService.RelationshipRowsConcat | backend/app/services/blueprint/blueprint_service.py:536-552 | rows keep the order of the relationships: the rows of a concatenation are the rows of its parts, concatenated, and a non-object in either part fails the save |
| BlueprintService.LongKeyWins | backend/app/services/blueprint/blueprint_service.py:538 | a truthy character_from wins over from |
| BlueprintService.OutlineRows | backend/app/services/blueprint/blueprint_service.py:554-561 | the i-th outline, counting from 0, becomes chapter i + 1 with its title and summary |
| BlueprintService.OutlineNumbersContiguous | backend/app/services/blueprint/blueprint_service.py:554-557 | the saved chapter numbers are exactly 1..n, each once |
| Bootstrap.EnsureAdmin | backend/app/db/init_db.py:31-48 | the default administrator is added only when no administrator exists; a clashing insert is rolled back and the users stay as they were |
| Bootstrap.NewAdminMustChangePassword | backend/app/db/init_db.py:35-40 | with a faithful hash, the administrator created at start-up is required to change the default password |
| Bootstrap.ValuedKeys | backend/app/db/init_db.py:51-54 | the keys of exactly those default entries whose value is set |
| Bootstrap.SyncEntry | backend/app/db/init_db.py:52-66 | an entry without value is skipped; an existing key keeps its value and takes a non-empty, different description; a missing key is inserted with the entry's value and description |
| Bootstrap.SyncDefaults | backend/app/db/init_db.py:51-66 | exactly the valued keys are added, stored values are never overwritten, and keys no valued entry names are untouched |
| Bootstrap.InsertedKeyTakesFirstValue | backend/app/db/init_db.py:55-66 | a key the loop inserts holds the value of the first valued entry naming it |
| Bootstrap.OnlyEntryDescriptionKept | backend/app/db/init_db.py:56-66 | an entry alone with its key and with a description leaves that description on the row, and a new row holds exactly the entry's value and description |
| Bootstrap.UnsetDefaultsSkipped | backend/app/db/init_db.py:53-54 | an entry whose setting is unset never creates a row |
| Bootstrap.FreshDatabaseRegistrationSwitch | backend/app/db/init_db.py:51-66 | on a fresh database the seeded registration switch reads back as the setting it was seeded from |
| Bootstrap.DefaultPromptsToAdd | backend/app/db/init_db.py:109-122 | nothing without the prompt directory; otherwise every listed prompt file whose name no stored prompt has, and only those |
| Bootstrap.DefaultPromptsConcat | backend/app/db/init_db.py:117-122 | the files added keep the order of the listing they come from (the sorted `*.md` listing): the files added from two listings in a row are those of the first followed by those of the second |
| Bootstrap.DefaultPromptsOne | backend/app/db/init_db.py:111-122 | a single listed file is added exactly when the directory exists and no stored prompt has its name |
| ConfigDefaults.ToOptionalStr | backend/app/db/system_config_defaults.py:9-10 | None stays None and any other value becomes its text |
| ConfigDefaults.BoolToText | backend/app/db/system_config_defaults.py:13-14 | true is written "true" and false "false" |
| ConfigDefaults.BoolTextRoundTrip | backend/app/services/auth_service.py:340-344 | a switch written as text reads back as the same switch, whatever the fallback |
| ConfigDefaults.Defaults | backend/app/db/system_config_defaults.py:24-110 | the seventeen default entries, each with a description; the registration switch as text and the chapter version count as digits |
| ConfigDefaults.ChapterVersionsDefaultAccepted | backend/app/db/system_config_defaults.py:105-109 | the seeded version count is one the version-count resolution accepts as it is |
| ConfigDefaults.RegistrationSwitchRoundTrip | backend/app/db/system_config_defaults.py:65-69 | the seeded registration switch reads back as the setting |
| Chunker.NewlineCandidate | backend/app/services/chapter_ingest_service.py:176-180 | the candidate is the last paragraph break, or the last newline when there is no paragraph break, and sits on a newline inside the segment; there is none exactly when that position is missing or at index 0 |
| Chunker.PunctuationCandidate | backend/app/services/chapter_ingest_service.py:182-186 | the punctuation candidate is past index 0 and right after a listed mark; there is none exactly when no listed mark occurs past index 0; the first listed mark that occurs wins, not the latest one |
| Chunker.PunctuationCandidateFirstMark | backend/app/services/chapter_ingest_service.py:182-186 | the candidate is the cut after the last occurrence of the first mark in list order that occurs past index 0, and there is one whenever such a mark exists |
| Chunker.FindSplitOffset | backend/app/services/chapter_ingest_service.py:173-195 | the offset is the later of the newline and punctuation candidates, lies in (0, len] right after a mark or before a line break, and is at or beyond 40% of the segment; none exactly when every candidate that exists falls before 40% |
| Chunker.LaterCandidate | backend/app/services/chapter_ingest_service.py:188-195 | no candidates give none; otherwise the answer is one of the candidates and at least each of them, and it is none exactly when every candidate lies before 40% of the segment |
| Chunker.NoBoundaryNoOffset | backend/app/services/chapter_ingest_service.py:173-195 | a segment without any boundary character has no split offset |
| Chunker.SingleFullStopOffset | backend/app/services/chapter_ingest_service.py:182-195 | a segment whose only boundary is one 。 at index p > 0 offers p + 1, kept exactly when it reaches 40% of the segment |
| Chunker.WindowEnd | backend/app/services/chapter_ingest_service.py:237-243 | one pass's window end lies past the start, within the text and at most chunk_size beyond the start |
| Chunker.EffectiveOverlap | backend/app/services/chapter_ingest_service.py:230 | the overlap used is at most the configured one and at most half the chunk size |
| Chunker.WrittenNextStart | backend/app/services/chapter_ingest_service.py:236-251 | as written, a pass stops the loop exactly when the window reached the end of the text, and otherwise restarts at most overlap before the window end |
| Chunker.WrittenSplitLoopsForever | backend/app/services/chapter_ingest_service.py:236-251 | with 480/120 on a 580-character text whose only boundary is a 。 at 529, the window start goes 0, 360, 410, 410, so the loop never ends |
| Chunker.FirstWindowOfLoopText | backend/app/services/chapter_ingest_service.py:237-251 | the first window of that text has no boundary, so the next start is 360 |
| Chunker.SecondWindowOfLoopText | backend/app/services/chapter_ingest_service.py:237-251 | the second window is cut after the 。 and the next start is 410 |
| Chunker.ThirdWindowOfLoopText | backend/app/services/chapter_ingest_service.py:237-251 | the window starting at 410 restarts at 410 again |
| Chunker.WrittenSplitLoopsOnShortText | backend/app/services/chapter_ingest_service.py:236-251 | a five-character text aa。aa, shorter than one window, also makes the loop restart at 0 for ever |
| Chunker.NextStart | backend/app/services/chapter_ingest_service.py:249-251 | the corrected advance moves strictly forward and never past the window end: end - overlap when that is past the start, else end |
| Chunker.CorrectedStepAgrees | backend/app/services/chapter_ingest_service.py:237-251 | the written loop stops exactly when the window reaches the end of the text, and wherever it moves forward the corrected loop moves to the same start |
| Chunker.WindowPiece | backend/app/services/chapter_ingest_service.py:245-247 | a window is trimmed and dropped when blank; the piece kept holds every non-whitespace character of the window |
| Chunker.PiecesFrom | backend/app/services/chapter_ingest_service.py:236-251 | the corrected loop's pieces are trimmed, non-empty, at most chunk_size long, found in the text, and cover every non-whitespace character from the start on |
| Chunker.LegacySplit | backend/app/services/chapter_ingest_service.py:227-259 | every chunk is a non-empty, trimmed substring of the text of at most chunk_size characters; a text that fits one window is its own trimmed self, or nothing when blank |
| Chunker.LegacySplitLosesNothing | backend/app/services/chapter_ingest_service.py:236-251 | every non-whitespace character of the text lies inside a chunk |
| Chunker.ShortTextIsOneChunk | backend/app/services/chapter_ingest_service.py:227-259 | a trimmed non-empty text of at most chunk_size characters is the single chunk |
| Chunker.SplitIntoChunks | backend/app/services/chapter_ingest_service.py:152-170 | chunks are non-empty and trimmed; there are none exactly when the text is blank; the optional splitter's non-empty trimmed parts are used when there are any, else the built-in split |
| Chunker.NonEmptyStripped | backend/app/services/chapter_ingest_service.py:159-160 | each part trimmed and the empty ones dropped, in order |
| Chunker.NonEmptyStrippedKeeps | backend/app/services/chapter_ingest_service.py:159-160 | no part that trims to something non-empty is dropped |
| Chunker.NonEmptyStrippedFrom | backend/app/services/chapter_ingest_service.py:159-160 | every kept piece is the trimmed text of some part |
| Chunker.NonEmptyStrippedConcat | backend/app/services/chapter_ingest_service.py:159-160 | the pieces of a concatenation are those of the first parts, then those of the rest, in order |
| Ingest.ChunkIdInjective | backend/app/services/chapter_ingest_service.py:82 | within one chapter, different chunk indices give different record ids |
| Ingest.ChunkRows | backend/app/services/chapter_ingest_service.py:68-97 | one record per chunk whose embedding is non-empty, in order, with id project:chapter:index and the chunk's own position as index; failed chunks are skipped without renumbering |
| Ingest.ChunkRowsComplete | backend/app/services/chapter_ingest_service.py:68-97 | no chunk that embedded is lost: each such index has its record, holding that chunk's text and embedding |
| Ingest.ChunkRowsEmptyIff | backend/app/services/chapter_ingest_service.py:99-100 | the chunk batch is empty exactly when no chunk embedded |
| Ingest.SummaryRow | backend/app/services/chapter_ingest_service.py:108-128 | a summary record exists only for a summary that is non-empty after trimming and whose embedding is non-empty; it has id project:chapter:summary and holds the trimmed text |
| Ingest.IngestPlan | backend/app/services/chapter_ingest_service.py:48-139 | nothing at all when the store is disabled or the content is blank; otherwise the chapter's old records are deleted first, and no later call deletes |
| Ingest.IngestedChunks | backend/app/services/chapter_ingest_service.py:55-100 | the embedder sees every chunk in order; the chunk batch is upserted exactly when some chunk embedded, and then it holds the records of every chunk that embedded |
| Ingest.SecondCall | backend/app/services/chapter_ingest_service.py:99-100 | the chunk upsert is issued exactly when the batch is non-empty |
| Ingest.SkippedChunkLeavesGap | backend/app/services/chapter_ingest_service.py:69-83 | with three chunks of which the middle one fails to embed, the stored indices are 0 and 2 and the last id ends in :2 |
| Ingest.IngestWithRaise | backend/app/services/chapter_ingest_service.py:66-114 | when the embedder raises on one of its calls nothing catches it: the ingestion ends with the calls issued so far, a prefix of the full plan; a raise on a chunk leaves only the delete of the chapter, and the ingestion completes exactly when the raise would come after its last embedder call |
| Ingest.RaiseLeavesChapterEmpty | backend/app/services/chapter_ingest_service.py:66-73 | a raise while the chunks are embedded leaves the chapter with no chunk and no summary record, because the old ones were already deleted |
| Ingest.DeleteChaptersPlan | backend/app/services/chapter_ingest_service.py:141-150 | no call when the store is disabled or the list is empty; otherwise one delete with the list unchanged |
| Ingest.DeleteOneChapter | backend/app/services/vector_store_service.py:654-722 | deleting one chapter removes exactly that chapter's chunk and summary rows of that project |
| Ingest.PlanEffect | backend/app/services/chapter_ingest_service.py:66-128 | on a libsql store the calls of a plan leave the chunk table without the chapter plus the batch, and the summary table likewise |
| Ingest.ReingestChunkRows | backend/app/services/chapter_ingest_service.py:66-100 | dropping the chapter and upserting the same records again leaves the chunk table as the first time did |
| Ingest.ReingestSummaryRows | backend/app/services/chapter_ingest_service.py:66-128 | the same for the summary table and its at most one record |
| Ingest.ChunkRowsDistinct | backend/app/services/chapter_ingest_service.py:82-88 | the stored chunk records have distinct ids and belong to the given project and chapter |
| Ingest.IngestIdempotent | backend/app/services/chapter_ingest_service.py:37-139 | ingesting the same chapter twice on a libsql store leaves the store as ingesting it once |
| Context.Normalize | backend/app/services/chapter_context_service.py:101-103 | the same non-whitespace words in the same order, single-spaced with nothing around them; empty exactly when the text is blank |
| Context.NormalizeIdempotent | backend/app/services/chapter_context_service.py:101-103 | normalising twice is normalising once |
| Context.EmbeddingModel | backend/app/services/chapter_context_service.py:75 | no model is passed for Ollama and the configured embedding model otherwise |
| Context.Retrieve | backend/app/services/chapter_context_service.py:60-98 | the query is always the normalised text; a disabled or absent store answers with no hits and calls nothing; otherwise the query is embedded once, an empty embedding ends there with no hits and no store query, and otherwise the same vector goes to the chunk query and then the summary query with the caller's own top-k each, whose answers are returned |
| Context.RetrieveWithRaise | backend/app/services/chapter_context_service.py:70-79 | a raise of the embedder reaches the caller, who gets no context at all, exactly when the store is enabled and present; otherwise the answer is that of the retrieval |
| Context.ChunkSource | backend/app/services/chapter_context_service.py:32 | a chunk's source is its chapter title, or 第n章 when the title is empty |
| Context.ChunkTexts | backend/app/services/chapter_context_service.py:28-36 | one block per chunk, in order, numbered from 1, each naming its source and then the trimmed content on the next line |
| Context.ChunkHeadingsDistinct | backend/app/services/chapter_context_service.py:34 | blocks are told apart by their number: two headings that begin the same way carry the same number |
| Context.SummaryLines | backend/app/services/chapter_context_service.py:38-45 | one line per summary, in input order, naming its chapter and title and ending with the trimmed summary text |
| Drafts.DraftJson | backend/app/services/blueprint/draft_service.py:56-64 | the stored draft holds the current stage, the four stages (null when absent) and the save time, in that order |
| Drafts.SaveDraft | backend/app/services/blueprint/draft_service.py:47-78 | a missing project is an error; otherwise the draft is written under blueprint_draft into the project's metadata, every other metadata key and every other project unchanged |
| Drafts.ReadStage | backend/app/services/blueprint/draft_service.py:125-128 | an absent or falsy stage reads as None; a truthy non-object fails; an object builds exactly when every declared field of its stage model is present with its type (an optional string may be missing or null), giving the declared fields in order |
| Drafts.ValidateStage | backend/app/schemas/blueprint_stage.py:8-32 | building a stage model succeeds exactly when every declared field fits its type, and keeps exactly the declared fields in declaration order, a missing optional string as null |
| Drafts.DumpValidates | backend/app/schemas/blueprint_stage.py:8-32 | the dump of a stage model builds back into itself |
| Drafts.ValidateIgnoresUndeclared | backend/app/schemas/blueprint_stage.py:8-32 | a key the stage model does not declare makes no difference to the build |
| Drafts.GetDraft | backend/app/services/blueprint/draft_service.py:105-135 | None for a missing project, missing metadata or a missing or falsy draft; otherwise the stored draft rebuilt |
| Drafts.ReadDraft | backend/app/services/blueprint/draft_service.py:121-135 | a draft that is not an object fails; the first stage that fails to build, in stage order, is the error; a rebuilt draft has a current stage from 1 to 4 and a save time that is a string, null or absent, and four stages |
| Drafts.DeleteDraft | backend/app/services/blueprint/draft_service.py:150-169 | True exactly when the project has metadata holding a draft; then only that key is removed, and otherwise nothing changes |
| Drafts.HasDraft | backend/app/services/blueprint/draft_service.py:181-189 | True exactly when the project's metadata holds blueprint_draft |
| Drafts.ReadSavedStage | backend/app/services/blueprint/draft_service.py:59-62 | each stage reads back from the stored draft as it was saved |
| Drafts.ReadDraftRoundTrip | backend/app/services/blueprint/draft_service.py:56-130 | the stored form of a draft rebuilds to the draft saved, with its stage number, stages and save time |
| Drafts.SavedHeader | backend/app/services/blueprint/draft_service.py:58-63 | the stored draft gives back its stage number and its save time |
| Drafts.SaveThenGet | backend/app/services/blueprint/draft_service.py:47-130 | saving to an existing project then reading gives back the stage number, the four stages and the save time |
| Drafts.DeleteThenHasNot | backend/app/services/blueprint/draft_service.py:150-189 | after a delete there is no draft, and a second delete reports False |
| Drafts.SaveThenHas | backend/app/services/blueprint/draft_service.py:47-189 | a saved draft is seen by has_draft |
| JsonUtils.RemoveThinkTags | backend/app/utils/json_utils.py:4-8 | empty input comes back as is; otherwise the answer is trimmed and never longer than the input; which spans vanish is stated by JsonUtils.ThinkSpanRemoved, DropThinkSpansPrefix and SpanAfterTextRemoved |
| JsonUtils.NoThinkTagUnchanged | backend/app/utils/json_utils.py:8 | a reply without an opening think tag is only trimmed |
| JsonUtils.DropThinkSpansPrefix | backend/app/utils/json_utils.py:8 | text without `<` in front of the rest is kept as it is, and the scan goes on after it |
| JsonUtils.ThinkSpanRemoved | backend/app/utils/json_utils.py:8 | a span ends at the first closing tag after its opening tag: an opening tag, any body in which the closing tag does not occur, and the closing tag vanish, and the text after it is handled on its own |
| JsonUtils.SpanAfterTextRemoved | backend/app/utils/json_utils.py:4-8 | a span after text free of `<` vanishes from the answer: the answer is the trimmed text in front followed by the rest with its own spans removed |
| JsonUtils.PreambleRemoved | backend/app/utils/json_utils.py:4-8 | a reasoning preamble in front of a reply is removed and the reply comes back trimmed |
| JsonUtils.TagLength | backend/app/utils/json_utils.py:18 | the optional tag after an opening fence is four characters long exactly when `json` or `JSON` follows the fence, and absent otherwise |
| JsonUtils.FenceBody | backend/app/utils/json_utils.py:18-20 | none exactly when no fence from the starting point is followed, after its optional tag, by another fence; otherwise the trimmed text of the block opened by the first such fence, up to the next fence |
| JsonUtils.UnwrapMarkdownJson | backend/app/utils/json_utils.py:11-35 | empty input is returned as is; the first fenced block of the trimmed text wins when its body is not blank; otherwise the bracketed span of the trimmed text; the answer is trimmed |
| JsonUtils.BracketedSpan | backend/app/utils/json_utils.py:24-35 | with the first opening and the last closing bracket, the span from one to the other when the close comes after the open, else the text itself; the text itself when it has no opening or no closing bracket |
| JsonUtils.UnwrapSpanShape | backend/app/utils/json_utils.py:24-35 | without a fence the answer starts with an opening and ends with a closing bracket, or it is the trimmed text |
| JsonUtils.BareJsonUnchanged | backend/app/utils/json_utils.py:11-35 | a bare JSON object or array without a fence comes back unchanged |
| JsonUtils.FenceRoundTrip | backend/app/utils/json_utils.py:11-22 | wrapping a trimmed, backtick-free reply in a json fence and unwrapping it gives the reply back |
| PyJson.PyEscapeChar | backend/app/services/novel_service.py:46 | a character is written as itself exactly when it is neither a control character, the quote nor the backslash; otherwise it becomes an escape starting with a backslash; no control character is ever written |
| PyJson.PyEscape | backend/app/api/routers/writer.py:385 | the body of a dumped string holds no control character |
| PyJson.PyDumps | backend/app/api/routers/writer.py:385 | an object dumps between braces, a list between brackets, a string as its quoted escaped body |
| PyJson.EscapeRoundTrip | backend/app/services/novel_service.py:46 | every string written into a literal reads back as itself |
| Sanitizer.QuoteClosesAt | backend/app/utils/json_utils.py:58-62 | a quote closes a string exactly when the first non-blank character after it is a closer or the text ends there |
| Sanitizer.EscapeControl | backend/app/utils/json_utils.py:67-72 | inside a string a raw newline, carriage return or tab becomes its two-character escape, and nothing else changes |
| Sanitizer.Emit | backend/app/utils/json_utils.py:50-78 | outside a string every character is copied; inside, a closing quote is copied, a quote that does not close is escaped, an escaped pair is kept and control characters are escaped |
| Sanitizer.Sanitize | backend/app/utils/json_utils.py:38-81 | the text is never made shorter, and empty input comes back unchanged |
| Sanitizer.SkipBlankIndex | backend/app/utils/json_utils.py:58-60 | the index of the first non-blank character at or after the quote, or the length |
| Sanitizer.Step | backend/app/utils/json_utils.py:49-79 | one turn of the loop appends what the character emits and leaves the string and escape flags of the scan |
| Sanitizer.SanitizeJsonLikeText | backend/app/utils/json_utils.py:38-81 | the loop produces what the character-by-character machine produces |
| Sanitizer.NoQuoteUnchanged | backend/app/utils/json_utils.py:75-78 | text without a quote is copied verbatim |
| Sanitizer.SanitizeSerialized | backend/app/utils/json_utils.py:38-81 | with a colon among the closers, every serialised JSON value is left unchanged |
| Sanitizer.WrittenBreaksObjects | backend/app/utils/json_utils.py:62 | as written, no serialised non-empty object is left unchanged: the quote that closes its first key is escaped |
| Sanitizer.WrittenCorruptsKeys | backend/app/utils/json_utils.py:62-66 | as written the object {"a":1} comes back with its key quote escaped, while the corrected machine returns it unchanged |
| Llm.EnvKey | backend/app/services/llm_service.py:305 | the environment key has the configuration key's length, with every dot turned into an underscore and every letter upper-cased |
| Llm.EnvKeyOfApiKey | backend/app/services/llm_service.py:196-306 | the system key is looked up in the environment as LLM_API_KEY |
| Llm.EnvKeyShape | backend/app/services/llm_service.py:305 | an environment key holds no dot and no lower-case ASCII letter |
| Llm.GetConfigValue | backend/app/services/llm_service.py:300-306 | a stored row wins; without one the environment variable named after the key is used; without either there is no value |
| Llm.TargetModel | backend/app/services/llm_service.py:214-216 | a non-empty model asked for wins; otherwise the provider's configured embedding model |
| Llm.GetEmbeddingDimension | backend/app/services/llm_service.py:279-286 | the dimension recorded for the model, else the configured vector size |
| Llm.RecordDimension | backend/app/services/llm_service.py:272-276 | a vector's length is recorded for the model; an empty vector records the configured size when that is set; a zero is never recorded |
| Llm.GetEmbedding | backend/app/services/llm_service.py:205-277 | it raises exactly for Ollama without its client package (500) and, with OpenAI, when resolving the configuration fails (the daily limit, an invalid limit setting or a missing system key), passing that error on; otherwise failed calls and missing data give an empty vector and leave the cache alone, a non-empty vector is returned with its length recorded, and no zero dimension is ever cached |
| Llm.EmbeddingOverLimitRaises | backend/app/services/llm_service.py:246-297 | with OpenAI, a user without a key of their own who has used up the day gets the 429 from the embedder, whatever the endpoint would have answered |
| Llm.EmbeddingSetsDimension | backend/app/services/llm_service.py:272-286 | after a non-empty vector the dimension asked for is that vector's length |
| Llm.OpenAIEmptyVectorRecordsConfiguredSize | backend/app/services/llm_service.py:264-276 | with OpenAI an empty vector is returned as is and records the configured size as the model's dimension |
| Llm.DailyLimit | backend/app/services/llm_service.py:289-290 | the limit is the stored setting read as a number, 100 when nothing is stored and 10 when the setting is empty |
| Llm.DefaultLimitParses | backend/app/services/llm_service.py:289 | the default setting reads as 100 |
| Llm.EnforceDailyLimit | backend/app/services/llm_service.py:288-298 | a user who has used up the limit gets 429 and is not counted; otherwise the request passes and the user's count for the day grows by exactly one |
| Llm.DefaultLimitIsHundred | backend/app/services/llm_service.py:288-298 | with the default setting the 101st request of a day is refused |
| Llm.ResolveLlmConfig | backend/app/services/llm_service.py:182-203 | a user's own key is used without counting; otherwise a known user is held to the daily limit and then the system key is required, else 500 |
| Llm.MissingSystemKeyStillCounts | backend/app/services/llm_service.py:192-201 | without a system key a user under the limit is refused with 500 and the request still counts against the day |
| Llm.CollectResponse | backend/app/services/llm_service.py:157-180 | a reply cut off by the length limit or an empty one is a 500 and counts nothing; a good reply is returned and the request counter grows by one |
| Metrics.Add | backend/app/repositories/rag_metrics_repository.py:15-36 | the log grows by one event carrying exactly the given fields, stamped with the current time when no time is given |
| Metrics.WindowedMembers | backend/app/repositories/rag_metrics_repository.py:39-60 | the window holds exactly the logged events at or after the start of the window |
| Metrics.TallyIsWindowed | backend/app/repositories/rag_metrics_repository.py:42-81 | the one-pass tally agrees with the counts and sums over the window |
| Metrics.WindowedSnoc | backend/app/repositories/rag_metrics_repository.py:15-60 | logging an event extends the window at its end exactly when the event falls inside it |
| Metrics.StatsOf | backend/app/repositories/rag_metrics_repository.py:83-90 | the average latency, the empty rate and the average duplicate ratio are each None exactly when the window is empty; otherwise each is its sum (latencies, empty retrievals, duplicate ratios) divided by the count |
| Metrics.WindowStats | backend/app/repositories/rag_metrics_repository.py:38-90 | the intended query (see Findings): the total is the number of events in the last days, the empty rate the share of them that retrieved nothing and lies in [0, 1], the averages are over the same events, and all three are None on an empty window |
| Metrics.WrittenWindowStats | backend/app/repositories/rag_metrics_repository.py:46-60 | as written, the statistics raise whatever the log holds, because `func.case` gets the keyword `else_` |
| Metrics.StatusFigures | backend/app/services/rag_status_service.py:62-73 | the status reports the three figures of the statistics, and all three as None when computing them raised |
| Metrics.ReportedFigures | backend/app/services/rag_status_service.py:62-73 | over the intended query the status reports an empty rate exactly when some retrieval was logged in the last seven days, and that rate lies in [0, 1] |
| Metrics.WrittenStatusHidesFigures | backend/app/services/rag_status_service.py:62-73 | with the query as written the status shows no figure even over a window of retrievals for which the intended query reports an empty rate |
| Metrics.AddCounts | backend/app/repositories/rag_metrics_repository.py:15-90 | adding an event moves the window total by one exactly when it falls in the window, and the empty count by one exactly when it also retrieved nothing |
| NovelService.MaxSeq | backend/app/services/novel_service.py:250-255 | None exactly when the project has no conversation row; otherwise the seq of one of its rows |
| NovelService.AppendConversation | backend/app/services/novel_service.py:247-266 | one row is appended carrying the project, role and content, with a seq above every seq of that project: 1 for the first row, else one past the largest |
| NovelService.AppendKeepsSeqsDistinct | backend/app/services/novel_service.py:250-264 | appending keeps the seq values of each project distinct |
| NovelService.LastCandidate | backend/app/services/novel_service.py:272-279 | the row with the largest seq among the project's rows of the role, or none when there is no such row |
| NovelService.PopLastConversation | backend/app/services/novel_service.py:268-284 | False, with nothing deleted, exactly when the project has no row of the role; otherwise True and exactly the row with the largest seq among them is deleted |
| NovelService.VersionLabelsDistinct | backend/app/services/novel_service.py:594 | versions at different positions get different labels |
| NovelService.ReplaceChapterVersions | backend/app/services/novel_service.py:580-612 | one version per content, labelled v1 to vn in order and holding the normalised text; the chapter waits for confirmation; with any version its selection is cleared and its word count is 0, without one both are kept |
| NovelService.InsertByCreation | backend/app/services/novel_service.py:617 | inserting a version into a list sorted by creation time keeps it sorted and adds exactly that version |
| NovelService.SortByCreation | backend/app/services/novel_service.py:617 | the versions sorted by creation time: a permutation of them in creation order |
| NovelService.SelectChapterVersion | backend/app/services/novel_service.py:614-627 | an index outside the versions is a 400; otherwise the version at that index in creation order is selected, the chapter is successful and its word count is that version's length |
| NovelService.MergeKeyPoints | backend/app/services/novel_service.py:731-733 | the merged key points are exactly the old and the new ones, each once |
| NovelService.Dedupe | backend/app/services/novel_service.py:732 | the distinct elements of the list, each once |
| NovelService.UpdateChapterEventProgress | backend/app/services/novel_service.py:696-739 | a chapter without an event, or with the falsy event id 0, changes nothing; otherwise the chapter records the progress, and an existing event takes the progress with the union of its old and the new key points |
| NovelService.StartNextEvent | backend/app/services/novel_service.py:779-805 | the pending event of the same project and volume with the next larger sequence is started with progress 1 and returned; without one nothing changes |
| NovelService.CheckAndSwitchEvent | backend/app/services/novel_service.py:751-805 | a missing event gives None; an unfinished event is returned as it is; a completed one hands over to the next pending event of its volume |
| NovelService.Lookup | backend/app/services/novel_service.py:331-336 | the value stored under the key, or none when the key is absent |
| NovelService.CharacterRowOf | backend/app/services/novel_service.py:327-350 | the row holds the name (the empty text when absent), the five other fixed keys as their values or NULL when absent or null, the list position, and every other key with its value in extra |
| NovelService.CharacterRows | backend/app/services/novel_service.py:327-350 | one row per character, at its list position |
| NovelService.CharacterSplitLosesNothing | backend/app/services/novel_service.py:966-975 | reading a stored character back gives exactly its dict with the missing fixed keys filled in (the name with the empty text, the others with null), so the dict is recovered up to fixed keys that were absent or null |
| NovelService.NullStoredLikeAbsent | backend/app/services/novel_service.py:332-336 | an explicit null in a nullable fixed key gives the same row as leaving the key out |
| NovelService.CharacterResaveStable | backend/app/services/novel_service.py:327-350 | saving a character that was read back gives the same row again |
| NovelService.CharacterRowsReadBack | backend/app/services/novel_service.py:966-979 | the rows sit at their list positions, and each reads back as its character with the fixed keys filled in |
| NovelStore.InsertByNumber | frontend/src/stores/novel.ts:80 | inserting a chapter into a list sorted by number keeps it sorted and adds exactly that chapter |
| NovelStore.SortByNumber | frontend/src/stores/novel.ts:80 | the sorted list is a permutation of the chapters, ordered by chapter number |
| NovelStore.NumbersHas | frontend/src/stores/novel.ts:74 | a chapter number occurs among the list's numbers exactly when some chapter carries it |
| NovelStore.FindChapter | frontend/src/stores/novel.ts:74 | the index of the first chapter with the number, or -1 exactly when none has it |
| NovelStore.Upsert | frontend/src/stores/novel.ts:71-79 | the first chapter with the number is replaced in place, or the chapter is appended when none has it; a missing list counts as empty |
| NovelStore.LoadChapter | frontend/src/stores/novel.ts:63-86 | without an open project the error 没有当前项目 is recorded and thrown; a failed fetch is recorded and rethrown; otherwise the fetched chapter is upserted and the list sorted, and nothing else changes |
| NovelStore.LoadChapterOnce | frontend/src/stores/novel.ts:63-86 | after a load the chapter asked for is in the list exactly once, if its number was there at most once before, and every other chapter is kept |
| NovelStore.LoadedChapters | frontend/src/stores/novel.ts:69-80 | a successful load leaves the sorted upsert as the open project's chapters |
| NovelStore.UpsertOnce | frontend/src/stores/novel.ts:74-79 | the upsert leaves the chapter's number once, if it was there at most once, and every other number as it was |
| NovelStore.WithoutIds | frontend/src/stores/novel.ts:203 | the projects kept are exactly those whose id is not listed |
| NovelStore.DeleteProjects | frontend/src/stores/novel.ts:196-218 | a failed call records its error and changes nothing else; otherwise the listed projects leave the list and an open project among them is closed with its conversation state |
| NovelStore.DeleteTwice | frontend/src/stores/novel.ts:203 | deleting the same ids a second time changes nothing |
| NovelStore.ProjectAction | frontend/src/stores/novel.ts:146-272 | without an open project only the error 没有当前项目 changes; a failed call records its error and keeps the project; a successful one puts the returned project in place and clears the error |
| NovelText.Get | backend/app/services/novel_service.py:42 | the value stored under the key, None exactly when no member has it |
| NovelText.Unquote | backend/app/services/novel_service.py:67-68 | one pair of surrounding double quotes is dropped from a text of at least two characters; any other text is kept |
| NovelText.CleanString | backend/app/services/novel_service.py:55-74 | a blank text gives the empty text |
| NovelText.CoerceText | backend/app/services/novel_service.py:33-52 | None exactly for null and for a list none of whose elements yields a non-empty text; a list otherwise yields those texts joined by newlines, which is never empty; a boolean yields `True`/`False` (Python's `str` of a bool), a number its decimal digits, a string its cleaned text |
| NovelText.JoinNonEmpty | backend/app/services/novel_service.py:48-50 | newline-joined non-empty parts form a non-empty text |
| NovelText.CoerceItems | backend/app/services/novel_service.py:48 | the texts kept from a list are non-empty and no more than its elements |
| NovelText.CoerceItemsOne | backend/app/services/novel_service.py:48 | a one-element list keeps the element's own text exactly when that text exists and is non-empty |
| NovelText.CoerceItemsConcat | backend/app/services/novel_service.py:48 | the texts kept from a concatenation of lists are those of the first list followed by those of the second, so every kept text comes from its element, in element order |
| NovelText.CoercePreferred | backend/app/services/novel_service.py:41-45 | a text found under a preferred key is non-empty |
| NovelText.NormalizeVersionContent | backend/app/services/novel_service.py:26-30 | the metadata's text when it is non-empty, else the raw content's text, else the empty text |
| NovelText.UnescapeChainInverts | backend/app/services/novel_service.py:69-74 | the replacement chain undoes the escapes of a backslash-free text |
| NovelText.UnescapeChainPlain | backend/app/services/novel_service.py:69-74 | a backslash-free text passes through the replacement chain unchanged |
| NovelText.CleanStringRoundTrip | backend/app/services/novel_service.py:55-74 | a backslash-free text stored as a JSON string literal is cleaned back to itself |
| NovelText.QuotedIsPlain | backend/app/services/novel_service.py:56-68 | a JSON string literal is already trimmed, is no object text and unquotes to its escaped body |
| NovelText.CleanStringNotObject | backend/app/services/novel_service.py:56-74 | a text that does not trim to an object text is cleaned without parsing |
| NovelText.CleanStringPlain | backend/app/services/novel_service.py:55-74 | plain backslash-free text, neither quoted nor an object, comes back trimmed |
| NovelText.ContentKeyWins | backend/app/services/novel_service.py:40-45 | a content string that cleans to a non-empty text is the text of its object |
| NovelText.NoPreferredFound | backend/app/services/novel_service.py:41-45 | an object without content keys yields nothing from the preferred-key search |
| NovelText.ObjectWithoutContentKey | backend/app/services/novel_service.py:40-46 | in the corrected definition an object without content keys yields its own compact JSON text, cleaned |
| NovelText.NoPreferredFoundWritten | backend/app/services/novel_service.py:41-45 | as written, the preferred-key search of an object without content keys finishes with nothing whatever the fuel |
| NovelText.ObjectTextShape | backend/app/services/novel_service.py:46-59 | the compact text of an object starts and ends with braces and has no surrounding blanks |
| NovelText.WrittenObjectNeverReturns | backend/app/services/novel_service.py:40-62 | as written an object without content keys whose text parses back to itself never yields a text, however much fuel is given |
| NovelText.WrittenCoerceDiverges | backend/app/services/novel_service.py:40-62 | the object {"a": 1} does not return as written, while the corrected definition gives it a text |
| NovelText.DivergesWithoutContentKey | backend/app/services/novel_service.py:40-62 | any object without content keys that the parser reads back diverges as written and is answered by the corrected definition |
| PlotEvents.FindEvent | backend/app/services/plot_event_service.py:60-62 | the row with the id, None exactly when no row has it |
| PlotEvents.CreateEvent | backend/app/services/plot_event_service.py:29-58 | one row is appended with the given fields, progress 0, status pending and no completed key points; distinct ids stay distinct |
| PlotEvents.StatusFor | backend/app/services/plot_event_service.py:145-151 | pending exactly at progress 0, completed exactly from 100 on, in progress otherwise |
| PlotEvents.ReplaceRow | backend/app/services/plot_event_service.py:140-143 | the row with the id is replaced and every other row is untouched |
| PlotEvents.UpdateEventProgress | backend/app/services/plot_event_service.py:129-158 | a missing id gives None and changes nothing; otherwise the event takes the progress, takes the completed key points only when given, and gets the status the progress implies; consistent statuses and distinct ids are kept |
| PlotEvents.MarkEventComplete | backend/app/services/plot_event_service.py:160-162 | an existing event ends completed at progress 100 |
| PlotEvents.Remaining | backend/app/services/plot_event_service.py:180-182 | a key point is listed exactly when it is not completed, and there are never more entries than key points; the order is stated by PlotEvents.RemainingConcat |
| PlotEvents.RemainingOne | backend/app/services/plot_event_service.py:180-182 | one key point is listed when it is not completed and dropped when it is |
| PlotEvents.RemainingConcat | backend/app/services/plot_event_service.py:180-182 | the list keeps key-point order: the remaining points of a concatenation are those of its parts, concatenated |
| PlotEvents.ValidateKeyPoints | backend/app/services/plot_event_service.py:164-186 | a missing event is reported as such; otherwise valid exactly when every key point is completed, the remaining list is exactly the uncompleted key points in order (as Remaining gives them) and empty exactly when valid, the counts are the two list lengths, and the rate is 1.0 without key points |
| PlotEvents.FirstBySequence | backend/app/services/plot_event_service.py:124-127 | a matching row with the smallest sequence, None exactly when no row matches |
| PlotEvents.GetCurrentEvent | backend/app/services/plot_event_service.py:114-127 | the pending or running event of the project and volume with the smallest sequence, None exactly when all of them are completed |
| Prompts.NonEmptyPieces | backend/app/schemas/prompt.py:43 | the non-empty pieces, in order; a list without empty pieces is kept |
| Prompts.SplitFromCharPieces | backend/app/schemas/prompt.py:43 | no piece of a split on the comma holds a comma |
| Prompts.ReadTags | backend/app/schemas/prompt.py:40-47 | stored text is split on commas with empty pieces dropped, a list is kept, anything else is no tags |
| Prompts.TagsRoundTrip | backend/app/services/prompt_service.py:59-67 | non-empty comma-free tags stored joined by commas are read back as the same list |
| Prompts.ReadTagsIdempotent | backend/app/schemas/prompt.py:40-47 | storing read tags and reading them again changes nothing |
| Prompts.CommaTagSplits | backend/app/schemas/prompt.py:43 | a tag holding a comma is read back as its comma-free parts |
| Prompts.Validate | backend/app/schemas/prompt.py:37-55 | the read form copies id, name, title and content, and has tags exactly when the row stores some |
| Prompts.IndexOf | backend/app/repositories/prompt_repository.py:12-15 | the position of the first row with the id (`get`) or the name (`get_by_name`), None exactly when no row has it |
| Prompts.LoadAll | backend/app/services/prompt_service.py:33-34 | the cache built from every row holds exactly the names in the table, each mapped to the read form of a row with that name |
| Prompts.LoadAllStep | backend/app/services/prompt_service.py:34 | one more row keeps the loaded cache exactly the names of the table with read forms of their rows |
| Prompts.ReadOfNamedRow | backend/app/services/prompt_service.py:26-34 | under unique names the read form cached for a name is that of the row holding the name |
| Prompts.GetPrompt | backend/app/services/prompt_service.py:29-47 | a loaded cached name is answered from the cache; None exactly when the name is neither cached nor in the table; an answer is the cached content; the cache is loaded afterwards and only grows |
| Prompts.CreatePrompt | backend/app/services/prompt_service.py:59-72 | a name already in the table fails and changes nothing; otherwise the row is appended and its read form is cached under its name |
| Prompts.Patched | backend/app/services/prompt_service.py:78-81 | every given field replaces the stored one, tags joined by commas; id and name are kept |
| Prompts.UpdatePrompt | backend/app/services/prompt_service.py:74-86 | an unknown id gives None and changes nothing; otherwise that row is patched and its read form replaces the cache entry of its name |
| Prompts.DeletePrompt | backend/app/services/prompt_service.py:88-96 | an unknown id gives False and changes nothing; otherwise that row goes and its name leaves the cache |
| Prompts.GetKeepsCoherent | backend/app/services/prompt_service.py:29-47 | reading keeps every cache entry the read form of a row of the table |
| Prompts.GetAnswersTable | backend/app/services/prompt_service.py:29-47 | with a coherent cache and unique names get_prompt answers exactly the content the table holds under the name |
| Prompts.CreateKeepsCoherent | backend/app/services/prompt_service.py:59-72 | creating keeps names unique and the cache coherent with the table |
| Prompts.UpdateKeepsCoherent | backend/app/services/prompt_service.py:74-86 | updating keeps names unique and the cache coherent with the table |
| Prompts.DeleteKeepsCoherent | backend/app/services/prompt_service.py:88-96 | deleting keeps names unique and the cache coherent with the table |
| Prompts.RemoveKeepsUnique | backend/app/services/prompt_service.py:92 | taking a row out keeps names unique |
| Prompts.RemoveKeepsCoherent | backend/app/services/prompt_service.py:92-95 | taking a row and its name out keeps the cache coherent |
| Prompts.CreateThenGet | backend/app/services/prompt_service.py:59-72 | a created prompt is then read back with the content given |
| Repository.First | backend/app/repositories/base.py:21 | the first row that passes, None exactly when none passes |
| Repository.Get | backend/app/repositories/base.py:18-21 | a row matching every filter, taken from the table, None exactly when none matches |
| Repository.Filter | backend/app/repositories/base.py:26 | exactly the matching rows, no more than the table |
| Repository.List | backend/app/repositories/base.py:23-28 | without filters or with an empty dictionary every row; otherwise exactly the matching rows |
| Repository.EmptyFilterKeepsAll | backend/app/repositories/base.py:25-26 | an empty filter keeps every row in order |
| Repository.Add | backend/app/repositories/base.py:30-33 | the instance is appended and handed back unchanged |
| Repository.AddThenGet | backend/app/repositories/base.py:18-33 | an added row is what get finds when no earlier row matches |
| Repository.UpdateFields | backend/app/repositories/base.py:38-44 | every value given sets its attribute, a None value is skipped, and no other attribute changes or appears |
| Repository.UpdateFieldsIdempotent | backend/app/repositories/base.py:38-44 | updating twice with the same values is updating once |
| Repository.UpdateFieldsAllNone | backend/app/repositories/base.py:39-41 | with only None values nothing changes |
| RouterGuard.LoadUser | frontend/src/router/index.ts:81-84 | a token without a user loads the user, and a failed load logs out; any other state is kept; an authenticated state afterwards always has a user |
| RouterGuard.Guard | frontend/src/router/index.ts:78-106 | after the load, a protected route without a login goes to the login page; an administration route for anyone else goes home; an administrator who must change the password goes to the password tab unless already there; every other navigation proceeds |
| RouterGuard.Redirected | frontend/src/router/index.ts:93-99 | every redirect leads to a route of the table |
| RouterGuard.AdminRoutesRequireAuth | frontend/src/router/index.ts:57-73 | every administration route of the table also asks for a login |
| RouterGuard.NonAdminNeverToPasswordTab | frontend/src/router/index.ts:91-99 | a user who is not an administrator is never sent to the password tab |
| RouterGuard.RedirectSettles | frontend/src/router/index.ts:78-106 | following a redirect from a table route lands: the guard then lets the navigation through and loads nothing more |
| Settings.NormalizeLower | backend/app/core/config.py:252-276 | a missing or empty value takes the default, then the stripped, lower-cased value is accepted exactly when it is an allowed name, and otherwise the validator's message is raised |
| Settings.DbProvider | backend/app/core/config.py:252-259 | an accepted database provider is mysql or sqlite, and no value gives mysql |
| Settings.VectorDbProvider | backend/app/core/config.py:261-267 | an accepted vector provider is libsql or qdrant, and no value gives libsql |
| Settings.EmbeddingProvider | backend/app/core/config.py:269-276 | an accepted embedding provider is openai or ollama, and no value gives openai |
| Settings.LoggingLevel | backend/app/core/config.py:278-288 | an accepted level is one of the six names, no value gives INFO, and a value is accepted exactly when it strips and upper-cases to one of them |
| Settings.DbProviderIdempotent | backend/app/core/config.py:252-259 | validating an accepted database provider again gives it back |
| Settings.VectorDbProviderIdempotent | backend/app/core/config.py:261-267 | validating an accepted vector provider again gives it back |
| Settings.EmbeddingProviderIdempotent | backend/app/core/config.py:269-276 | validating an accepted embedding provider again gives it back |
| Settings.LoggingLevelIdempotent | backend/app/core/config.py:278-288 | validating an accepted level again gives it back |
| Settings.LevelAccepted | backend/app/core/config.py:282-288 | a level name written in capitals is accepted as it is |
| Settings.BlankProviderRejected | backend/app/core/config.py:256-258 | a value of blanks only does not take the default and is rejected |
| Settings.DatabaseUrl | backend/app/core/config.py:246-250 | a URL with content is stripped; a blank or missing one is kept as it is |
| Settings.DefaultLimits | backend/app/core/config.py:102-197 | the defaults meet their field bounds, and the overlap is under half the chunk size |
| Sse.Bodies | backend/app/api/routers/blueprint/blueprint.py:86-133 | the server writes one frame body per event, in order |
| Sse.Lines | frontend/src/composables/useBlueprintSSE.ts:79 | a frame has at least one line |
| Sse.LinesOf | frontend/src/composables/useBlueprintSSE.ts:79-80 | a frame has one line exactly when it holds no line break, and its first line starts with event: exactly when the frame does |
| Sse.ParseFrameWritten | frontend/src/composables/useBlueprintSSE.ts:77-85 | as written, the reading throws exactly on a frame of one line starting with event:, and an event is read only from a frame starting with event: |
| Sse.ParseFrame | frontend/src/composables/useBlueprintSSE.ts:77-85 | the corrected reading never throws and otherwise reads as written, skipping a frame without data line |
| Sse.WrittenOneLineFrameCrashes | frontend/src/composables/useBlueprintSSE.ts:79-80 | the frame "event: progress" throws as written and is skipped once corrected |
| Sse.FrameLines | backend/app/api/routers/blueprint/blueprint.py:104 | a frame body splits into its event line and its data line |
| Sse.FrameRoundTrip | frontend/src/composables/useBlueprintSSE.ts:79-85 | the client reads back the event name and the JSON text the server framed |
| Sse.TrimmedField | frontend/src/composables/useBlueprintSSE.ts:84-85 | a field line, with its tag cut off and trimmed, gives back its value |
| Sse.Frames | frontend/src/composables/useBlueprintSSE.ts:73-74 | the complete frames and the kept buffer together are all the pieces between blank lines |
| Sse.BodyHasNoBlankLine | backend/app/api/routers/blueprint/blueprint.py:104 | a frame body holds no blank line, not even where it meets the blank line ending it |
| Sse.WireRoundTrip | frontend/src/composables/useBlueprintSSE.ts:67-110 | the frames the client finds in the server's output are the server's frames in order, each read back as the event it was |
| Sse.LastValue | frontend/src/composables/useBlueprintSSE.ts:88 | the value found for a key is that of a member named so, None exactly when no member is |
| Sse.LastValueAt | frontend/src/composables/useBlueprintSSE.ts:88 | a member that no later member shares its key with is the one found |
| Sse.Prop | frontend/src/composables/useBlueprintSSE.ts:91-104 | a property of a non-object is undefined; of an object, the last member with the name |
| Sse.Handle | frontend/src/composables/useBlueprintSSE.ts:87-109 | an unparsable payload and an unknown event change nothing; a complete event with a non-null payload resolves and an error event with one rejects, both ending the generation; an error always leaves a message shown; a null complete payload throws after the state is set to 100 percent and stopped, leaving the promise pending; a null progress or error payload throws before any change |
| Sse.Step | frontend/src/composables/useBlueprintSSE.ts:76-110 | a skipped frame changes nothing, an event is handled, and a frame that throws ends the generation with a rejection |
| Sse.Fold | frontend/src/composables/useBlueprintSSE.ts:76-110 | no frames leave the state and the pending promise as they were; the corrected reading never rejects with an exception; a settled promise has stopped the generation |
| Sse.Run | frontend/src/composables/useBlueprintSSE.ts:67-113 | after the body the generation has stopped, the outcome is that of the frames, and no exception rejects it |
| Sse.FoldWritten | frontend/src/composables/useBlueprintSSE.ts:76-110 | as written, no frames leave the state as it was, and a settled promise has stopped the generation |
| Sse.RunWritten | frontend/src/composables/useBlueprintSSE.ts:67-120 | as written, after the body the generation has stopped and the outcome is that of the frames |
| Sse.FoldWrittenAgrees | frontend/src/composables/useBlueprintSSE.ts:79-80 | on frames that all have a data line or no event line, the written and the corrected reading agree exactly |
| Sse.FoldWrittenCrashes | frontend/src/composables/useBlueprintSSE.ts:79-121 | the first frame of one event: line, reached with the promise pending, rejects the written reading with the TypeError's message and stops it, while the corrected reading skips that frame |
| Sse.WrittenStreamRejects | frontend/src/composables/useBlueprintSSE.ts:79-80 | the stream of the single frame event: progress is rejected as written and stays pending once corrected |
| Sse.FoldSnoc | frontend/src/composables/useBlueprintSSE.ts:76-110 | reading one more frame continues from where the reading stood |
| Sse.FoldSettled | frontend/src/composables/useBlueprintSSE.ts:99-105 | once a frame settles the promise, later frames are not read |
| Sse.FramesAfter | frontend/src/composables/useBlueprintSSE.ts:73-74 | the frames of a text split as known pieces and a rest are those pieces and the frames of the rest |
| Sse.ReadStream | frontend/src/composables/useBlueprintSSE.ts:65-113 | reading the body chunk by chunk gives what reading all its complete frames at once gives, however it is cut into chunks; on a stream with no frame lacking its data line that is also what the reader as written gives |
| Sse.NextChunk | frontend/src/composables/useBlueprintSSE.ts:72-74 | after one more chunk the pieces before the last are complete frames and the new buffer holds no blank line |
| Sse.ReadFrames | frontend/src/composables/useBlueprintSSE.ts:76-110 | the frames of one chunk are read in turn until one settles the promise |
| Sse.SettledEarly | frontend/src/composables/useBlueprintSSE.ts:99-105 | a chunk whose frames settle the promise settles the whole read |
| Sse.EndOfStream | frontend/src/composables/useBlueprintSSE.ts:70-74 | at the end of the body every complete frame has been read |
| Stores.GetConfig | backend/app/services/config_service.py:21-23 | the entry under the key, None exactly when the key is absent |
| Stores.ConfigValue | backend/app/services/auth_service.py:331-333 | the value of the entry under the key, None exactly when the key is absent |
| Stores.UpsertConfig | backend/app/services/config_service.py:25-33 | the entry under the key takes the value; a new key takes the description given, an existing one keeps its description unless a new one is given; no other key changes |
| Stores.PatchConfig | backend/app/services/config_service.py:35-41 | a missing key gives None and changes nothing; otherwise the entry is patched and no other key changes |
| Stores.RemoveConfig | backend/app/services/config_service.py:43-49 | True exactly when the key was present; afterwards it is gone and no other key changes |
| Stores.EmptyPatchChangesNothing | backend/app/services/config_service.py:35-41 | a patch with nothing set changes nothing |
| Stores.UpsertThenGet | backend/app/services/config_service.py:21-33 | an upsert followed by a get reads the value back |
| Stores.RemoveTwice | backend/app/services/config_service.py:43-49 | a removed key is gone and a second removal reports False |
| Stores.GetSetting | backend/app/services/admin_setting_service.py:16-18 | the stored value, or the default when none is stored |
| Stores.SetSetting | backend/app/services/admin_setting_service.py:20-27 | the key holds the value afterwards and no other key changes |
| Stores.SetThenGet | backend/app/services/admin_setting_service.py:16-27 | after a set, a get answers the value whatever the default |
| Stores.Count | backend/app/services/usage_service.py:18-21 | a counter never seen reads as 0 |
| Stores.Increment | backend/app/services/usage_service.py:13-16 | the counter grows by exactly one and no other counter changes |
| Stores.GetValue | backend/app/services/usage_service.py:18-21 | the counter's value, 0 for a new one, which is created but does not move; no other counter changes |
| Stores.FirstIncrementIsOne | backend/app/services/usage_service.py:13-21 | the first increment of a new counter reads as 1 |
| Stores.GetValueIsObservationallyPure | backend/app/services/usage_service.py:13-21 | reading a counter never changes what a later read or increment sees |
| TextFormatter.FormatTextWithLineBreaks | frontend/src/utils/text-formatter.ts:11-18 | a missing or empty text gives the empty text; the result holds no backslash-n pair and is never longer than the text |
| TextFormatter.FormatUnescapesNewlines | frontend/src/utils/text-formatter.ts:11-18 | escaping the line breaks of a backslash-free text and formatting it gives the text back |
| TextFormatter.FormatPlainUnchanged | frontend/src/utils/text-formatter.ts:17 | a backslash-free text is shown as it is |
| TextFormatter.SafeFormatText | frontend/src/utils/text-formatter.ts:27-33 | a missing or empty text gives the fallback; any other is formatted, with no backslash-n pair left |
| TextFormatter.StripOuterQuotes | frontend/src/utils/text-formatter.ts:51 | a leading double quote and a trailing one are each dropped when present: both when both are there, only the leading one when the text does not also end in a quote (a lone quote vanishes), only the trailing one when the text does not start with a quote, none when neither is |
| TextFormatter.CleanVersionContent | frontend/src/utils/text-formatter.ts:41-57 | empty content gives the empty text |
| TextFormatter.UnescapeChainInverts | frontend/src/utils/text-formatter.ts:52-55 | the replacement chain undoes the escapes of a backslash-free text |
| TextFormatter.UnescapeChainPlain | frontend/src/utils/text-formatter.ts:52-55 | a backslash-free text passes the replacement chain unchanged |
| TextFormatter.CleanVersionContentRoundTrip | frontend/src/utils/text-formatter.ts:41-57 | a version stored as a JSON string literal of a backslash-free text is shown as that text |
| TextFormatter.CleanVersionContentPrefersField | frontend/src/utils/text-formatter.ts:43-47 | a non-empty content field of a parsed object wins over the raw text |
| TextFormatter.EscapedBackslashBeforeN | frontend/src/utils/text-formatter.ts:52-55 | because the replacements run one after another, the escaped text of a backslash followed by n is shown as a backslash and a line break |
| UpdateLogs.Pinned | backend/app/services/update_log_service.py:24-26 | exactly the ids of the pinned logs |
| UpdateLogs.ClearPinned | backend/app/services/update_log_service.py:59-60 | every log is unpinned and nothing else about it changes |
| UpdateLogs.CreateLog | backend/app/services/update_log_service.py:23-30 | the new log holds the given content, creator and pin; a pinned log ends up the only pinned one; an unpinned one leaves the pins as they were; other logs keep their content |
| UpdateLogs.UpdateLog | backend/app/services/update_log_service.py:32-50 | a missing id is a 404; otherwise the log takes the content and pin given and keeps the rest; pinning leaves it the only pinned log, and without pinning no other log changes |
| UpdateLogs.DeleteLog | backend/app/services/update_log_service.py:52-57 | a missing id is a 404; otherwise exactly that log goes |
| UpdateLogs.CreateKeepsOnePin | backend/app/services/update_log_service.py:23-30 | creating a log keeps at most one log pinned |
| UpdateLogs.UpdateKeepsOnePin | backend/app/services/update_log_service.py:32-50 | updating a log keeps at most one log pinned |
| UpdateLogs.DeleteKeepsOnePin | backend/app/services/update_log_service.py:52-57 | deleting a log keeps at most one log pinned |
| UpdateLogs.EmptyUpdateChangesNothing | backend/app/services/update_log_service.py:37-50 | an update naming no field hands back the stored log and changes nothing |
| UpdateLogs.DeleteThenMissing | backend/app/services/update_log_service.py:32-57 | a deleted log can be neither updated nor deleted again |
| Users.GetByUsername | backend/app/repositories/user_repository.py:13-16 | the first user with the name, None exactly when no user has it |
| Users.GetByColumn | backend/app/repositories/user_repository.py:18-26 | the first user whose email (or external id) is the value, None exactly when no user has it; a user with nothing in the column never matches |
| Users.GetByUsernameFindsTheUser | backend/app/repositories/user_repository.py:13-16 | with unique names a lookup by a user's name finds that user |
| Users.GetDailyRequest | backend/app/repositories/user_repository.py:50-58 | the count of the user for the day, 0 without a row |
| Users.IncrementDailyRequest | backend/app/repositories/user_repository.py:32-48 | a new row counts 1, an existing one grows by one, and every other user and day is untouched |
| Users.IncrementThenGet | backend/app/repositories/user_repository.py:32-58 | after an increment the next read sees exactly one more request |
| Users.IncrementIsolated | backend/app/repositories/user_repository.py:32-58 | an increment does not change another user's or another day's count |
| VectorCodec.WordRoundTrip | backend/app/services/vector_store_service.py:725-738 | the four-byte float32 word codec is a bijection: a word comes back from its bytes and four bytes come back from their word |
| VectorCodec.Decode | backend/app/services/vector_store_service.py:730-738 | a stored blob decodes exactly when its length is a multiple of four, into a quarter as many words |
| VectorCodec.DecodeEncode | backend/app/services/vector_store_service.py:725-738 | decoding an encoded vector gives the vector back |
| VectorCodec.EncodeDecode | backend/app/services/vector_store_service.py:725-738 | encoding a decodable blob gives the blob back |
| VectorCodec.ToBlob | backend/app/services/vector_store_service.py:725-727 | an embedding is stored as four bytes per component |
| VectorCodec.FromBlob | backend/app/services/vector_store_service.py:730-738 | a missing or empty blob reads as the empty vector; a ragged blob is an error; otherwise one component per four bytes |
| VectorCodec.BlobRoundTrip | backend/app/services/vector_store_service.py:725-738 | a stored embedding reads back component by component, up to the float32 rounding of each value |
| VectorCodec.BigEndianRoundTrip | backend/app/services/vector_store_service.py:859-867 | the big-endian reading of the digest prefix loses nothing: the bytes come back from the number |
| VectorCodec.StableIntId | backend/app/services/vector_store_service.py:859-867 | the Qdrant point id is 0 for an empty id, otherwise below 2^64 and equal, byte for byte, to the first eight bytes of the SHA-256 digest |
| VectorCodec.ParseMetadata | backend/app/services/vector_store_service.py:820-834 | stored metadata: falsy input is {}, a dict passes through, JSON text that parses to an object gives that object and anything else {}; only bytes that are not UTF-8 fail |
| VectorCodec.MetadataRoundTrip | backend/app/services/vector_store_service.py:449-476 | metadata written as JSON text by the upsert is read back unchanged whenever the serialiser and the parser agree on it |
| VectorQuery.ZeroVectorHasZeroNorm | backend/app/services/vector_store_service.py:741-751 | a zero vector has zero norm, so the distance guard catches it |
| VectorQuery.CosineDistance | backend/app/services/vector_store_service.py:741-751 | the distance is exactly 1.0 when either vector is empty or zero, else one minus the cosine similarity |
| VectorQuery.SortBy | backend/app/services/vector_store_service.py:784 | the ranking is ascending by score and a permutation of the scored rows |
| VectorQuery.Take | backend/app/services/vector_store_service.py:785 | the cut is a prefix of length min(k, n), and empty for k <= 0 |
| VectorQuery.ScoreChunks | backend/app/services/vector_store_service.py:760-783 | every row of the project in the scan is scored, and no more hits than rows come out |
| VectorQuery.ScoreChunksFromProject | backend/app/services/vector_store_service.py:753-783 | every scored hit is the hit of some row of the requested project |
| VectorQuery.ChunkHit | backend/app/services/vector_store_service.py:775-783 | a hit carries the row's content, chapter number, chapter title and metadata, scored by its cosine distance to the query |
| VectorQuery.FallbackChunks | backend/app/services/vector_store_service.py:753-785 | the Python fallback returns the project's rows closest to the query, ascending by distance, at most top_k of them, and no row left out is closer than one kept |
| VectorQuery.ScoreSummaries | backend/app/services/vector_store_service.py:794-815 | every summary of the project in the scan is scored |
| VectorQuery.SummaryHit | backend/app/services/vector_store_service.py:808-815 | a summary hit carries the chapter number, title and summary, scored by cosine distance |
| VectorQuery.FallbackSummaries | backend/app/services/vector_store_service.py:787-817 | the summary fallback is sorted by distance and holds the closest top_k scored summaries |
| VectorQuery.TakeIsBest | backend/app/services/vector_store_service.py:784-785 | the first k of a sorted ranking are a best k: none of the rest scores lower than any kept |
| VectorQuery.WrittenTopK | backend/app/services/vector_store_service.py:199 | as written, an explicit top_k of 0 is treated like a missing one and takes the default |
| VectorQuery.IntendedTopK | backend/app/services/vector_store_service.py:199-201 | corrected: only a missing top_k takes the default, so 0 reaches the <= 0 guard |
| VectorQuery.Answer | backend/app/services/vector_store_service.py:187-282 | no client, an empty query or k <= 0 answer [] without the backend; a backend error answers []; a missing distance function answers the fallback ranking |
| VectorQuery.WrittenQueryChunks | backend/app/services/vector_store_service.py:187-282 | as written, a request for 0 chunks returns whatever the backend returns for the default |
| VectorQuery.ZeroTopKStillQueries | backend/app/services/vector_store_service.py:199-201 | with the shipped default of 5, asking for 0 chunks returns a non-empty answer |
| VectorQuery.QueryChunks | backend/app/services/vector_store_service.py:187-282 | no client, an empty query, a non-positive requested top_k or a failed native query answer []; an answered native query gives its rows; a missing distance function answers the closest top_k rows of the project |
| VectorQuery.ZeroTopKIsEmpty | backend/app/services/vector_store_service.py:199-201 | corrected: asking for 0 chunks answers [] whatever the backend holds |
| VectorQuery.QuerySummaries | backend/app/services/vector_store_service.py:284-375 | no client, an empty query, a non-positive top_k or a failed native query answer []; an answered native query gives its rows; a missing distance function answers the summary fallback |
| VectorStore.OpenService | backend/app/services/vector_store_service.py:70-125 | a disabled store has no client; a client implies the store is enabled; Qdrant only for a non-file URL; libsql has a client exactly when it connects; failure only when a needed library is missing |
| VectorStore.FileUrlFallsBackToLibsql | backend/app/services/vector_store_service.py:78-86 | a file: URL never reaches Qdrant: the service comes up, on libsql, exactly when the libsql library is present |
| VectorStore.UpsertChunk | backend/app/services/vector_store_service.py:423-448 | the libsql chunk upsert adds the record's id and keeps every other row; on a conflict only content, embedding, metadata and chapter title change |
| VectorStore.UpsertSummary | backend/app/services/vector_store_service.py:522-542 | the libsql summary upsert adds the id and keeps every other row; on a conflict only summary, embedding and title change |
| VectorStore.UpsertChunkSameKeyReplaces | backend/app/services/vector_store_service.py:443-447 | re-upserting a record whose key columns match the stored row leaves exactly the new record |
| VectorStore.UpsertChunkIdempotent | backend/app/services/vector_store_service.py:443-447 | upserting the same record twice equals upserting it once |
| VectorStore.UpsertChunkRows | backend/app/services/vector_store_service.py:423-476 | a libsql batch adds exactly the batch's ids and leaves rows outside the batch untouched |
| VectorStore.UpsertSummaryRows | backend/app/services/vector_store_service.py:522-569 | a libsql summary batch stores every record's id, adds no other key, and keeps the rows outside the batch |
| VectorStore.QdrantUpsertChunks | backend/app/services/vector_store_service.py:388-420 | an empty batch or a first record without an embedding writes nothing; otherwise every record with an embedding replaces its point whole |
| VectorStore.QdrantReplace | backend/app/services/vector_store_service.py:396-420 | every record with a non-empty embedding is stored, points outside the batch are kept, and every new point comes from a record with an embedding |
| VectorStore.UpsertChunks | backend/app/services/vector_store_service.py:377-476 | without a client nothing is written; the summaries table never changes; on libsql every record's id is stored |
| VectorStore.UpsertSummaries | backend/app/services/vector_store_service.py:478-569 | without a client nothing is written; the chunk table never changes; on libsql every summary's id is stored |
| VectorStore.QdrantUpsertSummaries | backend/app/services/vector_store_service.py:489-519 | the summary batch has the same first-record dimension guard and replace-whole semantics as the chunk batch |
| VectorStore.QdrantReplaceSummaries | backend/app/services/vector_store_service.py:497-519 | every summary with a non-empty embedding is stored, points outside the batch are kept, and every new point comes from a summary with an embedding |
| VectorStore.PlaceholderNames | backend/app/services/vector_store_service.py:691-693 | one placeholder per chapter, the i-th named :chapter_i |
| VectorStore.DeleteParams | backend/app/services/vector_store_service.py:694-697 | the bound parameters hold the project id and each chapter number under its position's name |
| VectorStore.PlaceholdersSplit | backend/app/services/vector_store_service.py:691-693 | the comma-joined placeholder list splits back into the placeholder names |
| VectorStore.BoundValuesAreChapters | backend/app/services/vector_store_service.py:691-710 | the IN list binds exactly the requested chapter numbers, no more and no fewer |
| VectorStore.DeleteByChapters | backend/app/services/vector_store_service.py:654-722 | without a client or with no chapters nothing changes; otherwise exactly the project's rows of those chapters leave both tables and every other row is kept unchanged |
| VectorStore.DeleteKeepsKeys | backend/app/services/vector_store_service.py:654-722 | deletion keeps each table keyed by the rows' own ids |
| VectorStore.CountTotals | backend/app/services/vector_store_service.py:570-605 | zero without a client, else the number of rows in each table |
| VectorStore.CountByProject | backend/app/services/vector_store_service.py:607-652 | zero without a client, else exactly the number of the project's chunk rows and summary rows, never above the totals |
| VectorStore.SubsetCard | backend/app/services/vector_store_service.py:607-652 | a project's rows are a subset of the table, so its count cannot exceed the total |
| VectorStore.DeletedChaptersAreGone | backend/app/services/vector_store_service.py:654-722 | after deleting chapters no chunk of theirs remains in the project, and the project count drops by the rows removed |
| VectorStore.DisabledStoreIsInert | backend/app/services/vector_store_service.py:71-76 | a store without a client is inert: writes and deletes change nothing and the counters read zero |
| Writer.PyTail | backend/app/api/routers/writer.py:63 | a negative-index slice is a suffix of the text: the last n characters for positive n, capped at the length, and the whole text for n = 0 |
| Writer.ExtractTailExcerpt | backend/app/api/routers/writer.py:56-63 | "" for a missing or empty chapter; the trimmed text when it fits; otherwise a suffix of the trimmed text exactly limit characters long |
| Writer.TailExcerptKeepsLast500 | backend/app/api/routers/writer.py:56-63 | with the default limit a long chapter contributes exactly its last 500 trimmed characters |
| Writer.ZeroLimitKeepsAll | backend/app/api/routers/writer.py:63 | a limit of 0 keeps the whole trimmed text, because the slice from -0 is the slice from 0 |
| Writer.PositiveInt | backend/app/api/routers/writer.py:440-443 | a stored value counts only when it parses as an integer and is positive |
| Writer.ResolveVersionCount | backend/app/api/routers/writer.py:436-454 | the version count is always at least 1: the stored value when it is a positive integer, else a positive environment value, else 3 |
| Writer.StoredCountRoundTrip | backend/app/api/routers/writer.py:438-443 | a positive count written back as text is read back unchanged, whatever the environment says |
| Writer.EstimatedProgressAfter | backend/app/api/routers/writer.py:264 | the estimated progress never exceeds 100, is 25 more or 100, and never falls below the current progress up to 100 |
| Writer.VersionContent | backend/app/api/routers/writer.py:375-389 | an object version keeps itself as metadata and a non-object version is wrapped as raw and stringified; the text comes from the preferred content key |
| Writer.VersionContentPreference | backend/app/api/routers/writer.py:376-386 | the text is full_content when it is a string, else content when it is a string, else chapter_content stringified, else the whole object dumped |
| Writer.VersionContents | backend/app/api/routers/writer.py:373-389 | exactly one text and one metadata entry per generated version, in generation order |
| Writer.RenameRelationship | backend/app/api/routers/writer.py:190-195 | the character_from and character_to keys are gone, their values now sit under from and to, every other key is kept and no new key appears |
| Writer.RemoveBannedKeys | backend/app/api/routers/writer.py:197-208 | the blueprint keeps exactly its keys outside the banned set, each with its value |
| Writer.QueryParts | backend/app/api/routers/writer.py:232-236 | the retrieval query holds the event title or its numbered default, the description or its default, and the writing notes exactly when they are non-empty, none of them empty |
| Writer.RagQuerySplits | backend/app/api/routers/writer.py:232-237 | splitting the joined query on newlines gives its parts back when none of them spans lines |
| Writer.Completed | backend/app/api/routers/writer.py:913-917 | never more entries than the checklist has; which criteria it holds, and in what order, is stated by Writer.CriteriaMembers and Writer.CriteriaConcat |
| Writer.RemainingCriteria | backend/app/api/routers/writer.py:918-922 | never more entries than the checklist has; which criteria it holds, and in what order, is stated by Writer.CriteriaMembers and Writer.CriteriaConcat |
| Writer.CriteriaMembers | backend/app/api/routers/writer.py:913-922 | a criterion is listed as completed exactly when some met item carries it, and as remaining exactly when some unmet item does |
| Writer.CriteriaConcat | backend/app/api/routers/writer.py:913-922 | both lists keep checklist order: the lists of a concatenated checklist are the lists of its parts, concatenated |
| Writer.CriteriaPartition | backend/app/api/routers/writer.py:913-922 | met and unmet criteria partition the list: together they hold each criterion exactly as often as the list does |
| Text.Strip | backend/app/utils/json_utils.py:16 | the stripped text is a slice of the input that neither starts nor ends with whitespace |
| Text.StripRemovesBlank | backend/app/utils/json_utils.py:16 | everything stripped off either end is whitespace |
| Text.StripKeepsNonSpace | backend/app/utils/json_utils.py:16 | no non-whitespace character is stripped |
| Text.StripEmptyIffBlank | backend/app/utils/json_utils.py:16 | the stripped text is empty exactly when the input is all whitespace |
| Text.StripIdempotent | backend/app/utils/json_utils.py:16 | stripping twice is stripping once |
| Text.Find | backend/app/utils/json_utils.py:24 | find answers -1 or an occurrence of the pattern with no earlier occurrence |
| Text.RFind | backend/app/utils/json_utils.py:27-28 | rfind answers -1 or an occurrence of the pattern with no later occurrence |
| Text.JoinSplit | frontend/src/composables/useBlueprintSSE.ts:73 | joining the pieces of a split with the separator gives the buffer back: splitting loses nothing |
| Text.SplitAppend | frontend/src/composables/useBlueprintSSE.ts:72-74 | splitting a growing buffer: every piece but the last is final and the kept remainder followed by new input splits again, so the pieces do not depend on how the stream is cut |
| Text.SplitJoinTerminated | frontend/src/composables/useBlueprintSSE.ts:73-74 | a stream of separator-terminated records splits back into the records followed by an empty remainder |
| Text.SplitJoinChar | backend/app/schemas/prompt.py:43 | splitting on a one-character separator undoes joining with it when no piece holds the separator |
| Text.ParseIntOfIntToString | backend/app/services/llm_service.py:290 | int(str(i)) == i for every integer |
| Text.NatToStringInjective | backend/app/services/llm_service.py:290 | distinct numbers have distinct decimal forms |
| Text.WordsOfJoin | backend/app/services/chapter_context_service.py:101-103 | splitting a space-joined list of words on whitespace gives the words back |

## Left out

- Language-model and embedding calls: the replies are parameters. The embedder answers an empty vector when its call fails or returns nothing, and it raises before any call for Ollama without its package and, with OpenAI, when resolving the configuration fails (`Llm.GetEmbedding`). `utils/llm_tool.py`, the prompt builders and the rolling-outline service are not part of this model.
- SQL, the ORM and the Qdrant/libsql clients. Tables are maps keyed by id or sequences in scan order. `ensure_schema`, `_ensure_qdrant_collection` and `_iter_rows` are not modelled. The native vector query (SQL `vector_distance_cosine` or a Qdrant search) is a parameter with three outcomes: rows, an error, or a missing distance function.
- Ids and times that the database or the clock assigns are parameters.
- Foreign algorithms are parameters: SHA-256, float32 rounding, UTF-8 decoding, bcrypt, JWT decoding, the LangChain splitter, `json.loads`, `JSON.parse`, and Python's `str()` on arbitrary values. `json.dumps` is written out as `PyJson.PyDumps` where its text matters (chapter version text, `_coerce_text`). The SSE routes take it as a parameter, and their round trip assumes only that `JSON.parse` reads back what it writes.
- Numbers in JSON values (`Sanitizer.Json`'s `JNum`) are whole numbers of at least 0. Negative and fractional numbers are not modelled. Progress counts, stage numbers and percentages fit this. `_coerce_text` of a negative or fractional number in a model reply is left out.
- Floating point: cosine similarity is a parameter, and averages and rates are `real`. The percentage uses integer division on whole numbers. Float rounding in `int(step / total * 100)` is not modelled.
- Whitespace is space, tab, newline, carriage return, vertical tab and form feed, for Python and JavaScript alike. Python's `str.strip` also removes the separators U+001C to U+001F, which JavaScript's `trim` keeps; the model keeps them. Python's `str.strip`/`str.split` and JavaScript's `trim` also treat Unicode spaces as whitespace, and JavaScript's `trim` differs from Python's on a few of them. Python's `int()` also accepts underscores and non-ASCII digits; `Text.ParseInt` accepts only ASCII digits with an optional sign.
- Concurrency and timing:
  - `asyncio.gather` and the background tasks in the writer router;
  - the prompt-cache lock;
  - request timeouts and aborts in the SSE client;
  - the `TextDecoder` step of the SSE client (the buffer is text).
- The router-side ingestion triggers (backend/app/api/routers/writer.py:501-563, 751-812) call `NovelService.get_project` and `project.outlines`, which do not exist. `Ingest` models the ingestion service directly.
- Duplicate-ratio metrics: the window average of the logged duplicate ratios is modelled (`Metrics.StatsOf`, `Metrics.WindowStats`). The ratio of a single retrieval arrives as a parameter of `Metrics.Add`, because no code in the source computes one; the threshold setting `rag_duplicate_similarity_threshold` (backend/app/core/config.py:191) is read by nothing and is not modelled.
- Bootstrap.DefaultPromptsToAdd: the prompt files arrive as a parameter, already in the order of `sorted(prompts_dir.glob("*.md"))` (backend/app/db/init_db.py:117). The directory listing and Python's ordering of paths are not modelled; `Bootstrap.DefaultPromptsConcat` states that the files added keep the listing's order.
- Settings.LoggingLevel: `Text.ToUpper` maps only the ASCII letters a-z. Python's `str.upper` also maps a few non-ASCII letters onto ASCII ones, for example the dotless `ı` to `I` and the long `ſ` to `S`, so `"ınfo"` and `"notſet"` are accepted by the source and rejected by the model.
- TextFormatter.CleanVersionContent: the parsed `content` field arrives as text. When `JSON.parse` yields an object whose `content` is truthy but not a string (a number, an array or an object), the source assigns it and the following `content.replace` throws a `TypeError` (frontend/src/utils/text-formatter.ts:45-51); the model has no such case.
- `vector_store_enabled` (backend/app/core/config.py:328-331) enters the vector-store model as whether a URL is configured. `sqlalchemy_database_uri` is not modelled.
- Pydantic's type coercion of request bodies is not modelled: fields arrive with their declared types. `PromptUpdate` does not distinguish an explicit `null` from an absent field.
- The draft endpoints of backend/app/api/routers/blueprint/stage.py other than the stage-4 stream and the token check, which are thin wrappers over `Drafts`.
- The stage 1-3 routes (backend/app/api/routers/blueprint/stage.py:59-186) call `generate_stage1_concept`, `generate_stage2_framework` and `generate_stage3_characters`. `BlueprintService` has none of these methods, so each route always answers 500. They are not modelled; the stage-4 stream has the same defect and is modelled (see Findings).
- Failures of single database or Qdrant writes and deletes (backend/app/services/vector_store_service.py:413-419, 465-470, 512-518, 557-561, 664-689, 708-722). The source logs each failure and goes on; the model has every write and delete succeed.
- `int(smtp.port)` in backend/app/services/auth_service.py:140 raising on a non-numeric port is not modelled. The port is not part of the model.
- Pydantic's lax coercion of `current_stage` (backend/app/schemas/blueprint_stage.py:38), for example from the string `"2"`, is not modelled. A draft whose `current_stage` is not a whole number in 1-4 is rejected.
- Sse.ReadStream: equals the written reader `Sse.RunWritten` only on streams with no frame made of a single `event:` line. On such a frame the written reader rejects the whole stream (see Findings).
- `list_prompts`, `get_by_id` and the bulk preload of the prompt cache are not modelled. `get_prompt` loads the cache lazily, as the first call does.
- The ordering of `list_logs` is not modelled.
- `fetchWithAuth` and token refresh in the front end: API outcomes are parameters.
- NovelService.MergeKeyPoints: the merged key points are the old ones, then the new ones not yet present. The source goes through a Python set, whose order is not modelled; the contract states set equality and no duplicates.
- Prompts.CommaTagSplits: the round trip is proved only for tags that are non-empty and free of commas. Other tags do not survive the split.
- NovelStore.LoadChapterOnce: "exactly once afterwards" is proved for a fetched chapter that carries the number asked for. Like the source, `loadChapter` finds the slot by the requested number, so a chapter whose number differs can appear twice.
- RouterGuard.RedirectSettles: proved for the routes of the table. A path outside the table matches no route.
- VectorQuery.SortBy: states sortedness and permutation. The stability that `Insert` gives is not stated.
- VectorQuery.ScoreSummaries: states only that every project summary is scored. It does not state, as `ScoreChunksFromProject` does for chunks, that nothing else is.
- VectorQuery.ZeroVectorHasZeroNorm: only the direction "zero vector gives zero norm" is stated. The converse also holds (a sum of squares is zero only when every entry is), but the model does not state it.
- Ingest.IngestPlan: the embedder is a function that always answers a vector. The raising embedder is modelled separately by `Ingest.IngestWithRaise`, which tracks only the call on which it raises. Which call raises is a parameter, since it depends on the day's request count and the settings at the time of each call.
- Context.Retrieve: the embedder always answers a vector here. A raise reaches the caller unchanged (backend/app/services/chapter_context_service.py:76), which `Context.RetrieveWithRaise` models as no context at all.
- Llm.GetEmbedding: the outcome of resolving the configuration is a parameter (`Llm.ResolveLlmConfig` models it). That outcome includes the daily request counted before a missing system key is refused. Whether the Ollama package is installed is a parameter too.
- NovelService.CharacterRowOf: an explicit null `name` is stored as NULL in a NOT NULL column, so the flush fails; the model stores it like any other value. Non-text values in the text columns are also stored as given, and the database driver's handling of them is not modelled.
- NovelService.CharacterSplitLosesNothing: the round trip is stated against what the read-back returns. That is the data with every fixed key present, an absent key and an explicit null both reading as null, and a missing name as the empty text. It is not stated against the data as sent.
- Metrics.WindowStats: this is the intended query, written with SQLAlchemy's `case` construct. The query as written never runs (see Findings).
- Chunker.LegacySplit: this is the corrected chunker. A text that fits one window is one chunk, and the next window starts strictly after the current one. The written loop is `Chunker.WrittenNextStart` (see Findings).
- Chunker.LegacySplit: `_split_into_chunks` returns early on an empty text before choosing a splitter, and the LangChain path is a parameter.

## Findings

| source | as written | input that shows it | evidently intended | confidence | as-written member | corrected member |
|---|---|---|---|---|---|---|
| backend/app/services/chapter_ingest_service.py:236-251 | after an early cut the next window starts at `max(0, end - overlap)`, which need not lie past the current start | 480/120 on a 580-character text whose only boundary is a `。` at index 529: the start goes 0, 360, 410, 410, … for ever; also the short text `aa。aa`, where the start stays 0 | every pass moves the window start strictly forward, so the loop ends and every non-blank character lands in a chunk | not executed | Chunker.WrittenSplitLoopsForever | Chunker.LegacySplitLosesNothing |
| backend/app/services/vector_store_service.py:199 | `top_k or settings.vector_top_k_chunks` treats an explicit 0 like a missing value | `query_chunks(top_k=0)` with the default of 5 returns the backend's rows | only a missing `top_k` takes the default, and `top_k <= 0` returns [] | not executed | VectorQuery.ZeroTopKStillQueries | VectorQuery.ZeroTopKIsEmpty |
| backend/app/utils/json_utils.py:62 | a quote inside a string closes it only before `}`, `]`, `,` or the end, not before `:` | `{"a": 1}` becomes `{"a\": 1}` | a quote followed by `:` closes an object key, so serialised JSON is a fixed point | not executed | Sanitizer.WrittenCorruptsKeys | Sanitizer.SanitizeSerialized |
| backend/app/services/novel_service.py:40-62 | an object without a usable content key is dumped to JSON and handed to `_clean_string`, which parses it back and calls `_coerce_text` on the same object | `_coerce_text({"a": 1})` recurses until Python raises `RecursionError` | such an object yields its own cleaned JSON text | not executed | NovelText.WrittenCoerceDiverges | NovelText.ObjectWithoutContentKey |
| frontend/src/composables/useBlueprintSSE.ts:79-80 | `dataLine.startsWith` is called on the second line of a frame without checking that it exists, outside the per-frame try | the frame `event: progress` with no data line throws a `TypeError`, and the whole stream is rejected | a frame without a data line is skipped like any other malformed frame | not executed | Sse.WrittenOneLineFrameCrashes | Sse.ParseFrame |
| backend/app/api/routers/blueprint/stage.py:253 | the stage-4 stream awaits `blueprint_service.generate_stage4_chapters`, which `BlueprintService` does not define; the `AttributeError` is caught by the generator's own `except` | any owned project with stages 1-3 saved: the stream is one error frame naming the missing attribute | the stream sends one chapter frame per generated chapter, then one complete frame | not executed | BlueprintRoutes.Stage4AsWrittenNeverCompletes | BlueprintRoutes.Stage4Stream |
| backend/app/repositories/rag_metrics_repository.py:46-60 | the empty-count query calls `func.case(..., else_=0)`. `func.case` builds a generic SQL function named `case`, which takes no `else_` keyword, so `window_stats` raises before any query runs; the status catches this, so its three seven-day figures are always None | a status request after at least one logged retrieval in the last seven days reports `empty_recall_rate_7d` as None | the conditional `case` construct counts the empty retrievals, and the status reports the window's figures | not executed; rests on SQLAlchemy's `func` building generic functions | Metrics.WrittenStatusHidesFigures | Metrics.ReportedFigures |

=== FILE: auth.dfy ===
/** Account rules of the authentication service: one-time email codes with
    a resend cooldown, boolean switches read from configuration text, the
    default-administrator password reset, and the checks made before a
    password change. Time is whole seconds; the random code and password
    hashing are parameters. */
module Auth {
  import opened Wrappers
  import opened Text
  import opened Stores
  import opened Users

  // ---------------------------------------------------------------------------
  // Email verification codes
  // ---------------------------------------------------------------------------

  /** A cached code and the moment it stops being valid. */
  datatype CodeEntry = CodeEntry(code: string, expireAt: int)

  /** The process-wide caches: codes by email, and the last send time by
      email. */
  datatype CodeCache = CodeCache(codes: map<string, CodeEntry>, lastSend: map<string, int>)

  const CodeLifetime: int := 300
  const ResendCooldown: int := 60

  /** `verify_code`: False for a missing email or no cached code; an expired
      code is dropped and refused; a wrong code is refused and kept; the
      right code is accepted once and dropped. */
  function VerifyCode(codes: map<string, CodeEntry>, email: Option<string>, code: string, now: int)
    : (r: (bool, map<string, CodeEntry>))
    ensures email.None? || email == Some("") || email.value !in codes ==> r == (false, codes)
    ensures email.Some? && email.value != "" && email.value in codes && now > codes[email.value].expireAt
            ==> r == (false, codes - {email.value})
    ensures (email.Some? && email.value in codes && now <= codes[email.value].expireAt
             && code != codes[email.value].code) ==> r == (false, codes)
    ensures r.0 <==> email.Some? && email.value != "" && email.value in codes
                     && now <= codes[email.value].expireAt && code == codes[email.value].code
    ensures r.0 ==> r.1 == codes - {email.value}
  {
    if email.None? || email.value == "" || email.value !in codes then (false, codes)
    else
      var e := codes[email.value];
      if now > e.expireAt then (false, codes - {email.value})
      else if code != e.code then (false, codes)
      else (true, codes - {email.value})
  }

  /** A code works once: the same code is refused the second time. */
  lemma CodeIsOneTimeUse(codes: map<string, CodeEntry>, email: string, code: string, now: int, later: int)
    requires VerifyCode(codes, Some(email), code, now).0
    ensures !VerifyCode(VerifyCode(codes, Some(email), code, now).1, Some(email), code, later).0
  {
  }

  /** Six decimal digits, as `random.choices(string.digits, k=6)` draws. */
  predicate SixDigits(code: string) {
    |code| == 6 && forall i :: 0 <= i < 6 ==> IsDigit(code[i])
  }

  /** The configuration keys the mailer needs. */
  const SmtpKeys: set<string> := {"smtp.server", "smtp.port", "smtp.username", "smtp.password", "smtp.from"}

  /** `_load_smtp_config` finds a configuration only when all five keys are
      stored. */
  predicate SmtpConfigured(t: ConfigTable) {
    SmtpKeys <= t.Keys
  }

  /** What a send leaves behind: the caches, and the error raised if any. */
  datatype SendOutcome = SendOutcome(cache: CodeCache, error: Option<HttpError>)

  const RegistrationClosed: HttpError := HttpError(403, "当前暂未开放注册")
  const TooSoon: HttpError := HttpError(429, "请稍后再试，1分钟内不可重复发送")
  const NoMailer: HttpError := HttpError(500, "未配置邮件服务，请联系管理员")
  const BadAddress: HttpError := HttpError(400, "邮箱地址包含不支持的字符")
  const SendFailed: HttpError := HttpError(500, "验证码发送失败，请检查邮件配置")

  /** The address encodes as ASCII. */
  predicate IsAscii(s: string) {
    forall i :: 0 <= i < |s| ==> s[i] < 128 as char
  }

  /** `send_verification_code`: 403 when registration is closed, 429 within
      60 seconds of the last send to the address; otherwise the code is
      cached until now + 300 and the send time is recorded before anything
      else can fail, so each later failure still starts the cooldown: no
      mailer configuration (500), an address that is not ASCII (400), or a
      transport failure (500). `code` is the random draw and `delivered`
      the outcome of the SMTP exchange. */
  function SendVerificationCode(cache: CodeCache, email: string, code: string, now: int,
                                registrationEnabled: bool, t: ConfigTable, delivered: bool): (r: SendOutcome)
    requires SixDigits(code)
    ensures !registrationEnabled ==> r == SendOutcome(cache, Some(RegistrationClosed))
    ensures registrationEnabled && email in cache.lastSend && now - cache.lastSend[email] < ResendCooldown
            ==> r == SendOutcome(cache, Some(TooSoon))
    ensures r.error.None? || r.error.value in {NoMailer, BadAddress, SendFailed} ==>
              r.cache.codes == cache.codes[email := CodeEntry(code, now + CodeLifetime)]
              && r.cache.lastSend == cache.lastSend[email := now]
    ensures r.error.Some? && r.error.value !in {RegistrationClosed, TooSoon} ==>
              r.error.value in {NoMailer, BadAddress, SendFailed}
    ensures r.error == Some(BadAddress) ==> SmtpConfigured(t) && !IsAscii(email)
    ensures r.error == Some(SendFailed) ==> SmtpConfigured(t) && IsAscii(email) && !delivered
    ensures r.error.None? <==> registrationEnabled && SmtpConfigured(t) && IsAscii(email) && delivered
                               && !(email in cache.lastSend && now - cache.lastSend[email] < ResendCooldown)
  {
    if !registrationEnabled then SendOutcome(cache, Some(RegistrationClosed))
    else if email in cache.lastSend && now - cache.lastSend[email] < ResendCooldown then
      SendOutcome(cache, Some(TooSoon))
    else
      var next := CodeCache(cache.codes[email := CodeEntry(code, now + CodeLifetime)], cache.lastSend[email := now]);
      if !SmtpConfigured(t) then SendOutcome(next, Some(NoMailer))
      else if !IsAscii(email) then SendOutcome(next, Some(BadAddress))
      else if !delivered then SendOutcome(next, Some(SendFailed))
      else SendOutcome(next, None)
  }

  /** The code just sent is accepted for the next 300 seconds. */
  lemma SentCodeVerifies(cache: CodeCache, email: string, code: string, now: int, t: ConfigTable,
                         delivered: bool, at: int)
    requires SixDigits(code) && email != ""
    requires SendVerificationCode(cache, email, code, now, true, t, delivered).error.None?
    requires at <= now + CodeLifetime
    ensures VerifyCode(SendVerificationCode(cache, email, code, now, true, t, delivered).cache.codes, Some(email), code, at).0
  {
  }

  /** A second request within the minute is refused, even when the first
      one failed for want of a mailer, on a bad address or in transport. */
  lemma ResendWithinCooldown(cache: CodeCache, email: string, code: string, code2: string, now: int,
                             t: ConfigTable, delivered: bool, delivered2: bool, at: int)
    requires SixDigits(code) && SixDigits(code2)
    requires SendVerificationCode(cache, email, code, now, true, t, delivered).error != Some(TooSoon)
    requires now <= at < now + ResendCooldown
    ensures var first := SendVerificationCode(cache, email, code, now, true, t, delivered).cache;
            SendVerificationCode(first, email, code2, at, true, t, delivered2).error == Some(TooSoon)
  {
  }

  // ---------------------------------------------------------------------------
  // Boolean switches
  // ---------------------------------------------------------------------------

  /** The spellings read as true. */
  const TrueWords: set<string> := {"1", "true", "yes", "on"}

  /** `_parse_bool`: the fallback for a missing value; otherwise whether the
      stripped, lower-cased text is one of the true spellings. */
  function ParseBool(value: Option<string>, fallback: bool): (r: bool)
    ensures value.None? ==> r == fallback
    ensures value.Some? ==> (r <==> ToLower(Strip(value.value)) in TrueWords)
  {
    if value.None? then fallback else ToLower(Strip(value.value)) in TrueWords
  }

  /** Surrounding blanks do not matter. */
  lemma ParseBoolIgnoresPadding(pre: string, word: string, post: string, fallback: bool)
    requires IsBlank(pre) && IsBlank(post) && word != "" && IsStripped(word)
    ensures ParseBool(Some(pre + word + post), fallback) == ParseBool(Some(word), fallback)
  {
    StripPadded(pre, word, post);
    StripOfStripped(word);
  }

  /** `is_registration_enabled`: the stored switch, or the setting. */
  function RegistrationEnabled(t: ConfigTable, setting: bool): (r: bool)
    ensures "auth.allow_registration" !in t ==> r == setting
    ensures "auth.allow_registration" in t ==> r == ParseBool(Some(t["auth.allow_registration"].value), setting)
  {
    ParseBool(ConfigValue(t, "auth.allow_registration"), setting)
  }

  // ---------------------------------------------------------------------------
  // Passwords
  // ---------------------------------------------------------------------------

  /** The default administrator account from the settings. */
  datatype AdminDefaults = AdminDefaults(username: string, password: string)

  /** `requires_password_reset`: only an administrator with the default
      username whose stored hash still verifies against the default
      password. `verify(password, hash)` is the password check. */
  function RequiresPasswordReset(u: User, d: AdminDefaults, verify: (string, string) -> bool): (r: bool)
    ensures r ==> u.isAdmin && u.username == d.username && u.hashedPassword != ""
    ensures !u.isAdmin || u.username != d.username ==> !r
    ensures r <==> u.isAdmin && u.username == d.username && u.hashedPassword != "" && verify(d.password, u.hashedPassword)
  {
    u.isAdmin && u.username == d.username && u.hashedPassword != "" && verify(d.password, u.hashedPassword)
  }

  /** With a faithful hash, a reset is required exactly for the default
      administrator whose stored password is still the default one. */
  lemma ResetIffDefaultPassword(u: User, d: AdminDefaults, verify: (string, string) -> bool, hash: string -> string,
                                p: string)
    requires forall x, y :: verify(x, hash(y)) <==> x == y
    requires u.hashedPassword == hash(p) && hash(p) != ""
    ensures RequiresPasswordReset(u, d, verify) <==> u.isAdmin && u.username == d.username && p == d.password
  {
    assert verify(d.password, hash(p)) <==> d.password == p;
  }

  const UnknownUser: HttpError := HttpError(404, "用户不存在")
  const WrongPassword: HttpError := HttpError(400, "当前密码错误")
  const SamePassword: HttpError := HttpError(400, "新密码不能与当前密码相同")
  const DefaultPassword: HttpError := HttpError(400, "新密码不能为默认密码")

  /** `change_password`: unknown user 404, wrong current password 400, a new
      password the current hash accepts 400, the default password for the
      default username 400; otherwise that user's hash is replaced and no
      other row changes. `hash` is the hashing function. */
  function ChangePassword(users: seq<User>, username: string, oldPassword: string, newPassword: string,
                          d: AdminDefaults, verify: (string, string) -> bool, hash: string -> string)
    : (r: Result<seq<User>, HttpError>)
    ensures GetByUsername(users, username).None? ==> r == Failure(UnknownUser)
    ensures GetByUsername(users, username).Some? ==>
              var u := GetByUsername(users, username).value;
              (!verify(oldPassword, u.hashedPassword) ==> r == Failure(WrongPassword))
              && (verify(oldPassword, u.hashedPassword) && verify(newPassword, u.hashedPassword)
                  ==> r == Failure(SamePassword))
              && ((verify(oldPassword, u.hashedPassword) && !verify(newPassword, u.hashedPassword)
                   && username == d.username && newPassword == d.password) ==> r == Failure(DefaultPassword))
              && ((verify(oldPassword, u.hashedPassword) && !verify(newPassword, u.hashedPassword)
                   && !(username == d.username && newPassword == d.password)) ==> r.Success?)
    ensures r.Success? ==> |r.value| == |users|
    ensures r.Success? ==> forall i :: 0 <= i < |users| ==>
              r.value[i] == (if users[i].username == username then users[i].(hashedPassword := hash(newPassword))
                             else users[i])
  {
    var found := GetByUsername(users, username);
    if found.None? then Failure(UnknownUser)
    else
      var u := found.value;
      if !verify(oldPassword, u.hashedPassword) then Failure(WrongPassword)
      else if verify(newPassword, u.hashedPassword) then Failure(SamePassword)
      else if username == d.username && newPassword == d.password then Failure(DefaultPassword)
      else Success(seq(|users|, i requires 0 <= i < |users| =>
                     if users[i].username == username then users[i].(hashedPassword := hash(newPassword)) else users[i]))
  }

  /** With a faithful hash (a password verifies against the hash of exactly
      itself and nothing else), a successful change clears the reset flag of
      the account whose password changed. */
  lemma ChangePasswordClearsReset(users: seq<User>, username: string, oldPassword: string, newPassword: string,
                                  d: AdminDefaults, verify: (string, string) -> bool, hash: string -> string, i: int)
    requires forall p, q :: verify(p, hash(q)) <==> p == q
    requires ChangePassword(users, username, oldPassword, newPassword, d, verify, hash).Success?
    requires 0 <= i < |users| && users[i].username == username
    ensures !RequiresPasswordReset(ChangePassword(users, username, oldPassword, newPassword, d, verify, hash).value[i],
                                   d, verify)
  {
    var after := ChangePassword(users, username, oldPassword, newPassword, d, verify, hash).value[i];
    assert after.hashedPassword == hash(newPassword);
    if after.isAdmin && after.username == d.username {
      assert newPassword != d.password;
    }
  }
}

=== FILE: blueprint_routes.dfy ===
/** The blueprint routes that stream server-sent events: the token taken
    from the query string, the chapter-outline stream of stage 4 that needs
    the first three stages of the saved draft, and the full blueprint stream
    with one progress frame per step. `json.dumps` is a parameter. */
module BlueprintRoutes {
  import opened Wrappers
  import opened Text
  import opened Sanitizer
  import opened Users
  import Auth
  import opened Drafts
  import opened Sse

  // ---------------------------------------------------------------------------
  // Token in the query string (stage.py)
  // ---------------------------------------------------------------------------

  const MissingToken: HttpError := HttpError(401, "缺少认证token")
  const UnknownTokenUser: HttpError := HttpError(401, "用户不存在或已被禁用")
  const InvalidToken: HttpError := HttpError(401, "无效的认证token")

  /** `get_current_user_from_query`: no token or an empty one is 401; a token
      that does not decode to a subject is 401; an unknown subject is 401.
      Otherwise the user, with whether it must change its password. `decode`
      is the token check and gives the subject. The active flag is not
      looked at, as in the header-based check. */
  function UserFromQuery(token: Option<string>, decode: string -> Option<string>, users: seq<User>,
                         d: Auth.AdminDefaults, verify: (string, string) -> bool)
    : (r: Result<(User, bool), HttpError>)
    ensures token.None? || token.value == "" ==> r == Failure(MissingToken)
    ensures token.Some? && token.value != "" && decode(token.value).None? ==> r == Failure(InvalidToken)
    ensures (token.Some? && token.value != "" && decode(token.value).Some?
             && GetByUsername(users, decode(token.value).value).None?) ==> r == Failure(UnknownTokenUser)
    ensures r.Success? ==> (token.Some? && decode(token.value).Some?
                            && GetByUsername(users, decode(token.value).value) == Some(r.value.0)
                            && r.value.1 == Auth.RequiresPasswordReset(r.value.0, d, verify))
    ensures r.Failure? ==> r.error.status == 401
  {
    if token.None? || token.value == "" then Failure(MissingToken)
    else
      var sub := decode(token.value);
      if sub.None? then Failure(InvalidToken)
      else
        var u := GetByUsername(users, sub.value);
        if u.None? then Failure(UnknownTokenUser)
        else Success((u.value, Auth.RequiresPasswordReset(u.value, d, verify)))
  }

  // ---------------------------------------------------------------------------
  // Stage 4 stream (stage.py)
  // ---------------------------------------------------------------------------

  const StageLabels: seq<string> := ["阶段1", "阶段2", "阶段3"]

  /** Which of the first three stages the draft lacks, in stage order. */
  function MissingStageIndices(d: Draft): (r: seq<nat>)
    requires |d.stages| == 4
    ensures forall i :: 0 <= i < |r| ==> r[i] < 3
    ensures forall i, j :: 0 <= i < j < |r| ==> r[i] < r[j]
    ensures forall k :: 0 <= k < 3 ==> (k in r <==> d.stages[k].None?)
  {
    (if d.stages[0].None? then [0] else []) + (if d.stages[1].None? then [1] else [])
    + (if d.stages[2].None? then [2] else [])
  }

  /** The names of the missing stages, in stage order. */
  function MissingStages(d: Draft): (r: seq<string>)
    requires |d.stages| == 4
    ensures |r| == |MissingStageIndices(d)|
    ensures forall i :: 0 <= i < |r| ==> r[i] == StageLabels[MissingStageIndices(d)[i]]
    ensures r == [] <==> d.stages[0].Some? && d.stages[1].Some? && d.stages[2].Some?
  {
    var idx := MissingStageIndices(d);
    assert idx == [] <==> d.stages[0].Some? && d.stages[1].Some? && d.stages[2].Some? by {
      if idx != [] {
        assert idx[0] in idx;
      }
    }
    seq(|idx|, i requires 0 <= i < |idx| => StageLabels[idx[i]])
  }

  const DraftMissing: HttpError := HttpError(400, "草稿不存在，请先完成前3个阶段")

  function MissingStagesError(labels: seq<string>): HttpError {
    HttpError(400, "缺少以下阶段的数据：" + Join(labels, ", ") + "。请先完成前3个阶段。")
  }

  /** The JSON body of an error frame. */
  function ErrorPayload(message: string): Json {
    JObj([Member("error", JStr(message))])
  }

  /** How the chapter-outline generation ended: the chapters in the order
      the callback reported them and the stage-4 result, or the message of
      the exception it raised. */
  datatype Stage4Generation = Stage4Done(chapters: seq<Json>, outline: Json) | Stage4Failed(message: string)

  /** `generate_stage4_stream`: the owner check's error, a draft that cannot
      be read (500), no draft (400) and missing stages (400) are raised
      before anything is streamed. Otherwise the stream is one chapter frame
      per reported chapter, in order, then one complete frame; when
      generation raises, the chapters gathered so far are not sent and the
      stream is a single error frame. `describe` is `str` on a read error. */
  function Stage4Stream(owner: Result<(), HttpError>, draft: Result<Option<Draft>, ReadError>,
                        g: Stage4Generation, dumps: Json -> string, describe: ReadError -> string)
    : (r: Result<seq<ServerEvent>, HttpError>)
    requires draft.Success? && draft.value.Some? ==> |draft.value.value.stages| == 4
    ensures owner.Failure? ==> r == Failure(owner.error)
    ensures owner.Success? && draft.Failure? ==> r.Failure? && r.error.status == 500
    ensures owner.Success? && draft == Success(None) ==> r == Failure(DraftMissing)
    ensures owner.Success? && draft.Success? && draft.value.Some? && MissingStages(draft.value.value) != []
            ==> r == Failure(MissingStagesError(MissingStages(draft.value.value)))
    ensures r.Success? <==> owner.Success? && draft.Success? && draft.value.Some?
                            && draft.value.value.stages[0].Some? && draft.value.value.stages[1].Some?
                            && draft.value.value.stages[2].Some?
    ensures r.Success? ==> |r.value| >= 1 && forall i :: 0 <= i < |r.value| - 1 ==> r.value[i].kind == "chapter"
    ensures r.Success? ==> r.value[|r.value| - 1].kind == (if g.Stage4Done? then "complete" else "error")
    ensures r.Success? && g.Stage4Done? ==>
              |r.value| == |g.chapters| + 1
              && forall i :: 0 <= i < |g.chapters| ==> r.value[i].data == dumps(g.chapters[i])
    ensures r.Success? && g.Stage4Failed? ==> |r.value| == 1
  {
    if owner.Failure? then Failure(owner.error)
    else if draft.Failure? then Failure(HttpError(500, "生成失败: " + describe(draft.error)))
    else if draft.value.None? then Failure(DraftMissing)
    else
      var missing := MissingStages(draft.value.value);
      if missing != [] then Failure(MissingStagesError(missing))
      else
        match g
        case Stage4Done(chapters, outline) =>
          Success(seq(|chapters|, i requires 0 <= i < |chapters| => ServerEvent("chapter", dumps(chapters[i])))
                  + [ServerEvent("complete", dumps(outline))])
        case Stage4Failed(message) => Success([ServerEvent("error", dumps(ErrorPayload(message)))])
  }

  /** The message of the AttributeError the route's generator raises: the
      service it calls defines no `generate_stage4_chapters`. */
  const MissingGenerator: string := "'BlueprintService' object has no attribute 'generate_stage4_chapters'"

  /** The route as written: the generator calls a method the blueprint
      service does not have, inside the stream's try, so every stream that
      gets past the checks is a single error frame. */
  function Stage4StreamAsWritten(owner: Result<(), HttpError>, draft: Result<Option<Draft>, ReadError>,
                                 dumps: Json -> string, describe: ReadError -> string)
    : (r: Result<seq<ServerEvent>, HttpError>)
    requires draft.Success? && draft.value.Some? ==> |draft.value.value.stages| == 4
    ensures r.Failure? ==> forall g :: r == Stage4Stream(owner, draft, g, dumps, describe)
    ensures r.Success? ==> r.value == [ServerEvent("error", dumps(ErrorPayload(MissingGenerator)))]
  {
    Stage4Stream(owner, draft, Stage4Failed(MissingGenerator), dumps, describe)
  }

  /** For an owned project whose first three stages are saved, the written
      route never completes, where the intended one streams the chapters and
      a complete frame. */
  lemma Stage4AsWrittenNeverCompletes(d: Draft, chapters: seq<Json>, outline: Json,
                                      dumps: Json -> string, describe: ReadError -> string)
    requires |d.stages| == 4 && d.stages[0].Some? && d.stages[1].Some? && d.stages[2].Some?
    ensures var written := Stage4StreamAsWritten(Success(()), Success(Some(d)), dumps, describe);
            written.Success? && forall i :: 0 <= i < |written.value| ==> written.value[i].kind != "complete"
    ensures var intended := Stage4Stream(Success(()), Success(Some(d)), Stage4Done(chapters, outline), dumps, describe);
            intended.Success? && intended.value[|intended.value| - 1].kind == "complete"
  {
  }

  /** With every stage missing the detail names all three, in order. */
  lemma NoStagesMessage(d: Draft)
    requires |d.stages| == 4 && d.stages[0].None? && d.stages[1].None? && d.stages[2].None?
    ensures MissingStagesError(MissingStages(d)).detail == "缺少以下阶段的数据：阶段1, 阶段2, 阶段3。请先完成前3个阶段。"
  {
    assert MissingStageIndices(d) == [0, 1, 2];
    assert MissingStages(d) == ["阶段1", "阶段2", "阶段3"];
  }

  // ---------------------------------------------------------------------------
  // Full blueprint stream (blueprint.py)
  // ---------------------------------------------------------------------------

  const TotalSteps: nat := 7

  /** The message the service reports before each step. */
  const StepMessages: seq<string> := ["生成基础信息", "构建故事梗概", "设计世界观设定", "创建角色列表",
                                      "建立角色关系", "规划章节大纲", "组装最终蓝图"]

  const ProjectMissing: string := "项目不存在"

  /** `int(step / total * 100)` on whole numbers: the percentage rounded
      down. */
  function Percentage(step: nat, total: nat): (r: nat)
    requires total > 0
    ensures r * total <= step * 100 < (r + 1) * total
  {
    step * 100 / total
  }

  /** The JSON body of a progress frame. */
  function ProgressPayload(step: nat, message: string): Json {
    JObj([Member("step", JNum(step)), Member("total", JNum(TotalSteps)), Member("message", JStr(message)),
          Member("percentage", JNum(Percentage(step, TotalSteps)))])
  }

  /** How the generation task ended: the blueprint, or the message of the
      exception raised after `reported` progress reports. The service reports
      step k before running it, so a failure comes after one to seven
      reports. */
  datatype Generation = Completed(blueprint: Json) | Failed(reported: nat, message: string)

  predicate ValidGeneration(g: Generation) {
    g.Completed? || 1 <= g.reported <= TotalSteps
  }

  function Reported(g: Generation): nat {
    if g.Completed? then TotalSteps else g.reported
  }

  /** The progress frames of the first `n` steps, in the order reported. */
  function ProgressEvents(n: nat, dumps: Json -> string): (r: seq<ServerEvent>)
    requires n <= TotalSteps
    ensures |r| == n
    ensures forall i :: 0 <= i < n ==> r[i] == ServerEvent("progress", dumps(ProgressPayload(i + 1, StepMessages[i])))
  {
    seq(n, i requires 0 <= i < n => ServerEvent("progress", dumps(ProgressPayload(i + 1, StepMessages[i]))))
  }

  /** The frame that ends a stream for a project that exists. */
  function Final(g: Generation, dumps: Json -> string): ServerEvent {
    match g
    case Completed(bp) => ServerEvent("complete", dumps(JObj([Member("blueprint", bp)])))
    case Failed(_, message) => ServerEvent("error", dumps(ErrorPayload(message)))
  }

  /** `generate_blueprint_stream`: for a missing project a single error frame;
      otherwise the queued progress frames in the order they were queued,
      then one complete frame when the generation task finished and one error frame
      when it raised. */
  function BlueprintEvents(projectExists: bool, g: Generation, dumps: Json -> string): (r: seq<ServerEvent>)
    requires ValidGeneration(g)
    ensures !projectExists ==> r == [ServerEvent("error", dumps(ErrorPayload(ProjectMissing)))]
    ensures |r| >= 1 && forall i :: 0 <= i < |r| - 1 ==> r[i].kind == "progress"
    ensures r[|r| - 1].kind == "complete" <==> projectExists && g.Completed?
    ensures projectExists ==>
              |r| == Reported(g) + 1
              && forall i :: 0 <= i < |r| - 1 ==> r[i].data == dumps(ProgressPayload(i + 1, StepMessages[i]))
  {
    if !projectExists then [ServerEvent("error", dumps(ErrorPayload(ProjectMissing)))]
    else ProgressEvents(Reported(g), dumps) + [Final(g, dumps)]
  }

  // ---------------------------------------------------------------------------
  // The stream as the client reads it
  // ---------------------------------------------------------------------------

  /** `json.dumps` and `JSON.parse` agree, and dumped text fits a frame
      line. */
  ghost predicate FaithfulJson(dumps: Json -> string, parse: string -> Option<Json>) {
    forall j :: parse(dumps(j)) == Some(j) && LineSafe(dumps(j))
  }

  lemma KindsAreSafe()
    ensures LineSafe("progress") && LineSafe("complete") && LineSafe("error")
  {
  }

  /** The client state after the progress frame of step `n`. */
  function ProgressState(n: nat): ClientState
    requires n <= TotalSteps
  {
    if n == 0 then Connecting
    else Connecting.(progress := Some(JNum(Percentage(n, TotalSteps))), currentStep := Some(JNum(n)),
                     totalSteps := Some(JNum(TotalSteps)), statusMessage := Some(JStr(StepMessages[n - 1])))
  }

  /** The client finds each field of a progress payload. */
  lemma PayloadFields(step: nat, message: string)
    ensures Prop(ProgressPayload(step, message), "step") == Some(JNum(step))
    ensures Prop(ProgressPayload(step, message), "total") == Some(JNum(TotalSteps))
    ensures Prop(ProgressPayload(step, message), "message") == Some(JStr(message))
    ensures Prop(ProgressPayload(step, message), "percentage") == Some(JNum(Percentage(step, TotalSteps)))
  {
    var ms := ProgressPayload(step, message).members;
    assert |ms[0].key| == 4 && |ms[1].key| == 5 && |ms[2].key| == 7 && |ms[3].key| == 10;
    LastValueAt(ms, "step", 0);
    LastValueAt(ms, "total", 1);
    LastValueAt(ms, "message", 2);
    LastValueAt(ms, "percentage", 3);
  }

  /** The progress frame of step `n` moves the client from the state of
      step `n - 1` to that of step `n`. */
  lemma ProgressStep(n: nat)
    requires 1 <= n <= TotalSteps
    ensures Handle(ProgressState(n - 1), "progress", Some(ProgressPayload(n, StepMessages[n - 1])))
            == (ProgressState(n), Pending)
  {
    PayloadFields(n, StepMessages[n - 1]);
  }

  /** The bodies of the first `n` progress frames end with that of step `n`. */
  lemma ProgressBodiesSnoc(n: nat, dumps: Json -> string)
    requires 1 <= n <= TotalSteps
    ensures Bodies(ProgressEvents(n, dumps))
            == Bodies(ProgressEvents(n - 1, dumps))
               + [FrameBody(ServerEvent("progress", dumps(ProgressPayload(n, StepMessages[n - 1]))))]
  {
    assert ProgressEvents(n, dumps) == ProgressEvents(n - 1, dumps) + [ProgressEvents(n, dumps)[n - 1]];
    assert Bodies(ProgressEvents(n, dumps))
           == Bodies(ProgressEvents(n - 1, dumps)) + [FrameBody(ProgressEvents(n, dumps)[n - 1])];
  }

  /** Reading the progress frames of the first `n` steps leaves the state of
      step `n` and the promise pending. */
  lemma {:induction false} ProgressFold(n: nat, dumps: Json -> string, parse: string -> Option<Json>)
    requires n <= TotalSteps && FaithfulJson(dumps, parse)
    ensures Fold(Connecting, Bodies(ProgressEvents(n, dumps)), parse) == (ProgressState(n), Pending)
  {
    if n > 0 {
      ProgressFold(n - 1, dumps, parse);
      var e := ServerEvent("progress", dumps(ProgressPayload(n, StepMessages[n - 1])));
      ProgressBodiesSnoc(n, dumps);
      FoldSnoc(Connecting, Bodies(ProgressEvents(n - 1, dumps)), FrameBody(e), parse);
      KindsAreSafe();
      FrameRoundTrip(e);
      ProgressStep(n);
    }
  }

  /** After the progress frames of `n` steps, the frame that follows is
      handled in the state of step `n`. */
  lemma ReadFinalFrame(n: nat, last: ServerEvent, dumps: Json -> string, parse: string -> Option<Json>)
    requires n <= TotalSteps && FaithfulJson(dumps, parse) && SafeEvent(last)
    ensures Frames(Wire(ProgressEvents(n, dumps) + [last]))
            == Bodies(ProgressEvents(n, dumps)) + [FrameBody(last)]
    ensures Fold(Connecting, Frames(Wire(ProgressEvents(n, dumps) + [last])), parse)
            == Handle(ProgressState(n), last.kind, parse(last.data))
  {
    var evs := ProgressEvents(n, dumps) + [last];
    KindsAreSafe();
    assert forall i :: 0 <= i < |evs| ==> SafeEvent(evs[i]);
    WireRoundTrip(evs);
    assert Bodies(evs) == Bodies(ProgressEvents(n, dumps)) + [FrameBody(last)];
    ProgressFold(n, dumps, parse);
    FoldSnoc(Connecting, Bodies(ProgressEvents(n, dumps)), FrameBody(last), parse);
    FrameRoundTrip(last);
  }

  /** An error payload rejects with its message and shows it, or the default
      message when it is empty. */
  lemma HandleErrorPayload(st: ClientState, message: string)
    ensures Handle(st, "error", Some(ErrorPayload(message)))
            == (st.(error := Some(if message != "" then JStr(message) else JStr(DefaultError)), isGenerating := false),
                ServerRejected(Some(JStr(message))))
  {
    LastValueAt(ErrorPayload(message).members, "error", 0);
  }

  /** A complete payload resolves with its blueprint at 100 percent. */
  lemma HandleCompletePayload(st: ClientState, bp: Json)
    ensures Handle(st, "complete", Some(JObj([Member("blueprint", bp)])))
            == (st.(progress := Some(JNum(100)), statusMessage := Some(JStr(Sse.Completed)), isGenerating := false),
                Resolved(Some(bp)))
  {
    LastValueAt([Member("blueprint", bp)], "blueprint", 0);
  }

  /** The stream for a missing project rejects with "项目不存在". */
  lemma MissingProjectStream(g: Generation, dumps: Json -> string, parse: string -> Option<Json>)
    requires ValidGeneration(g) && FaithfulJson(dumps, parse)
    ensures Run(Frames(Wire(BlueprintEvents(false, g, dumps))), parse)
            == (Connecting.(error := Some(JStr(ProjectMissing)), isGenerating := false),
                ServerRejected(Some(JStr(ProjectMissing))))
  {
    var last := ServerEvent("error", dumps(ErrorPayload(ProjectMissing)));
    assert BlueprintEvents(false, g, dumps) == ProgressEvents(0, dumps) + [last];
    ReadFinalFrame(0, last, dumps, parse);
    HandleErrorPayload(Connecting, ProjectMissing);
  }

  /** A finished generation resolves with the blueprint after all seven
      steps. */
  lemma CompletedStream(bp: Json, dumps: Json -> string, parse: string -> Option<Json>)
    requires FaithfulJson(dumps, parse)
    ensures Run(Frames(Wire(BlueprintEvents(true, Completed(bp), dumps))), parse)
            == (ProgressState(TotalSteps).(progress := Some(JNum(100)), statusMessage := Some(JStr(Sse.Completed)),
                                           isGenerating := false),
                Resolved(Some(bp)))
  {
    var last := Final(Completed(bp), dumps);
    assert BlueprintEvents(true, Completed(bp), dumps) == ProgressEvents(TotalSteps, dumps) + [last];
    CompleteAfter(TotalSteps, bp, dumps, parse);
  }

  /** A complete frame after the progress frames of `n` steps resolves. */
  lemma CompleteAfter(n: nat, bp: Json, dumps: Json -> string, parse: string -> Option<Json>)
    requires n <= TotalSteps && FaithfulJson(dumps, parse)
    ensures Fold(Connecting, Frames(Wire(ProgressEvents(n, dumps) + [Final(Completed(bp), dumps)])), parse)
            == (ProgressState(n).(progress := Some(JNum(100)), statusMessage := Some(JStr(Sse.Completed)),
                                  isGenerating := false),
                Resolved(Some(bp)))
  {
    var payload := JObj([Member("blueprint", bp)]);
    var last := ServerEvent("complete", dumps(payload));
    assert Final(Completed(bp), dumps) == last;
    assert parse(last.data) == Some(payload);
    ReadFinalFrame(n, last, dumps, parse);
    HandleCompletePayload(ProgressState(n), bp);
  }

  /** A failed generation rejects with its message after the steps it
      reported. */
  lemma FailedStream(reported: nat, message: string, dumps: Json -> string, parse: string -> Option<Json>)
    requires 1 <= reported <= TotalSteps && FaithfulJson(dumps, parse)
    ensures Run(Frames(Wire(BlueprintEvents(true, Failed(reported, message), dumps))), parse)
            == (ProgressState(reported).(error := Some(if message != "" then JStr(message) else JStr(DefaultError)),
                                         isGenerating := false),
                ServerRejected(Some(JStr(message))))
  {
    var last := Final(Failed(reported, message), dumps);
    assert BlueprintEvents(true, Failed(reported, message), dumps) == ProgressEvents(reported, dumps) + [last];
    ReadFinalFrame(reported, last, dumps, parse);
    HandleErrorPayload(ProgressState(reported), message);
  }

  /** The client reading the whole blueprint stream settles as the server
      meant: a missing project and a failed generation reject with the
      server's message (shown, or the default when it is empty), a finished
      one resolves with the blueprint at 100 percent after all seven steps.
      With `ReadStream` this holds however the stream is cut into chunks. */
  lemma ClientReadsBlueprintStream(projectExists: bool, g: Generation, dumps: Json -> string,
                                   parse: string -> Option<Json>)
    requires ValidGeneration(g) && FaithfulJson(dumps, parse)
    ensures var r := Run(Frames(Wire(BlueprintEvents(projectExists, g, dumps))), parse);
            !r.0.isGenerating
            && (!projectExists ==> r.1 == ServerRejected(Some(JStr(ProjectMissing)))
                                   && r.0.error == Some(JStr(ProjectMissing)))
            && (projectExists && g.Completed? ==> r.1 == Resolved(Some(g.blueprint))
                                                  && r.0.progress == Some(JNum(100))
                                                  && r.0.currentStep == Some(JNum(TotalSteps)))
            && (projectExists && g.Failed? ==> r.1 == ServerRejected(Some(JStr(g.message)))
                                               && r.0.currentStep == Some(JNum(g.reported))
                                               && r.0.error == Some(if g.message != "" then JStr(g.message)
                                                                    else JStr(DefaultError)))
  {
    if !projectExists {
      MissingProjectStream(g, dumps, parse);
    } else if g.Completed? {
      CompletedStream(g.blueprint, dumps, parse);
    } else {
      FailedStream(g.reported, g.message, dumps, parse);
    }
  }
}

=== FILE: blueprint_service.dfy ===
/** The seven-step blueprint generator: the retry wrapper with exponential
    back-off, the checks each step makes on the parsed model reply, the
    assembly of the final blueprint, and the rows saved for relationships
    and chapter outlines. The model reply is already parsed (`json.loads`
    and the extraction cascade are not part of this model); the state is the
    dictionary the steps share. */
module BlueprintService {
  import opened Wrappers
  import opened Text
  import opened Sanitizer
  import opened NovelText

  // ---------------------------------------------------------------------------
  // Retry with exponential back-off
  // ---------------------------------------------------------------------------

  function Pow2(n: nat): (r: nat)
    ensures r >= 1
  {
    if n == 0 then 1 else 2 * Pow2(n - 1)
  }

  /** How `_execute_with_retry` ends: the first successful result, the error
      of the last attempt, or — when no attempt was made at all because
      `max_retries` is below 1 — the `TypeError` of `raise None`. */
  datatype RetryOutcome<T, E> = Succeeded(value: T) | LastError(error: E) | RaisedNone

  /** The sum of the waits. */
  function Total(waits: seq<nat>): nat {
    if waits == [] then 0 else waits[0] + Total(waits[1..])
  }

  /** The waits before attempts 2..n+1: 1, 2, 4, ... seconds. */
  function BackoffSchedule(n: nat): (r: seq<nat>)
    ensures |r| == n
    ensures forall i :: 0 <= i < n ==> r[i] == Pow2(i)
  {
    if n == 0 then [] else BackoffSchedule(n - 1) + [Pow2(n - 1)]
  }

  /** Retrying the step: `step(a)` is what attempt `a` (from 1) yields. The
      attempts stop at the first success or after `maxRetries`; between two
      attempts it waits 2^(a-1) seconds after the failed attempt a, and it
      never waits after the last attempt. */
  method ExecuteWithRetry<T, E>(step: nat -> Result<T, E>, maxRetries: int)
    returns (outcome: RetryOutcome<T, E>, attempts: nat, waits: seq<nat>)
    ensures maxRetries < 1 ==> outcome == RaisedNone && attempts == 0 && waits == []
    ensures maxRetries >= 1 ==> 1 <= attempts <= maxRetries
    ensures forall a :: 1 <= a < attempts ==> step(a).Failure?
    ensures outcome.Succeeded? ==> step(attempts) == Success(outcome.value)
    ensures outcome.LastError? ==> attempts == maxRetries && step(attempts) == Failure(outcome.error)
    ensures outcome.Succeeded? <==> exists a :: 1 <= a <= maxRetries && step(a).Success?
    ensures waits == BackoffSchedule(if attempts == 0 then 0 else attempts - 1)
  {
    if maxRetries < 1 {
      return RaisedNone, 0, [];
    }
    attempts := 0;
    waits := [];
    while true
      invariant 0 <= attempts < maxRetries
      invariant forall a :: 1 <= a <= attempts ==> step(a).Failure?
      invariant waits == BackoffSchedule(attempts)
      decreases maxRetries - attempts
    {
      attempts := attempts + 1;
      var result := step(attempts);
      if result.Success? {
        outcome := Succeeded(result.value);
        assert waits == BackoffSchedule(attempts - 1);
        return;
      }
      if attempts < maxRetries {
        waits := waits + [Pow2(attempts - 1)];
      } else {
        outcome := LastError(result.error);
        assert waits == BackoffSchedule(attempts - 1);
        return;
      }
    }
  }

  /** The longest total wait: with n attempts the waits add up to
      2^(n-1) - 1 seconds. */
  lemma {:induction false} BackoffTotal(n: nat)
    ensures Total(BackoffSchedule(n)) == Pow2(n) - 1
  {
    if n > 0 {
      BackoffTotal(n - 1);
      TotalAppend(BackoffSchedule(n - 1), Pow2(n - 1));
    }
  }

  lemma {:induction false} TotalAppend(waits: seq<nat>, w: nat)
    ensures Total(waits + [w]) == Total(waits) + w
  {
    if waits != [] {
      assert (waits + [w])[1..] == waits[1..] + [w];
      TotalAppend(waits[1..], w);
    }
  }

  // ---------------------------------------------------------------------------
  // The step checks
  // ---------------------------------------------------------------------------

  /** Why a step (or the assembly) raised. Messages are kept only by kind. */
  datatype StepError =
    | TypeFault                        // a subscript, `in` or `.get` on a value of the wrong type
    | MissingFields(fields: seq<string>)
    | MissingWorldSetting
    | BadCount(field: string)
    | EmptyList(field: string)
    | MissingData(fields: seq<string>)

  /** The shared state of the steps. */
  type State = map<string, Json>

  /** Python's `key in value` on a parsed value: membership of the key in an
      object, of the string in an array, of the substring in a string; None
      when `in` raises (numbers, booleans, null). */
  function PyContains(value: Json, key: string): (r: Option<bool>)
    ensures r.None? <==> !(value.JObj? || value.JArr? || value.JStr?)
    ensures value.JObj? ==> r == Some(Get(value.members, key).Some?)
  {
    match value
    case JObj(ms) => Some(Get(ms, key).Some?)
    case JArr(items) => Some(JStr(key) in items)
    case JStr(t) => Some(Contains(t, key))
    case _ => None
  }

  /** A value that contains a non-empty key is itself non-empty. */
  lemma ContainingIsTruthy(value: Json, key: string)
    requires key != [] && PyContains(value, key) == Some(true)
    ensures Truthy(value)
  {
    if value.JStr? {
      var i :| 0 <= i <= |value.text| - |key| && OccursAt(value.text, key, i);
    } else if value.JObj? {
      assert value.members != [];
    }
  }

  /** Python's `value.get(key, default)` on an object. */
  function GetOr(ms: seq<Member>, key: string, default: Json): (r: Json)
    ensures Get(ms, key).Some? ==> r == Get(ms, key).value
    ensures Get(ms, key).None? ==> r == default
  {
    if Get(ms, key).Some? then Get(ms, key).value else default
  }

  /** The fields of `fields`, in order, that a container lacks. */
  function Lacking(value: Json, fields: seq<string>): (r: seq<string>)
    requires value.JObj? || value.JArr? || value.JStr?
    ensures forall f :: f in r <==> f in fields && PyContains(value, f) == Some(false)
    ensures |r| <= |fields|
  {
    if fields == [] then []
    else (if PyContains(value, fields[0]) == Some(false) then [fields[0]] else []) + Lacking(value, fields[1..])
  }

  /** A container that lacks none of the fields contains each of them. */
  lemma LackingNone(value: Json, fields: seq<string>, i: int)
    requires value.JObj? || value.JArr? || value.JStr?
    requires Lacking(value, fields) == [] && 0 <= i < |fields|
    ensures PyContains(value, fields[i]) == Some(true)
  {
    assert fields[i] in fields;
  }

  const BasicInfoFields: seq<string> := ["title", "genre", "tone"]

  /** Step 1: the reply must contain a title, a genre and a tone; it becomes
      `basic_info`. The log line after the check calls `data.get`, so a list
      or string that passes the membership test still fails. */
  function Step1(state: State, data: Json): (r: Result<State, StepError>)
    ensures r.Success? <==> data.JObj? && forall f :: f in BasicInfoFields ==> Get(data.members, f).Some?
    ensures r.Success? ==> r.value == state["basic_info" := data] && Truthy(data)
    ensures (data.JObj? || data.JArr? || data.JStr?) && Lacking(data, BasicInfoFields) != [] ==>
              r == Failure(MissingFields(Lacking(data, BasicInfoFields)))
    ensures !data.JObj? && (!(data.JArr? || data.JStr?) || Lacking(data, BasicInfoFields) == []) ==>
              r == Failure(TypeFault)
  {
    if !(data.JObj? || data.JArr? || data.JStr?) then Failure(TypeFault)
    else if Lacking(data, BasicInfoFields) != [] then
      assert Lacking(data, BasicInfoFields)[0] in Lacking(data, BasicInfoFields);
      Failure(MissingFields(Lacking(data, BasicInfoFields)))
    else if !data.JObj? then Failure(TypeFault)
    else
      assert BasicInfoFields[0] == "title";
      ContainingIsTruthy(data, "title");
      assert forall f :: f in BasicInfoFields ==> PyContains(data, f) == Some(true);
      Success(state["basic_info" := data])
  }

  const SynopsisFields: seq<string> :=
    ["story_background", "protagonist_start", "core_conflict", "development_expectation", "structure_plan"]

  const SynopsisHeadings: seq<string> := ["【故事背景】", "【主角起点】", "【核心冲突】", "【发展预期】", "【结构规划】"]

  /** The section of one synopsis field: its heading, a newline, its text. */
  function Sections(texts: seq<string>): (r: seq<string>)
    requires |texts| == 5
    ensures |r| == 5 && forall i :: 0 <= i < 5 ==> r[i] == SynopsisHeadings[i] + "\n" + texts[i]
  {
    seq(5, i requires 0 <= i < 5 => SynopsisHeadings[i] + "\n" + texts[i])
  }

  /** The assembled synopsis, written out as the source's f-string: the
      five sections in the fixed order, separated by a blank line. */
  function Synopsis(texts: seq<string>): (r: string)
    requires |texts| == 5
    ensures r == Join(Sections(texts), "\n\n")
  {
    var sep := "\n\n";
    var s := Sections(texts);
    assert Join(s[4..], sep) == s[4];
    assert Join(s[3..], sep) == s[3] + sep + Join(s[4..], sep) by { assert s[3..][1..] == s[4..]; }
    assert Join(s[2..], sep) == s[2] + sep + Join(s[3..], sep) by { assert s[2..][1..] == s[3..]; }
    assert Join(s[1..], sep) == s[1] + sep + Join(s[2..], sep) by { assert s[1..][1..] == s[2..]; }
    s[0] + sep + (s[1] + sep + (s[2] + sep + (s[3] + sep + s[4])))
  }

  /** The texts of the five synopsis fields, as `str` shows them. */
  function SynopsisTexts(ms: seq<Member>, pyStr: Json -> string): (r: seq<string>)
    requires forall f :: f in SynopsisFields ==> Get(ms, f).Some?
    ensures |r| == 5
  {
    seq(5, i requires 0 <= i < 5 => pyStr(Get(ms, SynopsisFields[i]).value))
  }

  /** Step 2: the reply must carry the five synopsis fields; the assembled
      synopsis becomes `full_synopsis`. A container that lacks none of them
      but is not an object fails at the first subscript. */
  function Step2(state: State, data: Json, pyStr: Json -> string): (r: Result<State, StepError>)
    ensures r.Success? <==> data.JObj? && forall f :: f in SynopsisFields ==> Get(data.members, f).Some?
    ensures (data.JObj? || data.JArr? || data.JStr?) && Lacking(data, SynopsisFields) != []
            ==> r == Failure(MissingFields(Lacking(data, SynopsisFields)))
    ensures r.Success? ==> r.value == state["full_synopsis" := JStr(Synopsis(SynopsisTexts(data.members, pyStr)))]
                           && Truthy(JStr(Synopsis(SynopsisTexts(data.members, pyStr))))
  {
    if !(data.JObj? || data.JArr? || data.JStr?) then Failure(TypeFault)
    else if Lacking(data, SynopsisFields) != [] then
      assert Lacking(data, SynopsisFields)[0] in Lacking(data, SynopsisFields);
      Failure(MissingFields(Lacking(data, SynopsisFields)))
    else if !data.JObj? then Failure(TypeFault)
    else
      assert forall f :: f in SynopsisFields ==> PyContains(data, f) == Some(true);
      Success(state["full_synopsis" := JStr(Synopsis(SynopsisTexts(data.members, pyStr)))])
  }

  const WorldFields: seq<string> := ["core_rules", "key_locations", "factions"]

  /** A list whose length lies in [lo, hi]. */
  predicate ListOfLength(v: Json, lo: int, hi: int) {
    v.JArr? && lo <= |v.items| <= hi
  }

  /** A world setting step 3 accepts: an object with 3 core rules, 3 to 4
      key locations and 2 to 3 factions, each a list. */
  predicate ValidWorld(ws: Json) {
    ws.JObj?
    && Get(ws.members, "core_rules").Some? && ListOfLength(Get(ws.members, "core_rules").value, 3, 3)
    && Get(ws.members, "key_locations").Some? && ListOfLength(Get(ws.members, "key_locations").value, 3, 4)
    && Get(ws.members, "factions").Some? && ListOfLength(Get(ws.members, "factions").value, 2, 3)
  }

  /** The checks on `world_setting`: the three fields must be present (the
      missing ones are reported in order), then each count is checked. */
  function CheckWorld(ws: Json): (r: Option<StepError>)
    ensures r.None? <==> ValidWorld(ws)
    ensures ws.JObj? && Lacking(ws, WorldFields) != [] ==> r == Some(MissingFields(Lacking(ws, WorldFields)))
    ensures ws.JObj? && Lacking(ws, WorldFields) == [] && !ListOfLength(Get(ws.members, "core_rules").value, 3, 3)
            ==> r == CountProblem(Get(ws.members, "core_rules").value, 3, 3, "core_rules")
  {
    if !(ws.JObj? || ws.JArr? || ws.JStr?) then Some(TypeFault)
    else if Lacking(ws, WorldFields) != [] then
      assert Lacking(ws, WorldFields)[0] in Lacking(ws, WorldFields);
      Some(MissingFields(Lacking(ws, WorldFields)))
    else if !ws.JObj? then Some(TypeFault)
    else
      LackingNone(ws, WorldFields, 0);
      LackingNone(ws, WorldFields, 1);
      LackingNone(ws, WorldFields, 2);
      var rules := CountProblem(Get(ws.members, "core_rules").value, 3, 3, "core_rules");
      var locations := CountProblem(Get(ws.members, "key_locations").value, 3, 4, "key_locations");
      var factions := CountProblem(Get(ws.members, "factions").value, 2, 3, "factions");
      if rules.Some? then rules else if locations.Some? then locations else factions
  }

  /** One length check of step 3: a list of the right length passes; any
      other value fails with the count message, unless it has no length,
      in which case formatting the message (`len` of the value) fails as
      `len` does. */
  function CountProblem(v: Json, lo: int, hi: int, field: string): (r: Option<StepError>)
    ensures r.None? <==> ListOfLength(v, lo, hi)
    ensures r.Some? && HasLength(v) ==> r == Some(BadCount(field))
    ensures !HasLength(v) ==> r == Some(TypeFault)
  {
    if ListOfLength(v, lo, hi) then None
    else if HasLength(v) then Some(BadCount(field))
    else Some(TypeFault)
  }

  /** Step 3: the reply must hold a valid `world_setting`, which is stored
      under that name. */
  function Step3(state: State, data: Json): (r: Result<State, StepError>)
    ensures r.Success? <==> data.JObj? && Get(data.members, "world_setting").Some?
                            && ValidWorld(Get(data.members, "world_setting").value)
    ensures r.Success? ==> r.value == state["world_setting" := Get(data.members, "world_setting").value]
                           && Truthy(Get(data.members, "world_setting").value)
    ensures data.JObj? && Get(data.members, "world_setting").None? ==> r == Failure(MissingWorldSetting)
  {
    if !(data.JObj? || data.JArr? || data.JStr?) then Failure(TypeFault)
    else if PyContains(data, "world_setting") == Some(false) then Failure(MissingWorldSetting)
    else if !data.JObj? then Failure(TypeFault)
    else
      var ws := Get(data.members, "world_setting").value;
      var problem := CheckWorld(ws);
      if problem.Some? then Failure(problem.value) else Success(state["world_setting" := ws])
  }

  /** Steps 4 and 6: the named list (default empty) must be a non-empty
      list; it is stored under the same name. */
  function NonEmptyListStep(state: State, data: Json, field: string): (r: Result<State, StepError>)
    ensures r.Success? <==> data.JObj? && GetOr(data.members, field, JArr([])).JArr?
                            && GetOr(data.members, field, JArr([])).items != []
    ensures r.Success? ==> r.value == state[field := GetOr(data.members, field, JArr([]))]
                           && Truthy(GetOr(data.members, field, JArr([])))
    ensures data.JObj? && Get(data.members, field).None? ==> r == Failure(EmptyList(field))
  {
    if !data.JObj? then Failure(TypeFault)
    else
      var v := GetOr(data.members, field, JArr([]));
      if !v.JArr? || v.items == [] then Failure(EmptyList(field))
      else Success(state[field := v])
  }

  function Step4(state: State, data: Json): (r: Result<State, StepError>) {
    NonEmptyListStep(state, data, "characters")
  }

  /** Python's `len(value)` succeeds: strings, lists and objects have a
      length; numbers, booleans and null raise. */
  predicate HasLength(value: Json) {
    value.JStr? || value.JArr? || value.JObj?
  }

  /** Step 5: whatever the reply holds under `relationships` (default empty)
      is stored, as long as it has a length for the log line; its contents
      are not checked. */
  function Step5(state: State, data: Json): (r: Result<State, StepError>)
    ensures r.Success? <==> data.JObj? && HasLength(GetOr(data.members, "relationships", JArr([])))
    ensures r.Success? ==> r.value == state["relationships" := GetOr(data.members, "relationships", JArr([]))]
    ensures data.JObj? && Get(data.members, "relationships").None? ==> r.Success?
    ensures r.Failure? ==> r.error == TypeFault
  {
    if !data.JObj? then Failure(TypeFault)
    else
      var rels := GetOr(data.members, "relationships", JArr([]));
      if !HasLength(rels) then Failure(TypeFault)
      else Success(state["relationships" := rels])
  }

  function Step6(state: State, data: Json): (r: Result<State, StepError>) {
    NonEmptyListStep(state, data, "chapter_outline")
  }

  // ---------------------------------------------------------------------------
  // Assembly
  // ---------------------------------------------------------------------------

  const RequiredData: seq<string> :=
    ["basic_info", "full_synopsis", "world_setting", "characters", "relationships", "chapter_outline"]

  /** The fields after `basic_info`, which override its same-named keys. */
  const LaterFields: set<string> :=
    {"full_synopsis", "world_setting", "characters", "relationships", "chapter_outline"}

  /** The required fields, in order, that are absent or falsy. */
  function MissingRequired(state: State, fields: seq<string>): (r: seq<string>)
    ensures forall f :: f in r <==> f in fields && (f !in state || !Truthy(state[f]))
    ensures r == [] <==> forall i :: 0 <= i < |fields| ==> fields[i] in state && Truthy(state[fields[i]])
  {
    if fields == [] then []
    else (if fields[0] !in state || !Truthy(state[fields[0]]) then [fields[0]] else [])
         + MissingRequired(state, fields[1..])
  }

  /** A dictionary built from members in order: a later member with the same
      key wins, as in a Python dict display. */
  function ObjectMap(ms: seq<Member>): (r: map<string, Json>)
    ensures forall k :: k in r <==> exists i :: 0 <= i < |ms| && ms[i].key == k
  {
    if ms == [] then map[]
    else
      var last := ms[|ms| - 1];
      var r := ObjectMap(ms[..|ms| - 1]);
      assert forall i :: 0 <= i < |ms| - 1 ==> ms[..|ms| - 1][i] == ms[i];
      r[last.key := last.value]
  }

  /** `{**base, later...}`: the later fields replace same-named keys of the
      base, every other key of the base is kept. */
  function Overlay(base: map<string, Json>, state: State): (r: map<string, Json>)
    requires LaterFields <= state.Keys
    ensures r.Keys == base.Keys + LaterFields
    ensures forall k :: k in LaterFields ==> r[k] == state[k]
    ensures forall k :: k in r && k !in LaterFields ==> r[k] == base[k]
  {
    map k | k in base.Keys + LaterFields :: if k in LaterFields then state[k] else base[k]
  }

  /** Step 7: every required field must be present and truthy, and
      `basic_info` must be an object; the blueprint is `basic_info` with the
      later fields laid over it. */
  function Assemble(state: State): (r: Result<map<string, Json>, StepError>)
    ensures MissingRequired(state, RequiredData) != [] ==> r == Failure(MissingData(MissingRequired(state, RequiredData)))
    ensures r.Success? <==> MissingRequired(state, RequiredData) == [] && state["basic_info"].JObj?
    ensures r.Success? ==> r.value == Overlay(ObjectMap(state["basic_info"].members), state)
  {
    var missing := MissingRequired(state, RequiredData);
    if missing != [] then Failure(MissingData(missing))
    else
      assert forall i :: 0 <= i < 6 ==> RequiredData[i] in state;
      var basic := state["basic_info"];
      if !basic.JObj? then Failure(TypeFault)
      else Success(Overlay(ObjectMap(basic.members), state))
  }

  /** Steps 1 to 6 in order, each on the state the previous one left, each
      with its parsed reply. */
  function RunSteps(state: State, replies: seq<Json>, pyStr: Json -> string): (r: Result<State, StepError>)
    requires |replies| == 6
  {
    var s1 :- Step1(state, replies[0]);
    var s2 :- Step2(s1, replies[1], pyStr);
    var s3 :- Step3(s2, replies[2]);
    var s4 :- Step4(s3, replies[3]);
    var s5 :- Step5(s4, replies[4]);
    Step6(s5, replies[5])
  }

  /** The state keys the steps write differ from one another. */
  lemma KeyNamesDiffer()
    ensures "basic_info" != "full_synopsis" && "basic_info" != "world_setting" && "basic_info" != "characters"
            && "basic_info" != "relationships" && "basic_info" != "chapter_outline"
    ensures "full_synopsis" != "world_setting" && "full_synopsis" != "characters"
            && "full_synopsis" != "relationships" && "full_synopsis" != "chapter_outline"
    ensures "world_setting" != "characters" && "world_setting" != "relationships" && "world_setting" != "chapter_outline"
    ensures "characters" != "relationships" && "characters" != "chapter_outline"
    ensures "relationships" != "chapter_outline"
  {
    assert "basic_info"[0] == 'b' && "full_synopsis"[0] == 'f' && "world_setting"[0] == 'w';
    assert "characters"[0] == 'c' && "relationships"[0] == 'r' && "chapter_outline"[0] == 'c';
  }

  /** A state holding the six fields, the relationships possibly falsy and
      the others truthy. */
  predicate Filled(s: State) {
    "basic_info" in s && Truthy(s["basic_info"])
    && "full_synopsis" in s && Truthy(s["full_synopsis"])
    && "world_setting" in s && Truthy(s["world_setting"])
    && "characters" in s && Truthy(s["characters"])
    && "relationships" in s
    && "chapter_outline" in s && Truthy(s["chapter_outline"])
  }

  /** What six passing steps leave in the state: the first reply as the
      basic information, the other fields truthy except possibly the
      relationships, which are whatever the fifth reply held. */
  lemma RunStepsStores(state: State, replies: seq<Json>, pyStr: Json -> string)
    requires |replies| == 6
    ensures RunSteps(state, replies, pyStr).Success? ==>
            var s := RunSteps(state, replies, pyStr).value;
            Filled(s) && s["basic_info"] == replies[0]
            && replies[4].JObj? && s["relationships"] == GetOr(replies[4].members, "relationships", JArr([]))
  {
    if RunSteps(state, replies, pyStr).Success? {
      var s1 := Step1(state, replies[0]).value;
      var s2 := Step2(s1, replies[1], pyStr).value;
      var s3 := Step3(s2, replies[2]).value;
      var s4 := Step4(s3, replies[3]).value;
      var s5 := Step5(s4, replies[4]).value;
      var s6 := Step6(s5, replies[5]).value;
      assert RunSteps(state, replies, pyStr).value == s6;
      KeyNamesDiffer();
      assert "basic_info" in s1 && s1["basic_info"] == replies[0] && Truthy(replies[0]);
      assert exists v :: s2 == s1["full_synopsis" := v] && Truthy(v);
      var v2 :| s2 == s1["full_synopsis" := v2] && Truthy(v2);
      MapUpdateKeeps(s1, "full_synopsis", v2, "basic_info");
      assert exists v :: s3 == s2["world_setting" := v] && Truthy(v);
      var v3 :| s3 == s2["world_setting" := v3] && Truthy(v3);
      MapUpdateKeeps(s2, "world_setting", v3, "basic_info");
      MapUpdateKeeps(s2, "world_setting", v3, "full_synopsis");
      assert exists v :: s4 == s3["characters" := v] && Truthy(v);
      var v4 :| s4 == s3["characters" := v4] && Truthy(v4);
      MapUpdateKeeps(s3, "characters", v4, "basic_info");
      MapUpdateKeeps(s3, "characters", v4, "full_synopsis");
      MapUpdateKeeps(s3, "characters", v4, "world_setting");
      var v5 := GetOr(replies[4].members, "relationships", JArr([]));
      assert s5 == s4["relationships" := v5];
      MapUpdateKeeps(s4, "relationships", v5, "basic_info");
      MapUpdateKeeps(s4, "relationships", v5, "full_synopsis");
      MapUpdateKeeps(s4, "relationships", v5, "world_setting");
      MapUpdateKeeps(s4, "relationships", v5, "characters");
      assert exists v :: s6 == s5["chapter_outline" := v] && Truthy(v);
      var v6 :| s6 == s5["chapter_outline" := v6] && Truthy(v6);
      MapUpdateKeeps(s5, "chapter_outline", v6, "basic_info");
      MapUpdateKeeps(s5, "chapter_outline", v6, "full_synopsis");
      MapUpdateKeeps(s5, "chapter_outline", v6, "world_setting");
      MapUpdateKeeps(s5, "chapter_outline", v6, "characters");
      MapUpdateKeeps(s5, "chapter_outline", v6, "relationships");
    }
  }

  /** Writing one key leaves another key's entry as it was. */
  lemma MapUpdateKeeps(m: State, k: string, v: Json, other: string)
    requires other in m && other != k
    ensures other in m[k := v] && m[k := v][other] == m[other]
  {
  }

  /** When the six steps pass, the first reply was an object and the model
      gave a non-empty relationship list, the blueprint assembles and
      carries what the steps stored. */
  lemma StepsFeedAssembly(state: State, replies: seq<Json>, pyStr: Json -> string)
    requires |replies| == 6
    requires replies[0].JObj?
    requires replies[4].JObj? && Truthy(GetOr(replies[4].members, "relationships", JArr([])))
    ensures RunSteps(state, replies, pyStr).Success? ==>
            Assemble(RunSteps(state, replies, pyStr).value).Success?
            && Assemble(RunSteps(state, replies, pyStr).value).value["relationships"]
               == GetOr(replies[4].members, "relationships", JArr([]))
  {
    if RunSteps(state, replies, pyStr).Success? {
      RunStepsStores(state, replies, pyStr);
      var s := RunSteps(state, replies, pyStr).value;
      NothingMissing(s);
    }
  }

  /** A state holding all six fields, each truthy, lacks none of them. */
  lemma NothingMissing(s: State)
    requires Filled(s) && Truthy(s["relationships"])
    ensures MissingRequired(s, RequiredData) == []
  {
    forall i | 0 <= i < 6
      ensures RequiredData[i] in s && Truthy(s[RequiredData[i]])
    {
      assert i == 0 || i == 1 || i == 2 || i == 3 || i == 4 || i == 5;
    }
  }

  /** A reply without relationships passes step 5, but the assembly then
      rejects the state on every attempt, naming only the relationships. */
  lemma EmptyRelationshipsRejected(state: State, replies: seq<Json>, pyStr: Json -> string)
    requires |replies| == 6
    requires replies[4].JObj? && Get(replies[4].members, "relationships").None?
    ensures RunSteps(state, replies, pyStr).Success? ==>
            var r := Assemble(RunSteps(state, replies, pyStr).value);
            r.Failure? && r.error.MissingData? && "relationships" in r.error.fields
            && forall f :: f in r.error.fields ==> f == "relationships"
  {
    if RunSteps(state, replies, pyStr).Success? {
      RunStepsStores(state, replies, pyStr);
      AbsentRelationshipsRejected(RunSteps(state, replies, pyStr).value, replies[4]);
    }
  }

  /** A filled state that stored the default of a reply without
      relationships is rejected for the relationships alone. */
  lemma AbsentRelationshipsRejected(s: State, reply: Json)
    requires Filled(s) && reply.JObj? && Get(reply.members, "relationships").None?
    requires s["relationships"] == GetOr(reply.members, "relationships", JArr([]))
    ensures var r := Assemble(s);
            r.Failure? && r.error.MissingData? && "relationships" in r.error.fields
            && forall f :: f in r.error.fields ==> f == "relationships"
  {
    assert s["relationships"] == JArr([]);
    OnlyRelationshipsMissing(s);
  }

  /** A filled state whose relationship list is falsy misses only that, and
      the assembly rejects it for that alone. */
  lemma OnlyRelationshipsMissing(s: State)
    requires Filled(s) && !Truthy(s["relationships"])
    ensures "relationships" in MissingRequired(s, RequiredData)
    ensures forall f :: f in MissingRequired(s, RequiredData) ==> f == "relationships"
    ensures var r := Assemble(s);
            r.Failure? && r.error.MissingData? && "relationships" in r.error.fields
            && forall f :: f in r.error.fields ==> f == "relationships"
  {
    assert RequiredData[4] == "relationships";
    forall f | f in MissingRequired(s, RequiredData)
      ensures f == "relationships"
    {
      var i :| 0 <= i < 6 && RequiredData[i] == f;
    }
  }

  // ---------------------------------------------------------------------------
  // Saved rows
  // ---------------------------------------------------------------------------

  /** A saved relationship row. */
  datatype RelationshipRow = RelationshipRow(from: Json, to: Json, description: Option<Json>, position: Json)

  /** Python's `a or b` on two lookups: the first when truthy, else the
      second (None when absent). */
  function OrElse(a: Option<Json>, b: Option<Json>): (r: Option<Json>)
    ensures a.Some? && Truthy(a.value) ==> r == a
    ensures !(a.Some? && Truthy(a.value)) ==> r == b
  {
    if a.Some? && Truthy(a.value) then a else b
  }

  /** The endpoint of a relationship: `character_x or x`. */
  function Endpoint(ms: seq<Member>, long: string, short: string): Option<Json> {
    OrElse(Get(ms, long), Get(ms, short))
  }

  /** A relationship with both endpoints truthy. */
  predicate Complete(rel: Json)
    requires rel.JObj?
  {
    var f := Endpoint(rel.members, "character_from", "from");
    var t := Endpoint(rel.members, "character_to", "to");
    f.Some? && Truthy(f.value) && t.Some? && Truthy(t.value)
  }

  /** The relationship rows of `_save_blueprint_to_db`: one per complete
      relationship, in order; the others are skipped. A relationship that is
      not an object makes the whole save fail. */
  function RelationshipRows(rels: seq<Json>): (r: Option<seq<RelationshipRow>>)
    ensures r.Some? <==> forall i :: 0 <= i < |rels| ==> rels[i].JObj?
    ensures r.Some? ==> |r.value| <= |rels|
    ensures r.Some? ==> forall j :: 0 <= j < |r.value| ==> Truthy(r.value[j].from) && Truthy(r.value[j].to)
  {
    if rels == [] then Some([])
    else if !rels[0].JObj? then None
    else
      var rest := RelationshipRows(rels[1..]);
      assert forall i :: 0 < i < |rels| ==> rels[i] == rels[1..][i - 1];
      if rest.None? then None
      else if Complete(rels[0]) then
        var ms := rels[0].members;
        Some([RelationshipRow(Endpoint(ms, "character_from", "from").value, Endpoint(ms, "character_to", "to").value,
                              Get(ms, "description"), GetOr(ms, "position", JNum(0)))] + rest.value)
      else rest
  }

  /** One relationship: an incomplete object gives no row; a complete one
      gives the row holding its endpoints, its description and its position
      (0 when absent). */
  lemma RelationshipRowsOne(rel: Json)
    requires rel.JObj?
    ensures !Complete(rel) ==> RelationshipRows([rel]) == Some([])
    ensures Complete(rel) ==>
              var ms := rel.members;
              RelationshipRows([rel])
              == Some([RelationshipRow(Endpoint(ms, "character_from", "from").value, Endpoint(ms, "character_to", "to").value,
                                       Get(ms, "description"), GetOr(ms, "position", JNum(0)))])
  {
    assert [rel][1..] == [];
    assert RelationshipRows([rel][1..]) == Some([]);
    if Complete(rel) {
      var ms := rel.members;
      var row := RelationshipRow(Endpoint(ms, "character_from", "from").value, Endpoint(ms, "character_to", "to").value,
                                 Get(ms, "description"), GetOr(ms, "position", JNum(0)));
      assert [row] + [] == [row];
    }
  }

  /** The rows one relationship object contributes. */
  function OwnRows(rel: Json): seq<RelationshipRow>
    requires rel.JObj?
  {
    var ms := rel.members;
    if Complete(rel) then
      [RelationshipRow(Endpoint(ms, "character_from", "from").value, Endpoint(ms, "character_to", "to").value,
                       Get(ms, "description"), GetOr(ms, "position", JNum(0)))]
    else []
  }

  lemma RelationshipRowsCons(x: Json, rest: seq<Json>)
    ensures RelationshipRows([x] + rest)
            == if !x.JObj? || RelationshipRows(rest).None? then None
               else Some(OwnRows(x) + RelationshipRows(rest).value)
  {
    assert ([x] + rest)[0] == x;
    assert ([x] + rest)[1..] == rest;
    if x.JObj? && RelationshipRows(rest).Some? && !Complete(x) {
      assert [] + RelationshipRows(rest).value == RelationshipRows(rest).value;
    }
  }

  /** Rows keep the order of the relationships: the rows of a concatenation
      are the rows of its parts, concatenated, and a non-object in either
      part fails the whole save. */
  lemma {:induction false} RelationshipRowsConcat(a: seq<Json>, b: seq<Json>)
    ensures RelationshipRows(a + b)
            == if RelationshipRows(a).Some? && RelationshipRows(b).Some?
               then Some(RelationshipRows(a).value + RelationshipRows(b).value) else None
    decreases |a|
  {
    if a == [] {
      assert a + b == b;
      if RelationshipRows(b).Some? {
        assert [] + RelationshipRows(b).value == RelationshipRows(b).value;
      }
    } else {
      var t := a[1..];
      assert a == [a[0]] + t;
      assert a + b == [a[0]] + (t + b);
      RelationshipRowsCons(a[0], t + b);
      RelationshipRowsCons(a[0], t);
      RelationshipRowsConcat(t, b);
      OptionalConcat(a[0].JObj?, if a[0].JObj? then OwnRows(a[0]) else [], RelationshipRows(t), RelationshipRows(b),
                     RelationshipRows(t + b), RelationshipRows(a), RelationshipRows(a + b));
    }
  }

  /** The step of the concatenation proof, on the answers alone: rows put in
      front of two concatenated answers are rows put in front of the first. */
  lemma OptionalConcat(ok: bool, o: seq<RelationshipRow>, tail: Option<seq<RelationshipRow>>,
                       rb: Option<seq<RelationshipRow>>, tb: Option<seq<RelationshipRow>>,
                       ra: Option<seq<RelationshipRow>>, rab: Option<seq<RelationshipRow>>)
    requires tb == (if tail.Some? && rb.Some? then Some(tail.value + rb.value) else None)
    requires ra == (if !ok || tail.None? then None else Some(o + tail.value))
    requires rab == (if !ok || tb.None? then None else Some(o + tb.value))
    ensures rab == (if ra.Some? && rb.Some? then Some(ra.value + rb.value) else None)
  {
    if ok && tail.Some? && rb.Some? {
      assert o + (tail.value + rb.value) == (o + tail.value) + rb.value;
    }
  }

  /** The number of rows is the number of complete relationships. */
  function CountComplete(rels: seq<Json>): nat
    requires forall i :: 0 <= i < |rels| ==> rels[i].JObj?
  {
    if rels == [] then 0 else (if Complete(rels[0]) then 1 else 0) + CountComplete(rels[1..])
  }

  lemma {:induction false} RelationshipRowsCount(rels: seq<Json>)
    requires forall i :: 0 <= i < |rels| ==> rels[i].JObj?
    ensures RelationshipRows(rels).Some? && |RelationshipRows(rels).value| == CountComplete(rels)
  {
    if rels != [] {
      RelationshipRowsCount(rels[1..]);
    }
  }

  /** `character_from` wins over `from` when it is truthy. */
  lemma LongKeyWins(ms: seq<Member>, v: Json)
    requires Get(ms, "character_from") == Some(v) && Truthy(v)
    ensures Endpoint(ms, "character_from", "from") == Some(v)
  {
  }

  /** A saved chapter outline row. */
  datatype OutlineRow = OutlineRow(chapterNumber: int, title: Option<Json>, summary: Option<Json>)

  /** The outline rows: the i-th outline (from 0) becomes chapter i + 1. */
  function OutlineRows(outlines: seq<Json>): (r: Option<seq<OutlineRow>>)
    ensures r.Some? <==> forall i :: 0 <= i < |outlines| ==> outlines[i].JObj?
    ensures r.Some? ==> |r.value| == |outlines|
    ensures r.Some? ==> forall i :: 0 <= i < |outlines| ==>
              r.value[i] == OutlineRow(i + 1, Get(outlines[i].members, "title"), Get(outlines[i].members, "summary"))
  {
    if exists i :: 0 <= i < |outlines| && !outlines[i].JObj? then None
    else Some(seq(|outlines|, i requires 0 <= i < |outlines| =>
                OutlineRow(i + 1, Get(outlines[i].members, "title"), Get(outlines[i].members, "summary"))))
  }

  /** The saved chapter numbers are exactly 1..n, each once. */
  lemma OutlineNumbersContiguous(outlines: seq<Json>, n: int)
    requires OutlineRows(outlines).Some?
    ensures (exists i :: 0 <= i < |outlines| && OutlineRows(outlines).value[i].chapterNumber == n) <==> 1 <= n <= |outlines|
    ensures forall i, j :: 0 <= i < j < |outlines| ==>
              OutlineRows(outlines).value[i].chapterNumber < OutlineRows(outlines).value[j].chapterNumber
  {
    if 1 <= n <= |outlines| {
      assert OutlineRows(outlines).value[n - 1].chapterNumber == n;
    }
  }
}

=== FILE: bootstrap.dfy ===
/** Database initialisation after the tables exist: the default
    administrator, the configuration defaults copied into the database, and
    the prompt files loaded once. */
module Bootstrap {
  import opened Wrappers
  import opened Stores
  import opened Users
  import opened Auth
  import opened ConfigDefaults

  // ---------------------------------------------------------------------------
  // Default administrator
  // ---------------------------------------------------------------------------

  predicate HasAdmin(users: seq<User>) {
    exists i :: 0 <= i < |users| && users[i].isAdmin
  }

  /** Inserting the account would break a unique constraint (username or
      email), so the commit fails and is rolled back. */
  predicate Clashes(users: seq<User>, username: string, email: Option<string>) {
    exists i :: 0 <= i < |users| && (users[i].username == username || (email.Some? && users[i].email == email))
  }

  /** The default administrator is added only when there is no
      administrator at all; an insert that clashes is rolled back and leaves
      the users as they were. `hash` hashes the default password and `id`
      is the id the database assigns. */
  function EnsureAdmin(users: seq<User>, d: AdminDefaults, email: Option<string>, hash: string -> string, id: int)
    : (r: seq<User>)
    ensures HasAdmin(users) ==> r == users
    ensures r == users || r == users + [User(id, d.username, email, hash(d.password), None, true, true)]
    ensures !HasAdmin(users) && !Clashes(users, d.username, email) ==> HasAdmin(r) && |r| == |users| + 1
  {
    if HasAdmin(users) || Clashes(users, d.username, email) then users
    else
      var admin := User(id, d.username, email, hash(d.password), None, true, true);
      assert (users + [admin])[|users|] == admin;
      users + [admin]
  }

  /** With a faithful hash, the administrator created at start-up is asked
      to change the default password. */
  lemma NewAdminMustChangePassword(users: seq<User>, d: AdminDefaults, email: Option<string>,
                                   verify: (string, string) -> bool, hash: string -> string, id: int)
    requires forall p, q :: verify(p, hash(q)) <==> p == q
    requires hash(d.password) != ""
    requires !HasAdmin(users) && !Clashes(users, d.username, email)
    ensures var r := EnsureAdmin(users, d, email, hash, id);
            RequiresPasswordReset(r[|r| - 1], d, verify)
  {
    var r := EnsureAdmin(users, d, email, hash, id);
    assert r[|r| - 1] == User(id, d.username, email, hash(d.password), None, true, true);
  }

  // ---------------------------------------------------------------------------
  // Configuration defaults
  // ---------------------------------------------------------------------------

  /** The keys of the entries that have a value. */
  function ValuedKeys(entries: seq<DefaultEntry>): (r: set<string>)
    ensures forall k :: k in r <==> exists i :: 0 <= i < |entries| && entries[i].key == k && entries[i].value.Some?
  {
    if entries == [] then {}
    else
      var rest := ValuedKeys(entries[1..]);
      assert forall i :: 0 < i < |entries| ==> entries[i] == entries[1..][i - 1];
      (if entries[0].value.Some? then {entries[0].key} else {}) + rest
  }

  /** The value of the first entry for `key` that has one. */
  function FirstValue(entries: seq<DefaultEntry>, key: string): Option<string> {
    if entries == [] then None
    else if entries[0].key == key && entries[0].value.Some? then entries[0].value
    else FirstValue(entries[1..], key)
  }

  /** One pass of the loop: an entry without value is skipped; an existing
      key keeps its value and takes a non-empty description that differs; a
      missing key is inserted with the entry's value and description. */
  function SyncEntry(t: ConfigTable, e: DefaultEntry): (r: ConfigTable)
    ensures r.Keys == t.Keys + (if e.value.Some? then {e.key} else {})
    ensures forall k :: k in t ==> r[k].value == t[k].value
    ensures forall k :: k in t && (k != e.key || e.value.None?) ==> r[k] == t[k]
    ensures e.value.Some? && e.key !in t ==> r[e.key] == ConfigEntry(e.value.value, e.description)
    ensures e.value.Some? && e.description.Some? && e.description.value != "" ==> r[e.key].description == e.description
  {
    if e.value.None? then t
    else if e.key in t then
      if e.description.Some? && e.description.value != "" && t[e.key].description != e.description then
        t[e.key := t[e.key].(description := e.description)]
      else t
    else t[e.key := ConfigEntry(e.value.value, e.description)]
  }

  /** `e` is the only entry with its key. */
  predicate OnlyEntryFor(entries: seq<DefaultEntry>, i: int) {
    0 <= i < |entries| && forall j :: 0 <= j < |entries| && j != i ==> entries[j].key != entries[i].key
  }

  /** The loop over the defaults in `init_db`: exactly the valued keys are
      added, stored values are never overwritten, and keys no valued entry
      names are untouched. */
  function SyncDefaults(t: ConfigTable, entries: seq<DefaultEntry>): (r: ConfigTable)
    ensures r.Keys == t.Keys + ValuedKeys(entries)
    ensures forall k :: k in t ==> r[k].value == t[k].value
    ensures forall k :: k in t && k !in ValuedKeys(entries) ==> r[k] == t[k]
    decreases |entries|
  {
    if entries == [] then t
    else SyncDefaults(SyncEntry(t, entries[0]), entries[1..])
  }

  /** A key the loop inserts takes the first value given for it. */
  lemma {:induction false} InsertedKeyTakesFirstValue(t: ConfigTable, entries: seq<DefaultEntry>, k: string)
    requires k in SyncDefaults(t, entries) && k !in t
    ensures FirstValue(entries, k) == Some(SyncDefaults(t, entries)[k].value)
    decreases |entries|
  {
    var e := entries[0];
    var step := SyncEntry(t, e);
    if e.key == k && e.value.Some? {
      assert step[k].value == e.value.value;
    } else {
      InsertedKeyTakesFirstValue(step, entries[1..], k);
    }
  }

  /** An entry alone with its key and with a description leaves that
      description on the row; when the key was new the row is exactly the
      entry's value and description. */
  lemma {:induction false} OnlyEntryDescriptionKept(t: ConfigTable, entries: seq<DefaultEntry>, i: int)
    requires OnlyEntryFor(entries, i) && entries[i].value.Some?
    ensures entries[i].description.Some? && entries[i].description.value != ""
            ==> SyncDefaults(t, entries)[entries[i].key].description == entries[i].description
    ensures entries[i].key !in t
            ==> SyncDefaults(t, entries)[entries[i].key] == ConfigEntry(entries[i].value.value, entries[i].description)
    decreases |entries|
  {
    var e := entries[0];
    var step := SyncEntry(t, e);
    if i == 0 {
      assert e.key !in ValuedKeys(entries[1..]) by {
        forall j | 0 <= j < |entries[1..]| ensures entries[1..][j].key != e.key {
          assert entries[1..][j] == entries[j + 1];
        }
      }
    } else {
      assert entries[1..][i - 1] == entries[i];
      assert OnlyEntryFor(entries[1..], i - 1) by {
        forall j | 0 <= j < |entries[1..]| && j != i - 1 ensures entries[1..][j].key != entries[i].key {
          assert entries[1..][j] == entries[j + 1];
        }
      }
      assert e.key != entries[i].key;
      OnlyEntryDescriptionKept(step, entries[1..], i - 1);
    }
  }

  /** Entries whose setting is unset never create a row. */
  lemma UnsetDefaultsSkipped(t: ConfigTable, entries: seq<DefaultEntry>, k: string)
    requires k !in t
    requires forall i :: 0 <= i < |entries| && entries[i].key == k ==> entries[i].value.None?
    ensures k !in SyncDefaults(t, entries)
  {
  }

  /** The first valued entry for a key gives its value. */
  lemma {:induction false} FirstValueAt(entries: seq<DefaultEntry>, key: string, i: int)
    requires 0 <= i < |entries| && entries[i].key == key && entries[i].value.Some?
    requires forall j :: 0 <= j < i ==> entries[j].key != key || entries[j].value.None?
    ensures FirstValue(entries, key) == entries[i].value
    decreases i
  {
    if i > 0 {
      assert forall j :: 0 <= j < i - 1 ==> entries[1..][j] == entries[j + 1];
      FirstValueAt(entries[1..], key, i - 1);
    }
  }

  /** On a fresh database the seeded registration switch reads back as the
      setting it was seeded from. */
  lemma {:induction false} FreshDatabaseRegistrationSwitch(s: AppSettings, fallback: bool)
    ensures RegistrationEnabled(SyncDefaults(map[], Defaults(s)), fallback) == s.allowRegistration
  {
    var entries := Defaults(s);
    var key := "auth.allow_registration";
    assert entries[8].key == key && entries[8].value.Some?;
    assert forall j :: 0 <= j < 8 ==> |entries[j].key| <= 13;
    FirstValueAt(entries, key, 8);
    assert key in ValuedKeys(entries);
    InsertedKeyTakesFirstValue(map[], entries, key);
    RegistrationSwitchRoundTrip(s, fallback);
  }

  // ---------------------------------------------------------------------------
  // Default prompts
  // ---------------------------------------------------------------------------

  /** A prompt file: its stem and its text. */
  datatype PromptFile = PromptFile(name: string, content: string)

  /** `_ensure_default_prompts`: nothing when the directory is missing;
      otherwise each file, in sorted order, whose name no stored prompt has. */
  function DefaultPromptsToAdd(dirExists: bool, existing: set<string>, files: seq<PromptFile>): (r: seq<PromptFile>)
    ensures !dirExists ==> r == []
    ensures forall p :: p in r ==> p in files && p.name !in existing
    ensures dirExists ==> forall f :: f in files && f.name !in existing ==> f in r
    ensures |r| <= |files|
  {
    if !dirExists || files == [] then []
    else (if files[0].name in existing then [] else [files[0]]) + DefaultPromptsToAdd(dirExists, existing, files[1..])
  }

  /** The files to add keep the order of the listing: the files added from
      a concatenation of listings are those of the first listing followed by
      those of the second. */
  lemma {:induction false} DefaultPromptsConcat(dirExists: bool, existing: set<string>, a: seq<PromptFile>, b: seq<PromptFile>)
    ensures DefaultPromptsToAdd(dirExists, existing, a + b)
            == DefaultPromptsToAdd(dirExists, existing, a) + DefaultPromptsToAdd(dirExists, existing, b)
    decreases |a|
  {
    if !dirExists {
    } else if a == [] {
      assert a + b == b;
    } else {
      assert (a + b)[0] == a[0] && (a + b)[1..] == a[1..] + b;
      DefaultPromptsConcat(dirExists, existing, a[1..], b);
    }
  }

  /** A one-file listing adds the file exactly when the directory exists and
      no stored prompt has its name. */
  lemma DefaultPromptsOne(dirExists: bool, existing: set<string>, f: PromptFile)
    ensures DefaultPromptsToAdd(dirExists, existing, [f]) == if dirExists && f.name !in existing then [f] else []
  {
    assert [f][1..] == [];
  }
}

=== FILE: chunker.dfy ===
/** The built-in chapter chunker of the ingestion service: a window of
    `chunk_size` characters slides over the text; each window is cut early at a
    natural boundary (a paragraph break, a newline or sentence punctuation)
    when one lies past 40% of the window; consecutive windows overlap by
    `overlap` characters. */
module Chunker {
  import opened Wrappers
  import opened Text

  /** The sentence marks searched, in the order the service tries them. */
  const PunctuationMarks: seq<string> := ["。", "！", "？", "!", "?", ".", ";", "；"]

  /** One of the sentence marks. */
  predicate IsMark(c: char) {
    c == '。' || c == '！' || c == '？' || c == '!' || c == '?' || c == '.' || c == ';' || c == '；'
  }

  /** A character that can mark a natural boundary. */
  predicate IsBoundaryChar(c: char) {
    c == '\n' || IsMark(c)
  }

  /** Each mark is one character, and a sentence mark. */
  lemma MarksAreSentenceMarks()
    ensures forall k :: 0 <= k < |PunctuationMarks| ==> |PunctuationMarks[k]| == 1 && IsMark(PunctuationMarks[k][0])
  {
  }

  function Min(a: int, b: int): int { if a < b then a else b }

  function Max(a: int, b: int): int { if a < b then b else a }

  /** `pat` occurs at `p` and at no later index. */
  ghost predicate LastOccurrence(seg: string, pat: string, p: int) {
    OccursAt(seg, pat, p) && forall j :: p < j ==> !OccursAt(seg, pat, j)
  }

  /** `p` is the last paragraph break, or the last newline when the segment
      holds no paragraph break. */
  ghost predicate NewlineCut(seg: string, p: int) {
    LastOccurrence(seg, "\n\n", p)
    || ((forall j :: !OccursAt(seg, "\n\n", j)) && LastOccurrence(seg, "\n", p))
  }

  /** `rfind` answers the last occurrence. */
  lemma RFindIsLast(seg: string, pat: string, p: int)
    requires |pat| > 0 && LastOccurrence(seg, pat, p)
    ensures RFind(seg, pat) == p
  {
  }

  /** The newline candidate: the last paragraph break, else the last newline,
      kept only when it is not at index 0. The cut falls before the newline. */
  function NewlineCandidate(seg: string): (c: Option<nat>)
    ensures c.Some? ==> 0 < c.value < |seg| && seg[c.value] == '\n'
    ensures c.Some? ==> NewlineCut(seg, c.value)
    ensures c.None? ==> forall p :: NewlineCut(seg, p) ==> p == 0
  {
    NewlineCutFound(seg);
    var para := RFind(seg, "\n\n");
    var pos := if para == -1 then RFind(seg, "\n") else para;
    if pos > 0 then
      assert seg[pos..pos + 1][0] == seg[pos];
      Some(pos)
    else None
  }

  /** The position the two `rfind`s settle on is the newline cut, and no
      other position is. */
  lemma NewlineCutFound(seg: string)
    ensures var para := RFind(seg, "\n\n");
            var pos := if para == -1 then RFind(seg, "\n") else para;
            (pos != -1 ==> NewlineCut(seg, pos)) && forall p :: NewlineCut(seg, p) ==> p == pos
  {
    var para := RFind(seg, "\n\n");
    var pos := if para == -1 then RFind(seg, "\n") else para;
    forall p | NewlineCut(seg, p) ensures p == pos {
      if LastOccurrence(seg, "\n\n", p) {
        RFindIsLast(seg, "\n\n", p);
      } else {
        assert para == -1;
        RFindIsLast(seg, "\n", p);
      }
    }
  }

  /** The punctuation candidate: the first mark, in list order, whose last
      occurrence is past index 0 (`dict.setdefault` keeps that first one);
      the cut falls just after the mark. */
  function PunctuationCandidate(seg: string, marks: seq<string>): (c: Option<nat>)
    requires forall k :: 0 <= k < |marks| ==> |marks[k]| == 1
    ensures c.Some? ==> 1 < c.value <= |seg|
    ensures c.Some? ==> exists k :: 0 <= k < |marks| && seg[c.value - 1] == marks[k][0]
    ensures c.None? <==> forall i, k :: 0 < i < |seg| && 0 <= k < |marks| ==> seg[i] != marks[k][0]
  {
    if |marks| == 0 then None
    else
      var idx := RFind(seg, marks[0]);
      if idx > 0 then
        assert seg[idx..idx + 1][0] == seg[idx];
        Some(idx + |marks[0]|)
      else
        var rest := PunctuationCandidate(seg, marks[1..]);
        assert forall k :: 1 <= k < |marks| ==> marks[1..][k - 1] == marks[k];
        assert forall i :: 0 < i < |seg| ==> seg[i] != marks[0][0] by {
          forall i | 0 < i < |seg| ensures seg[i] != marks[0][0] {
            assert !OccursAt(seg, marks[0], i);
            assert seg[i..i + 1] == [seg[i]];
          }
        }
        rest
  }

  /** Mark `k` is the first in list order whose last occurrence lies past
      index 0: the one `setdefault` keeps. */
  predicate FirstFoundMark(seg: string, marks: seq<string>, k: nat)
    requires forall j :: 0 <= j < |marks| ==> |marks[j]| == 1
  {
    k < |marks| && RFind(seg, marks[k]) > 0 && forall j :: 0 <= j < k ==> RFind(seg, marks[j]) <= 0
  }

  /** The punctuation candidate is the cut just after the last occurrence
      of the first mark, in list order, that occurs past index 0. */
  lemma {:induction false} PunctuationCandidateFirstMark(seg: string, marks: seq<string>)
    requires forall k :: 0 <= k < |marks| ==> |marks[k]| == 1
    ensures PunctuationCandidate(seg, marks).Some? ==>
              exists k: nat :: FirstFoundMark(seg, marks, k) && PunctuationCandidate(seg, marks).value == RFind(seg, marks[k]) + 1
    ensures (exists k: nat :: FirstFoundMark(seg, marks, k)) ==> PunctuationCandidate(seg, marks).Some?
    decreases |marks|
  {
    if |marks| > 0 {
      if RFind(seg, marks[0]) > 0 {
        assert FirstFoundMark(seg, marks, 0);
      } else {
        var tail := marks[1..];
        assert forall k :: 1 <= k < |marks| ==> tail[k - 1] == marks[k];
        PunctuationCandidateFirstMark(seg, tail);
        assert PunctuationCandidate(seg, marks) == PunctuationCandidate(seg, tail);
        if PunctuationCandidate(seg, tail).Some? {
          var k: nat :| FirstFoundMark(seg, tail, k) && PunctuationCandidate(seg, tail).value == RFind(seg, tail[k]) + 1;
          ShiftFirstFound(seg, marks, k);
        }
        if exists k: nat :: FirstFoundMark(seg, marks, k) {
          var k: nat :| FirstFoundMark(seg, marks, k);
          assert k != 0;
          UnshiftFirstFound(seg, marks, k);
        }
      }
    }
  }

  /** A first-found mark of the tail is one of the whole list when the head
      does not occur past index 0. */
  lemma ShiftFirstFound(seg: string, marks: seq<string>, k: nat)
    requires forall j :: 0 <= j < |marks| ==> |marks[j]| == 1
    requires |marks| > 0 && RFind(seg, marks[0]) <= 0 && FirstFoundMark(seg, marks[1..], k)
    ensures FirstFoundMark(seg, marks, k + 1) && marks[1..][k] == marks[k + 1]
  {
    forall j | 0 <= j < k + 1 ensures RFind(seg, marks[j]) <= 0 {
      if j > 0 {
        assert marks[j] == marks[1..][j - 1];
      }
    }
  }

  /** The converse step: a first-found mark past the head is one of the
      tail. */
  lemma UnshiftFirstFound(seg: string, marks: seq<string>, k: nat)
    requires forall j :: 0 <= j < |marks| ==> |marks[j]| == 1
    requires |marks| > 0 && k > 0 && FirstFoundMark(seg, marks, k)
    ensures FirstFoundMark(seg, marks[1..], k - 1)
  {
    forall j | 0 <= j < k - 1 ensures RFind(seg, marks[1..][j]) <= 0 {
      assert marks[1..][j] == marks[j + 1];
    }
    assert marks[1..][k - 1] == marks[k];
  }

  /** `_find_split_offset`: the later of the two candidates, rejected when it
      lies before 40% of the segment. */
  function FindSplitOffset(seg: string): (r: Option<nat>)
    ensures r.Some? ==> 0 < r.value <= |seg|
    ensures r.Some? ==> 5 * r.value >= 2 * |seg|
    ensures r.Some? ==> IsMark(seg[r.value - 1]) || (r.value < |seg| && seg[r.value] == '\n')
    ensures NewlineCandidate(seg).None? && PunctuationCandidate(seg, PunctuationMarks).None? ==> r.None?
    ensures r.Some? ==> (NewlineCandidate(seg) == Some(r.value) || PunctuationCandidate(seg, PunctuationMarks) == Some(r.value))
                        && (NewlineCandidate(seg).Some? ==> NewlineCandidate(seg).value <= r.value)
                        && (PunctuationCandidate(seg, PunctuationMarks).Some? ==> PunctuationCandidate(seg, PunctuationMarks).value <= r.value)
    ensures r.None? ==> (NewlineCandidate(seg).Some? ==> 5 * NewlineCandidate(seg).value < 2 * |seg|)
                        && (PunctuationCandidate(seg, PunctuationMarks).Some? ==> 5 * PunctuationCandidate(seg, PunctuationMarks).value < 2 * |seg|)
  {
    var r := LaterCandidate(|seg|, NewlineCandidate(seg), PunctuationCandidate(seg, PunctuationMarks));
    if r.Some? then CandidateBoundary(seg, r.value); r else r
  }

  /** Either candidate lies inside the segment, right after a mark or
      right before a line break. */
  lemma CandidateBoundary(seg: string, v: nat)
    requires NewlineCandidate(seg) == Some(v) || PunctuationCandidate(seg, PunctuationMarks) == Some(v)
    ensures 0 < v <= |seg| && (IsMark(seg[v - 1]) || (v < |seg| && seg[v] == '\n'))
  {
    if NewlineCandidate(seg) != Some(v) {
      PunctuationBoundary(seg, v);
    }
  }

  lemma PunctuationBoundary(seg: string, v: nat)
    requires PunctuationCandidate(seg, PunctuationMarks) == Some(v)
    ensures 0 < v <= |seg| && IsMark(seg[v - 1])
  {
    MarksAreSentenceMarks();
    var k :| 0 <= k < |PunctuationMarks| && seg[v - 1] == PunctuationMarks[k][0];
  }

  /** `max(candidates.values())`, rejected when it lies before 40% of a
      segment of `n` characters. */
  function LaterCandidate(n: nat, nl: Option<nat>, pc: Option<nat>): (r: Option<nat>)
    ensures nl.None? && pc.None? ==> r.None?
    ensures r.Some? ==> (nl == Some(r.value) || pc == Some(r.value))
                        && (nl.Some? ==> nl.value <= r.value) && (pc.Some? ==> pc.value <= r.value)
    ensures r.Some? ==> 5 * r.value >= 2 * n
    ensures r.None? ==> (nl.Some? ==> 5 * nl.value < 2 * n) && (pc.Some? ==> 5 * pc.value < 2 * n)
  {
    if nl.None? && pc.None? then None
    else if pc.None? || (nl.Some? && pc.value <= nl.value) then
      if 5 * nl.value < 2 * n then None else Some(nl.value)
    else
      if 5 * pc.value < 2 * n then None else Some(pc.value)
  }

  /** A segment without any boundary character has no split offset. */
  lemma NoBoundaryNoOffset(seg: string)
    requires forall i :: 0 <= i < |seg| ==> !IsBoundaryChar(seg[i])
    ensures FindSplitOffset(seg) == None
  {
    AbsentPattern(seg, "\n\n");
    AbsentPattern(seg, "\n");
    MarksAreSentenceMarks();
  }

  /** A segment whose only boundary character is one `。` at index `p > 0`
      offers the offset `p + 1`, accepted when it is past 40% of the segment. */
  lemma SingleFullStopOffset(seg: string, p: nat)
    requires 0 < p < |seg| && seg[p] == '。'
    requires forall i :: 0 <= i < |seg| && i != p ==> !IsBoundaryChar(seg[i])
    ensures FindSplitOffset(seg) == if 5 * (p + 1) >= 2 * |seg| then Some(p + 1) else None
  {
    AbsentPattern(seg, "\n\n");
    AbsentPattern(seg, "\n");
    assert OccursAt(seg, "。", p);
    forall j | j != p ensures !OccursAt(seg, "。", j) {
      if 0 <= j && j + 1 <= |seg| {
        assert seg[j..j + 1][0] == seg[j];
      }
    }
    assert RFind(seg, "。") == p;
  }

  /** The window end one pass of the loop uses from window start `start`. */
  function WindowEnd(text: string, chunkSize: nat, start: nat): (end: nat)
    requires chunkSize > 0 && start < |text|
    ensures start < end <= |text| && end - start <= chunkSize
  {
    var hardEnd := Min(|text|, start + chunkSize);
    var offset := FindSplitOffset(text[start..hardEnd]);
    if offset.Some? && start + offset.value < |text| then start + offset.value else hardEnd
  }

  /** `min(overlap, chunk_size // 2)`. */
  function EffectiveOverlap(chunkSize: nat, overlap: nat): (ov: nat)
    ensures ov <= overlap && 2 * ov <= chunkSize
  {
    Min(overlap, chunkSize / 2)
  }

  // ---------------------------------------------------------------------------
  // The loop as written
  // ---------------------------------------------------------------------------

  /** One pass of `_legacy_split` as written: `None` when the loop breaks
      (the window reached the end of the text), otherwise the next window
      start `max(0, end - overlap)`. */
  function WrittenNextStart(text: string, chunkSize: nat, overlap: nat, start: nat): (next: Option<nat>)
    requires chunkSize > 0 && start < |text|
    ensures next.None? <==> WindowEnd(text, chunkSize, start) == |text|
    ensures next.Some? ==> next.value + EffectiveOverlap(chunkSize, overlap) >= WindowEnd(text, chunkSize, start)
  {
    var end := WindowEnd(text, chunkSize, start);
    if end >= |text| then None
    else Some(Max(0, end - EffectiveOverlap(chunkSize, overlap)))
  }

  /** The 580-character text of the counterexample: one `。` at index 529. */
  function LoopText(): (t: string)
    ensures |t| == 580
  {
    seq(580, i => if i == 529 then '。' else 'a')
  }

  /** With the default settings (480/120) the window start goes 0, 360, 410,
      410, ...: the loop as written never ends on `LoopText()`. */
  lemma WrittenSplitLoopsForever()
    ensures WrittenNextStart(LoopText(), 480, 120, 0) == Some(360)
    ensures WrittenNextStart(LoopText(), 480, 120, 360) == Some(410)
    ensures WrittenNextStart(LoopText(), 480, 120, 410) == Some(410)
  {
    FirstWindowOfLoopText();
    SecondWindowOfLoopText();
    ThirdWindowOfLoopText();
  }

  /** The first window holds no boundary: it is cut at 480. */
  lemma FirstWindowOfLoopText()
    ensures WrittenNextStart(LoopText(), 480, 120, 0) == Some(360)
  {
    NoBoundaryNoOffset(LoopText()[0..480]);
  }

  /** The second window is cut after the `。` at 529. */
  lemma SecondWindowOfLoopText()
    ensures WrittenNextStart(LoopText(), 480, 120, 360) == Some(410)
  {
    SingleFullStopOffset(LoopText()[360..580], 169);
  }

  /** So is the third, which starts at 410 again. */
  lemma ThirdWindowOfLoopText()
    ensures WrittenNextStart(LoopText(), 480, 120, 410) == Some(410)
  {
    SingleFullStopOffset(LoopText()[410..580], 119);
  }

  /** A five-character text `aa。aa`, shorter than the chunk size. */
  function ShortText(): (t: string)
    ensures |t| == 5
  {
    seq(5, i => if i == 2 then '。' else 'a')
  }

  /** Even a text shorter than one window can hang the loop as written: the
      cut after `。` is accepted, and `max(0, 3 - 120)` restarts at 0. */
  lemma WrittenSplitLoopsOnShortText()
    ensures WrittenNextStart(ShortText(), 480, 120, 0) == Some(0)
  {
    var t := ShortText();
    assert t[0..5] == t;
    SingleFullStopOffset(t, 2);
  }

  // ---------------------------------------------------------------------------
  // The corrected loop
  // ---------------------------------------------------------------------------

  /** The corrected advance: `end - overlap` when that moves forward, else
      `end` itself, so every pass makes progress. */
  function NextStart(start: nat, end: nat, overlap: nat): (next: nat)
    requires start < end
    ensures start < next <= end
    ensures next == end || next + overlap == end
  {
    if end - overlap > start then end - overlap else end
  }

  /** Wherever the written loop moves forward, the corrected loop takes the
      same step; both stop once a window reaches the end of the text. */
  lemma CorrectedStepAgrees(text: string, chunkSize: nat, overlap: nat, start: nat)
    requires chunkSize > 0 && start < |text|
    ensures var end := WindowEnd(text, chunkSize, start);
            var written := WrittenNextStart(text, chunkSize, overlap, start);
            (written.None? <==> end == |text|)
            && (written.Some? && written.value > start ==>
                  NextStart(start, end, EffectiveOverlap(chunkSize, overlap)) == written.value)
  {
    var end := WindowEnd(text, chunkSize, start);
    var ov := EffectiveOverlap(chunkSize, overlap);
    if end < |text| && Max(0, end - ov) > start {
      assert end - ov > start;
    }
  }

  /** A chunk together with the index in the text where it starts. */
  datatype Piece = Piece(offset: nat, text: string)

  /** `p` is a non-empty, trimmed piece of `text` of at most `chunkSize`
      characters, found at `p.offset`. */
  predicate PieceOf(p: Piece, text: string, chunkSize: nat) {
    |p.text| > 0 && IsStripped(p.text) && |p.text| <= chunkSize && OccursAt(text, p.text, p.offset)
  }

  /** Index `i` of the text lies inside some piece. */
  predicate Covered(pieces: seq<Piece>, i: int) {
    exists k :: 0 <= k < |pieces| && pieces[k].offset <= i < pieces[k].offset + |pieces[k].text|
  }

  /** The trimmed window `seg == text[start..end]` is found in the text where
      `strip` leaves it. */
  lemma WindowChunkOccurs(text: string, seg: string, start: nat, end: nat)
    requires start <= end <= |text| && seg == text[start..end]
    ensures OccursAt(text, Strip(seg), start + StripStart(seg))
  {
    SliceOfSlice(text, start, end, StripStart(seg), StripStart(seg) + |Strip(seg)|);
  }

  /** The trimmed window holds every non-whitespace character of the window. */
  lemma WindowChunkKeeps(text: string, seg: string, start: nat, end: nat)
    requires start <= end <= |text| && seg == text[start..end]
    ensures forall i :: start <= i < end && !IsSpace(text[i]) ==>
              start + StripStart(seg) <= i < start + StripStart(seg) + |Strip(seg)|
  {
    StripKeepsNonSpace(seg);
    forall i | start <= i < end && !IsSpace(text[i])
      ensures start + StripStart(seg) <= i < start + StripStart(seg) + |Strip(seg)|
    {
      assert seg[i - start] == text[i];
    }
  }

  /** Concatenating piece lists keeps what either list covered. */
  lemma CoveredConcat(xs: seq<Piece>, ys: seq<Piece>)
    ensures forall i :: Covered(xs, i) || Covered(ys, i) ==> Covered(xs + ys, i)
  {
    var ps := xs + ys;
    forall i | Covered(xs, i) || Covered(ys, i) ensures Covered(ps, i) {
      if Covered(xs, i) {
        var k :| 0 <= k < |xs| && xs[k].offset <= i < xs[k].offset + |xs[k].text|;
        assert ps[k] == xs[k];
      } else {
        var k :| 0 <= k < |ys| && ys[k].offset <= i < ys[k].offset + |ys[k].text|;
        assert ps[|xs| + k] == ys[k];
      }
    }
  }

  /** Pieces that cover a window followed by pieces that cover the text from
      a later start cover the text from the window start. */
  lemma PiecesStep(text: string, chunkSize: nat, start: nat, end: nat, next: nat,
                   head: seq<Piece>, rest: seq<Piece>)
    requires start <= next <= end <= |text|
    requires forall k :: 0 <= k < |head| ==> PieceOf(head[k], text, chunkSize) && head[k].offset >= start
    requires forall i :: start <= i < end && !IsSpace(text[i]) ==> Covered(head, i)
    requires forall k :: 0 <= k < |rest| ==> PieceOf(rest[k], text, chunkSize) && rest[k].offset >= next
    requires forall i :: next <= i < |text| && !IsSpace(text[i]) ==> Covered(rest, i)
    ensures forall k :: 0 <= k < |head + rest| ==>
              PieceOf((head + rest)[k], text, chunkSize) && (head + rest)[k].offset >= start
    ensures forall i :: start <= i < |text| && !IsSpace(text[i]) ==> Covered(head + rest, i)
  {
    CoveredConcat(head, rest);
    forall k | 0 <= k < |head + rest|
      ensures PieceOf((head + rest)[k], text, chunkSize) && (head + rest)[k].offset >= start
    {
      if k >= |head| {
        assert (head + rest)[k] == rest[k - |head|];
      }
    }
  }

  /** The window `text[start..end]` trimmed: no piece when it is blank,
      otherwise one piece that holds every non-whitespace character of the
      window. */
  function WindowPiece(text: string, chunkSize: nat, start: nat, end: nat): (head: seq<Piece>)
    requires start <= end <= |text| && end - start <= chunkSize
    ensures |head| <= 1
    ensures forall k :: 0 <= k < |head| ==> PieceOf(head[k], text, chunkSize) && head[k].offset >= start
    ensures forall i :: start <= i < end && !IsSpace(text[i]) ==> Covered(head, i)
  {
    var seg := text[start..end];
    var chunk := Strip(seg);
    WindowChunkOccurs(text, seg, start, end);
    WindowChunkKeeps(text, seg, start, end);
    if chunk == [] then []
    else
      var p := Piece(start + StripStart(seg), chunk);
      assert forall i :: start <= i < end && !IsSpace(text[i]) ==> Covered([p], i) by {
        forall i | start <= i < end && !IsSpace(text[i]) ensures Covered([p], i) {
          assert [p][0] == p;
        }
      }
      [p]
  }

  /** The windows from `start` onwards, each trimmed, blank ones dropped.
      Every non-whitespace character from `start` on lies inside a piece. */
  function PiecesFrom(text: string, chunkSize: nat, overlap: nat, start: nat): (ps: seq<Piece>)
    requires chunkSize > 0 && start <= |text|
    ensures forall k :: 0 <= k < |ps| ==> PieceOf(ps[k], text, chunkSize) && ps[k].offset >= start
    ensures forall i :: start <= i < |text| && !IsSpace(text[i]) ==> Covered(ps, i)
    decreases |text| - start
  {
    if start == |text| then []
    else
      var end := WindowEnd(text, chunkSize, start);
      var next := if end == |text| then |text| else NextStart(start, end, overlap);
      var head := WindowPiece(text, chunkSize, start, end);
      var rest := PiecesFrom(text, chunkSize, overlap, next);
      PiecesStep(text, chunkSize, start, end, next, head, rest);
      head + rest
  }

  /** The texts of the pieces, in order. */
  function Texts(ps: seq<Piece>): (r: seq<string>)
    ensures |r| == |ps| && forall k :: 0 <= k < |ps| ==> r[k] == ps[k].text
  {
    seq(|ps|, k requires 0 <= k < |ps| => ps[k].text)
  }

  /** The corrected `_legacy_split`: a text that fits into one window is one
      chunk; otherwise the windows advance by the corrected rule. */
  function LegacySplit(text: string, chunkSize: nat, overlap: nat): (chunks: seq<string>)
    requires chunkSize > 0
    ensures forall k :: 0 <= k < |chunks| ==>
              |chunks[k]| > 0 && IsStripped(chunks[k]) && |chunks[k]| <= chunkSize && Contains(text, chunks[k])
    ensures |text| <= chunkSize ==> chunks == (if IsBlank(text) then [] else [Strip(text)])
  {
    StripEmptyIffBlank(text);
    if |text| <= chunkSize then
      var s := Strip(text);
      if s == [] then []
      else
        assert OccursAt(text, s, StripStart(text));
        [s]
    else
      var ps := PiecesFrom(text, chunkSize, EffectiveOverlap(chunkSize, overlap), 0);
      PieceTextsAreChunks(ps, text, chunkSize);
      Texts(ps)
  }

  /** The texts of well-formed pieces are chunks of the text. */
  lemma PieceTextsAreChunks(ps: seq<Piece>, text: string, chunkSize: nat)
    requires forall k :: 0 <= k < |ps| ==> PieceOf(ps[k], text, chunkSize)
    ensures forall k :: 0 <= k < |ps| ==>
              |Texts(ps)[k]| > 0 && IsStripped(Texts(ps)[k]) && |Texts(ps)[k]| <= chunkSize
              && Contains(text, Texts(ps)[k])
  {
    forall k | 0 <= k < |ps|
      ensures Contains(text, Texts(ps)[k])
    {
      assert OccursAt(text, ps[k].text, ps[k].offset);
    }
  }

  /** No non-whitespace character of the text is dropped: each one lies inside
      a piece the corrected loop emits, and the pieces are the chunks. */
  lemma LegacySplitLosesNothing(text: string, chunkSize: nat, overlap: nat, i: nat)
    requires chunkSize > 0 && |text| > chunkSize
    requires i < |text| && !IsSpace(text[i])
    ensures var ps := PiecesFrom(text, chunkSize, EffectiveOverlap(chunkSize, overlap), 0);
            Texts(ps) == LegacySplit(text, chunkSize, overlap) && Covered(ps, i)
  {
  }

  /** A whole, already trimmed text of at most `chunkSize` characters comes
      back as the single chunk. */
  lemma ShortTextIsOneChunk(text: string, chunkSize: nat, overlap: nat)
    requires chunkSize > 0 && 0 < |text| <= chunkSize && IsStripped(text)
    ensures LegacySplit(text, chunkSize, overlap) == [text]
  {
    StripOfStripped(text);
    assert !IsSpace(text[0]);
  }

  /** `_split_into_chunks`: trim; a blank text has no chunks; the optional
      third-party splitter's trimmed non-empty pieces are used when there are
      any; otherwise the built-in chunker (in its corrected form) runs. */
  function SplitIntoChunks(text: string, splitter: Option<string -> seq<string>>, chunkSize: nat, overlap: nat)
    : (chunks: seq<string>)
    requires chunkSize > 0
    ensures forall k :: 0 <= k < |chunks| ==> |chunks[k]| > 0 && IsStripped(chunks[k])
    ensures IsBlank(text) <==> chunks == []
  {
    var normalized := Strip(text);
    StripEmptyIffBlank(text);
    if normalized == [] then []
    else
      var filtered := if splitter.Some? then NonEmptyStripped(splitter.value(normalized)) else [];
      if filtered != [] then filtered
      else
        var legacy := LegacySplit(normalized, chunkSize, overlap);
        assert legacy != [] by {
          if |normalized| <= chunkSize {
            StripEmptyIffBlank(normalized);
          } else {
            assert !IsSpace(normalized[0]);
            LegacySplitLosesNothing(normalized, chunkSize, overlap, 0);
          }
        }
        legacy
  }

  /** Each part trimmed, the empty ones dropped, order kept. */
  function NonEmptyStripped(parts: seq<string>): (r: seq<string>)
    ensures forall k :: 0 <= k < |r| ==> |r[k]| > 0 && IsStripped(r[k])
    ensures |r| <= |parts|
  {
    if |parts| == 0 then []
    else
      var s := Strip(parts[0]);
      (if s == [] then [] else [s]) + NonEmptyStripped(parts[1..])
  }

  /** No part that trims to something non-empty is dropped. */
  lemma {:induction false} NonEmptyStrippedKeeps(parts: seq<string>, i: int)
    requires 0 <= i < |parts| && Strip(parts[i]) != []
    ensures Strip(parts[i]) in NonEmptyStripped(parts)
    decreases |parts|
  {
    if i > 0 {
      assert parts[1..][i - 1] == parts[i];
      NonEmptyStrippedKeeps(parts[1..], i - 1);
    }
  }

  /** Every piece is the trimmed text of some part. */
  lemma {:induction false} NonEmptyStrippedFrom(parts: seq<string>, k: int)
    requires 0 <= k < |NonEmptyStripped(parts)|
    ensures exists i :: 0 <= i < |parts| && NonEmptyStripped(parts)[k] == Strip(parts[i])
    decreases |parts|
  {
    var s := Strip(parts[0]);
    if s != [] && k == 0 {
      assert NonEmptyStripped(parts)[k] == Strip(parts[0]);
    } else {
      var k' := if s == [] then k else k - 1;
      assert NonEmptyStripped(parts)[k] == NonEmptyStripped(parts[1..])[k'];
      NonEmptyStrippedFrom(parts[1..], k');
      var i :| 0 <= i < |parts[1..]| && NonEmptyStripped(parts[1..])[k'] == Strip(parts[1..][i]);
      assert NonEmptyStripped(parts)[k] == Strip(parts[i + 1]);
    }
  }

  /** Pieces of a concatenation come out in order: the pieces of the first
      part, then those of the second. */
  lemma {:induction false} NonEmptyStrippedConcat(a: seq<string>, b: seq<string>)
    ensures NonEmptyStripped(a + b) == NonEmptyStripped(a) + NonEmptyStripped(b)
    decreases |a|
  {
    if a == [] {
      assert a + b == b;
    } else {
      assert (a + b)[1..] == a[1..] + b;
      NonEmptyStrippedConcat(a[1..], b);
    }
  }
}

=== FILE: config_defaults.dfy ===
/** The configuration entries seeded into the database from the settings,
    and the text conversions they use. */
module ConfigDefaults {
  import opened Wrappers
  import opened Text
  import Auth
  import Writer

  /** `_to_optional_str`: None stays None, anything else becomes its text;
      `str` is Python's `str` on the value's type. */
  function ToOptionalStr<T>(value: Option<T>, str: T -> string): (r: Option<string>)
    ensures r.None? <==> value.None?
    ensures r.Some? ==> r.value == str(value.value)
  {
    if value.None? then None else Some(str(value.value))
  }

  /** `_bool_to_text`. */
  function BoolToText(b: bool): (r: string)
    ensures r == "true" || r == "false"
    ensures b <==> r == "true"
  {
    if b then "true" else "false"
  }

  /** Writing a switch as text and reading it back gives the switch,
      whatever the fallback. */
  lemma BoolTextRoundTrip(b: bool, fallback: bool)
    ensures Auth.ParseBool(Some(BoolToText(b)), fallback) == b
  {
    StripOfStripped("true");
    StripOfStripped("false");
    assert ToLower("true") == "true";
    assert ToLower("false") == "false";
  }

  /** The settings the defaults are read from. URLs are already text. */
  datatype AppSettings = AppSettings(
    openaiApiKey: Option<string>, openaiBaseUrl: Option<string>, openaiModelName: string,
    smtpServer: Option<string>, smtpPort: int, smtpUsername: Option<string>, smtpPassword: Option<string>,
    emailFrom: Option<string>, allowRegistration: bool, enableLinuxdoLogin: bool,
    linuxdoClientId: Option<string>, linuxdoClientSecret: Option<string>, linuxdoRedirectUri: Option<string>,
    linuxdoAuthUrl: Option<string>, linuxdoTokenUrl: Option<string>, linuxdoUserInfoUrl: Option<string>,
    writerChapterVersions: int)

  /** One seeded entry: its key, the value the settings give (None when
      unset), and its description. */
  datatype DefaultEntry = DefaultEntry(key: string, value: Option<string>, description: Option<string>)

  function Identity(s: string): string { s }

  /** `SYSTEM_CONFIG_DEFAULTS` evaluated on the settings. */
  function Defaults(s: AppSettings): (r: seq<DefaultEntry>)
    ensures |r| == 17
    ensures forall i :: 0 <= i < |r| ==> r[i].description.Some? && r[i].description.value != ""
    ensures r[8] == DefaultEntry("auth.allow_registration", Some(BoolToText(s.allowRegistration)), r[8].description)
    ensures r[16] == DefaultEntry("writer.chapter_versions", Some(IntToString(s.writerChapterVersions)), r[16].description)
  {
    [ DefaultEntry("llm.api_key", s.openaiApiKey, Some("默认 LLM API Key，用于后台调用大模型。")),
      DefaultEntry("llm.base_url", ToOptionalStr(s.openaiBaseUrl, Identity), Some("默认大模型 API Base URL。")),
      DefaultEntry("llm.model", Some(s.openaiModelName), Some("默认 LLM 模型名称。")),
      DefaultEntry("smtp.server", s.smtpServer, Some("用于发送邮件验证码的 SMTP 服务器地址。")),
      DefaultEntry("smtp.port", Some(IntToString(s.smtpPort)), Some("SMTP 服务端口。")),
      DefaultEntry("smtp.username", s.smtpUsername, Some("SMTP 登录用户名。")),
      DefaultEntry("smtp.password", s.smtpPassword, Some("SMTP 登录密码。")),
      DefaultEntry("smtp.from", s.emailFrom, Some("邮件显示的发件人名称或邮箱。")),
      DefaultEntry("auth.allow_registration", Some(BoolToText(s.allowRegistration)), Some("是否允许用户自助注册。")),
      DefaultEntry("auth.linuxdo_enabled", Some(BoolToText(s.enableLinuxdoLogin)), Some("是否启用 Linux.do OAuth 登录。")),
      DefaultEntry("linuxdo.client_id", s.linuxdoClientId, Some("Linux.do OAuth Client ID。")),
      DefaultEntry("linuxdo.client_secret", s.linuxdoClientSecret, Some("Linux.do OAuth Client Secret。")),
      DefaultEntry("linuxdo.redirect_uri", ToOptionalStr(s.linuxdoRedirectUri, Identity), Some("Linux.do OAuth 回调地址。")),
      DefaultEntry("linuxdo.auth_url", ToOptionalStr(s.linuxdoAuthUrl, Identity), Some("Linux.do OAuth 授权地址。")),
      DefaultEntry("linuxdo.token_url", ToOptionalStr(s.linuxdoTokenUrl, Identity), Some("Linux.do OAuth Token 获取地址。")),
      DefaultEntry("linuxdo.user_info_url", ToOptionalStr(s.linuxdoUserInfoUrl, Identity), Some("Linux.do 用户信息接口地址。")),
      DefaultEntry("writer.chapter_versions", Some(IntToString(s.writerChapterVersions)), Some("每次生成章节的候选版本数量。")) ]
  }

  /** The seeded version count is one `_resolve_version_count` accepts as
      it is, so the settings' count is the one used. */
  lemma ChapterVersionsDefaultAccepted(s: AppSettings, env: Option<string>)
    requires s.writerChapterVersions >= 1
    ensures Writer.ResolveVersionCount(Defaults(s)[16].value, env) == s.writerChapterVersions
  {
    Writer.StoredCountRoundTrip(s.writerChapterVersions, env);
  }

  /** The seeded registration switch reads back as the setting. */
  lemma RegistrationSwitchRoundTrip(s: AppSettings, fallback: bool)
    ensures Auth.ParseBool(Defaults(s)[8].value, fallback) == s.allowRegistration
  {
    BoolTextRoundTrip(s.allowRegistration, fallback);
  }
}

=== FILE: context.dfy ===
/** The chapter context service: the retrieval query is whitespace-normalised,
    embedded once, and sent to both vector-store queries; the hits are then
    rendered as prompt blocks. The embedder and the two store queries are
    parameters. */
module Context {
  import opened Wrappers
  import opened Text
  import opened VectorQuery

  // ---------------------------------------------------------------------------
  // Normalisation
  // ---------------------------------------------------------------------------

  /** Whitespace only as single spaces between non-blank characters: no
      leading or trailing whitespace and no two whitespace characters in a
      row. */
  predicate SingleSpaced(s: string) {
    forall i :: 0 <= i < |s| && IsSpace(s[i]) ==> s[i] == ' ' && 0 < i < |s| - 1 && !IsSpace(s[i + 1])
  }

  /** `" ".join(text.split())`: the same words, in the same order, single
      spaced. */
  function Normalize(text: string): (r: string)
    ensures Words(r) == Words(text)
    ensures SingleSpaced(r) && IsStripped(r)
    ensures r == "" <==> IsBlank(text)
  {
    var ws := Words(text);
    WordsAreWords(text);
    WordsOfJoin(ws);
    JoinWordsSingleSpaced(ws);
    WordsEmptyIffBlank(text);
    Join(ws, " ")
  }

  /** Normalising twice is normalising once. */
  lemma NormalizeIdempotent(text: string)
    ensures Normalize(Normalize(text)) == Normalize(text)
  {
  }

  /** Words joined by single spaces are single spaced, and start with the
      first word's first character. */
  lemma {:induction false} JoinWordsSingleSpaced(ws: seq<string>)
    requires forall k :: 0 <= k < |ws| ==> IsWord(ws[k])
    ensures SingleSpaced(Join(ws, " "))
    ensures |ws| > 0 ==> IsWord(ws[0]) && |Join(ws, " ")| > 0 && Join(ws, " ")[0] == ws[0][0]
    decreases |ws|
  {
    if |ws| >= 2 {
      var w := ws[0];
      var rest := Join(ws[1..], " ");
      var r := Join(ws, " ");
      assert forall k :: 0 <= k < |ws[1..]| ==> IsWord(ws[1..][k]) by {
        forall k | 0 <= k < |ws[1..]| ensures IsWord(ws[1..][k]) {
          assert ws[1..][k] == ws[k + 1];
        }
      }
      JoinWordsSingleSpaced(ws[1..]);
      assert r == w + " " + rest;
      assert IsWord(ws[1]) && ws[1..][0] == ws[1];
      forall i | 0 <= i < |r| ensures IsSpace(r[i]) ==> r[i] == ' ' && 0 < i < |r| - 1 && !IsSpace(r[i + 1]) {
        if i < |w| {
          assert r[i] == w[i];
        } else if i == |w| {
          assert r[i + 1] == rest[0];
        } else if IsSpace(r[i]) {
          assert r[i] == rest[i - |w| - 1];
          assert r[i + 1] == rest[i - |w|];
        }
      }
    } else if |ws| == 1 {
      assert Join(ws, " ") == ws[0];
    }
  }

  /** A text has no words exactly when it is blank. */
  lemma WordsEmptyIffBlank(text: string)
    ensures Words(text) == [] <==> IsBlank(text)
  {
    WordsFromEmptyIffBlank(text, "");
  }

  lemma {:induction false} WordsFromEmptyIffBlank(s: string, cur: string)
    ensures WordsFrom(s, cur) == [] <==> cur == "" && IsBlank(s)
    decreases |s|
  {
    if |s| > 0 {
      if IsSpace(s[0]) {
        WordsFromEmptyIffBlank(s[1..], "");
        assert IsBlank(s) <==> IsBlank(s[1..]) by {
          assert forall i :: 0 < i < |s| ==> s[i] == s[1..][i - 1];
        }
      } else {
        WordsFromEmptyIffBlank(s[1..], cur + [s[0]]);
      }
    }
  }

  // ---------------------------------------------------------------------------
  // Retrieval
  // ---------------------------------------------------------------------------

  /** What the context holds. */
  datatype RagContext = RagContext(query: string, chunks: seq<RetrievedChunk>, summaries: seq<RetrievedSummary>)

  /** One call to the embedder: the text and the model name passed (None lets
      the provider choose). */
  datatype EmbedCall = EmbedCall(text: string, model: Option<string>)

  /** One call to the vector store. */
  datatype StoreQuery =
    | ChunkQuery(projectId: string, embedding: seq<real>, topK: Option<int>)
    | SummaryQuery(projectId: string, embedding: seq<real>, topK: Option<int>)

  /** The context and the calls issued to get it. */
  datatype Retrieval = Retrieval(context: RagContext, embedCalls: seq<EmbedCall>, queries: seq<StoreQuery>)

  /** The settings and collaborators the service reads. */
  datatype RetrievalEnv = RetrievalEnv(
    storeEnabled: bool, hasStore: bool, embeddingProvider: string, embeddingModel: string)

  /** The model passed to the embedder: none for Ollama, the configured one
      otherwise. */
  function EmbeddingModel(env: RetrievalEnv): (m: Option<string>)
    ensures m.None? <==> env.embeddingProvider == "ollama"
    ensures m.Some? ==> m.value == env.embeddingModel
  {
    if env.embeddingProvider == "ollama" then None else Some(env.embeddingModel)
  }

  /** `retrieve_for_generation`. A disabled or absent store answers with the
      normalised query and no hits, and calls nothing; otherwise the query is
      embedded once; an empty embedding ends there; otherwise the same vector
      goes to the chunk query and then the summary query, each with the
      caller's own `top_k`. */
  function Retrieve(env: RetrievalEnv, projectId: string, queryText: string,
                    topKChunks: Option<int>, topKSummaries: Option<int>,
                    embed: (string, Option<string>) -> seq<real>,
                    queryChunks: (string, seq<real>, Option<int>) -> seq<RetrievedChunk>,
                    querySummaries: (string, seq<real>, Option<int>) -> seq<RetrievedSummary>): (r: Retrieval)
    ensures r.context.query == Normalize(queryText)
    ensures !env.storeEnabled || !env.hasStore ==>
              r.embedCalls == [] && r.queries == [] && r.context.chunks == [] && r.context.summaries == []
    ensures env.storeEnabled && env.hasStore ==>
              r.embedCalls == [EmbedCall(Normalize(queryText), EmbeddingModel(env))]
    ensures r.queries == [] ==> r.context.chunks == [] && r.context.summaries == []
    ensures r.queries != [] ==>
              var e := embed(Normalize(queryText), EmbeddingModel(env));
              |e| > 0 && env.storeEnabled && env.hasStore
              && r.queries == [ChunkQuery(projectId, e, topKChunks), SummaryQuery(projectId, e, topKSummaries)]
              && r.context.chunks == queryChunks(projectId, e, topKChunks)
              && r.context.summaries == querySummaries(projectId, e, topKSummaries)
    ensures env.storeEnabled && env.hasStore && |embed(Normalize(queryText), EmbeddingModel(env))| > 0
            ==> r.queries != []
  {
    var query := Normalize(queryText);
    if !env.storeEnabled || !env.hasStore then Retrieval(RagContext(query, [], []), [], [])
    else
      var model := EmbeddingModel(env);
      var e := embed(query, model);
      if |e| == 0 then Retrieval(RagContext(query, [], []), [EmbedCall(query, model)], [])
      else
        Retrieval(RagContext(query, queryChunks(projectId, e, topKChunks), querySummaries(projectId, e, topKSummaries)),
                  [EmbedCall(query, model)],
                  [ChunkQuery(projectId, e, topKChunks), SummaryQuery(projectId, e, topKSummaries)])
  }

  /** `retrieve_for_generation` when the embedder raises (its pre-call
      failures in `Llm.GetEmbedding`): nothing catches it, so the caller
      gets no context at all, not an empty one. A disabled or absent store
      never reaches the embedder, so it answers as before. */
  function RetrieveWithRaise(env: RetrievalEnv, projectId: string, queryText: string,
                             topKChunks: Option<int>, topKSummaries: Option<int>,
                             embed: (string, Option<string>) -> seq<real>, embedRaises: bool,
                             queryChunks: (string, seq<real>, Option<int>) -> seq<RetrievedChunk>,
                             querySummaries: (string, seq<real>, Option<int>) -> seq<RetrievedSummary>)
    : (r: Option<Retrieval>)
    ensures r.None? <==> embedRaises && env.storeEnabled && env.hasStore
    ensures r.Some? ==>
              r.value == Retrieve(env, projectId, queryText, topKChunks, topKSummaries, embed, queryChunks, querySummaries)
  {
    if embedRaises && env.storeEnabled && env.hasStore then None
    else Some(Retrieve(env, projectId, queryText, topKChunks, topKSummaries, embed, queryChunks, querySummaries))
  }

  // ---------------------------------------------------------------------------
  // Rendering
  // ---------------------------------------------------------------------------

  /** The source shown for a chunk: its chapter title, or `第{n}章` when the
      title is empty. */
  function ChunkSource(c: RetrievedChunk): (t: string)
    ensures c.chapterTitle != "" ==> t == c.chapterTitle
    ensures c.chapterTitle == "" ==> t == "第" + IntToString(c.chapterNumber) + "章"
  {
    if c.chapterTitle != "" then c.chapterTitle else "第" + IntToString(c.chapterNumber) + "章"
  }

  /** The heading that opens block `n`. */
  function ChunkHeading(n: nat): string {
    "### Chunk " + NatToString(n) + "(来源："
  }

  /** `chunk_texts`: one block per hit, in order, numbered from 1, each
      showing its source and then the trimmed content on the next line. */
  function ChunkTexts(chunks: seq<RetrievedChunk>): (blocks: seq<string>)
    ensures |blocks| == |chunks|
    ensures forall i :: 0 <= i < |chunks| ==>
              StartsWith(blocks[i], ChunkHeading(i + 1) + ChunkSource(chunks[i]) + ")\n")
              && EndsWith(blocks[i], "\n" + Strip(chunks[i].content))
  {
    seq(|chunks|, i requires 0 <= i < |chunks| =>
      ChunkHeading(i + 1) + ChunkSource(chunks[i]) + ")\n" + Strip(chunks[i].content))
  }

  /** Blocks are told apart by their number: two headings that begin the
      same way carry the same number. */
  lemma ChunkHeadingsDistinct(m: nat, n: nat, a: string, b: string)
    requires ChunkHeading(m) + a == ChunkHeading(n) + b
    ensures m == n
  {
    var pre := "### Chunk ";
    var x := NatToString(m);
    var y := NatToString(n);
    var sa := "(来源：" + a;
    var sb := "(来源：" + b;
    assert ChunkHeading(m) + a == pre + (x + sa);
    assert ChunkHeading(n) + b == pre + (y + sb);
    assert x + sa == (ChunkHeading(m) + a)[|pre|..];
    assert y + sb == (ChunkHeading(n) + b)[|pre|..];
    assert sa[0] == '(' && sb[0] == '(';
    DigitsBeforeMark(x, y, sa, sb);
    NatToStringInjective(m, n);
  }

  /** The number of leading decimal digits. */
  function LeadingDigits(u: string): (n: nat)
    ensures n <= |u|
  {
    if |u| == 0 || !IsDigit(u[0]) then 0 else 1 + LeadingDigits(u[1..])
  }

  /** Digits followed by a non-digit: the digit run is exactly the digits. */
  lemma {:induction false} LeadingDigitsOf(x: string, s: string)
    requires AllDigits(x) && |s| > 0 && !IsDigit(s[0])
    ensures LeadingDigits(x + s) == |x|
    decreases |x|
  {
    if |x| == 0 {
      assert x + s == s;
    } else {
      assert (x + s)[0] == x[0];
      assert (x + s)[1..] == x[1..] + s;
      LeadingDigitsOf(x[1..], s);
    }
  }

  /** A run of digits ended by a non-digit is read back unambiguously. */
  lemma DigitsBeforeMark(x: string, y: string, s: string, t: string)
    requires AllDigits(x) && AllDigits(y) && |s| > 0 && |t| > 0 && !IsDigit(s[0]) && !IsDigit(t[0])
    requires x + s == y + t
    ensures x == y
  {
    LeadingDigitsOf(x, s);
    LeadingDigitsOf(y, t);
    assert x == (x + s)[..|x|];
    assert y == (y + t)[..|y|];
  }

  /** The line that opens a summary of chapter `n`. */
  function SummaryHeading(n: int): string {
    "- 第" + IntToString(n) + "章 - "
  }

  /** `summary_lines`: one line per summary, in order, naming its chapter
      and title and ending with the trimmed summary text. */
  function SummaryLines(summaries: seq<RetrievedSummary>): (lines: seq<string>)
    ensures |lines| == |summaries|
    ensures forall i :: 0 <= i < |summaries| ==>
              StartsWith(lines[i], SummaryHeading(summaries[i].chapterNumber) + summaries[i].title + ":")
              && EndsWith(lines[i], ":" + Strip(summaries[i].summary))
  {
    seq(|summaries|, i requires 0 <= i < |summaries| =>
      SummaryHeading(summaries[i].chapterNumber) + summaries[i].title + ":" + Strip(summaries[i].summary))
  }
}

=== FILE: drafts.dfy ===
/** Blueprint drafts kept in a project's metadata under one key: saving
    merges the draft into the metadata, reading rebuilds it, deleting drops
    only that key. Projects are a map by id; a metadata of None or {} is
    "no metadata" (Python falsiness). The clock is a parameter. */
module Drafts {
  import opened Wrappers
  import opened Sanitizer
  import opened NovelText

  const DraftKey: string := "blueprint_draft"

  /** A project as far as drafts are concerned. */
  datatype Project = Project(metadata: Option<map<string, Json>>)

  type Projects = map<string, Project>

  /** Python's `if project.metadata`. */
  predicate HasMetadata(p: Project) {
    p.metadata.Some? && p.metadata.value != map[]
  }

  /** A save request: the stage the user is on (1 to 4, checked by the
      request schema) and the dumped data of stages 1 to 4, when given. */
  datatype SaveRequest = SaveRequest(currentStage: nat, stages: seq<Option<seq<Member>>>)

  /** What the request schema guarantees: every given stage is the dump of
      its stage model. */
  predicate ValidRequest(req: SaveRequest) {
    1 <= req.currentStage <= 4 && |req.stages| == 4
    && forall i :: 0 <= i < 4 && req.stages[i].Some? ==> IsStageDump(StageSchemas[i], req.stages[i].value)
  }

  const StageKeys: seq<string> := ["stage1", "stage2", "stage3", "stage4"]

  /** The field types the four stage models use: a required string, an
      optional string, a JSON object, a list of JSON objects. */
  datatype FieldKind = Text | OptionalText | Object | ObjectList

  /** A stage model: its fields, in declaration order. */
  type StageSchema = seq<(string, FieldKind)>

  /** `Stage1Data` to `Stage4Data`. */
  const StageSchemas: seq<StageSchema> := [
    [("title", Text), ("genre", Text), ("tone", Text), ("target_audience", OptionalText),
     ("style", OptionalText), ("one_sentence_summary", Text)],
    [("full_synopsis", Text), ("world_setting", Object)],
    [("characters", ObjectList), ("relationships", ObjectList)],
    [("chapter_outline", ObjectList)]
  ]

  /** Whether a field's value (None when the key is missing) passes
      validation: a required field must be present with its type, an
      optional string may be missing or null. */
  predicate Fits(kind: FieldKind, v: Option<Json>) {
    match kind
    case Text => v.Some? && v.value.JStr?
    case OptionalText => v.None? || v.value.JNull? || v.value.JStr?
    case Object => v.Some? && v.value.JObj?
    case ObjectList => v.Some? && v.value.JArr? && forall k :: 0 <= k < |v.value.items| ==> v.value.items[k].JObj?
  }

  /** The value the model holds for a field that passed: a missing optional
      string defaults to null. */
  function FieldValue(v: Option<Json>): Json {
    if v.None? then JNull else v.value
  }

  /** Building a stage model from an object: None when a field fails;
      otherwise the declared fields in order, every other key dropped. */
  function ValidateStage(schema: StageSchema, fields: seq<Member>): (r: Option<seq<Member>>)
    ensures r.Some? <==> forall j :: 0 <= j < |schema| ==> Fits(schema[j].1, Get(fields, schema[j].0))
    ensures r.Some? ==> |r.value| == |schema|
                        && forall j :: 0 <= j < |schema| ==>
                             r.value[j] == Member(schema[j].0, FieldValue(Get(fields, schema[j].0)))
  {
    if schema == [] then Some([])
    else
      var v := Get(fields, schema[0].0);
      var rest := ValidateStage(schema[1..], fields);
      assert forall j :: 1 <= j < |schema| ==> schema[j] == schema[1..][j - 1];
      if !Fits(schema[0].1, v) || rest.None? then None
      else Some([Member(schema[0].0, FieldValue(v))] + rest.value)
  }

  /** The dump of a stage model: exactly its fields, in order, each of its
      type (a missing optional string dumps as null). */
  predicate IsStageDump(schema: StageSchema, ms: seq<Member>) {
    |ms| == |schema|
    && forall j :: 0 <= j < |schema| ==> ms[j].key == schema[j].0 && Fits(schema[j].1, Some(ms[j].value))
  }

  function StageJson(stage: Option<seq<Member>>): Json {
    if stage.Some? then JObj(stage.value) else JNull
  }

  /** The stored draft: current stage, the four stages (null when absent)
      and the save time. */
  function DraftJson(req: SaveRequest, now: string): (r: Json)
    requires |req.stages| == 4
    ensures r.JObj? && |r.members| == 6
    ensures r.members[0] == Member("current_stage", JNum(req.currentStage))
    ensures forall i :: 0 <= i < 4 ==> r.members[i + 1] == Member(StageKeys[i], StageJson(req.stages[i]))
    ensures r.members[5] == Member("updated_at", JStr(now))
  {
    JObj([Member("current_stage", JNum(req.currentStage)),
          Member("stage1", StageJson(req.stages[0])), Member("stage2", StageJson(req.stages[1])),
          Member("stage3", StageJson(req.stages[2])), Member("stage4", StageJson(req.stages[3])),
          Member("updated_at", JStr(now))])
  }

  /** `save_draft`: a missing project is an error; otherwise the draft is
      written under its key and every other metadata key is kept. */
  function SaveDraft(projects: Projects, id: string, req: SaveRequest, now: string): (r: Result<Projects, string>)
    requires |req.stages| == 4
    ensures id !in projects <==> r.Failure?
    ensures r.Success? ==> r.value.Keys == projects.Keys
    ensures r.Success? ==> forall other :: other in projects && other != id ==> r.value[other] == projects[other]
    ensures r.Success? ==> r.value[id].metadata.Some? && DraftKey in r.value[id].metadata.value
                           && r.value[id].metadata.value[DraftKey] == DraftJson(req, now)
    ensures r.Success? ==> var before := projects[id].metadata;
              r.value[id].metadata.value.Keys == {DraftKey} + (if before.Some? then before.value.Keys else {})
              && (before.Some? ==> forall k :: k in before.value && k != DraftKey ==>
                                     r.value[id].metadata.value[k] == before.value[k])
  {
    if id !in projects then Failure("项目不存在: " + id)
    else
      var p := projects[id];
      var md := if HasMetadata(p) then p.metadata.value[DraftKey := DraftJson(req, now)]
                else map[DraftKey := DraftJson(req, now)];
      Success(projects[id := Project(Some(md))])
  }

  /** A draft as `get_draft` rebuilds it. */
  datatype Draft = Draft(currentStage: nat, stages: seq<Option<seq<Member>>>, updatedAt: Option<Json>)

  /** Why rebuilding a stored draft raised: a stored value of the wrong
      shape. */
  datatype ReadError = NotAnObject | BadStage(index: nat) | BadCurrentStage | BadUpdatedAt

  /** Stage `i + 1`: a falsy value reads as absent; an object is built into
      its stage model, which keeps the declared fields and drops the rest;
      any other truthy value, or an object with a field missing or of the
      wrong type, fails. */
  function ReadStage(ms: seq<Member>, i: nat): (r: Result<Option<seq<Member>>, ()>)
    requires i < 4
    ensures Get(ms, StageKeys[i]).None? || !Truthy(Get(ms, StageKeys[i]).value) ==> r == Success(None)
    ensures Get(ms, StageKeys[i]).Some? && Truthy(Get(ms, StageKeys[i]).value) && !Get(ms, StageKeys[i]).value.JObj?
            ==> r == Failure(())
    ensures Get(ms, StageKeys[i]).Some? && Get(ms, StageKeys[i]).value.JObj? && Truthy(Get(ms, StageKeys[i]).value)
            ==> var fields := Get(ms, StageKeys[i]).value.members;
                var schema := StageSchemas[i];
                (r.Success? <==> forall j :: 0 <= j < |schema| ==> Fits(schema[j].1, Get(fields, schema[j].0)))
                && (r.Success? ==> (r.value.Some? && |r.value.value| == |schema|
                      && forall j :: 0 <= j < |schema| ==>
                           r.value.value[j] == Member(schema[j].0, FieldValue(Get(fields, schema[j].0)))))
  {
    var v := Get(ms, StageKeys[i]);
    if v.None? || !Truthy(v.value) then Success(None)
    else if !v.value.JObj? then Failure(())
    else
      var built := ValidateStage(StageSchemas[i], v.value.members);
      if built.None? then Failure(()) else Success(Some(built.value))
  }

  /** `get_draft`: None for a missing project, no metadata or a falsy draft;
      otherwise the draft rebuilt, the current stage defaulting to 1. The
      stage number must be 1 to 4 and every present stage an object, or the
      rebuild raises. */
  function GetDraft(projects: Projects, id: string): (r: Result<Option<Draft>, ReadError>)
    ensures id !in projects || !HasMetadata(projects[id]) ==> r == Success(None)
    ensures id in projects && HasMetadata(projects[id])
            && (DraftKey !in projects[id].metadata.value || !Truthy(projects[id].metadata.value[DraftKey]))
            ==> r == Success(None)
    ensures id in projects && HasMetadata(projects[id]) && DraftKey in projects[id].metadata.value
            && Truthy(projects[id].metadata.value[DraftKey])
            ==> r == ReadDraft(projects[id].metadata.value[DraftKey])
  {
    if id !in projects || !HasMetadata(projects[id]) then Success(None)
    else
      var md := projects[id].metadata.value;
      if DraftKey !in md || !Truthy(md[DraftKey]) then Success(None)
      else ReadDraft(md[DraftKey])
  }

  /** Rebuilding a stored draft: the four stages are built first, in order;
      then the draft model checks that the current stage (default 1) is 1 to
      4 and that the save time is a string or null. Any failure raises. */
  function ReadDraft(stored: Json): (r: Result<Option<Draft>, ReadError>)
    ensures !stored.JObj? <==> r == Failure(NotAnObject)
    ensures r.Success? ==> r.value.Some? && 1 <= r.value.value.currentStage <= 4 && |r.value.value.stages| == 4
    ensures r.Success? ==> var at := r.value.value.updatedAt; at.None? || at.value.JNull? || at.value.JStr?
    ensures stored.JObj? ==> forall i :: 0 <= i < 4 && ReadStage(stored.members, i).Failure?
                                && (forall k :: 0 <= k < i ==> ReadStage(stored.members, k).Success?)
                                ==> r == Failure(BadStage(i + 1))
  {
    match stored
    case JObj(ms) =>
      var s1 := ReadStage(ms, 0);
      var s2 := ReadStage(ms, 1);
      var s3 := ReadStage(ms, 2);
      var s4 := ReadStage(ms, 3);
      if s1.Failure? then Failure(BadStage(1))
      else if s2.Failure? then Failure(BadStage(2))
      else if s3.Failure? then Failure(BadStage(3))
      else if s4.Failure? then Failure(BadStage(4))
      else
        var stage := GetOr(ms, "current_stage", JNum(1));
        var at := Get(ms, "updated_at");
        if !(stage.JNum? && 1 <= stage.n <= 4) then Failure(BadCurrentStage)
        else if !(at.None? || at.value.JNull? || at.value.JStr?) then Failure(BadUpdatedAt)
        else Success(Some(Draft(stage.n, [s1.value, s2.value, s3.value, s4.value], at)))
    case _ => Failure(NotAnObject)
  }

  /** Python's `value.get(key, default)` on an object. */
  function GetOr(ms: seq<Member>, key: string, default: Json): (r: Json)
    ensures Get(ms, key).Some? ==> r == Get(ms, key).value
    ensures Get(ms, key).None? ==> r == default
  {
    if Get(ms, key).Some? then Get(ms, key).value else default
  }

  /** `delete_draft`: False when there is no project, no metadata or no
      draft; otherwise the draft key, and only it, is removed. */
  function DeleteDraft(projects: Projects, id: string): (r: (bool, Projects))
    ensures r.0 <==> id in projects && HasMetadata(projects[id]) && DraftKey in projects[id].metadata.value
    ensures !r.0 ==> r.1 == projects
    ensures r.0 ==> r.1 == projects[id := Project(Some(projects[id].metadata.value - {DraftKey}))]
  {
    if id !in projects || !HasMetadata(projects[id]) then (false, projects)
    else
      var md := projects[id].metadata.value;
      if DraftKey in md then (true, projects[id := Project(Some(md - {DraftKey}))]) else (false, projects)
  }

  /** `has_draft`. */
  function HasDraft(projects: Projects, id: string): (r: bool)
    ensures r <==> id in projects && projects[id].metadata.Some? && DraftKey in projects[id].metadata.value
  {
    id in projects && HasMetadata(projects[id]) && DraftKey in projects[id].metadata.value
  }

  /** The six keys of a stored draft differ. */
  lemma DraftKeysDiffer()
    ensures "current_stage" != "stage1" && "current_stage" != "stage2" && "current_stage" != "stage3"
            && "current_stage" != "stage4"
    ensures "stage1" != "stage2" && "stage1" != "stage3" && "stage1" != "stage4"
            && "stage2" != "stage3" && "stage2" != "stage4" && "stage3" != "stage4"
    ensures "updated_at" !in StageKeys && "updated_at" != "current_stage"
  {
    assert "current_stage"[0] == 'c' && "stage1"[0] == 's' && "updated_at"[0] == 'u';
    assert "stage1"[5] == '1' && "stage2"[5] == '2' && "stage3"[5] == '3' && "stage4"[5] == '4';
  }

  /** The member at `i` is found when no earlier member has its key. */
  lemma {:induction false} GetAt(ms: seq<Member>, i: nat)
    requires i < |ms|
    requires forall j :: 0 <= j < i ==> ms[j].key != ms[i].key
    ensures Get(ms, ms[i].key) == Some(ms[i].value)
    decreases i
  {
    if i > 0 {
      assert forall j :: 0 <= j < i - 1 ==> ms[1..][j] == ms[j + 1];
      GetAt(ms[1..], i - 1);
    }
  }

  /** No two fields of a stage model share a name. */
  lemma SchemaKeysDistinct(i: nat)
    requires i < 4
    ensures forall j, k :: 0 <= k < j < |StageSchemas[i]| ==> StageSchemas[i][k].0 != StageSchemas[i][j].0
  {
    assert "title"[0] == 't' && "genre"[0] == 'g' && "tone"[1] == 'o' && "target_audience"[1] == 'a';
    assert "style"[0] == 's' && "one_sentence_summary"[0] == 'o' && "title"[1] == 'i';
    assert "full_synopsis"[0] == 'f' && "world_setting"[0] == 'w';
    assert "characters"[0] == 'c' && "relationships"[0] == 'r';
  }

  /** A stage model's dump builds back into itself. */
  lemma {:induction false} DumpValidates(i: nat, ms: seq<Member>)
    requires i < 4 && IsStageDump(StageSchemas[i], ms)
    ensures ValidateStage(StageSchemas[i], ms) == Some(ms)
  {
    var schema := StageSchemas[i];
    SchemaKeysDistinct(i);
    forall j | 0 <= j < |schema|
      ensures Get(ms, schema[j].0) == Some(ms[j].value) && Fits(schema[j].1, Get(ms, schema[j].0))
    {
      GetAt(ms, j);
    }
    var r := ValidateStage(schema, ms);
    assert r.Some?;
    assert |r.value| == |ms|;
    forall j | 0 <= j < |ms| ensures r.value[j] == ms[j] {
      assert FieldValue(Get(ms, schema[j].0)) == ms[j].value;
    }
    assert r.value == ms;
  }

  /** A member under another key does not change a lookup. */
  lemma {:induction false} GetAppendOther(ms: seq<Member>, m: Member, key: string)
    requires m.key != key
    ensures Get(ms + [m], key) == Get(ms, key)
    decreases |ms|
  {
    if ms == [] {
      assert ([] + [m])[1..] == [];
    } else {
      GetAppendOther(ms[1..], m, key);
      assert (ms + [m])[1..] == ms[1..] + [m];
    }
  }

  /** Keys the stage model does not declare make no difference to it. */
  lemma ValidateIgnoresUndeclared(schema: StageSchema, fields: seq<Member>, m: Member)
    requires forall j :: 0 <= j < |schema| ==> schema[j].0 != m.key
    ensures ValidateStage(schema, fields + [m]) == ValidateStage(schema, fields)
  {
    forall j | 0 <= j < |schema| ensures Get(fields + [m], schema[j].0) == Get(fields, schema[j].0) {
      GetAppendOther(fields, m, schema[j].0);
    }
    var a := ValidateStage(schema, fields + [m]);
    var b := ValidateStage(schema, fields);
    if a.Some? {
      assert a.value == b.value;
    }
  }

  /** Reading the stored draft gives back each stage as it was saved. */
  lemma ReadSavedStage(req: SaveRequest, now: string, i: nat)
    requires ValidRequest(req) && i < 4
    ensures ReadStage(DraftJson(req, now).members, i) == Success(req.stages[i])
  {
    var ms := DraftJson(req, now).members;
    DraftKeysDiffer();
    GetAt(ms, i + 1);
    if req.stages[i].Some? {
      DumpValidates(i, req.stages[i].value);
    }
  }

  /** The stored form of a draft rebuilds to the draft saved. */
  lemma ReadDraftRoundTrip(req: SaveRequest, now: string)
    requires ValidRequest(req)
    ensures ReadDraft(DraftJson(req, now)) == Success(Some(Draft(req.currentStage, req.stages, Some(JStr(now)))))
  {
    var ms := DraftJson(req, now).members;
    SavedHeader(req, now);
    forall i | 0 <= i < 4 ensures ReadStage(ms, i) == Success(req.stages[i]) {
      ReadSavedStage(req, now, i);
    }
    ReadDraftOf(ms, req.currentStage, req.stages, Some(JStr(now)));
  }

  /** The stored draft gives back its stage number and save time. */
  lemma SavedHeader(req: SaveRequest, now: string)
    requires ValidRequest(req)
    ensures GetOr(DraftJson(req, now).members, "current_stage", JNum(1)) == JNum(req.currentStage)
    ensures Get(DraftJson(req, now).members, "updated_at") == Some(JStr(now))
  {
    var ms := DraftJson(req, now).members;
    DraftKeysDiffer();
    GetAt(ms, 0);
    GetAt(ms, 5);
  }

  /** `get_draft` on an object whose fields read as given. */
  lemma ReadDraftOf(ms: seq<Member>, n: int, stages: seq<Option<seq<Member>>>, at: Option<Json>)
    requires 1 <= n <= 4 && |stages| == 4
    requires GetOr(ms, "current_stage", JNum(1)) == JNum(n) && Get(ms, "updated_at") == at
    requires at.None? || at.value.JNull? || at.value.JStr?
    requires forall i :: 0 <= i < 4 ==> ReadStage(ms, i) == Success(stages[i])
    ensures ReadDraft(JObj(ms)) == Success(Some(Draft(n, stages, at)))
  {
    assert ReadStage(ms, 0) == Success(stages[0]);
    assert ReadStage(ms, 1) == Success(stages[1]);
    assert ReadStage(ms, 2) == Success(stages[2]);
    assert ReadStage(ms, 3) == Success(stages[3]);
    assert [stages[0], stages[1], stages[2], stages[3]] == stages;
  }

  /** Saving then reading gives back the stage number and the four stages,
      and the save time. */
  lemma SaveThenGet(projects: Projects, id: string, req: SaveRequest, now: string)
    requires id in projects && ValidRequest(req)
    ensures SaveDraft(projects, id, req, now).Success?
    ensures GetDraft(SaveDraft(projects, id, req, now).value, id)
            == Success(Some(Draft(req.currentStage, req.stages, Some(JStr(now)))))
  {
    var after := SaveDraft(projects, id, req, now).value;
    assert HasMetadata(after[id]);
    ReadDraftRoundTrip(req, now);
  }

  /** After a delete there is no draft; a second delete reports False. */
  lemma DeleteThenHasNot(projects: Projects, id: string)
    ensures !HasDraft(DeleteDraft(projects, id).1, id)
    ensures !DeleteDraft(DeleteDraft(projects, id).1, id).0
  {
  }

  /** A saved draft is seen by `has_draft`. */
  lemma SaveThenHas(projects: Projects, id: string, req: SaveRequest, now: string)
    requires id in projects && |req.stages| == 4
    ensures HasDraft(SaveDraft(projects, id, req, now).value, id)
  {
    var md := SaveDraft(projects, id, req, now).value[id].metadata.value;
    assert DraftKey in md;
  }
}

=== FILE: escapes.dfy ===
/** Two-character backslash escapes (`\n`, `\t`, `\"`) and the chains of
    `replace` calls both the backend and the frontend use to undo them. */
module Escapes {
  import opened Text

  const Backslash: char := '\\'

  /** The characters that have a two-character escape here. */
  predicate Escapable(c: char) {
    c == '\n' || c == '\t' || c == '"'
  }

  /** The letter written after the backslash. */
  function Code(c: char): (l: char)
    ensures l != Backslash
    ensures Escapable(c) && l == 'n' ==> c == '\n'
    ensures Escapable(c) && l == 't' ==> c == '\t'
    ensures Escapable(c) && l == '"' ==> c == '"'
  {
    if c == '\n' then 'n' else if c == '\t' then 't' else if c == '"' then '"' else if c == '\\' then 'x' else c
  }

  /** No backslash anywhere. */
  predicate NoBackslash(t: string) {
    forall i :: 0 <= i < |t| ==> t[i] != Backslash
  }

  /** `t` with every character of `k` written as backslash plus its code and
      every other character kept. */
  function EscapeWith(t: string, k: set<char>): (r: string)
    ensures |r| >= |t|
    ensures k == {} ==> r == t
    decreases |t|
  {
    if |t| == 0 then ""
    else (if t[0] in k then [Backslash, Code(t[0])] else [t[0]]) + EscapeWith(t[1..], k)
  }

  /** All three escapes. */
  const AllEscapes: set<char> := {'\n', '\t', '"'}

  /** The double-quoted literal of a backslash-free text, as `JSON.stringify`
      and `json.dumps` write it when `\n`, `\t` and `"` are its only
      characters needing an escape. */
  function QuoteLiteral(t: string): (r: string)
    ensures |r| >= |t| + 2 && r[0] == '"' && r[|r| - 1] == '"'
  {
    "\"" + EscapeWith(t, AllEscapes) + "\""
  }

  /** A character other than the first of the pattern passes through a
      replacement unchanged. */
  lemma ReplaceCons(y: char, rest: string, pat: string, rep: string)
    requires |pat| > 0 && y != pat[0]
    ensures ReplaceAll([y] + rest, pat, rep) == [y] + ReplaceAll(rest, pat, rep)
  {
    var s := [y] + rest;
    if |s| >= |pat| {
      assert s[..|pat|][0] == y;
      assert s[1..] == rest;
    }
  }

  /** A text without the pattern's first character is left alone. */
  lemma {:induction false} ReplaceAbsent(s: string, pat: string, rep: string)
    requires |pat| > 0
    requires forall i :: 0 <= i < |s| ==> s[i] != pat[0]
    ensures ReplaceAll(s, pat, rep) == s
    decreases |s|
  {
    if |s| > 0 {
      ReplaceAbsent(s[1..], pat, rep);
      ReplaceCons(s[0], s[1..], pat, rep);
      assert [s[0]] + s[1..] == s;
    }
  }

  /** A replacement by something no longer than the pattern never makes the
      text longer. */
  lemma {:induction false} ReplaceShrinks(s: string, pat: string, rep: string)
    requires |pat| > 0 && |rep| <= |pat|
    ensures |ReplaceAll(s, pat, rep)| <= |s|
    decreases |s|
  {
    if |s| >= |pat| {
      if s[..|pat|] == pat {
        ReplaceShrinks(s[|pat|..], pat, rep);
      } else {
        ReplaceShrinks(s[1..], pat, rep);
      }
    }
  }

  /** Undoing one escape `c` of a backslash-free text: the replacement of
      backslash-plus-code by `c` removes exactly that escape and keeps the
      others, whatever order the chain uses. */
  lemma {:induction false} UnescapeOne(t: string, k: set<char>, c: char)
    requires NoBackslash(t)
    requires c in k && forall x :: x in k ==> Escapable(x)
    ensures ReplaceAll(EscapeWith(t, k), [Backslash, Code(c)], [c]) == EscapeWith(t, k - {c})
    decreases |t|
  {
    if |t| > 0 {
      var x := t[0];
      assert NoBackslash(t[1..]) by {
        forall i | 0 <= i < |t[1..]| ensures t[1..][i] != Backslash {
          assert t[1..][i] == t[i + 1];
        }
      }
      UnescapeOne(t[1..], k, c);
      assert x != Backslash;
      assert EscapeWith(t, k) == (if x in k then [Backslash, Code(x)] else [x]) + EscapeWith(t[1..], k);
      assert EscapeWith(t, k - {c}) == (if x in k - {c} then [Backslash, Code(x)] else [x]) + EscapeWith(t[1..], k - {c});
      UnescapeHead(x, EscapeWith(t[1..], k), k, c);
    }
  }

  /** One character of the escaped text under the replacement undoing `c`:
      its escape goes if it is `c`'s and stays otherwise. */
  lemma UnescapeHead(x: char, rest: string, k: set<char>, c: char)
    requires x != Backslash && c in k && forall y :: y in k ==> Escapable(y)
    ensures ReplaceAll((if x in k then [Backslash, Code(x)] else [x]) + rest, [Backslash, Code(c)], [c])
            == (if x in k - {c} then [Backslash, Code(x)] else [x]) + ReplaceAll(rest, [Backslash, Code(c)], [c])
  {
    var pat := [Backslash, Code(c)];
    if x in k {
      var s := [Backslash, Code(x)] + rest;
      if x == c {
        assert s[..2] == pat;
        assert s[2..] == rest;
      } else {
        assert Code(x) != Code(c);
        assert s[..2] != pat by { assert s[..2][1] == Code(x); }
        assert s[1..] == [Code(x)] + rest;
        ReplaceCons(Code(x), rest, pat, [c]);
        assert ReplaceAll(s, pat, [c]) == [Backslash] + ReplaceAll(s[1..], pat, [c]);
        assert [Backslash] + ([Code(x)] + ReplaceAll(rest, pat, [c]))
            == [Backslash, Code(x)] + ReplaceAll(rest, pat, [c]);
      }
    } else {
      ReplaceCons(x, rest, pat, [c]);
    }
  }
}

=== FILE: ingest.dfy ===
/** The chapter ingestion service: after a chapter is confirmed its text is
    chunked, each chunk embedded and stored under a deterministic id, and the
    summary embedded and stored beside it. The embedder is a parameter: it
    answers an empty vector for a failed or empty reply, and it can also
    raise (`IngestWithRaise`); the store is the logical store of
    `VectorStore`. */
module Ingest {
  import opened Wrappers
  import opened Text
  import opened Chunker
  import opened VectorStore

  /** A call the service issues to the vector store. */
  datatype StoreCall =
    | DeleteChapters(projectId: string, chapters: seq<int>)
    | UpsertChunksCall(chunks: seq<ChunkRecord>)
    | UpsertSummariesCall(summaries: seq<SummaryRecord>)

  /** What one ingestion does: the texts sent to the embedder, in order, and
      the store calls, in order. */
  datatype Plan = Plan(embedded: seq<string>, calls: seq<StoreCall>)

  /** The settings the service reads, and the optional third-party splitter. */
  datatype IngestSettings = IngestSettings(
    enabled: bool, chunkSize: nat, overlap: nat, splitter: Option<string -> seq<string>>)

  /** `"{project}:{chapter}:{index}"`. */
  function ChunkId(projectId: string, chapter: int, index: nat): string {
    projectId + ":" + IntToString(chapter) + ":" + NatToString(index)
  }

  /** `"{project}:{chapter}:summary"`. */
  function SummaryId(projectId: string, chapter: int): string {
    projectId + ":" + IntToString(chapter) + ":summary"
  }

  /** Within one chapter, distinct indices give distinct ids. */
  lemma ChunkIdInjective(projectId: string, chapter: int, i: nat, j: nat)
    requires ChunkId(projectId, chapter, i) == ChunkId(projectId, chapter, j)
    ensures i == j
  {
    var prefix := projectId + ":" + IntToString(chapter) + ":";
    assert ChunkId(projectId, chapter, i) == prefix + NatToString(i);
    assert ChunkId(projectId, chapter, j) == prefix + NatToString(j);
    assert NatToString(i) == ChunkId(projectId, chapter, i)[|prefix|..];
    NatToStringInjective(i, j);
  }

  /** The record stored for chunk `index`, with the metadata the service
      attaches (its id and its length in characters). */
  function ChunkRow(projectId: string, chapter: int, title: string, text: string, index: nat, embedding: seq<real>)
    : ChunkRecord
  {
    var id := ChunkId(projectId, chapter, index);
    ChunkRecord(id, projectId, chapter, index, title, text, embedding,
                map["chunk_id" := MetaText(id), "length" := MetaInt(|text|)])
  }

  /** `rec` is the record of chunk `rec.chunkIndex` of the split, and that
      chunk's embedding is non-empty. */
  predicate StoredChunk(rec: ChunkRecord, projectId: string, chapter: int, title: string, chunks: seq<string>,
                        embed: string -> seq<real>)
  {
    0 <= rec.chunkIndex < |chunks| && |embed(chunks[rec.chunkIndex])| > 0
    && rec == ChunkRow(projectId, chapter, title, chunks[rec.chunkIndex], rec.chunkIndex, embed(chunks[rec.chunkIndex]))
  }

  /** The records for chunks `from` onwards: a chunk whose embedding comes
      back empty is skipped, and later chunks keep their own position as
      index (no renumbering). */
  function ChunkRows(projectId: string, chapter: int, title: string, chunks: seq<string>,
                     embed: string -> seq<real>, from: nat): (rs: seq<ChunkRecord>)
    requires from <= |chunks|
    ensures forall k :: 0 <= k < |rs| ==>
              from <= rs[k].chunkIndex && StoredChunk(rs[k], projectId, chapter, title, chunks, embed)
    ensures forall k, l :: 0 <= k < l < |rs| ==> rs[k].chunkIndex < rs[l].chunkIndex
    decreases |chunks| - from
  {
    if from == |chunks| then []
    else
      var e := embed(chunks[from]);
      var rest := ChunkRows(projectId, chapter, title, chunks, embed, from + 1);
      if |e| == 0 then rest
      else [ChunkRow(projectId, chapter, title, chunks[from], from, e)] + rest
  }

  /** No chunk that embedded is lost: every such index has its record. */
  lemma {:induction false} ChunkRowsComplete(projectId: string, chapter: int, title: string, chunks: seq<string>,
                                            embed: string -> seq<real>, from: nat, i: nat)
    requires from <= i < |chunks| && |embed(chunks[i])| > 0
    ensures var rs := ChunkRows(projectId, chapter, title, chunks, embed, from);
            exists k :: 0 <= k < |rs| && rs[k].chunkIndex == i
    decreases |chunks| - from
  {
    var rs := ChunkRows(projectId, chapter, title, chunks, embed, from);
    var rest := ChunkRows(projectId, chapter, title, chunks, embed, from + 1);
    var head := ChunkRow(projectId, chapter, title, chunks[from], from, embed(chunks[from]));
    ChunkRowsStep(projectId, chapter, title, chunks, embed, from);
    if i == from {
      assert rs[0] == head;
    } else {
      ChunkRowsComplete(projectId, chapter, title, chunks, embed, from + 1, i);
      var k :| 0 <= k < |rest| && rest[k].chunkIndex == i;
      if |embed(chunks[from])| == 0 {
        assert rs[k] == rest[k];
      } else {
        assert rs[k + 1] == rest[k];
      }
    }
  }

  /** One step of `ChunkRows`. */
  lemma ChunkRowsStep(projectId: string, chapter: int, title: string, chunks: seq<string>,
                      embed: string -> seq<real>, from: nat)
    requires from < |chunks|
    ensures var rest := ChunkRows(projectId, chapter, title, chunks, embed, from + 1);
            ChunkRows(projectId, chapter, title, chunks, embed, from)
            == if |embed(chunks[from])| == 0 then rest
               else [ChunkRow(projectId, chapter, title, chunks[from], from, embed(chunks[from]))] + rest
  {
  }

  /** The batch is empty exactly when no chunk embedded. */
  lemma ChunkRowsEmptyIff(projectId: string, chapter: int, title: string, chunks: seq<string>,
                          embed: string -> seq<real>)
    ensures ChunkRows(projectId, chapter, title, chunks, embed, 0) == []
            <==> forall i :: 0 <= i < |chunks| ==> |embed(chunks[i])| == 0
  {
    var rs := ChunkRows(projectId, chapter, title, chunks, embed, 0);
    if rs != [] {
      assert StoredChunk(rs[0], projectId, chapter, title, chunks, embed);
    }
    forall i | 0 <= i < |chunks| && |embed(chunks[i])| > 0 ensures rs != [] {
      ChunkRowsComplete(projectId, chapter, title, chunks, embed, 0, i);
    }
  }

  /** The summary record, when one is written: the summary must be non-empty
      after trimming and its embedding non-empty. */
  function SummaryRow(projectId: string, chapter: int, title: string, summary: Option<string>,
                      embed: string -> seq<real>): (r: Option<SummaryRecord>)
    ensures r.Some? <==> summary.Some? && !IsBlank(summary.value) && |embed(Strip(summary.value))| > 0
    ensures r.Some? ==> r.value == SummaryRecord(SummaryId(projectId, chapter), projectId, chapter, title,
                                                  Strip(summary.value), embed(Strip(summary.value)))
  {
    if summary.None? || summary.value == "" then
      StripEmptyIffBlank("");
      None
    else
      var cleaned := Strip(summary.value);
      StripEmptyIffBlank(summary.value);
      if cleaned == "" then None
      else
        var e := embed(cleaned);
        if |e| == 0 then None
        else Some(SummaryRecord(SummaryId(projectId, chapter), projectId, chapter, title, cleaned, e))
  }

  /** The texts sent to the embedder for the summary: its trimmed text, when
      that is non-empty. */
  function SummaryEmbedded(summary: Option<string>): seq<string> {
    if summary.None? || IsBlank(summary.value) then [] else [Strip(summary.value)]
  }

  /** The store calls of a non-trivial ingestion: delete the chapter first,
      then the chunk batch if it is non-empty, then the summary if any. */
  function PlanCalls(projectId: string, chapter: int, rows: seq<ChunkRecord>, s: Option<SummaryRecord>)
    : seq<StoreCall>
  {
    [DeleteChapters(projectId, [chapter])] + ChunkCalls(rows) + SummaryCalls(s)
  }

  function ChunkCalls(rows: seq<ChunkRecord>): seq<StoreCall> {
    if rows == [] then [] else [UpsertChunksCall(rows)]
  }

  function SummaryCalls(s: Option<SummaryRecord>): seq<StoreCall> {
    if s.None? then [] else [UpsertSummariesCall([s.value])]
  }

  /** `ingest_chapter` as a plan: nothing at all when the store is disabled
      or the content is blank; otherwise delete the chapter's old records
      first, embed every chunk, upsert the chunks that embedded (only if
      there is one), then embed and upsert the summary when there is one. */
  function IngestPlan(cfg: IngestSettings, projectId: string, chapter: int, title: string, content: string,
                      summary: Option<string>, embed: string -> seq<real>): (plan: Plan)
    requires cfg.chunkSize > 0
    ensures !cfg.enabled || IsBlank(content) ==> plan == Plan([], [])
    ensures cfg.enabled && !IsBlank(content) ==>
              |plan.calls| >= 1 && plan.calls[0] == DeleteChapters(projectId, [chapter])
              && forall k :: 1 <= k < |plan.calls| ==> !plan.calls[k].DeleteChapters?
  {
    if !cfg.enabled || IsBlank(content) then Plan([], [])
    else
      var chunks := SplitIntoChunks(content, cfg.splitter, cfg.chunkSize, cfg.overlap);
      var rows := ChunkRows(projectId, chapter, title, chunks, embed, 0);
      var s := SummaryRow(projectId, chapter, title, summary, embed);
      Plan(chunks + SummaryEmbedded(summary), PlanCalls(projectId, chapter, rows, s))
  }

  /** The chunk batch of a non-trivial ingestion: it is the second call
      exactly when some chunk embedded, and then it holds the records of
      every chunk that embedded; the embedder sees every chunk, in order,
      before the summary. */
  lemma IngestedChunks(cfg: IngestSettings, projectId: string, chapter: int, title: string, content: string,
                       summary: Option<string>, embed: string -> seq<real>)
    requires cfg.chunkSize > 0 && cfg.enabled && !IsBlank(content)
    ensures var chunks := SplitIntoChunks(content, cfg.splitter, cfg.chunkSize, cfg.overlap);
            var plan := IngestPlan(cfg, projectId, chapter, title, content, summary, embed);
            |chunks| > 0 && plan.embedded[..|chunks|] == chunks
            && ((|plan.calls| > 1 && plan.calls[1].UpsertChunksCall?)
                <==> exists i :: 0 <= i < |chunks| && |embed(chunks[i])| > 0)
            && (|plan.calls| > 1 && plan.calls[1].UpsertChunksCall? ==>
                  plan.calls[1].chunks == ChunkRows(projectId, chapter, title, chunks, embed, 0))
  {
    var chunks := SplitIntoChunks(content, cfg.splitter, cfg.chunkSize, cfg.overlap);
    var rows := ChunkRows(projectId, chapter, title, chunks, embed, 0);
    var s := SummaryRow(projectId, chapter, title, summary, embed);
    ChunkRowsEmptyIff(projectId, chapter, title, chunks, embed);
    SecondCall(projectId, chapter, rows, s);
  }

  /** The second call of a plan is the chunk batch exactly when the batch
      is non-empty. */
  lemma SecondCall(projectId: string, chapter: int, rows: seq<ChunkRecord>, s: Option<SummaryRecord>)
    ensures var calls := PlanCalls(projectId, chapter, rows, s);
            (|calls| > 1 && calls[1].UpsertChunksCall? <==> rows != [])
            && (|calls| > 1 && calls[1].UpsertChunksCall? ==> calls[1].chunks == rows)
  {
    var calls := PlanCalls(projectId, chapter, rows, s);
    if rows != [] {
      assert calls[1] == UpsertChunksCall(rows);
    } else if |calls| > 1 {
      assert calls[1] == SummaryCalls(s)[0];
    }
  }

  /** Indices are positions in the split, not a renumbering: with three
      chunks of which the middle one fails to embed, the stored indices are
      0 and 2. */
  lemma SkippedChunkLeavesGap()
    ensures var embed := (t: string) => if t == "b" then [] else [1.0];
            var rows := ChunkRows("p", 1, "t", ["a", "b", "c"], embed, 0);
            |rows| == 2 && rows[0].chunkIndex == 0 && rows[1].chunkIndex == 2
            && rows[1].id == "p:1:2"
  {
    var embed := (t: string) => if t == "b" then [] else [1.0];
    assert embed("a") == [1.0] && embed("b") == [] && embed("c") == [1.0];
    assert ["a", "b", "c"][2] == "c";
    assert NatToString(2) == "2" && IntToString(1) == "1";
  }

  /** How an ingestion ends: it completes, or the embedder raises and the
      exception escapes; either way, the store calls issued before the end. */
  datatype Outcome = Completed(calls: seq<StoreCall>) | Raised(calls: seq<StoreCall>)

  /** `ingest_chapter` when the embedder raises on its call number
      `raiseAt` (counting from 0) and answers `embed` before that: nothing
      catches the raise, so the ingestion stops there. A raise on a chunk
      comes after the delete and before any upsert; a raise on the summary
      comes after the chunk batch. */
  function IngestWithRaise(cfg: IngestSettings, projectId: string, chapter: int, title: string, content: string,
                           summary: Option<string>, embed: string -> seq<real>, raiseAt: nat): (o: Outcome)
    requires cfg.chunkSize > 0
    ensures var plan := IngestPlan(cfg, projectId, chapter, title, content, summary, embed);
            (o.Raised? <==> raiseAt < |plan.embedded|)
            && (o.Completed? ==> o.calls == plan.calls)
            && o.calls <= plan.calls
    ensures cfg.enabled && !IsBlank(content)
            && raiseAt < |SplitIntoChunks(content, cfg.splitter, cfg.chunkSize, cfg.overlap)| ==>
              o == Raised([DeleteChapters(projectId, [chapter])])
  {
    var plan := IngestPlan(cfg, projectId, chapter, title, content, summary, embed);
    if raiseAt >= |plan.embedded| then Completed(plan.calls)
    else
      var chunks := SplitIntoChunks(content, cfg.splitter, cfg.chunkSize, cfg.overlap);
      var rows := ChunkRows(projectId, chapter, title, chunks, embed, 0);
      var s := SummaryRow(projectId, chapter, title, summary, embed);
      var delete := [DeleteChapters(projectId, [chapter])];
      assert plan.calls == delete + ChunkCalls(rows) + SummaryCalls(s);
      if raiseAt < |chunks| then Raised(delete)
      else Raised(delete + ChunkCalls(rows))
  }

  /** A raise while the chunks are embedded leaves the chapter with no
      records at all: its old chunks and summary are deleted and nothing is
      written in their place. */
  lemma RaiseLeavesChapterEmpty(cfg: IngestSettings, svc: Service, t: Tables, p: string, c: int, title: string,
                                content: string, summary: Option<string>, embed: string -> seq<real>, raiseAt: nat)
    requires cfg.chunkSize > 0 && svc.hasClient && cfg.enabled && !IsBlank(content)
    requires raiseAt < |SplitIntoChunks(content, cfg.splitter, cfg.chunkSize, cfg.overlap)|
    ensures var o := IngestWithRaise(cfg, p, c, title, content, summary, embed, raiseAt);
            var after := ApplyCalls(svc, t, o.calls);
            o.Raised?
            && (forall k :: k in after.chunks ==> !(after.chunks[k].projectId == p && after.chunks[k].chapterNumber == c))
            && (forall k :: k in after.summaries ==> !(after.summaries[k].projectId == p && after.summaries[k].chapterNumber == c))
  {
    ApplyOne(svc, t, DeleteChapters(p, [c]));
    DeleteOneChapter(svc, t, p, c);
  }

  /** `delete_chapters`: no call when the store is disabled or the list is
      empty; otherwise the list is passed on unchanged. */
  function DeleteChaptersPlan(enabled: bool, projectId: string, chapters: seq<int>): (calls: seq<StoreCall>)
    ensures !enabled || chapters == [] ==> calls == []
    ensures enabled && chapters != [] ==> calls == [DeleteChapters(projectId, chapters)]
  {
    if !enabled || chapters == [] then [] else [DeleteChapters(projectId, chapters)]
  }

  // ---------------------------------------------------------------------------
  // Running a plan against the store
  // ---------------------------------------------------------------------------

  function ApplyCall(svc: Service, t: Tables, call: StoreCall): Tables {
    match call
    case DeleteChapters(p, chs) => DeleteByChapters(svc, t, p, chs)
    case UpsertChunksCall(rs) => UpsertChunks(svc, t, rs)
    case UpsertSummariesCall(rs) => UpsertSummaries(svc, t, rs)
  }

  /** The store after the calls, in order. */
  function ApplyCalls(svc: Service, t: Tables, calls: seq<StoreCall>): Tables
    decreases |calls|
  {
    if |calls| == 0 then t else ApplyCalls(svc, ApplyCall(svc, t, calls[0]), calls[1..])
  }

  /** Running two lists of calls is running the first, then the second. */
  lemma {:induction false} ApplyCallsAppend(svc: Service, t: Tables, xs: seq<StoreCall>, ys: seq<StoreCall>)
    ensures ApplyCalls(svc, t, xs + ys) == ApplyCalls(svc, ApplyCalls(svc, t, xs), ys)
    decreases |xs|
  {
    if |xs| > 0 {
      assert (xs + ys)[0] == xs[0];
      assert (xs + ys)[1..] == xs[1..] + ys;
      ApplyCallsAppend(svc, ApplyCall(svc, t, xs[0]), xs[1..], ys);
    } else {
      assert xs + ys == ys;
    }
  }

  lemma ApplyOne(svc: Service, t: Tables, x: StoreCall)
    ensures ApplyCalls(svc, t, [x]) == ApplyCall(svc, t, x)
  {
    assert [x][1..] == [];
  }

  /** The chunk rows left by deleting one chapter of one project. */
  function DropChapterChunks(rows: map<string, ChunkRecord>, p: string, c: int): (r: map<string, ChunkRecord>)
    ensures forall k :: k in r <==> k in rows && !(rows[k].projectId == p && rows[k].chapterNumber == c)
    ensures forall k :: k in r ==> r[k] == rows[k]
  {
    map k | k in rows && !(rows[k].projectId == p && rows[k].chapterNumber == c) :: rows[k]
  }

  /** The summary rows left by deleting one chapter of one project. */
  function DropChapterSummaries(rows: map<string, SummaryRecord>, p: string, c: int): (r: map<string, SummaryRecord>)
    ensures forall k :: k in r <==> k in rows && !(rows[k].projectId == p && rows[k].chapterNumber == c)
    ensures forall k :: k in r ==> r[k] == rows[k]
  {
    map k | k in rows && !(rows[k].projectId == p && rows[k].chapterNumber == c) :: rows[k]
  }

  /** Deleting one chapter is the two drops. */
  lemma DeleteOneChapter(svc: Service, t: Tables, p: string, c: int)
    requires svc.hasClient
    ensures DeleteByChapters(svc, t, p, [c]) == Tables(DropChapterChunks(t.chunks, p, c), DropChapterSummaries(t.summaries, p, c))
  {
    DeleteOneChapterChunks(svc, t, p, c);
    DeleteOneChapterSummaries(svc, t, p, c);
  }

  lemma DeleteOneChapterChunks(svc: Service, t: Tables, p: string, c: int)
    requires svc.hasClient
    ensures DeleteByChapters(svc, t, p, [c]).chunks == DropChapterChunks(t.chunks, p, c)
  {
    forall k | k in t.chunks
      ensures ChunkMatches(t.chunks[k], p, [c]) <==> t.chunks[k].projectId == p && t.chunks[k].chapterNumber == c
    {
    }
  }

  lemma DeleteOneChapterSummaries(svc: Service, t: Tables, p: string, c: int)
    requires svc.hasClient
    ensures DeleteByChapters(svc, t, p, [c]).summaries == DropChapterSummaries(t.summaries, p, c)
  {
    forall k | k in t.summaries
      ensures SummaryMatches(t.summaries[k], p, [c]) <==> t.summaries[k].projectId == p && t.summaries[k].chapterNumber == c
    {
    }
  }

  /** What the calls of a plan do to a libsql store: the chunk table loses
      the chapter and gains the batch, the summary table likewise. */
  lemma {:induction false} PlanEffect(svc: Service, t: Tables, p: string, c: int, rows: seq<ChunkRecord>, s: Option<SummaryRecord>)
    requires svc.hasClient && svc.provider == LibSql
    ensures var r := ApplyCalls(svc, t, PlanCalls(p, c, rows, s));
            r.chunks == UpsertChunkRows(DropChapterChunks(t.chunks, p, c), rows)
            && r.summaries == UpsertSummaryRows(DropChapterSummaries(t.summaries, p, c), SummaryBatch(s))
  {
    var d := [DeleteChapters(p, [c])];
    var t1 := ApplyCalls(svc, t, d);
    var t2 := ApplyCalls(svc, t1, ChunkCalls(rows));
    var t3 := ApplyCalls(svc, t2, SummaryCalls(s));
    assert ApplyCalls(svc, t, PlanCalls(p, c, rows, s)) == t3 by {
      ApplyCallsAppend(svc, t, d + ChunkCalls(rows), SummaryCalls(s));
      ApplyCallsAppend(svc, t, d, ChunkCalls(rows));
    }
    assert t1 == Tables(DropChapterChunks(t.chunks, p, c), DropChapterSummaries(t.summaries, p, c)) by {
      ApplyOne(svc, t, d[0]);
      DeleteOneChapter(svc, t, p, c);
    }
    ChunkCallsEffect(svc, t1, rows);
    SummaryCallsEffect(svc, t2, s);
  }

  lemma ChunkCallsEffect(svc: Service, t: Tables, rows: seq<ChunkRecord>)
    requires svc.hasClient && svc.provider == LibSql
    ensures var r := ApplyCalls(svc, t, ChunkCalls(rows));
            r.chunks == UpsertChunkRows(t.chunks, rows) && r.summaries == t.summaries
  {
    if rows != [] {
      ApplyOne(svc, t, UpsertChunksCall(rows));
    }
  }

  lemma SummaryCallsEffect(svc: Service, t: Tables, s: Option<SummaryRecord>)
    requires svc.hasClient && svc.provider == LibSql
    ensures var r := ApplyCalls(svc, t, SummaryCalls(s));
            r.chunks == t.chunks && r.summaries == UpsertSummaryRows(t.summaries, SummaryBatch(s))
  {
    if s.Some? {
      ApplyOne(svc, t, UpsertSummariesCall([s.value]));
    }
  }

  /** The summary batch of a plan. */
  function SummaryBatch(s: Option<SummaryRecord>): seq<SummaryRecord> {
    if s.None? then [] else [s.value]
  }

  /** Pairwise distinct ids. */
  predicate DistinctIds(recs: seq<ChunkRecord>) {
    forall k, l :: 0 <= k < l < |recs| ==> recs[k].id != recs[l].id
  }

  /** With distinct ids, each record of a batch lands as if upserted alone. */
  lemma {:induction false} UpsertRowsAt(rows: map<string, ChunkRecord>, recs: seq<ChunkRecord>, i: nat)
    requires DistinctIds(recs) && i < |recs|
    ensures UpsertChunkRows(rows, recs)[recs[i].id] == UpsertChunk(rows, recs[i])[recs[i].id]
    decreases |recs|
  {
    var next := UpsertChunk(rows, recs[0]);
    if i == 0 {
      forall l | 0 <= l < |recs[1..]| ensures recs[1..][l].id != recs[0].id {
        assert recs[1..][l] == recs[l + 1];
      }
      assert recs[0].id !in ChunkIds(recs[1..]);
    } else {
      assert DistinctIds(recs[1..]) by {
        forall k, l | 0 <= k < l < |recs[1..]| ensures recs[1..][k].id != recs[1..][l].id {
          assert recs[1..][k] == recs[k + 1] && recs[1..][l] == recs[l + 1];
        }
      }
      assert recs[1..][i - 1] == recs[i];
      UpsertRowsAt(next, recs[1..], i - 1);
      assert recs[i].id != recs[0].id;
    }
  }

  /** One key of a batch after the second ingestion equals the first. */
  lemma {:induction false} ReingestKey(t1: map<string, ChunkRecord>, p: string, c: int, recs: seq<ChunkRecord>, i: nat)
    requires DistinctIds(recs) && i < |recs| && recs[i].projectId == p && recs[i].chapterNumber == c
    requires forall k :: k in t1 ==> !(t1[k].projectId == p && t1[k].chapterNumber == c)
    ensures var t2 := UpsertChunkRows(t1, recs);
            UpsertChunkRows(DropChapterChunks(t2, p, c), recs)[recs[i].id] == t2[recs[i].id]
  {
    var k := recs[i].id;
    var t2 := UpsertChunkRows(t1, recs);
    var t3 := DropChapterChunks(t2, p, c);
    UpsertRowsAt(t1, recs, i);
    UpsertRowsAt(t3, recs, i);
    if k in t1 {
      assert t2[k] == UpsertChunk(t1, recs[i])[k];
      assert k in t3 && t3[k] == t2[k];
    } else {
      assert t2[k] == recs[i];
      assert k !in t3;
    }
  }

  /** A key outside the batch is untouched by the second ingestion. */
  lemma ReingestOther(t1: map<string, ChunkRecord>, p: string, c: int, recs: seq<ChunkRecord>, k: string)
    requires forall k :: k in t1 ==> !(t1[k].projectId == p && t1[k].chapterNumber == c)
    requires k in UpsertChunkRows(t1, recs) && k !in ChunkIds(recs)
    ensures var t2 := UpsertChunkRows(t1, recs);
            var t4 := UpsertChunkRows(DropChapterChunks(t2, p, c), recs);
            k in t4 && t4[k] == t2[k]
  {
    var t2 := UpsertChunkRows(t1, recs);
    assert k in t1 && t2[k] == t1[k];
    assert k in DropChapterChunks(t2, p, c);
  }

  /** The heart of idempotence for the chunk table: with records of one
      project and chapter under distinct ids, dropping the chapter and
      upserting the records a second time leaves the table as the first
      time did. */
  lemma {:induction false} ReingestChunkRows(rows: map<string, ChunkRecord>, p: string, c: int, recs: seq<ChunkRecord>)
    requires DistinctIds(recs)
    requires forall k :: 0 <= k < |recs| ==> recs[k].projectId == p && recs[k].chapterNumber == c
    ensures var once := UpsertChunkRows(DropChapterChunks(rows, p, c), recs);
            UpsertChunkRows(DropChapterChunks(once, p, c), recs) == once
  {
    var t1 := DropChapterChunks(rows, p, c);
    var t2 := UpsertChunkRows(t1, recs);
    var t4 := UpsertChunkRows(DropChapterChunks(t2, p, c), recs);
    ReingestOthers(t1, p, c, recs);
    ReingestBatch(t1, p, c, recs);
    assert t4.Keys <= t2.Keys;
    MapsAgree(t4, t2, ChunkIds(recs));
  }

  /** Re-ingesting keeps every row outside the batch. */
  lemma ReingestOthers(t1: map<string, ChunkRecord>, p: string, c: int, recs: seq<ChunkRecord>)
    requires forall k :: k in t1 ==> !(t1[k].projectId == p && t1[k].chapterNumber == c)
    ensures var t2 := UpsertChunkRows(t1, recs);
            var t4 := UpsertChunkRows(DropChapterChunks(t2, p, c), recs);
            forall k :: k in t2 && k !in ChunkIds(recs) ==> k in t4 && t4[k] == t2[k]
  {
    var t2 := UpsertChunkRows(t1, recs);
    forall k | k in t2 && k !in ChunkIds(recs)
      ensures k in UpsertChunkRows(DropChapterChunks(t2, p, c), recs)
              && UpsertChunkRows(DropChapterChunks(t2, p, c), recs)[k] == t2[k]
    {
      ReingestOther(t1, p, c, recs, k);
    }
  }

  /** Re-ingesting writes every row of the batch back as it was. */
  lemma {:induction false} ReingestBatch(t1: map<string, ChunkRecord>, p: string, c: int, recs: seq<ChunkRecord>)
    requires DistinctIds(recs)
    requires forall k :: 0 <= k < |recs| ==> recs[k].projectId == p && recs[k].chapterNumber == c
    requires forall k :: k in t1 ==> !(t1[k].projectId == p && t1[k].chapterNumber == c)
    ensures var t2 := UpsertChunkRows(t1, recs);
            var t4 := UpsertChunkRows(DropChapterChunks(t2, p, c), recs);
            forall k :: k in ChunkIds(recs) ==> k in t4 && k in t2 && t4[k] == t2[k]
  {
    var t2 := UpsertChunkRows(t1, recs);
    var t4 := UpsertChunkRows(DropChapterChunks(t2, p, c), recs);
    forall k | k in ChunkIds(recs) ensures k in t4 && k in t2 && t4[k] == t2[k] {
      var i :| 0 <= i < |recs| && recs[i].id == k;
      ReingestKey(t1, p, c, recs, i);
    }
  }

  /** Two maps that agree inside and outside a set of keys are equal. */
  lemma MapsAgree<V>(a: map<string, V>, b: map<string, V>, ks: set<string>)
    requires a.Keys <= b.Keys
    requires forall k :: k in b && k !in ks ==> k in a && a[k] == b[k]
    requires forall k :: k in ks ==> k in a && k in b && a[k] == b[k]
    ensures a == b
  {
  }

  /** The summary table counterpart, for a batch of at most one summary. */
  lemma ReingestSummaryRows(rows: map<string, SummaryRecord>, p: string, c: int, s: Option<SummaryRecord>)
    requires s.Some? ==> s.value.projectId == p && s.value.chapterNumber == c
    ensures var once := UpsertSummaryRows(DropChapterSummaries(rows, p, c), SummaryBatch(s));
            UpsertSummaryRows(DropChapterSummaries(once, p, c), SummaryBatch(s)) == once
  {
    var t1 := DropChapterSummaries(rows, p, c);
    if s.Some? {
      var r := s.value;
      assert UpsertSummaryRows(t1, [r]) == UpsertSummary(t1, r);
      var t2 := UpsertSummary(t1, r);
      var t3 := DropChapterSummaries(t2, p, c);
      assert UpsertSummaryRows(t3, [r]) == UpsertSummary(t3, r);
      assert r.id in t1 <==> r.id in t3;
    } else {
      assert DropChapterSummaries(t1, p, c) == t1;
    }
  }

  /** The chunk rows a plan stores have distinct ids of the right project
      and chapter. */
  lemma ChunkRowsDistinct(p: string, c: int, title: string, chunks: seq<string>, embed: string -> seq<real>)
    ensures var rs := ChunkRows(p, c, title, chunks, embed, 0);
            DistinctIds(rs) && forall k :: 0 <= k < |rs| ==> rs[k].projectId == p && rs[k].chapterNumber == c
  {
    var rs := ChunkRows(p, c, title, chunks, embed, 0);
    forall k | 0 <= k < |rs| ensures rs[k].projectId == p && rs[k].chapterNumber == c {
      assert StoredChunk(rs[k], p, c, title, chunks, embed);
    }
    forall k, l | 0 <= k < l < |rs| ensures rs[k].id != rs[l].id {
      assert StoredChunk(rs[k], p, c, title, chunks, embed) && StoredChunk(rs[l], p, c, title, chunks, embed);
      if rs[k].id == rs[l].id {
        ChunkIdInjective(p, c, rs[k].chunkIndex, rs[l].chunkIndex);
      }
    }
  }

  /** Ingesting the same chapter twice on a libsql store leaves the store as
      ingesting it once: the delete-first order makes re-ingestion safe. */
  lemma {:induction false} IngestIdempotent(cfg: IngestSettings, svc: Service, t: Tables, p: string, c: int, title: string,
                         content: string, summary: Option<string>, embed: string -> seq<real>)
    requires cfg.chunkSize > 0 && svc.hasClient && svc.provider == LibSql
    ensures var calls := IngestPlan(cfg, p, c, title, content, summary, embed).calls;
            var once := ApplyCalls(svc, t, calls);
            ApplyCalls(svc, once, calls) == once
  {
    if cfg.enabled && !IsBlank(content) {
      var chunks := SplitIntoChunks(content, cfg.splitter, cfg.chunkSize, cfg.overlap);
      var rows := ChunkRows(p, c, title, chunks, embed, 0);
      var s := SummaryRow(p, c, title, summary, embed);
      var calls := PlanCalls(p, c, rows, s);
      ChunkRowsDistinct(p, c, title, chunks, embed);
      var once := ApplyCalls(svc, t, calls);
      PlanEffect(svc, t, p, c, rows, s);
      PlanEffect(svc, once, p, c, rows, s);
      ReingestChunkRows(t.chunks, p, c, rows);
      ReingestSummaryRows(t.summaries, p, c, s);
    }
  }
}

=== FILE: json_utils.dfy ===
/** Clean-up of model replies before JSON parsing: removing `<think>` spans
    and unwrapping a JSON value from a Markdown fence or surrounding prose.
    The regular expressions of the source are written out as scans. */
module JsonUtils {
  import opened Wrappers
  import opened Text

  // ---------------------------------------------------------------------------
  // <think> spans
  // ---------------------------------------------------------------------------

  const ThinkOpen: string := "<think>"
  const ThinkClose: string := "</think>"

  /** `re.sub(r"<think>.*?</think>", "", s, flags=re.DOTALL)`: scanning left
      to right, an opening tag that has a closing tag somewhere after it is
      removed together with everything up to the first such closing tag; an
      opening tag without a closing tag is kept. */
  function DropThinkSpans(s: string): (r: string)
    ensures |r| <= |s|
    decreases |s|
  {
    if |s| == 0 then ""
    else if StartsWith(s, ThinkOpen) && Find(s[|ThinkOpen|..], ThinkClose) >= 0 then
      DropThinkSpans(s[|ThinkOpen| + Find(s[|ThinkOpen|..], ThinkClose) + |ThinkClose|..])
    else [s[0]] + DropThinkSpans(s[1..])
  }

  /** `remove_think_tags`: empty input is returned as is; otherwise the spans
      are dropped and the rest trimmed. */
  function RemoveThinkTags(raw: string): (r: string)
    ensures raw == "" ==> r == ""
    ensures IsStripped(r) && |r| <= |raw|
  {
    if raw == "" then raw else Strip(DropThinkSpans(raw))
  }

  /** Text without an opening tag passes through the span removal unchanged. */
  lemma {:induction false} NoThinkTagUnchanged(s: string)
    requires forall i :: !OccursAt(s, ThinkOpen, i)
    ensures DropThinkSpans(s) == s
    decreases |s|
  {
    if |s| > 0 {
      assert !OccursAt(s, ThinkOpen, 0);
      forall i ensures !OccursAt(s[1..], ThinkOpen, i) {
        if 0 <= i && i + |ThinkOpen| <= |s[1..]| {
          assert s[1..][i..i + |ThinkOpen|] == s[i + 1..i + 1 + |ThinkOpen|];
          assert !OccursAt(s, ThinkOpen, i + 1);
        }
      }
      NoThinkTagUnchanged(s[1..]);
      assert s == [s[0]] + s[1..];
    }
  }

  /** Text free of `<` in front is copied through, and the scan goes on
      after it. */
  lemma {:induction false} DropThinkSpansPrefix(w: string, s: string)
    requires forall i :: 0 <= i < |w| ==> w[i] != '<'
    ensures DropThinkSpans(w + s) == w + DropThinkSpans(s)
    decreases |w|
  {
    if w != [] {
      NotOpenAtHead(w, s);
      DropThinkSpansPrefix(w[1..], s);
      ConsStep(w, DropThinkSpans(s));
    } else {
      assert w + s == s;
    }
  }

  lemma ConsStep(w: string, d: string)
    requires w != []
    ensures [w[0]] + (w[1..] + d) == w + d
  {
    assert w == [w[0]] + w[1..];
  }

  /** A text whose first character is not `<` loses nothing at its head. */
  lemma NotOpenAtHead(w: string, s: string)
    requires |w| > 0 && w[0] != '<'
    ensures DropThinkSpans(w + s) == [w[0]] + DropThinkSpans(w[1..] + s)
  {
    var ws := w + s;
    if |ThinkOpen| <= |ws| {
      assert ws[..|ThinkOpen|][0] == ws[0];
    }
    assert !StartsWith(ws, ThinkOpen);
    assert ws[0] == w[0] && ws[1..] == w[1..] + s;
  }

  /** No occurrence of the closing tag can start inside the body and run
      into the tag that follows it: the closing tag has `<` only in front. */
  lemma CloseNotInside(body: string, rest: string, j: int)
    requires forall i :: !OccursAt(body, ThinkClose, i)
    requires 0 <= j < |body|
    ensures !OccursAt(body + ThinkClose + rest, ThinkClose, j)
  {
    var after := body + ThinkClose + rest;
    if j + |ThinkClose| <= |body| {
      assert after[j..j + |ThinkClose|] == body[j..j + |ThinkClose|];
      assert !OccursAt(body, ThinkClose, j);
    } else {
      var k := |body| - j;
      assert after[|body|] == '<';
      assert ThinkClose[k] != '<';
      if j + |ThinkClose| <= |after| {
        assert after[j..j + |ThinkClose|][k] == after[|body|];
      }
    }
  }

  /** A span ends at the first closing tag: an opening tag, a body in which
      the closing tag does not occur, and the closing tag vanish, and the
      rest is processed on its own. */
  lemma ThinkSpanRemoved(body: string, rest: string)
    requires forall i :: !OccursAt(body, ThinkClose, i)
    ensures DropThinkSpans(ThinkOpen + body + ThinkClose + rest) == DropThinkSpans(rest)
  {
    var s := ThinkOpen + body + ThinkClose + rest;
    var after := s[|ThinkOpen|..];
    assert after == body + ThinkClose + rest;
    assert s[..|ThinkOpen|] == ThinkOpen;
    forall j | 0 <= j < |body| ensures !OccursAt(after, ThinkClose, j) {
      CloseNotInside(body, rest, j);
    }
    assert after[|body|..|body| + |ThinkClose|] == ThinkClose;
    FindFromAt(after, ThinkClose, 0, |body|);
    assert s[|ThinkOpen| + |body| + |ThinkClose|..] == rest;
  }

  /** A span anywhere after `<`-free text vanishes from the answer, and
      the text after it is handled on its own. */
  lemma SpanAfterTextRemoved(w: string, body: string, rest: string)
    requires forall i :: 0 <= i < |w| ==> w[i] != '<'
    requires forall i :: !OccursAt(body, ThinkClose, i)
    ensures RemoveThinkTags(w + ThinkOpen + body + ThinkClose + rest) == Strip(w + DropThinkSpans(rest))
  {
    var span := ThinkOpen + body + ThinkClose + rest;
    assert w + ThinkOpen + body + ThinkClose + rest == w + span;
    DropThinkSpansPrefix(w, span);
    ThinkSpanRemoved(body, rest);
  }

  /** A reasoning preamble in front of a reply is removed, and the reply
      comes back trimmed. */
  lemma PreambleRemoved(body: string, reply: string)
    requires forall i :: 0 <= i < |body| ==> body[i] != '<'
    requires forall i :: 0 <= i < |reply| ==> reply[i] != '<'
    requires IsStripped(reply) && reply != ""
    ensures RemoveThinkTags(ThinkOpen + body + ThinkClose + " " + reply) == reply
  {
    var rest := " " + reply;
    assert ThinkOpen + body + ThinkClose + " " + reply == ThinkOpen + body + ThinkClose + rest;
    AbsentPattern(body, ThinkClose);
    ThinkSpanRemoved(body, rest);
    AbsentPattern(rest, ThinkOpen);
    NoThinkTagUnchanged(rest);
    StripPadded(" ", reply, "");
    assert " " + reply + "" == rest;
  }

  // ---------------------------------------------------------------------------
  // Unwrapping
  // ---------------------------------------------------------------------------

  const Fence: string := "```"

  /** The length of an optional `json`/`JSON` tag at `p`. */
  function TagLength(s: string, p: nat): (n: nat)
    ensures n == 0 || (n == 4 && p + 4 <= |s|)
    ensures n == 4 <==> p + 4 <= |s| && (s[p..p + 4] == "json" || s[p..p + 4] == "JSON")
  {
    if p + 4 <= |s| && (s[p..p + 4] == "json" || s[p..p + 4] == "JSON") then 4 else 0
  }

  /** A fence at `j` opens a block: some fence follows it, after its
      optional tag. */
  predicate FencedAt(s: string, j: nat) {
    OccursAt(s, Fence, j) && FindFrom(s, Fence, j + |Fence| + TagLength(s, j + |Fence|)) >= 0
  }

  /** The trimmed text of the block a fence at `j` opens: from after the
      tag up to the next fence. */
  function FencedText(s: string, j: nat): string
    requires FencedAt(s, j)
  {
    var p := j + |Fence| + TagLength(s, j + |Fence|);
    Strip(s[p..FindFrom(s, Fence, p)])
  }

  /** The first fenced block searching from `i`: the trimmed text between an
      opening fence (with its optional tag) and the first closing fence after
      it. The whitespace the pattern allows around the group is removed by
      the trim as well. */
  function FenceBody(s: string, i: nat): (r: Option<string>)
    ensures r.None? <==> forall j: nat :: i <= j ==> !FencedAt(s, j)
    ensures r.Some? ==> exists j: nat :: i <= j && FencedAt(s, j) && r.value == FencedText(s, j)
                                         && forall k: nat :: i <= k < j ==> !FencedAt(s, k)
    ensures r.Some? ==> IsStripped(r.value)
    decreases |s| - i
  {
    if i + |Fence| > |s| then None
    else if OccursAt(s, Fence, i) then
      var p := i + |Fence| + TagLength(s, i + |Fence|);
      var q := FindFrom(s, Fence, p);
      if q >= 0 then
        assert FencedAt(s, i) && FencedText(s, i) == Strip(s[p..q]);
        Some(Strip(s[p..q]))
      else FenceBody(s, i + 1)
    else FenceBody(s, i + 1)
  }

  /** The smaller of the non-negative positions, or -1 when both are -1. */
  function FirstOf(a: int, b: int): (r: int)
    requires a >= -1 && b >= -1
    ensures r == -1 <==> a == -1 && b == -1
    ensures r != -1 ==> (r == a || r == b) && (a != -1 ==> r <= a) && (b != -1 ==> r <= b)
  {
    if a == -1 then b else if b == -1 then a else if a <= b then a else b
  }

  /** `unwrap_markdown_json`. Empty input is returned as is. Otherwise the
      trimmed text is searched for a fenced block, whose non-empty trimmed
      body wins; failing that, the bracketed span of the trimmed text. */
  function UnwrapMarkdownJson(raw: string): (r: string)
    ensures raw == "" ==> r == ""
    ensures raw != "" ==> IsStripped(r)
    ensures raw != "" && FenceBody(Strip(raw), 0).Some? && FenceBody(Strip(raw), 0).value != "" ==>
              r == FenceBody(Strip(raw), 0).value
    ensures raw != "" && (FenceBody(Strip(raw), 0).None? || FenceBody(Strip(raw), 0).value == "") ==>
              r == BracketedSpan(Strip(raw))
  {
    if raw == "" then raw
    else
      var t := Strip(raw);
      var fenced := FenceBody(t, 0);
      if fenced.Some? && fenced.value != "" then fenced.value else BracketedSpan(t)
  }

  /** The span from the first `{` or `[` to the last `}` or `]`, trimmed,
      when the close comes after the open and the span is not blank; else
      the text itself. */
  function BracketedSpan(t: string): (r: string)
    requires IsStripped(t)
    ensures IsStripped(r)
    ensures forall s, e :: FirstOpenAt(t, s) && LastCloseAt(t, e) ==> r == (if s < e then t[s..e + 1] else t)
    ensures (forall i :: 0 <= i < |t| ==> !IsOpen(t[i])) || (forall i :: 0 <= i < |t| ==> !IsClose(t[i])) ==> r == t
  {
    FirstOpenFound(t);
    LastCloseFound(t);
    SpanBetweenValue(t, FirstOf(Find(t, "{"), Find(t, "[")), Max(RFind(t, "}"), RFind(t, "]")));
    SpanBetween(t, FirstOf(Find(t, "{"), Find(t, "[")), Max(RFind(t, "}"), RFind(t, "]")))
  }

  /** The trimmed span from `start` to `end` inclusive when both were found,
      the close comes after the open and the span is not blank; else the
      text itself. */
  function SpanBetween(t: string, start: int, end: int): (r: string)
    requires IsStripped(t) && -1 <= start < |t| && end < |t|
    ensures IsStripped(r)
  {
    if start != -1 && end != -1 && end > start && Strip(t[start..end + 1]) != "" then
      Strip(t[start..end + 1])
    else t
  }

  predicate IsOpen(c: char) {
    c == '{' || c == '['
  }

  predicate IsClose(c: char) {
    c == '}' || c == ']'
  }

  /** `s` is the first index holding an opening bracket. */
  predicate FirstOpenAt(t: string, s: int) {
    0 <= s < |t| && IsOpen(t[s]) && forall i :: 0 <= i < s ==> !IsOpen(t[i])
  }

  /** `e` is the last index holding a closing bracket. */
  predicate LastCloseAt(t: string, e: int) {
    0 <= e < |t| && IsClose(t[e]) && forall i :: e < i < |t| ==> !IsClose(t[i])
  }

  /** With `start` the first opening and `end` the last closing bracket
      (-1 when there is none), the span between them is the answer. */
  lemma SpanBetweenValue(t: string, start: int, end: int)
    requires IsStripped(t) && -1 <= start < |t| && end < |t|
    requires (start == -1 <==> forall i :: 0 <= i < |t| ==> !IsOpen(t[i])) && (start != -1 ==> FirstOpenAt(t, start))
    requires (end == -1 <==> forall i :: 0 <= i < |t| ==> !IsClose(t[i])) && (end != -1 ==> LastCloseAt(t, end))
    ensures forall s, e :: FirstOpenAt(t, s) && LastCloseAt(t, e) ==>
              SpanBetween(t, start, end) == (if s < e then t[s..e + 1] else t)
    ensures (forall i :: 0 <= i < |t| ==> !IsOpen(t[i])) || (forall i :: 0 <= i < |t| ==> !IsClose(t[i])) ==>
              SpanBetween(t, start, end) == t
  {
    if start != -1 && end != -1 && end > start {
      OccursAtChar(t, t[start], start);
      OccursAtChar(t, t[end], end);
      BracketSpan(t, start, end);
    }
    forall s, e | FirstOpenAt(t, s) && LastCloseAt(t, e)
      ensures SpanBetween(t, start, end) == (if s < e then t[s..e + 1] else t)
    {
      FirstOpenUnique(t, s, start);
      LastCloseUnique(t, e, end);
    }
  }

  lemma FirstOpenUnique(t: string, a: int, b: int)
    requires FirstOpenAt(t, a) && FirstOpenAt(t, b)
    ensures a == b
  {
  }

  lemma LastCloseUnique(t: string, a: int, b: int)
    requires LastCloseAt(t, a) && LastCloseAt(t, b)
    ensures a == b
  {
  }

  /** A one-character pattern occurs exactly where its character is. */
  lemma OccursAtChar(t: string, c: char, j: int)
    ensures OccursAt(t, [c], j) <==> 0 <= j < |t| && t[j] == c
  {
    if 0 <= j < |t| {
      assert t[j..j + 1] == [t[j]];
    }
  }

  /** The smaller of the two `find`s is the first opening bracket, and
      it is -1 exactly when there is none. */
  lemma FirstOpenFound(t: string)
    ensures var start := FirstOf(Find(t, "{"), Find(t, "["));
            (start == -1 <==> forall i :: 0 <= i < |t| ==> !IsOpen(t[i]))
            && (start != -1 ==> FirstOpenAt(t, start))
  {
    var a := Find(t, "{");
    var b := Find(t, "[");
    forall i | 0 <= i < |t| ensures OccursAt(t, "{", i) <==> t[i] == '{'
    {
      OccursAtChar(t, '{', i);
    }
    forall i | 0 <= i < |t| ensures OccursAt(t, "[", i) <==> t[i] == '['
    {
      OccursAtChar(t, '[', i);
    }
    OccursAtChar(t, '{', a);
    OccursAtChar(t, '[', b);
  }

  /** The larger of the two `rfind`s is the last closing bracket, and it
      is -1 exactly when there is none. */
  lemma LastCloseFound(t: string)
    ensures var end := Max(RFind(t, "}"), RFind(t, "]"));
            (end == -1 <==> forall i :: 0 <= i < |t| ==> !IsClose(t[i]))
            && (end != -1 ==> LastCloseAt(t, end))
  {
    var a := RFind(t, "}");
    var b := RFind(t, "]");
    forall i | 0 <= i < |t| ensures OccursAt(t, "}", i) <==> t[i] == '}'
    {
      OccursAtChar(t, '}', i);
    }
    forall i | 0 <= i < |t| ensures OccursAt(t, "]", i) <==> t[i] == ']'
    {
      OccursAtChar(t, ']', i);
    }
    OccursAtChar(t, '}', a);
    OccursAtChar(t, ']', b);
  }

  function Max(a: int, b: int): int {
    if a >= b then a else b
  }

  /** The span from an opening to a later closing bracket is already
      trimmed, and keeps its brackets. */
  lemma BracketSpan(t: string, start: int, end: int)
    requires OccursAt(t, "{", start) || OccursAt(t, "[", start)
    requires OccursAt(t, "}", end) || OccursAt(t, "]", end)
    requires start < end
    ensures var span := t[start..end + 1];
            Strip(span) == span && |span| >= 2
            && (span[0] == '{' || span[0] == '[') && (span[|span| - 1] == '}' || span[|span| - 1] == ']')
  {
    var span := t[start..end + 1];
    assert t[start..start + 1][0] == t[start] && t[end..end + 1][0] == t[end];
    assert t[start] == '{' || t[start] == '[';
    assert t[end] == '}' || t[end] == ']';
    assert span[0] == t[start] && span[|span| - 1] == t[end];
    StripOfStripped(span);
  }

  /** Without a fence, the answer is a bracketed span of the trimmed text:
      it starts with `{` or `[` and ends with `}` or `]`, or it is the
      trimmed text. */
  lemma UnwrapSpanShape(raw: string)
    requires raw != ""
    requires FenceBody(Strip(raw), 0).None?
    ensures var r := UnwrapMarkdownJson(raw);
            r == Strip(raw)
            || (|r| >= 2 && (r[0] == '{' || r[0] == '[') && (r[|r| - 1] == '}' || r[|r| - 1] == ']'))
  {
    BracketedSpanShape(Strip(raw));
  }

  lemma BracketedSpanShape(t: string)
    requires IsStripped(t)
    ensures var r := BracketedSpan(t);
            r == t || (|r| >= 2 && (r[0] == '{' || r[0] == '[') && (r[|r| - 1] == '}' || r[|r| - 1] == ']'))
  {
    SpanBounds(t);
    SpanBetweenShape(t, FirstOf(Find(t, "{"), Find(t, "[")), Max(RFind(t, "}"), RFind(t, "]")));
  }

  lemma SpanBetweenShape(t: string, start: int, end: int)
    requires IsStripped(t) && -1 <= start < |t| && end < |t|
    requires start != -1 ==> OccursAt(t, "{", start) || OccursAt(t, "[", start)
    requires end != -1 ==> OccursAt(t, "}", end) || OccursAt(t, "]", end)
    ensures var r := SpanBetween(t, start, end);
            r == t || (|r| >= 2 && (r[0] == '{' || r[0] == '[') && (r[|r| - 1] == '}' || r[|r| - 1] == ']'))
  {
    if start != -1 && end != -1 && end > start {
      BracketSpan(t, start, end);
    }
  }

  /** The first opening and the last closing bracket sit where they were
      found. */
  lemma SpanBounds(t: string)
    ensures var start := FirstOf(Find(t, "{"), Find(t, "["));
            start != -1 ==> OccursAt(t, "{", start) || OccursAt(t, "[", start)
    ensures var end := Max(RFind(t, "}"), RFind(t, "]"));
            end != -1 ==> OccursAt(t, "}", end) || OccursAt(t, "]", end)
  {
  }

  /** A JSON object or array that is already bare comes back unchanged when
      the text holds no fence. */
  lemma BareJsonUnchanged(t: string)
    requires |t| >= 2 && IsStripped(t)
    requires (t[0] == '{' && t[|t| - 1] == '}') || (t[0] == '[' && t[|t| - 1] == ']')
    requires forall i :: !OccursAt(t, Fence, i)
    ensures UnwrapMarkdownJson(t) == t
  {
    StripOfStripped(t);
    NoFence(t, 0);
    var start := FirstOf(Find(t, "{"), Find(t, "["));
    var end := Max(RFind(t, "}"), RFind(t, "]"));
    assert t[0..1] == [t[0]];
    assert OccursAt(t, [t[0]], 0);
    assert start == 0;
    assert t[|t| - 1..|t|] == [t[|t| - 1]];
    assert OccursAt(t, [t[|t| - 1]], |t| - 1);
    assert end == |t| - 1;
    assert t[start..end + 1] == t;
  }

  lemma {:induction false} NoFence(t: string, i: nat)
    requires forall j :: !OccursAt(t, Fence, j)
    ensures FenceBody(t, i).None?
    decreases |t| - i
  {
    if i + |Fence| <= |t| {
      NoFence(t, i + 1);
    }
  }

  /** A fenced block comes back as its trimmed body: wrapping a reply in
      ```` ```json ```` … ```` ``` ```` and unwrapping it is the identity on
      trimmed bodies free of backticks. */
  lemma FenceRoundTrip(body: string)
    requires IsStripped(body) && body != ""
    requires forall i :: 0 <= i < |body| ==> body[i] != '`'
    ensures UnwrapMarkdownJson("```json\n" + body + "\n```") == body
  {
    var s := "```json\n" + body + "\n```";
    assert IsStripped(s);
    StripOfStripped(s);
    FencedBody(body);
  }

  /** The fenced block of such a text is the body. */
  lemma {:induction false} FencedBody(body: string)
    requires IsStripped(body) && body != ""
    requires forall i :: 0 <= i < |body| ==> body[i] != '`'
    ensures FenceBody("```json\n" + body + "\n```", 0) == Some(body)
  {
    var s := "```json\n" + body + "\n```";
    FenceOpens(body);
    ClosingFenceFound(body);
    StripPadded("\n", body, "\n");
    assert FenceBody(s, 0) == Some(Strip(s[7..|s| - 3]));
  }

  /** The text opens with a fence and the `json` tag, and the body sits
      between two line breaks up to the closing fence. */
  lemma FenceOpens(body: string)
    ensures var s := "```json\n" + body + "\n```";
            OccursAt(s, Fence, 0) && TagLength(s, 3) == 4 && s[7..|s| - 3] == "\n" + body + "\n"
  {
    var s := "```json\n" + body + "\n```";
    assert s[..3] == Fence;
    assert s[3..7] == "json";
    assert s[7..|s| - 3] == "\n" + body + "\n";
  }

  /** The first fence after the tag is the closing one. */
  lemma ClosingFenceFound(body: string)
    requires forall i :: 0 <= i < |body| ==> body[i] != '`'
    ensures var s := "```json\n" + body + "\n```";
            FindFrom(s, Fence, 7) == |s| - 3
  {
    var s := "```json\n" + body + "\n```";
    var q := |s| - 3;
    forall j | 7 <= j < q ensures !OccursAt(s, Fence, j) {
      if j < 8 {
        assert s[j] == '\n';
      } else if j < 8 + |body| {
        assert s[j] == body[j - 8];
      } else {
        assert s[j] == '\n';
      }
      assert s[j..j + 3][0] == s[j];
    }
    assert s[q..q + 3] == Fence;
    FindFromAt(s, Fence, 7, q);
  }
}

=== FILE: llm.dfy ===
/** The bookkeeping around the language-model calls: configuration lookup
    with an environment fallback, the embedding-dimension cache, the daily
    request limit, the choice between a user's own key and the system key,
    and the checks on a collected response. The calls themselves are
    replies handed in as parameters. */
module Llm {
  import opened Wrappers
  import opened Text
  import opened Stores
  import opened Users

  // ---------------------------------------------------------------------------
  // Configuration values
  // ---------------------------------------------------------------------------

  /** The environment variable consulted for a configuration key:
      `key.upper().replace(".", "_")`. */
  function EnvKey(key: string): (r: string)
    ensures |r| == |key|
    ensures forall i :: 0 <= i < |key| ==> r[i] == (if key[i] == '.' then '_' else UpperChar(key[i]))
  {
    seq(|key|, i requires 0 <= i < |key| => if key[i] == '.' then '_' else UpperChar(key[i]))
  }

  lemma EnvKeyOfApiKey()
    ensures EnvKey("llm.api_key") == "LLM_API_KEY"
  {
  }

  /** An environment key never contains a dot or a lower-case ASCII letter. */
  lemma EnvKeyShape(key: string)
    ensures forall i :: 0 <= i < |EnvKey(key)| ==> EnvKey(key)[i] != '.' && !('a' <= EnvKey(key)[i] <= 'z')
  {
  }

  /** `_get_config_value`: the stored value when the key has a row, else the
      environment variable named after it. */
  function GetConfigValue(t: ConfigTable, env: map<string, string>, key: string): (r: Option<string>)
    ensures key in t ==> r == Some(t[key].value)
    ensures key !in t && EnvKey(key) in env ==> r == Some(env[EnvKey(key)])
    ensures key !in t && EnvKey(key) !in env ==> r.None?
  {
    if key in t then Some(t[key].value)
    else if EnvKey(key) in env then Some(env[EnvKey(key)]) else None
  }

  // ---------------------------------------------------------------------------
  // Embedding dimensions
  // ---------------------------------------------------------------------------

  datatype EmbeddingProvider = OpenAI | Ollama

  /** `model or (ollama model if provider is ollama else embedding model)`:
      an empty model name counts as none. */
  function TargetModel(model: Option<string>, provider: EmbeddingProvider, ollamaModel: string, embeddingModel: string)
    : (r: string)
    ensures model.Some? && model.value != "" ==> r == model.value
    ensures (model.None? || model.value == "") ==> r == (if provider == Ollama then ollamaModel else embeddingModel)
  {
    if model.Some? && model.value != "" then model.value
    else if provider == Ollama then ollamaModel else embeddingModel
  }

  /** Model name to the dimension last seen for it. */
  type DimensionCache = map<string, int>

  /** No cached dimension is zero. */
  predicate NoZeroDimensions(cache: DimensionCache) {
    forall m :: m in cache ==> cache[m] != 0
  }

  /** `get_embedding_dimension`: the cached dimension for the model, else
      the configured vector size. */
  function GetEmbeddingDimension(cache: DimensionCache, target: string, vectorSize: Option<int>): (r: Option<int>)
    ensures target in cache ==> r == Some(cache[target])
    ensures target !in cache ==> r == vectorSize
  {
    if target in cache then Some(cache[target]) else vectorSize
  }

  /** The cache update after a vector of `length` entries: the length, or
      the configured size when the length is zero; written only when that
      is not zero. */
  function RecordDimension(cache: DimensionCache, target: string, length: nat, vectorSize: Option<int>)
    : (r: DimensionCache)
    ensures length > 0 ==> r == cache[target := length]
    ensures length == 0 && vectorSize.Some? && vectorSize.value != 0 ==> r == cache[target := vectorSize.value]
    ensures length == 0 && (vectorSize.None? || vectorSize.value == 0) ==> r == cache
    ensures NoZeroDimensions(cache) ==> NoZeroDimensions(r)
  {
    var dimension := if length == 0 && vectorSize.Some? && vectorSize.value != 0 then vectorSize.value else length;
    if dimension != 0 then cache[target := dimension] else cache
  }

  /** The reply of the embedding endpoint: a failed call, a response
      without data, or a vector. */
  datatype EmbeddingReply = CallFailed | NoData | Vector(values: seq<real>)

  const OllamaMissing: HttpError := HttpError(500, "缺少 Ollama 依赖，请先安装 ollama 包。")

  /** `get_embedding` once the reply is in. Two things raise before any
      call is made: Ollama without its client package installed (500), and,
      with OpenAI, a failed `ResolveLlmConfig` (`config`: the daily limit's
      429 or invalid setting, or the missing system key's 500). Otherwise
      failures and missing data give [] and leave the cache alone; Ollama
      also gives [] for an empty vector; a vector is returned and its
      dimension recorded. */
  function GetEmbedding(provider: EmbeddingProvider, ollamaInstalled: bool, config: Result<LlmConfig, Fault>,
                        reply: EmbeddingReply, cache: DimensionCache, target: string, vectorSize: Option<int>)
    : (r: Result<(seq<real>, DimensionCache), Fault>)
    ensures r.Failure? <==> (provider == Ollama && !ollamaInstalled) || (provider == OpenAI && config.Failure?)
    ensures provider == Ollama && !ollamaInstalled ==> r == Failure(Http(OllamaMissing))
    ensures provider == OpenAI && config.Failure? ==> r == Failure(config.error)
    ensures r.Success? && (reply.CallFailed? || reply.NoData?) ==> r.value == ([], cache)
    ensures r.Success? && reply.Vector? && reply.values != [] ==>
              r.value == (reply.values, cache[target := |reply.values|])
    ensures r.Success? && provider == Ollama && reply == Vector([]) ==> r.value == ([], cache)
    ensures r.Success? && NoZeroDimensions(cache) ==> NoZeroDimensions(r.value.1)
  {
    if provider == Ollama && !ollamaInstalled then Failure(Http(OllamaMissing))
    else if provider == OpenAI && config.Failure? then Failure(config.error)
    else
      match reply
      case CallFailed => Success(([], cache))
      case NoData => Success(([], cache))
      case Vector(v) =>
        if provider == Ollama && v == [] then Success(([], cache))
        else Success((v, RecordDimension(cache, target, |v|, vectorSize)))
  }

  /** With OpenAI, a user without a key of their own who has used up the
      day's requests gets the 429 from the embedder, whatever the reply
      would have been: the configuration is resolved before the call. */
  lemma EmbeddingOverLimitRaises(userId: int, settings: SettingTable, daily: DailyTable, today: int,
                                 t: ConfigTable, env: map<string, string>, reply: EmbeddingReply,
                                 cache: DimensionCache, target: string, vectorSize: Option<int>)
    requires userId != 0
    requires DailyLimit(settings).Some? && GetDailyRequest(daily, userId, today) >= DailyLimit(settings).value
    ensures var config := ResolveLlmConfig(Some(userId), None, settings, daily, today, t, env).1;
            GetEmbedding(OpenAI, true, config, reply, cache, target, vectorSize) == Failure(Http(LimitReached))
  {
    var config := ResolveLlmConfig(Some(userId), None, settings, daily, today, t, env).1;
    assert config == Failure(Http(LimitReached));
  }

  /** After a non-empty vector, the dimension asked for is its length. */
  lemma EmbeddingSetsDimension(provider: EmbeddingProvider, config: LlmConfig, v: seq<real>, cache: DimensionCache, target: string,
                               vectorSize: Option<int>)
    requires v != []
    ensures var r := GetEmbedding(provider, true, Success(config), Vector(v), cache, target, vectorSize);
            r.Success? && GetEmbeddingDimension(r.value.1, target, vectorSize) == Some(|v|)
  {
  }

  /** With OpenAI an empty vector still records the configured size, so the
      dimension asked for afterwards is that size. */
  lemma OpenAIEmptyVectorRecordsConfiguredSize(config: LlmConfig, cache: DimensionCache, target: string, size: int)
    requires size != 0
    ensures var r := GetEmbedding(OpenAI, true, Success(config), Vector([]), cache, target, Some(size));
            r == Success(([], cache[target := size]))
  {
  }

  // ---------------------------------------------------------------------------
  // Daily limit
  // ---------------------------------------------------------------------------

  /** What the limit check can raise: an HTTP error, or the `ValueError` of
      `int()` on a malformed limit setting, which nothing catches. */
  datatype Fault = Http(error: HttpError) | InvalidLimit

  const DailyLimitKey: string := "daily_request_limit"
  const LimitReached: HttpError := HttpError(429, "今日请求次数已达上限，请明日再试或设置自定义 API Key。")

  /** The limit in force: the setting (default "100"); an empty setting
      falls back to 10. */
  function DailyLimit(settings: SettingTable): (r: Option<int>)
    ensures DailyLimitKey !in settings ==> r == Some(100)
    ensures DailyLimitKey in settings && settings[DailyLimitKey] == "" ==> r == Some(10)
    ensures DailyLimitKey in settings && settings[DailyLimitKey] != "" ==> r == ParseInt(settings[DailyLimitKey])
  {
    var s := GetSetting(settings, DailyLimitKey, Some("100")).value;
    if s == "" then Some(10) else
      var v := ParseInt(s);
      DefaultLimitParses();
      v
  }

  /** The default setting "100" reads as 100. */
  lemma DefaultLimitParses()
    ensures ParseInt("100") == Some(100)
  {
    ParseIntOfIntToString(100);
    assert IntToString(100) == "100";
  }

  /** `_enforce_daily_limit`: 429 without counting when the user has used
      up the limit; otherwise exactly one more request is counted. */
  function EnforceDailyLimit(settings: SettingTable, daily: DailyTable, userId: int, today: int)
    : (r: Result<DailyTable, Fault>)
    ensures DailyLimit(settings).None? ==> r == Failure(InvalidLimit)
    ensures DailyLimit(settings).Some? && GetDailyRequest(daily, userId, today) >= DailyLimit(settings).value
            ==> r == Failure(Http(LimitReached))
    ensures r.Success? <==> DailyLimit(settings).Some? && GetDailyRequest(daily, userId, today) < DailyLimit(settings).value
    ensures r.Success? ==> GetDailyRequest(r.value, userId, today) == GetDailyRequest(daily, userId, today) + 1
                           && OthersUnchanged(daily, r.value, DayKey(userId, today))
  {
    var limit := DailyLimit(settings);
    if limit.None? then Failure(InvalidLimit)
    else if GetDailyRequest(daily, userId, today) >= limit.value then Failure(Http(LimitReached))
    else
      IncrementThenGet(daily, userId, today);
      Success(IncrementDailyRequest(daily, userId, today))
  }

  /** With the default limit a user gets exactly 100 requests a day: the
      check passes for the first 100 and refuses the next. */
  lemma DefaultLimitIsHundred(daily: DailyTable, userId: int, today: int)
    requires GetDailyRequest(daily, userId, today) == 100
    ensures EnforceDailyLimit(map[], daily, userId, today) == Failure(Http(LimitReached))
  {
  }

  // ---------------------------------------------------------------------------
  // Choosing the configuration
  // ---------------------------------------------------------------------------

  /** A user's own provider settings (`llm_configs`). */
  datatype UserLlmConfig = UserLlmConfig(url: Option<string>, apiKey: Option<string>, model: Option<string>)

  /** The configuration a call uses. */
  datatype LlmConfig = LlmConfig(apiKey: string, baseUrl: Option<string>, model: Option<string>)

  const MissingSystemKey: HttpError := HttpError(500, "未配置默认 LLM API Key")

  /** A Python-truthy user id: present and not 0. */
  predicate HasUser(userId: Option<int>) {
    userId.Some? && userId.value != 0
  }

  predicate HasOwnKey(c: Option<UserLlmConfig>) {
    c.Some? && c.value.apiKey.Some? && c.value.apiKey.value != ""
  }

  /** `_resolve_llm_config`: a user's own key is used as it is and skips the
      limit; otherwise the limit is enforced for a known user, and then the
      system key is required. The daily table is returned with the outcome
      because a request counted before a missing system key stays counted. */
  function ResolveLlmConfig(userId: Option<int>, userConfig: Option<UserLlmConfig>, settings: SettingTable,
                            daily: DailyTable, today: int, t: ConfigTable, env: map<string, string>)
    : (r: (DailyTable, Result<LlmConfig, Fault>))
    ensures HasUser(userId) && HasOwnKey(userConfig) ==>
              r == (daily, Success(LlmConfig(userConfig.value.apiKey.value, userConfig.value.url, userConfig.value.model)))
    ensures !HasUser(userId) ==> r.0 == daily
    ensures HasUser(userId) && !HasOwnKey(userConfig) ==>
              var limited := EnforceDailyLimit(settings, daily, userId.value, today);
              (limited.Failure? ==> r == (daily, Failure(limited.error)))
              && (limited.Success? ==> r.0 == limited.value)
    ensures r.1.Success? && !(HasUser(userId) && HasOwnKey(userConfig)) ==>
              GetConfigValue(t, env, "llm.api_key") == Some(r.1.value.apiKey) && r.1.value.apiKey != ""
    ensures (!(HasUser(userId) && HasOwnKey(userConfig)) && r.1.Failure? && r.1.error != InvalidLimit
             && r.1.error != Http(LimitReached)) ==> r.1.error == Http(MissingSystemKey)
  {
    if HasUser(userId) && HasOwnKey(userConfig) then
      (daily, Success(LlmConfig(userConfig.value.apiKey.value, userConfig.value.url, userConfig.value.model)))
    else
      var limited := if HasUser(userId) then EnforceDailyLimit(settings, daily, userId.value, today) else Success(daily);
      if limited.Failure? then (daily, Failure(limited.error))
      else
        var apiKey := GetConfigValue(t, env, "llm.api_key");
        if apiKey.None? || apiKey.value == "" then (limited.value, Failure(Http(MissingSystemKey)))
        else (limited.value, Success(LlmConfig(apiKey.value, GetConfigValue(t, env, "llm.base_url"),
                                               GetConfigValue(t, env, "llm.model"))))
  }

  /** Without a system key, a user under the limit is refused with 500 and
      the request still counts against the day. */
  lemma MissingSystemKeyStillCounts(userId: int, settings: SettingTable, daily: DailyTable, today: int,
                                    t: ConfigTable, env: map<string, string>)
    requires userId != 0
    requires EnforceDailyLimit(settings, daily, userId, today).Success?
    requires GetConfigValue(t, env, "llm.api_key").None?
    ensures var r := ResolveLlmConfig(Some(userId), None, settings, daily, today, t, env);
            r.1 == Failure(Http(MissingSystemKey))
            && GetDailyRequest(r.0, userId, today) == GetDailyRequest(daily, userId, today) + 1
  {
  }

  // ---------------------------------------------------------------------------
  // Collected responses
  // ---------------------------------------------------------------------------

  const UsageKey: string := "api_request_count"
  const Truncated: HttpError := HttpError(500, "AI 响应被截断，请缩短输入或调整参数")
  const EmptyResponse: HttpError := HttpError(500, "AI 未返回有效内容")

  /** The checks at the end of `_stream_and_collect`: a response cut off by
      the length limit or an empty one is a 500; a good one is returned and
      counted once. */
  function CollectResponse(finishReason: Option<string>, response: string, usage: CounterTable)
    : (r: (CounterTable, Result<string, HttpError>))
    ensures finishReason == Some("length") ==> r == (usage, Failure(Truncated))
    ensures finishReason != Some("length") && response == "" ==> r == (usage, Failure(EmptyResponse))
    ensures r.1.Success? <==> finishReason != Some("length") && response != ""
    ensures r.1.Success? ==> r.1.value == response && r.0 == Increment(usage, UsageKey)
    ensures r.1.Success? ==> Count(r.0, UsageKey) == Count(usage, UsageKey) + 1
  {
    if finishReason == Some("length") then (usage, Failure(Truncated))
    else if response == "" then (usage, Failure(EmptyResponse))
    else (Increment(usage, UsageKey), Success(response))
  }
}

=== FILE: metrics.dfy ===
/** The retrieval-metrics log: `add` appends one event and `window_stats`
    aggregates the events of the last few days. Timestamps are whole seconds
    and the clock is a parameter; the SQL aggregates are written as a fold
    over the log. */
module Metrics {
  import opened Wrappers

  /** One retrieval, as logged. */
  datatype Event = Event(
    projectId: string, occurredAt: int, latencyMs: int, chunkCount: int, summaryCount: int,
    duplicateRatio: real, provider: string)

  /** The four statistics; an average over no events is None. */
  datatype Stats = Stats(avgLatencyMs: Option<real>, emptyRate: Option<real>, duplicateRate: Option<real>, total: nat)

  const SecondsPerDay: int := 86400

  /** `add`: one event carrying exactly the given fields; an omitted
      timestamp takes the database's current time. */
  function Add(log: seq<Event>, projectId: string, latencyMs: int, chunkCount: int, summaryCount: int,
               duplicateRatio: real, provider: string, occurredAt: Option<int>, now: int): (r: seq<Event>)
    ensures |r| == |log| + 1 && r[..|log|] == log
    ensures var e := r[|log|];
            e.projectId == projectId && e.latencyMs == latencyMs && e.chunkCount == chunkCount
            && e.summaryCount == summaryCount && e.duplicateRatio == duplicateRatio && e.provider == provider
            && e.occurredAt == occurredAt.GetOr(now)
  {
    log + [Event(projectId, occurredAt.GetOr(now), latencyMs, chunkCount, summaryCount, duplicateRatio, provider)]
  }

  /** An event inside the window opened at `since`. */
  predicate InWindow(e: Event, since: int) {
    e.occurredAt >= since
  }

  /** A retrieval that found nothing. */
  predicate IsEmptyHit(e: Event) {
    e.chunkCount + e.summaryCount == 0
  }

  /** The events in the window, in log order. */
  function Windowed(log: seq<Event>, since: int): (w: seq<Event>)
    ensures |w| <= |log|
    decreases |log|
  {
    if |log| == 0 then []
    else (if InWindow(log[0], since) then [log[0]] else []) + Windowed(log[1..], since)
  }

  /** The window holds exactly the log's events at or after `since`. */
  lemma {:induction false} WindowedMembers(log: seq<Event>, since: int)
    ensures forall e :: e in Windowed(log, since) <==> e in log && InWindow(e, since)
    decreases |log|
  {
    if |log| > 0 {
      WindowedMembers(log[1..], since);
      assert log == [log[0]] + log[1..];
    }
  }

  /** The empty retrievals among `w`. */
  function EmptyHits(w: seq<Event>): (r: nat)
    ensures r <= |w|
    decreases |w|
  {
    if |w| == 0 then 0 else (if IsEmptyHit(w[0]) then 1 else 0) + EmptyHits(w[1..])
  }

  /** The sum of the latencies of `w`. */
  function LatencySum(w: seq<Event>): int
    decreases |w|
  {
    if |w| == 0 then 0 else w[0].latencyMs + LatencySum(w[1..])
  }

  /** The sum of the duplicate ratios of `w`. */
  function RatioSum(w: seq<Event>): real
    decreases |w|
  {
    if |w| == 0 then 0.0 else w[0].duplicateRatio + RatioSum(w[1..])
  }

  /** The aggregates the three queries compute, as a fold over the log taken
      from its end, the shape a loop over the log needs. */
  datatype Tally = Tally(total: nat, empty: nat, latencySum: int, ratioSum: real)

  function TallyOf(log: seq<Event>, since: int): (t: Tally)
    decreases |log|
  {
    if |log| == 0 then Tally(0, 0, 0, 0.0)
    else
      var t := TallyOf(log[..|log| - 1], since);
      var e := log[|log| - 1];
      if InWindow(e, since) then
        Tally(t.total + 1, t.empty + (if IsEmptyHit(e) then 1 else 0),
              t.latencySum + e.latencyMs, t.ratioSum + e.duplicateRatio)
      else t
  }

  /** The fold agrees with the filter-based definitions. */
  lemma {:induction false} TallyIsWindowed(log: seq<Event>, since: int)
    ensures var w := Windowed(log, since);
            TallyOf(log, since) == Tally(|w|, EmptyHits(w), LatencySum(w), RatioSum(w))
    decreases |log|
  {
    if |log| > 0 {
      var init := log[..|log| - 1];
      var last := log[|log| - 1];
      TallyIsWindowed(init, since);
      WindowedSnoc(init, last, since);
      assert init + [last] == log;
      var wi := Windowed(init, since);
      var tail := if InWindow(last, since) then [last] else [];
      SumsOfAppend(wi, tail);
    }
  }

  /** Extending the log at the end extends its window at the end. */
  lemma {:induction false} WindowedSnoc(log: seq<Event>, e: Event, since: int)
    ensures Windowed(log + [e], since) == Windowed(log, since) + (if InWindow(e, since) then [e] else [])
    decreases |log|
  {
    if |log| == 0 {
      assert [] + [e] == [e];
      assert [e][1..] == [];
    } else {
      assert (log + [e])[0] == log[0];
      assert (log + [e])[1..] == log[1..] + [e];
      WindowedSnoc(log[1..], e, since);
      var h := if InWindow(log[0], since) then [log[0]] else [];
      var t := if InWindow(e, since) then [e] else [];
      assert Windowed(log + [e], since) == h + Windowed(log[1..] + [e], since);
      assert Windowed(log, since) == h + Windowed(log[1..], since);
      assert h + (Windowed(log[1..], since) + t) == (h + Windowed(log[1..], since)) + t;
    }
  }

  /** The three sums split over concatenation. */
  lemma {:induction false} SumsOfAppend(a: seq<Event>, b: seq<Event>)
    ensures EmptyHits(a + b) == EmptyHits(a) + EmptyHits(b)
    ensures LatencySum(a + b) == LatencySum(a) + LatencySum(b)
    ensures RatioSum(a + b) == RatioSum(a) + RatioSum(b)
    decreases |a|
  {
    if |a| == 0 {
      assert a + b == b;
    } else {
      assert (a + b)[0] == a[0];
      assert (a + b)[1..] == a[1..] + b;
      SumsOfAppend(a[1..], b);
    }
  }

  /** The statistics a tally gives: each average is None without events,
      and the empty rate is a ratio of counts. */
  function StatsOf(t: Tally): (s: Stats)
    ensures s.total == t.total
    ensures s.avgLatencyMs.None? <==> t.total == 0
    ensures s.emptyRate.None? <==> t.total == 0
    ensures s.duplicateRate.None? <==> t.total == 0
    ensures t.total > 0 ==> s.emptyRate == Some(t.empty as real / t.total as real)
    ensures t.total > 0 ==> s.avgLatencyMs == Some(t.latencySum as real / t.total as real)
    ensures t.total > 0 ==> s.duplicateRate == Some(t.ratioSum / t.total as real)
  {
    if t.total == 0 then Stats(None, None, None, 0)
    else Stats(Some(t.latencySum as real / t.total as real), Some(t.empty as real / t.total as real),
               Some(t.ratioSum / t.total as real), t.total)
  }

  /** `window_stats`: one pass over the log, counting the events at or after
      `now - days`. The total is the number of events in the window, the
      empty rate the share of them that found nothing (never a division by
      zero, and within [0, 1]). */
  method WindowStats(log: seq<Event>, now: int, days: int) returns (s: Stats)
    ensures var w := Windowed(log, now - days * SecondsPerDay);
            s.total == |w|
            && (s.emptyRate.None? <==> |w| == 0)
            && (|w| > 0 ==> s.emptyRate == Some(EmptyHits(w) as real / |w| as real))
            && (|w| > 0 ==> s.avgLatencyMs == Some(LatencySum(w) as real / |w| as real))
            && (|w| > 0 ==> s.duplicateRate == Some(RatioSum(w) / |w| as real))
            && (s.avgLatencyMs.None? <==> |w| == 0) && (s.duplicateRate.None? <==> |w| == 0)
    ensures s.emptyRate.Some? ==> 0.0 <= s.emptyRate.value <= 1.0
  {
    var since := now - days * SecondsPerDay;
    var total, empty, latency, ratio := 0, 0, 0, 0.0;
    var i := 0;
    while i < |log|
      invariant 0 <= i <= |log|
      invariant TallyOf(log[..i], since) == Tally(total, empty, latency, ratio)
    {
      var e := log[i];
      assert log[..i + 1][..i] == log[..i];
      if e.occurredAt >= since {
        total := total + 1;
        if e.chunkCount + e.summaryCount == 0 {
          empty := empty + 1;
        }
        latency := latency + e.latencyMs;
        ratio := ratio + e.duplicateRatio;
      }
      i := i + 1;
    }
    assert log[..i] == log;
    TallyIsWindowed(log, since);
    var w := Windowed(log, since);
    assert empty <= total;
    s := StatsOf(Tally(total, empty, latency, ratio));
    if total > 0 {
      RatioInUnit(empty, total);
    }
  }

  /** `window_stats` as written: the empty-count query passes `else_` to
      `func.case`, which builds a generic SQL function named `case` that
      takes no such keyword, so the call raises before any query runs,
      whatever the log holds. `WindowStats` is the intended query, with the
      conditional expression `case(...)` of SQLAlchemy itself. */
  function WrittenWindowStats(log: seq<Event>, now: int, days: int): (r: Option<Stats>)
    ensures r == None
  {
    None
  }

  /** The three seven-day figures the RAG status reports. */
  datatype Figures = Figures(avgLatencyMs: Option<real>, emptyRate: Option<real>, duplicateRate: Option<real>)

  const StatusWindowDays: int := 7

  /** The status's figures from the window statistics: those of the
      statistics when they were computed, and all three None when computing
      them raised, since the status catches the error and only logs it. */
  function StatusFigures(stats: Option<Stats>): (f: Figures)
    ensures stats.None? ==> f == Figures(None, None, None)
    ensures stats.Some? ==>
              f.avgLatencyMs == stats.value.avgLatencyMs && f.emptyRate == stats.value.emptyRate
              && f.duplicateRate == stats.value.duplicateRate
  {
    match stats
    case None => Figures(None, None, None)
    case Some(s) => Figures(s.avgLatencyMs, s.emptyRate, s.duplicateRate)
  }

  /** The status's figures over the intended query: the empty rate is
      reported exactly when some retrieval was logged in the last seven
      days, and it lies in [0, 1]. */
  method ReportedFigures(log: seq<Event>, now: int) returns (f: Figures)
    ensures var w := Windowed(log, now - StatusWindowDays * SecondsPerDay);
            (f.emptyRate.Some? <==> |w| > 0) && (f.avgLatencyMs.Some? <==> |w| > 0)
            && (|w| > 0 ==> f.emptyRate == Some(EmptyHits(w) as real / |w| as real))
    ensures f.emptyRate.Some? ==> 0.0 <= f.emptyRate.value <= 1.0
  {
    var s := WindowStats(log, now, StatusWindowDays);
    f := StatusFigures(Some(s));
  }

  /** With the query as written the status never shows a figure, even over
      a window full of retrievals for which the intended query reports an
      empty rate. */
  lemma WrittenStatusHidesFigures(log: seq<Event>, now: int)
    requires |Windowed(log, now - StatusWindowDays * SecondsPerDay)| > 0
    ensures StatusFigures(WrittenWindowStats(log, now, StatusWindowDays)) == Figures(None, None, None)
    ensures StatusFigures(Some(StatsOf(TallyOf(log, now - StatusWindowDays * SecondsPerDay)))).emptyRate.Some?
  {
    TallyIsWindowed(log, now - StatusWindowDays * SecondsPerDay);
  }

  lemma RatioInUnit(a: nat, b: nat)
    requires 0 < b && a <= b
    ensures 0.0 <= a as real / b as real <= 1.0
  {
  }

  /** Adding an event moves the total by one exactly when it falls in the
      window, and leaves the counts alone otherwise. */
  lemma AddCounts(log: seq<Event>, projectId: string, latencyMs: int, chunkCount: int, summaryCount: int,
                  duplicateRatio: real, provider: string, occurredAt: Option<int>, now: int, since: int)
    ensures var log' := Add(log, projectId, latencyMs, chunkCount, summaryCount, duplicateRatio, provider, occurredAt, now);
            var inWindow := occurredAt.GetOr(now) >= since;
            |Windowed(log', since)| == |Windowed(log, since)| + (if inWindow then 1 else 0)
            && EmptyHits(Windowed(log', since))
               == EmptyHits(Windowed(log, since)) + (if inWindow && chunkCount + summaryCount == 0 then 1 else 0)
  {
    var log' := Add(log, projectId, latencyMs, chunkCount, summaryCount, duplicateRatio, provider, occurredAt, now);
    var e := log'[|log|];
    assert log' == log + [e];
    WindowedSnoc(log, e, since);
    SumsOfAppend(Windowed(log, since), if InWindow(e, since) then [e] else []);
  }
}

=== FILE: novel_service.dfy ===
/** The novel service's sequential logic: the conversation log, chapter
    versions and their selection, event progress after a chapter, switching
    to the next event, and the split of a blueprint character into fixed
    columns and `extra`. Tables are sequences of rows in scan order. */
module NovelService {
  import opened Wrappers
  import opened Text
  import opened Sanitizer
  import opened NovelText
  import opened PlotEvents

  // ---------------------------------------------------------------------------
  // Conversation log
  // ---------------------------------------------------------------------------

  datatype Conversation = Conversation(projectId: string, seqNo: int, role: string, content: string)

  /** `max(seq)` over the project's rows; None without rows. */
  function MaxSeq(convs: seq<Conversation>, projectId: string): (r: Option<int>)
    ensures r.None? <==> forall i :: 0 <= i < |convs| ==> convs[i].projectId != projectId
    ensures r.Some? ==> (exists i :: 0 <= i < |convs| && convs[i].projectId == projectId && convs[i].seqNo == r.value)
                        && forall i :: 0 <= i < |convs| && convs[i].projectId == projectId ==> convs[i].seqNo <= r.value
  {
    if convs == [] then None
    else
      var rest := MaxSeq(convs[1..], projectId);
      assert forall i :: 0 < i < |convs| ==> convs[i] == convs[1..][i - 1];
      if convs[0].projectId != projectId then rest
      else if rest.None? || rest.value < convs[0].seqNo then Some(convs[0].seqNo)
      else rest
  }

  /** `append_conversation`: the new row's `seq` is one past the project's
      largest (`None or 0` counting as 0), so 1 for the first row. */
  function AppendConversation(convs: seq<Conversation>, projectId: string, role: string, content: string)
    : (r: seq<Conversation>)
    ensures |r| == |convs| + 1 && r[..|convs|] == convs
    ensures r[|convs|].projectId == projectId && r[|convs|].role == role && r[|convs|].content == content
    ensures forall i :: 0 <= i < |convs| && convs[i].projectId == projectId ==> convs[i].seqNo < r[|convs|].seqNo
    ensures MaxSeq(convs, projectId).None? ==> r[|convs|].seqNo == 1
    ensures MaxSeq(convs, projectId).Some? ==> r[|convs|].seqNo == MaxSeq(convs, projectId).value + 1
  {
    var m := MaxSeq(convs, projectId);
    var next := (if m.None? || m.value == 0 then 0 else m.value) + 1;
    convs + [Conversation(projectId, next, role, content)]
  }

  /** Within each project the `seq` values are distinct. */
  predicate DistinctSeqs(convs: seq<Conversation>) {
    forall i, j :: 0 <= i < j < |convs| && convs[i].projectId == convs[j].projectId ==> convs[i].seqNo != convs[j].seqNo
  }

  /** Appending keeps the project's `seq` values distinct. */
  lemma AppendKeepsSeqsDistinct(convs: seq<Conversation>, projectId: string, role: string, content: string)
    requires DistinctSeqs(convs)
    ensures DistinctSeqs(AppendConversation(convs, projectId, role, content))
  {
    var r := AppendConversation(convs, projectId, role, content);
    forall i, j | 0 <= i < j < |r| && r[i].projectId == r[j].projectId ensures r[i].seqNo != r[j].seqNo {
      if j == |convs| {
        assert r[i] == convs[i];
      } else {
        assert r[i] == convs[i] && r[j] == convs[j];
      }
    }
  }

  /** A row `pop_last_conversation` may delete. */
  predicate PopCandidate(c: Conversation, projectId: string, role: Option<string>) {
    c.projectId == projectId && (role.None? || c.role == role.value)
  }

  /** The index of the candidate with the largest `seq` (the first scanned
      among equals). */
  function LastCandidate(convs: seq<Conversation>, projectId: string, role: Option<string>): (r: Option<nat>)
    ensures r.None? <==> forall i :: 0 <= i < |convs| ==> !PopCandidate(convs[i], projectId, role)
    ensures r.Some? ==> r.value < |convs| && PopCandidate(convs[r.value], projectId, role)
    ensures r.Some? ==> forall i :: 0 <= i < |convs| && PopCandidate(convs[i], projectId, role)
                                    ==> convs[i].seqNo <= convs[r.value].seqNo
  {
    if convs == [] then None
    else
      var rest := LastCandidate(convs[1..], projectId, role);
      assert forall i :: 0 < i < |convs| ==> convs[i] == convs[1..][i - 1];
      if PopCandidate(convs[0], projectId, role) && (rest.None? || convs[rest.value + 1].seqNo <= convs[0].seqNo) then
        Some(0)
      else if rest.None? then None
      else Some(rest.value + 1)
  }

  /** `pop_last_conversation`: deletes the project's row with the largest
      `seq` among those of the given role (any role for None) and answers
      True; answers False and deletes nothing when there is none. */
  function PopLastConversation(convs: seq<Conversation>, projectId: string, role: Option<string>)
    : (r: (seq<Conversation>, bool))
    ensures !r.1 <==> forall i :: 0 <= i < |convs| ==> !PopCandidate(convs[i], projectId, role)
    ensures !r.1 ==> r.0 == convs
    ensures r.1 ==> (exists k :: 0 <= k < |convs| && PopCandidate(convs[k], projectId, role)
                       && (forall i :: 0 <= i < |convs| && PopCandidate(convs[i], projectId, role) ==> convs[i].seqNo <= convs[k].seqNo)
                       && r.0 == convs[..k] + convs[k + 1..])
  {
    var k := LastCandidate(convs, projectId, role);
    if k.None? then (convs, false) else (convs[..k.value] + convs[k.value + 1..], true)
  }

  // ---------------------------------------------------------------------------
  // Chapter versions
  // ---------------------------------------------------------------------------

  datatype ChapterStatus =
    | NotGenerated | Generating | Evaluating | Selecting | Failed | EvaluationFailed | WaitingForConfirm | Successful

  datatype Version = Version(id: int, versionLabel: string, content: string, createdAt: int)

  datatype Chapter = Chapter(
    id: int, projectId: string, number: int, status: ChapterStatus, wordCount: int,
    selectedVersionId: Option<int>, eventId: Option<int>, eventProgress: int, versions: seq<Version>)

  /** The label of the version at position `i`. */
  function VersionLabel(i: nat): string {
    "v" + NatToString(i + 1)
  }

  /** Labels of different positions differ. */
  lemma VersionLabelsDistinct(i: nat, j: nat)
    requires i != j
    ensures VersionLabel(i) != VersionLabel(j)
  {
    if VersionLabel(i) == VersionLabel(j) {
      assert NatToString(i + 1) == VersionLabel(i)[1..];
      assert NatToString(j + 1) == VersionLabel(j)[1..];
      NatToStringInjective(i + 1, j + 1);
    }
  }

  /** The metadata paired with content `i`: None past the end of the list
      (and for a missing or empty list). */
  function MetadataAt(metadata: seq<Json>, i: nat): Json {
    if i < |metadata| then metadata[i] else JNull
  }

  /** `replace_chapter_versions`: the old versions go; one version per
      content, labelled v1..vn in order, holding the normalised text. The
      chapter then waits for confirmation; with at least one version its
      selection is cleared and its word count reset. Ids and the creation
      time come from the database. */
  function ReplaceChapterVersions(ch: Chapter, contents: seq<string>, metadata: seq<Json>, ids: seq<int>, now: int,
                                  parse: string -> Option<Json>): (r: Chapter)
    requires ParseShrinks(parse)
    requires |ids| == |contents|
    ensures |r.versions| == |contents|
    ensures forall i :: 0 <= i < |contents| ==>
              r.versions[i].versionLabel == VersionLabel(i) && r.versions[i].id == ids[i]
              && r.versions[i].content == NormalizeVersionContent(contents[i], MetadataAt(metadata, i), parse)
    ensures r.status == WaitingForConfirm
    ensures contents != [] ==> r.selectedVersionId.None? && r.wordCount == 0
    ensures contents == [] ==> r.selectedVersionId == ch.selectedVersionId && r.wordCount == ch.wordCount
    ensures r.id == ch.id && r.projectId == ch.projectId && r.number == ch.number && r.eventId == ch.eventId
  {
    var versions := seq(|contents|, i requires 0 <= i < |contents| =>
      Version(ids[i], VersionLabel(i), NormalizeVersionContent(contents[i], MetadataAt(metadata, i), parse), now));
    if versions != [] then
      ch.(versions := versions, status := WaitingForConfirm, selectedVersionId := None, wordCount := 0)
    else ch.(versions := versions, status := WaitingForConfirm)
  }

  /** Ordered by creation time. */
  predicate SortedByCreation(vs: seq<Version>) {
    forall i, j :: 0 <= i < j < |vs| ==> vs[i].createdAt <= vs[j].createdAt
  }

  /** Insertion after every version created no later than `v`, which keeps
      equal times in their original order. */
  function InsertByCreation(v: Version, sorted: seq<Version>): (r: seq<Version>)
    requires SortedByCreation(sorted)
    ensures |r| == |sorted| + 1 && (r[0] == v || (sorted != [] && r[0] == sorted[0]))
    ensures SortedByCreation(r)
    ensures multiset(r) == multiset(sorted) + multiset{v}
    decreases |sorted|
  {
    if sorted == [] then [v]
    else if v.createdAt < sorted[0].createdAt then [v] + sorted
    else
      var rest := InsertByCreation(v, sorted[1..]);
      assert sorted == [sorted[0]] + sorted[1..];
      [sorted[0]] + rest
  }

  /** `sorted(chapter.versions, key=created_at)`. */
  function SortByCreation(vs: seq<Version>): (r: seq<Version>)
    ensures SortedByCreation(r) && multiset(r) == multiset(vs) && |r| == |vs|
    decreases |vs|
  {
    if vs == [] then []
    else
      assert vs == vs[..|vs| - 1] + [vs[|vs| - 1]];
      InsertByCreation(vs[|vs| - 1], SortByCreation(vs[..|vs| - 1]))
  }

  /** `select_chapter_version`: an index outside the versions (sorted by
      creation time) is a 400; otherwise that version is selected, the
      chapter is successful and its word count is the content's length. */
  function SelectChapterVersion(ch: Chapter, index: int): (r: Result<(Chapter, Version), HttpError>)
    ensures r.Failure? <==> index < 0 || index >= |ch.versions|
    ensures r.Failure? ==> r.error == HttpError(400, "版本索引无效")
    ensures r.Success? ==>
              var (c, v) := r.value;
              v == SortByCreation(ch.versions)[index] && v in ch.versions
              && c.selectedVersionId == Some(v.id) && c.status == Successful && c.wordCount == |v.content|
              && c.versions == ch.versions && c.eventId == ch.eventId
  {
    var sorted := SortByCreation(ch.versions);
    if sorted == [] || index < 0 || index >= |sorted| then Failure(HttpError(400, "版本索引无效"))
    else
      var v := sorted[index];
      assert v in multiset(sorted);
      Success((ch.(selectedVersionId := Some(v.id), status := Successful, wordCount := |v.content|), v))
  }

  // ---------------------------------------------------------------------------
  // Events after a chapter
  // ---------------------------------------------------------------------------

  /** The completed key points merged without duplicates: the old ones, then
      the new ones not yet present (Python's set order is not modelled). */
  function MergeKeyPoints(prior: seq<string>, added: seq<string>): (r: seq<string>)
    ensures forall x :: x in r <==> x in prior || x in added
    ensures forall i, j :: 0 <= i < j < |r| ==> r[i] != r[j]
    decreases |added|
  {
    if added == [] then Dedupe(prior)
    else
      var init := MergeKeyPoints(prior, added[..|added| - 1]);
      var x := added[|added| - 1];
      assert forall y :: y in added <==> y in added[..|added| - 1] || y == x by {
        assert added == added[..|added| - 1] + [x];
      }
      if x in init then init else init + [x]
  }

  /** The first occurrence of each element, in order. */
  function Dedupe(s: seq<string>): (r: seq<string>)
    ensures forall x :: x in r <==> x in s
    ensures forall i, j :: 0 <= i < j < |r| ==> r[i] != r[j]
    decreases |s|
  {
    if s == [] then []
    else
      var init := Dedupe(s[..|s| - 1]);
      var x := s[|s| - 1];
      assert forall y :: y in s <==> y in s[..|s| - 1] || y == x by {
        assert s == s[..|s| - 1] + [x];
      }
      if x in init then init else init + [x]
  }

  /** `update_chapter_event_progress`. A chapter without an event, or with
      the falsy event id 0, changes nothing. Otherwise the chapter records
      the progress; if its event exists, the event's progress is updated and
      its completed key points become the union of the old and the new
      ones. */
  function UpdateChapterEventProgress(ch: Chapter, rows: seq<PlotEvent>, progressAfter: int, completed: seq<string>)
    : (r: (Chapter, seq<PlotEvent>))
    ensures ch.eventId.None? || ch.eventId == Some(0) ==> r == (ch, rows)
    ensures ch.eventId.Some? && ch.eventId != Some(0) ==> r.0 == ch.(eventProgress := progressAfter)
    ensures ch.eventId.Some? && ch.eventId != Some(0) && FindEvent(rows, ch.eventId.value).None? ==> r.1 == rows
    ensures ch.eventId.Some? && ch.eventId != Some(0) && FindEvent(rows, ch.eventId.value).Some? ==>
              var e := FindEvent(rows, ch.eventId.value).value;
              var merged := MergeKeyPoints(e.completedKeyPoints, completed);
              (forall x :: x in merged <==> x in e.completedKeyPoints || x in completed)
              && r.1 == ReplaceRow(rows, e.id, e.(progress := progressAfter, completedKeyPoints := merged,
                                                   status := StatusFor(progressAfter)))
  {
    if ch.eventId.None? || ch.eventId.value == 0 then (ch, rows)
    else
      var ch' := ch.(eventProgress := progressAfter);
      var found := FindEvent(rows, ch.eventId.value);
      if found.None? then (ch', rows)
      else
        var merged := MergeKeyPoints(found.value.completedKeyPoints, completed);
        (ch', UpdateEventProgress(rows, ch.eventId.value, progressAfter, Some(merged)).0)
  }

  /** The event that follows `cur`: pending, of the given project and of the
      same volume, with a larger sequence. */
  predicate FollowsEvent(e: PlotEvent, projectId: string, cur: PlotEvent) {
    e.projectId == projectId && e.volumeId == cur.volumeId && e.sequence > cur.sequence && e.status == Pending
  }

  /** The switch after a completed event `cur`: the pending event of the
      same volume with the next larger sequence is started (progress 1, so in
      progress) and returned, or nothing happens when there is none. */
  function StartNextEvent(rows: seq<PlotEvent>, projectId: string, cur: PlotEvent)
    : (r: (seq<PlotEvent>, Option<PlotEvent>))
    ensures r.1.None? <==> forall e :: e in rows ==> !FollowsEvent(e, projectId, cur)
    ensures r.1.None? ==> r.0 == rows
    ensures r.1.Some? ==>
              var n := r.1.value;
              (exists e :: e in rows && FollowsEvent(e, projectId, cur) && e.id == n.id
                           && (forall f :: f in rows && FollowsEvent(f, projectId, cur) ==> e.sequence <= f.sequence)
                           && n == e.(progress := 1, status := InProgress))
              && r.0 == ReplaceRow(rows, n.id, n)
  {
    var next := FirstBySequence(rows, (e: PlotEvent) => FollowsEvent(e, projectId, cur));
    if next.None? then (rows, None)
    else
      var e := next.value;
      var n := e.(progress := 1, status := InProgress);
      (ReplaceRow(rows, e.id, n), Some(n))
  }

  /** `check_and_switch_event`. A missing event gives None; an unfinished
      one is returned as it is; a completed one hands over to the next
      pending event of its volume. */
  function CheckAndSwitchEvent(rows: seq<PlotEvent>, projectId: string, currentId: int)
    : (r: (seq<PlotEvent>, Option<PlotEvent>))
    ensures FindEvent(rows, currentId).None? ==> r == (rows, None)
    ensures FindEvent(rows, currentId).Some? && FindEvent(rows, currentId).value.status != Completed
            ==> r == (rows, FindEvent(rows, currentId))
    ensures FindEvent(rows, currentId).Some? && FindEvent(rows, currentId).value.status == Completed
            ==> r == StartNextEvent(rows, projectId, FindEvent(rows, currentId).value)
  {
    var found := FindEvent(rows, currentId);
    if found.None? then (rows, None)
    else if found.value.status != Completed then (rows, found)
    else StartNextEvent(rows, projectId, found.value)
  }

  // ---------------------------------------------------------------------------
  // Blueprint characters
  // ---------------------------------------------------------------------------

  /** The keys that have their own column. */
  const FixedCharacterKeys: set<string> :=
    {"name", "identity", "personality", "goals", "abilities", "relationship_to_protagonist"}

  /** A stored character. The text columns hold None for SQL NULL, which
      both an absent key and an explicit null produce. */
  datatype CharacterRow = CharacterRow(
    name: Json, identity: Option<Json>, personality: Option<Json>, goals: Option<Json>, abilities: Option<Json>,
    relationship: Option<Json>, extra: map<string, Json>, position: nat)

  function Lookup(data: map<string, Json>, key: string): (r: Option<Json>)
    ensures r.Some? <==> key in data
    ensures r.Some? ==> r.value == data[key]
  {
    if key in data then Some(data[key]) else None
  }

  /** `data.get(key)` stored in a nullable column: NULL when the key is
      absent or holds null. */
  function Column(data: map<string, Json>, key: string): (r: Option<Json>)
    ensures r.None? <==> key !in data || data[key] == JNull
    ensures r.Some? ==> r.value == data[key]
  {
    if key in data && data[key] != JNull then Some(data[key]) else None
  }

  /** The row of one character dict: the name (defaulting to "") and the
      five other fixed keys in their columns, every other key in `extra`. */
  function CharacterRowOf(data: map<string, Json>, index: nat): (r: CharacterRow)
    ensures r.extra.Keys == data.Keys - FixedCharacterKeys
    ensures forall k :: k in r.extra ==> r.extra[k] == data[k]
    ensures r.position == index
    ensures r.name == (if "name" in data then data["name"] else JStr(""))
    ensures r.identity == Column(data, "identity") && r.personality == Column(data, "personality")
            && r.goals == Column(data, "goals") && r.abilities == Column(data, "abilities")
            && r.relationship == Column(data, "relationship_to_protagonist")
  {
    CharacterRow(Lookup(data, "name").GetOr(JStr("")), Column(data, "identity"), Column(data, "personality"),
                 Column(data, "goals"), Column(data, "abilities"), Column(data, "relationship_to_protagonist"),
                 map k | k in data && k !in FixedCharacterKeys :: data[k], index)
  }

  /** The rows of `replace_blueprint`, positioned by list index. */
  function CharacterRows(characters: seq<map<string, Json>>): (r: seq<CharacterRow>)
    ensures |r| == |characters|
    ensures forall i :: 0 <= i < |r| ==> r[i] == CharacterRowOf(characters[i], i)
  {
    seq(|characters|, i requires 0 <= i < |characters| => CharacterRowOf(characters[i], i))
  }

  /** A NULL column read back as JSON. */
  function OrNull(c: Option<Json>): Json {
    if c.Some? then c.value else JNull
  }

  /** The dict `get_project_schema` reads back from a row: all six fixed
      keys, null for a NULL column, then the keys of `extra`, which win. */
  function ReadBack(r: CharacterRow): map<string, Json> {
    map k | k in FixedCharacterKeys + r.extra.Keys :: if k in r.extra then r.extra[k] else FixedValue(r, k)
  }

  /** The value the read-back gives a fixed key. */
  function FixedValue(r: CharacterRow, k: string): Json {
    if k == "name" then r.name
    else if k == "identity" then OrNull(r.identity)
    else if k == "personality" then OrNull(r.personality)
    else if k == "goals" then OrNull(r.goals)
    else if k == "abilities" then OrNull(r.abilities)
    else OrNull(r.relationship)
  }

  /** A character dict with every fixed key present: a missing name is "",
      any other missing fixed key is null. */
  function FillFixed(data: map<string, Json>): (r: map<string, Json>)
    ensures r.Keys == data.Keys + FixedCharacterKeys
  {
    map k | k in data.Keys + FixedCharacterKeys ::
      if k in data then data[k] else if k == "name" then JStr("") else JNull
  }

  /** Nothing but absence is lost by the split: reading a stored character
      back gives its dict with the missing fixed keys filled in, so it
      equals the dict up to fixed keys that were absent or null. */
  lemma CharacterSplitLosesNothing(data: map<string, Json>, index: nat)
    ensures ReadBack(CharacterRowOf(data, index)) == FillFixed(data)
  {
    var r := CharacterRowOf(data, index);
    var m := ReadBack(r);
    var f := FillFixed(data);
    assert m.Keys == f.Keys;
    forall k | k in m
      ensures m[k] == f[k]
    {
      if k !in FixedCharacterKeys {
        assert k in r.extra;
      } else {
        FixedValueOf(data, index, k);
      }
    }
  }

  /** A fixed key reads back as stored: its value when present and not
      null, else null (the name: else ""). */
  lemma FixedValueOf(data: map<string, Json>, index: nat, k: string)
    requires k in FixedCharacterKeys
    ensures FixedValue(CharacterRowOf(data, index), k)
            == if k in data then data[k] else if k == "name" then JStr("") else JNull
  {
  }

  /** An explicit null in a nullable fixed key is stored like an absent
      key. */
  lemma NullStoredLikeAbsent(data: map<string, Json>, index: nat, k: string)
    requires k in FixedCharacterKeys && k != "name"
    ensures CharacterRowOf(data[k := JNull], index) == CharacterRowOf(data - {k}, index)
  {
    var a := CharacterRowOf(data[k := JNull], index);
    var b := CharacterRowOf(data - {k}, index);
    assert a.extra == b.extra;
  }

  /** A character read back and saved again gives the same row, so a
      second save changes nothing. */
  lemma CharacterResaveStable(data: map<string, Json>, index: nat)
    ensures CharacterRowOf(ReadBack(CharacterRowOf(data, index)), index) == CharacterRowOf(data, index)
  {
    CharacterSplitLosesNothing(data, index);
    var f := FillFixed(data);
    var a := CharacterRowOf(f, index);
    var b := CharacterRowOf(data, index);
    assert a.extra == b.extra;
  }

  /** The characters read back, in position order, are the saved dicts
      with their fixed keys filled in. */
  lemma CharacterRowsReadBack(characters: seq<map<string, Json>>)
    ensures var rows := CharacterRows(characters);
            forall i :: 0 <= i < |rows| ==> rows[i].position == i && ReadBack(rows[i]) == FillFixed(characters[i])
  {
    var rows := CharacterRows(characters);
    forall i | 0 <= i < |rows|
      ensures rows[i].position == i && ReadBack(rows[i]) == FillFixed(characters[i])
    {
      CharacterSplitLosesNothing(characters[i], i);
    }
  }
}

=== FILE: novel_store.dfy ===
/** The front end's novel store: the list of the user's projects, the project
    open in the editor with its chapters, and the actions that change them.
    Every API call is a parameter: the value it resolved with, or what it
    threw. */
module NovelStore {
  import opened Wrappers

  /** A chapter as the API returns it; only the number matters here. */
  datatype Chapter = Chapter(number: int, payload: string)

  /** The open project; `chapters` is None when the field is not an array. */
  datatype Project = Project(id: string, chapters: Option<seq<Chapter>>)

  /** An entry of the project list. */
  datatype Summary = Summary(id: string, title: string)

  /** The store's state. The conversation state is opaque; `{}` is the empty
      map. */
  datatype NovelState = NovelState(projects: seq<Summary>, current: Option<Project>,
                                   conversation: map<string, string>, isLoading: bool, error: Option<string>)

  /** What an action threw: an `Error` with its message, or another value. */
  datatype Thrown = ErrorObject(message: string) | OtherValue

  const NoCurrentProject: string := "没有当前项目"

  /** `err instanceof Error ? err.message : fallback`. */
  function ErrorText(t: Thrown, fallback: string): string {
    if t.ErrorObject? then t.message else fallback
  }

  // ---------------------------------------------------------------------------
  // Chapter order
  // ---------------------------------------------------------------------------

  predicate SortedByNumber(s: seq<Chapter>) {
    forall i, j :: 0 <= i < j < |s| ==> s[i].number <= s[j].number
  }

  /** The chapter numbers in list order. */
  function NumberSeq(s: seq<Chapter>): (r: seq<int>)
    ensures |r| == |s| && forall i :: 0 <= i < |s| ==> r[i] == s[i].number
  {
    seq(|s|, i requires 0 <= i < |s| => s[i].number)
  }

  /** The chapter numbers, with their counts. */
  function Numbers(s: seq<Chapter>): multiset<int> {
    multiset(NumberSeq(s))
  }

  lemma NumbersAppend(s: seq<Chapter>, c: Chapter)
    ensures Numbers(s + [c]) == Numbers(s) + multiset{c.number}
  {
    assert NumberSeq(s + [c]) == NumberSeq(s) + [c.number];
  }

  /** `c`, numbered at least as high as the last chapter, goes at the end. */
  lemma InsertAfterLast(c: Chapter, s: seq<Chapter>)
    requires SortedByNumber(s) && s != [] && s[|s| - 1].number <= c.number
    ensures SortedByNumber(s + [c])
    ensures multiset(s + [c]) == multiset(s) + multiset{c}
    ensures Numbers(s + [c]) == Numbers(s) + multiset{c.number}
  {
    NumbersAppend(s, c);
  }

  /** `c`, numbered below the last chapter, goes into the front part. */
  lemma InsertBeforeLast(c: Chapter, init: seq<Chapter>, last: Chapter, front: seq<Chapter>)
    requires SortedByNumber(init + [last]) && SortedByNumber(front) && c.number < last.number
    requires multiset(front) == multiset(init) + multiset{c}
    requires Numbers(front) == Numbers(init) + multiset{c.number}
    ensures SortedByNumber(front + [last])
    ensures multiset(front + [last]) == multiset(init + [last]) + multiset{c}
    ensures Numbers(front + [last]) == Numbers(init + [last]) + multiset{c.number}
  {
    InsertStepSorted(c, init, last, front);
    NumbersAppend(front, last);
    NumbersAppend(init, last);
  }

  /** Putting `last`, numbered above `c`, after the sorted insertion of `c`
      into the sorted `init` keeps the order. */
  lemma InsertStepSorted(c: Chapter, init: seq<Chapter>, last: Chapter, front: seq<Chapter>)
    requires SortedByNumber(init + [last]) && SortedByNumber(front) && c.number < last.number
    requires multiset(front) == multiset(init) + multiset{c}
    ensures SortedByNumber(front + [last])
  {
    forall i | 0 <= i < |front| ensures front[i].number <= last.number {
      assert front[i] in multiset(front);
      if front[i] != c {
        assert front[i] in multiset(init);
        var j :| 0 <= j < |init| && init[j] == front[i];
        assert (init + [last])[j] == init[j];
        assert (init + [last])[|init|] == last;
      }
    }
  }

  /** `c` placed after every chapter numbered at most its own. */
  function InsertByNumber(c: Chapter, s: seq<Chapter>): (r: seq<Chapter>)
    requires SortedByNumber(s)
    ensures SortedByNumber(r)
    ensures multiset(r) == multiset(s) + multiset{c}
    ensures Numbers(r) == Numbers(s) + multiset{c.number}
    decreases |s|
  {
    if s == [] then
      assert Numbers([c]) == multiset{c.number} by { NumbersAppend([], c); }
      [c]
    else
      var init := s[..|s| - 1];
      var last := s[|s| - 1];
      assert s == init + [last];
      if last.number <= c.number then
        InsertAfterLast(c, s);
        s + [c]
      else
        var front := InsertByNumber(c, init);
        InsertBeforeLast(c, init, last, front);
        front + [last]
  }

  /** `chapters.sort((a, b) => a.chapter_number - b.chapter_number)`: a
      stable insertion sort by chapter number. */
  function SortByNumber(s: seq<Chapter>): (r: seq<Chapter>)
    ensures SortedByNumber(r)
    ensures multiset(r) == multiset(s)
    ensures Numbers(r) == Numbers(s)
    decreases |s|
  {
    if s == [] then []
    else
      assert s == s[..|s| - 1] + [s[|s| - 1]];
      NumbersAppend(s[..|s| - 1], s[|s| - 1]);
      InsertByNumber(s[|s| - 1], SortByNumber(s[..|s| - 1]))
  }

  /** Replacing one chapter replaces its number. */
  lemma NumbersUpdate(s: seq<Chapter>, i: nat, c: Chapter)
    requires i < |s|
    ensures Numbers(s[i := c]) == Numbers(s) - multiset{s[i].number} + multiset{c.number}
  {
    assert NumberSeq(s[i := c]) == NumberSeq(s)[i := c.number];
  }

  /** A chapter numbered `n` occurs in `s` exactly when `n` is among its
      numbers. */
  lemma NumbersHas(s: seq<Chapter>, n: int)
    ensures n in Numbers(s) <==> exists i :: 0 <= i < |s| && s[i].number == n
  {
    if n in Numbers(s) {
      var i :| 0 <= i < |s| && NumberSeq(s)[i] == n;
    }
  }

  // ---------------------------------------------------------------------------
  // loadChapter
  // ---------------------------------------------------------------------------

  /** The first index holding chapter `n`: `findIndex`. */
  function FindChapter(s: seq<Chapter>, n: int): (r: int)
    ensures -1 <= r < |s|
    ensures r >= 0 ==> s[r].number == n && forall j :: 0 <= j < r ==> s[j].number != n
    ensures r == -1 <==> forall j :: 0 <= j < |s| ==> s[j].number != n
    decreases |s|
  {
    if s == [] then -1
    else if s[0].number == n then 0
    else
      var k := FindChapter(s[1..], n);
      assert forall j :: 0 < j < |s| ==> s[j] == s[1..][j - 1];
      if k == -1 then -1 else k + 1
  }

  /** The chapter list after the upsert and before the sort: the first
      chapter numbered `n` is replaced in place, or the chapter appended; a
      field that is not an array counts as empty. */
  function Upsert(chapters: Option<seq<Chapter>>, n: int, c: Chapter): (r: seq<Chapter>)
    ensures var s := if chapters.Some? then chapters.value else [];
            var k := FindChapter(s, n);
            (k >= 0 ==> r == s[k := c]) && (k < 0 ==> r == s + [c])
  {
    var s := if chapters.Some? then chapters.value else [];
    var k := FindChapter(s, n);
    if k >= 0 then s[k := c] else s + [c]
  }

  /** `loadChapter(n)`: without an open project it throws `没有当前项目`
      and records it; a failed fetch is recorded and rethrown; otherwise the
      fetched chapter is upserted and the list sorted by number. */
  function LoadChapter(st: NovelState, n: int, fetched: Result<Chapter, Thrown>): (r: (Result<Chapter, Thrown>, NovelState))
    ensures st.current.None? ==> r == (Failure(ErrorObject(NoCurrentProject)), st.(error := Some(NoCurrentProject)))
    ensures st.current.Some? && fetched.Failure? ==>
              r == (fetched, st.(error := Some(ErrorText(fetched.error, "加载章节失败"))))
    ensures r.0.Success? <==> st.current.Some? && fetched.Success?
    ensures r.0.Success? ==>
              r.0 == fetched && r.1.error.None? && r.1.projects == st.projects && r.1.conversation == st.conversation
              && r.1.current.Some? && r.1.current.value.id == st.current.value.id
              && r.1.current.value.chapters.Some?
              && SortedByNumber(r.1.current.value.chapters.value)
              && multiset(r.1.current.value.chapters.value)
                 == multiset(Upsert(st.current.value.chapters, n, fetched.value))
  {
    if st.current.None? then (Failure(ErrorObject(NoCurrentProject)), st.(error := Some(NoCurrentProject)))
    else if fetched.Failure? then (fetched, st.(error := Some(ErrorText(fetched.error, "加载章节失败"))))
    else
      var p := st.current.value;
      var chapters := SortByNumber(Upsert(p.chapters, n, fetched.value));
      (fetched, st.(current := Some(p.(chapters := Some(chapters))), error := None))
  }

  /** A loaded chapter numbered as asked is in the list afterwards exactly
      once, provided its number was there at most once before; every other
      chapter is kept. */
  lemma {:induction false} LoadChapterOnce(st: NovelState, n: int, c: Chapter)
    requires st.current.Some? && c.number == n
    requires var s := st.current.value.chapters;
             s.Some? ==> Numbers(s.value)[n] <= 1
    ensures var after := LoadChapter(st, n, Success(c)).1.current.value.chapters.value;
            var before := if st.current.value.chapters.Some? then st.current.value.chapters.value else [];
            Numbers(after)[n] == 1 && c in after
            && forall m :: m != n ==> Numbers(after)[m] == Numbers(before)[m]
  {
    var p := st.current.value;
    var before := if p.chapters.Some? then p.chapters.value else [];
    var up := Upsert(p.chapters, n, c);
    assert up == Upsert(Some(before), n, c);
    UpsertOnce(before, n, c);
    LoadedChapters(st, n, c);
    assert c in multiset(up);
  }

  /** A successful load leaves the sorted upsert in the open project. */
  lemma LoadedChapters(st: NovelState, n: int, c: Chapter)
    requires st.current.Some?
    ensures LoadChapter(st, n, Success(c)).1.current
            == Some(st.current.value.(chapters := Some(SortByNumber(Upsert(st.current.value.chapters, n, c)))))
  {
  }

  /** The upsert of a chapter numbered `n` leaves `n` once, provided it was
      there at most once, and every other number as it was. */
  lemma UpsertOnce(s: seq<Chapter>, n: int, c: Chapter)
    requires c.number == n && Numbers(s)[n] <= 1
    ensures var up := Upsert(Some(s), n, c);
            Numbers(up)[n] == 1 && c in up && forall m :: m != n ==> Numbers(up)[m] == Numbers(s)[m]
  {
    var up := Upsert(Some(s), n, c);
    var k := FindChapter(s, n);
    NumbersHas(s, n);
    if k >= 0 {
      NumbersUpdate(s, k, c);
      assert up[k] == c;
    } else {
      NumbersAppend(s, c);
      assert up[|s|] == c;
    }
  }

  // ---------------------------------------------------------------------------
  // deleteProjects
  // ---------------------------------------------------------------------------

  /** The project list without the listed ids, in order. */
  function WithoutIds(projects: seq<Summary>, ids: seq<string>): (r: seq<Summary>)
    ensures forall p :: p in r <==> p in projects && p.id !in ids
    ensures |r| <= |projects|
  {
    if projects == [] then []
    else (if projects[0].id in ids then [] else [projects[0]]) + WithoutIds(projects[1..], ids)
  }

  /** `deleteProjects(ids)`: when the API call throws, the error is recorded
      and nothing else changes; otherwise the listed projects leave the list
      and, if the open project is among them, it and the conversation state
      are cleared. */
  function DeleteProjects(st: NovelState, ids: seq<string>, api: Result<(), Thrown>): (r: (Result<(), Thrown>, NovelState))
    ensures r.0 == api && !r.1.isLoading
    ensures api.Failure? ==> r.1 == st.(isLoading := false, error := Some(ErrorText(api.error, "删除项目失败")))
    ensures api.Success? ==> r.1.error.None?
    ensures api.Success? ==> forall p :: p in r.1.projects <==> p in st.projects && p.id !in ids
    ensures api.Success? && st.current.Some? && st.current.value.id in ids ==>
              r.1.current.None? && r.1.conversation == map[]
    ensures api.Success? && !(st.current.Some? && st.current.value.id in ids) ==>
              r.1.current == st.current && r.1.conversation == st.conversation
  {
    if api.Failure? then (api, st.(isLoading := false, error := Some(ErrorText(api.error, "删除项目失败"))))
    else
      var kept := WithoutIds(st.projects, ids);
      if st.current.Some? && st.current.value.id in ids then
        (api, st.(projects := kept, current := None, conversation := map[], isLoading := false, error := None))
      else (api, st.(projects := kept, isLoading := false, error := None))
  }

  /** Deleting the same ids twice leaves the list as deleting once. */
  lemma {:induction false} DeleteTwice(projects: seq<Summary>, ids: seq<string>)
    ensures WithoutIds(WithoutIds(projects, ids), ids) == WithoutIds(projects, ids)
    decreases |projects|
  {
    if projects != [] {
      DeleteTwice(projects[1..], ids);
      var rest := WithoutIds(projects[1..], ids);
      if projects[0].id in ids {
        assert [] + rest == rest;
      } else {
        assert ([projects[0]] + rest)[0] == projects[0];
        assert ([projects[0]] + rest)[1..] == rest;
      }
    }
  }

  // ---------------------------------------------------------------------------
  // Actions on the open project
  // ---------------------------------------------------------------------------

  /** An action that sends the open project's id to the API and puts the
      project it answers with in its place: generating, evaluating, deleting
      or selecting a version of a chapter, editing the outline, generating
      the outline. Without an open project it throws `没有当前项目` and only
      the error changes. */
  function ProjectAction(st: NovelState, api: Result<Project, Thrown>, fallback: string)
    : (r: (Result<Project, Thrown>, NovelState))
    ensures st.current.None? ==> r == (Failure(ErrorObject(NoCurrentProject)), st.(error := Some(NoCurrentProject)))
    ensures st.current.Some? ==> r.0 == api
    ensures st.current.Some? && api.Failure? ==> r.1 == st.(error := Some(ErrorText(api.error, fallback)))
    ensures st.current.Some? && api.Success? ==> r.1 == st.(current := Some(api.value), error := None)
  {
    if st.current.None? then (Failure(ErrorObject(NoCurrentProject)), st.(error := Some(NoCurrentProject)))
    else if api.Failure? then (api, st.(error := Some(ErrorText(api.error, fallback))))
    else (api, st.(current := Some(api.value), error := None))
  }
}

=== FILE: novel_text.dfy ===
/** Turning stored chapter-version content into display text: `_clean_string`
    trims a text, reads a JSON object out of it when it holds one, drops a
    pair of surrounding quotes and undoes escapes; `_coerce_text` picks the
    text out of a parsed JSON value. `json.loads` is a parameter; `json.dumps`
    is `PyJson.PyDumps`. */
module NovelText {
  import opened Wrappers
  import opened Text
  import opened Escapes
  import opened Sanitizer
  import opened PyJson

  /** The keys `_coerce_text` looks for in an object, in order. */
  const PreferredContentKeys: seq<string> :=
    ["content", "chapter_content", "chapter_text", "full_content", "text",
     "body", "story", "chapter", "real_summary", "summary"]

  /** Python truthiness of a JSON value. */
  predicate Truthy(v: Json) {
    match v
    case JNull => false
    case JBool(b) => b
    case JNum(n) => n != 0
    case JStr(t) => t != ""
    case JArr(items) => items != []
    case JObj(ms) => ms != []
  }

  /** A size that any JSON text of the value exceeds: one per string
      character and container, nothing for scalars (every literal is at least
      one character, and each string and container adds two delimiters). */
  function Weight(v: Json): nat
    decreases v, 1
  {
    match v
    case JStr(t) => |t| + 1
    case JArr(items) => 1 + ItemsWeight(items)
    case JObj(ms) => 1 + MembersWeight(ms)
    case _ => 0
  }

  function ItemsWeight(items: seq<Json>): nat
    decreases items, 0
  {
    if items == [] then 0 else Weight(items[0]) + ItemsWeight(items[1..])
  }

  function MembersWeight(ms: seq<Member>): nat
    decreases ms, 0
  {
    if ms == [] then 0 else Weight(ms[0].value) + MembersWeight(ms[1..])
  }

  /** The property of `json.loads` the recursion relies on: a parsed value
      always weighs less than the text it came from. */
  ghost predicate ParseShrinks(parse: string -> Option<Json>) {
    forall s :: parse(s).Some? ==> Weight(parse(s).value) < |s|
  }

  /** The value stored under `key` (the parser keeps one member per key). */
  function Get(ms: seq<Member>, key: string): (r: Option<Json>)
    ensures r.Some? ==> Weight(r.value) <= MembersWeight(ms)
    ensures r.None? <==> forall i :: 0 <= i < |ms| ==> ms[i].key != key
  {
    if ms == [] then None
    else if ms[0].key == key then Some(ms[0].value)
    else
      var r := Get(ms[1..], key);
      assert forall i :: 0 < i < |ms| ==> ms[i] == ms[1..][i - 1];
      r
  }

  /** The four replacements of `_clean_string`, in its order: `\n`, `\t`,
      `\"`, then `\\`. */
  function UnescapeChain(s: string): string {
    ReplaceAll(ReplaceAll(ReplaceAll(ReplaceAll(s, "\\n", "\n"), "\\t", "\t"), "\\\"", "\""), "\\\\", "\\")
  }

  /** One pair of surrounding double quotes is dropped from a text of at
      least two characters. */
  function Unquote(s: string): (r: string)
    ensures |s| >= 2 && s[0] == '"' && s[|s| - 1] == '"' ==> s == "\"" + r + "\""
    ensures !(|s| >= 2 && s[0] == '"' && s[|s| - 1] == '"') ==> r == s
  {
    if |s| >= 2 && s[0] == '"' && s[|s| - 1] == '"' then s[1..|s| - 1] else s
  }

  /** The part of `_clean_string` after the JSON attempt. */
  function CleanPlain(stripped: string): string {
    UnescapeChain(Unquote(stripped))
  }

  /** An object text: starts with `{` and ends with `}`. */
  predicate LooksLikeObject(s: string) {
    |s| > 0 && s[0] == '{' && s[|s| - 1] == '}'
  }

  // ---------------------------------------------------------------------------
  // The corrected definitions: an object without a content key falls back to
  // its JSON text, which is cleaned but not parsed again.
  // ---------------------------------------------------------------------------

  /** `_clean_string`. A blank text gives "". A text that looks like an object
      and parses is replaced by the text its value yields, when non-empty;
      otherwise the trimmed text loses one pair of surrounding quotes and its
      escapes. */
  function CleanString(text: string, parse: string -> Option<Json>): (r: string)
    requires ParseShrinks(parse)
    ensures IsBlank(text) ==> r == ""
    decreases |text|, 1, 0
  {
    var stripped := Strip(text);
    StripEmptyIffBlank(text);
    if stripped == "" then ""
    else if LooksLikeObject(stripped) && parse(stripped).Some? then
      var coerced := CoerceText(parse(stripped).value, parse);
      if coerced.Some? && coerced.value != "" then coerced.value else CleanPlain(stripped)
    else CleanPlain(stripped)
  }

  /** `_coerce_text`. None for null; the words `True`/`False` for booleans;
      the digits for numbers; the cleaned text for strings; the non-empty
      texts of the elements joined by newlines for arrays (None when there
      are none); for objects, the first non-empty text of a truthy preferred
      key, else the object's cleaned JSON text. */
  function CoerceText(v: Json, parse: string -> Option<Json>): (r: Option<string>)
    requires ParseShrinks(parse)
    ensures v.JNull? <==> r.None? && !v.JArr?
    ensures v.JArr? ==> (r.None? <==> CoerceItems(v.items, parse) == [])
    ensures v.JArr? && r.Some? ==> r.value != "" && r.value == Join(CoerceItems(v.items, parse), "\n")
    ensures v.JBool? ==> r == Some(if v.b then "True" else "False")
    ensures v.JNum? ==> r == Some(NatToString(v.n))
    ensures v.JStr? ==> r == Some(CleanString(v.text, parse))
    decreases Weight(v), 2, 0
  {
    match v
    case JNull => None
    case JBool(b) => Some(if b then "True" else "False")
    case JNum(n) => Some(NatToString(n))
    case JStr(t) => Some(CleanString(t, parse))
    case JArr(items) =>
      var parts := CoerceItems(items, parse);
      if parts == [] then None else Some(JoinNonEmpty(parts))
    case JObj(ms) =>
      var preferred := CoercePreferred(ms, PreferredContentKeys, parse);
      if preferred.Some? then preferred else Some(CleanPlain(PyDumps(v)))
  }

  /** Newline-joined non-empty parts are non-empty. */
  function JoinNonEmpty(parts: seq<string>): (r: string)
    requires parts != [] && NonEmptyParts(parts)
    ensures r != "" && r == Join(parts, "\n")
  {
    assert |Join(parts, "\n")| >= |parts[0]| by { JoinFirst(parts, "\n"); }
    Join(parts, "\n")
  }

  /** A join starts with its first part. */
  lemma JoinFirst(parts: seq<string>, sep: string)
    requires parts != []
    ensures |Join(parts, sep)| >= |parts[0]|
  {
  }

  /** No part is the empty text. */
  predicate NonEmptyParts(parts: seq<string>) {
    forall i :: 0 <= i < |parts| ==> parts[i] != ""
  }

  /** The non-empty texts of the elements, in order. */
  function CoerceItems(items: seq<Json>, parse: string -> Option<Json>): (parts: seq<string>)
    requires ParseShrinks(parse)
    ensures |parts| <= |items|
    ensures NonEmptyParts(parts)
    decreases ItemsWeight(items), 3, |items|
  {
    if items == [] then []
    else
      assert ItemsWeight(items) == Weight(items[0]) + ItemsWeight(items[1..]);
      var t := CoerceText(items[0], parse);
      var rest := CoerceItems(items[1..], parse);
      var head := if t.Some? && t.value != "" then [t.value] else [];
      assert forall i :: 0 <= i < |head| ==> head[i] != "";
      head + rest
  }

  /** The text one element contributes to a list's parts. */
  function ItemPart(x: Json, parse: string -> Option<Json>): seq<string>
    requires ParseShrinks(parse)
  {
    var t := CoerceText(x, parse);
    if t.Some? && t.value != "" then [t.value] else []
  }

  lemma CoerceItemsUnfold(items: seq<Json>, parse: string -> Option<Json>)
    requires ParseShrinks(parse) && items != []
    ensures CoerceItems(items, parse) == ItemPart(items[0], parse) + CoerceItems(items[1..], parse)
  {
  }

  /** The parts keep the order of the elements: the parts of a
      concatenation are the parts of its halves, concatenated. */
  lemma {:induction false} CoerceItemsConcat(a: seq<Json>, b: seq<Json>, parse: string -> Option<Json>)
    requires ParseShrinks(parse)
    ensures CoerceItems(a + b, parse) == CoerceItems(a, parse) + CoerceItems(b, parse)
    decreases |a|
  {
    if a == [] {
      CoerceItemsNil(parse);
      EmptyConcat(a, b, CoerceItems(a, parse), CoerceItems(b, parse));
    } else {
      CoerceItemsConcat(a[1..], b, parse);
      CoerceItemsStep(a, b, parse);
    }
  }

  lemma CoerceItemsNil(parse: string -> Option<Json>)
    requires ParseShrinks(parse)
    ensures CoerceItems([], parse) == []
  {
  }

  /** An empty first half leaves the second, and contributes no parts. */
  lemma EmptyConcat(a: seq<Json>, b: seq<Json>, pa: seq<string>, pb: seq<string>)
    requires a == [] && pa == []
    ensures a + b == b && pa + pb == pb
  {
  }

  /** The inductive step of CoerceItemsConcat. */
  lemma CoerceItemsStep(a: seq<Json>, b: seq<Json>, parse: string -> Option<Json>)
    requires ParseShrinks(parse) && a != []
    requires CoerceItems(a[1..] + b, parse) == CoerceItems(a[1..], parse) + CoerceItems(b, parse)
    ensures CoerceItems(a + b, parse) == CoerceItems(a, parse) + CoerceItems(b, parse)
  {
    CoerceItemsFront(a, b, parse);
    CoerceItemsUnfold(a, parse);
    PrependConcat(ItemPart(a[0], parse), CoerceItems(a[1..], parse), CoerceItems(b, parse),
                  CoerceItems(a[1..] + b, parse), CoerceItems(a, parse), CoerceItems(a + b, parse));
  }

  /** The first element of a concatenation is the first of its first half. */
  lemma CoerceItemsFront(a: seq<Json>, b: seq<Json>, parse: string -> Option<Json>)
    requires ParseShrinks(parse) && a != []
    ensures CoerceItems(a + b, parse) == ItemPart(a[0], parse) + CoerceItems(a[1..] + b, parse)
  {
    HeadTailOfConcat(a, b);
    CoerceItemsUnfold(a + b, parse);
  }

  /** A concatenation with a non-empty first half starts like it. */
  lemma HeadTailOfConcat<T>(a: seq<T>, b: seq<T>)
    requires a != []
    ensures (a + b)[0] == a[0] && (a + b)[1..] == a[1..] + b
  {
  }

  /** One element gives its own non-empty text, or nothing. */
  lemma CoerceItemsOne(x: Json, parse: string -> Option<Json>)
    requires ParseShrinks(parse)
    ensures CoerceItems([x], parse) == ItemPart(x, parse)
  {
    CoerceItemsUnfold([x], parse);
    assert [x][1..] == [];
    assert ItemPart(x, parse) + [] == ItemPart(x, parse);
  }

  /** Parts put in front of a concatenation are parts put in front of its
      first half. */
  lemma PrependConcat(o: seq<string>, x: seq<string>, y: seq<string>, xy: seq<string>, ox: seq<string>, oxy: seq<string>)
    requires xy == x + y && ox == o + x && oxy == o + xy
    ensures oxy == ox + y
  {
  }

  /** The first non-empty text of a truthy value under one of `keys`. */
  function CoercePreferred(ms: seq<Member>, keys: seq<string>, parse: string -> Option<Json>): (r: Option<string>)
    requires ParseShrinks(parse)
    ensures r.Some? ==> r.value != ""
    decreases MembersWeight(ms), 3, |keys|
  {
    if keys == [] then None
    else
      var v := Get(ms, keys[0]);
      if v.Some? && Truthy(v.value) then
        var nested := CoerceText(v.value, parse);
        if nested.Some? && nested.value != "" then nested else CoercePreferred(ms, keys[1..], parse)
      else CoercePreferred(ms, keys[1..], parse)
  }

  /** `_normalize_version_content`: the metadata's text when it yields a
      non-empty one, else the raw content's, else "". */
  function NormalizeVersionContent(raw: string, metadata: Json, parse: string -> Option<Json>): (r: string)
    requires ParseShrinks(parse)
    ensures var m := CoerceText(metadata, parse);
            m.Some? && m.value != "" ==> r == m.value
    ensures var m := CoerceText(metadata, parse);
            !(m.Some? && m.value != "") ==> r == CleanString(raw, parse)
  {
    var m := CoerceText(metadata, parse);
    if m.Some? && m.value != "" then m.value else CleanString(raw, parse)
  }

  // ---------------------------------------------------------------------------
  // Properties
  // ---------------------------------------------------------------------------

  /** The chain undoes the escapes of a backslash-free text. */
  lemma UnescapeChainInverts(t: string)
    requires NoBackslash(t)
    ensures UnescapeChain(EscapeWith(t, AllEscapes)) == t
  {
    UnescapeOne(t, AllEscapes, '\n');
    assert AllEscapes - {'\n'} == {'\t', '"'};
    UnescapeOne(t, {'\t', '"'}, '\t');
    assert {'\t', '"'} - {'\t'} == {'"'};
    UnescapeOne(t, {'"'}, '"');
    assert {'"'} - {'"'} == {};
    ReplaceAbsent(t, "\\\\", "\\");
  }

  /** A backslash-free text passes through the chain unchanged. */
  lemma UnescapeChainPlain(t: string)
    requires NoBackslash(t)
    ensures UnescapeChain(t) == t
  {
    ReplaceAbsent(t, "\\n", "\n");
    ReplaceAbsent(t, "\\t", "\t");
    ReplaceAbsent(t, "\\\"", "\"");
    ReplaceAbsent(t, "\\\\", "\\");
  }

  /** A text stored as a JSON string literal is cleaned back to the text
      (for texts free of backslashes). */
  lemma CleanStringRoundTrip(t: string, parse: string -> Option<Json>)
    requires ParseShrinks(parse) && NoBackslash(t)
    ensures CleanString(QuoteLiteral(t), parse) == t
  {
    QuotedIsPlain(t);
    CleanStringNotObject(QuoteLiteral(t), parse);
    UnescapeChainInverts(t);
  }

  /** A string literal is already trimmed, is no object, and unquotes to its
      escaped body. */
  lemma QuotedIsPlain(t: string)
    ensures var q := QuoteLiteral(t);
            Strip(q) == q && q != "" && !LooksLikeObject(q) && Unquote(q) == EscapeWith(t, AllEscapes)
  {
    var q := QuoteLiteral(t);
    assert IsStripped(q);
    StripOfStripped(q);
  }

  /** A text that does not trim to an object is cleaned without parsing. */
  lemma CleanStringNotObject(text: string, parse: string -> Option<Json>)
    requires ParseShrinks(parse)
    requires Strip(text) != "" && !LooksLikeObject(Strip(text))
    ensures CleanString(text, parse) == CleanPlain(Strip(text))
  {
  }

  /** Plain text, neither quoted nor an object, comes back trimmed. */
  lemma CleanStringPlain(text: string, parse: string -> Option<Json>)
    requires ParseShrinks(parse)
    requires NoBackslash(Strip(text)) && Strip(text) != ""
    requires Strip(text)[0] != '{' && Strip(text)[0] != '"'
    ensures CleanString(text, parse) == Strip(text)
  {
    var stripped := Strip(text);
    CleanStringNotObject(text, parse);
    assert Unquote(stripped) == stripped;
    UnescapeChainPlain(stripped);
  }

  /** A truthy `content` string that cleans to a non-empty text is the text
      of its object. */
  lemma ContentKeyWins(ms: seq<Member>, c: string, parse: string -> Option<Json>)
    requires ParseShrinks(parse)
    requires Get(ms, "content") == Some(JStr(c))
    ensures CleanString(c, parse) != "" ==> CoerceText(JObj(ms), parse) == Some(CleanString(c, parse))
  {
    if CleanString(c, parse) != "" {
      var keys := PreferredContentKeys;
      assert keys[0] == "content";
      assert c != "" && Truthy(JStr(c));
      assert CoerceText(JStr(c), parse) == Some(CleanString(c, parse));
      assert CoercePreferred(ms, keys, parse) == Some(CleanString(c, parse));
    }
  }

  /** No member is named by a preferred key. */
  predicate NoContentKey(ms: seq<Member>) {
    forall i :: 0 <= i < |ms| ==> ms[i].key !in PreferredContentKeys
  }

  /** Without a preferred key the search finds nothing. */
  lemma {:induction false} NoPreferredFound(ms: seq<Member>, keys: seq<string>, parse: string -> Option<Json>)
    requires ParseShrinks(parse) && NoContentKey(ms)
    requires forall j :: 0 <= j < |keys| ==> keys[j] in PreferredContentKeys
    ensures CoercePreferred(ms, keys, parse).None?
    decreases |keys|
  {
    if keys != [] {
      NotHeld(ms, keys[0]);
      AbsentKeySkipped(ms, keys, parse);
      TailPreferred(keys);
      NoPreferredFound(ms, keys[1..], parse);
    }
  }

  lemma NotHeld(ms: seq<Member>, key: string)
    requires NoContentKey(ms) && key in PreferredContentKeys
    ensures forall i :: 0 <= i < |ms| ==> ms[i].key != key
  {
  }

  lemma TailPreferred(keys: seq<string>)
    requires keys != [] && forall j :: 0 <= j < |keys| ==> keys[j] in PreferredContentKeys
    ensures forall j :: 0 <= j < |keys[1..]| ==> keys[1..][j] in PreferredContentKeys
  {
    assert forall j :: 0 <= j < |keys[1..]| ==> keys[1..][j] == keys[j + 1];
  }

  /** A key the object does not hold is passed over. */
  lemma AbsentKeySkipped(ms: seq<Member>, keys: seq<string>, parse: string -> Option<Json>)
    requires ParseShrinks(parse) && keys != []
    requires forall i :: 0 <= i < |ms| ==> ms[i].key != keys[0]
    ensures CoercePreferred(ms, keys, parse) == CoercePreferred(ms, keys[1..], parse)
  {
    assert Get(ms, keys[0]).None?;
  }

  /** An object without a content key yields its own JSON text, cleaned: the
      call always comes back with a text. */
  lemma ObjectWithoutContentKey(ms: seq<Member>, parse: string -> Option<Json>)
    requires ParseShrinks(parse) && NoContentKey(ms)
    ensures CoerceText(JObj(ms), parse) == Some(CleanPlain(PyDumps(JObj(ms))))
  {
    NoPreferredFound(ms, PreferredContentKeys, parse);
  }

  // ---------------------------------------------------------------------------
  // As written: the object fallback calls `_clean_string` on the dump, which
  // parses it back into the same object. The calls are counted with `fuel`;
  // None means the fuel ran out before an answer.
  // ---------------------------------------------------------------------------

  function CleanStringWritten(text: string, parse: string -> Option<Json>, fuel: nat): (r: Option<string>)
    decreases fuel, 0
  {
    if fuel == 0 then None
    else
      var stripped := Strip(text);
      if stripped == "" then Some("")
      else if LooksLikeObject(stripped) && parse(stripped).Some? then
        var coerced := CoerceTextWritten(parse(stripped).value, parse, fuel - 1);
        if coerced.None? then None
        else if coerced.value.Some? && coerced.value.value != "" then Some(coerced.value.value)
        else Some(CleanPlain(stripped))
      else Some(CleanPlain(stripped))
  }

  function CoerceTextWritten(v: Json, parse: string -> Option<Json>, fuel: nat): (r: Option<Option<string>>)
    decreases fuel, 0
  {
    if fuel == 0 then None
    else
      match v
      case JNull => Some(None)
      case JBool(b) => Some(Some(if b then "True" else "False"))
      case JNum(n) => Some(Some(NatToString(n)))
      case JStr(t) =>
        var c := CleanStringWritten(t, parse, fuel - 1);
        if c.None? then None else Some(Some(c.value))
      case JArr(items) =>
        var parts := CoerceItemsWritten(items, parse, fuel - 1);
        if parts.None? then None
        else if parts.value == [] then Some(None) else Some(Some(Join(parts.value, "\n")))
      case JObj(ms) =>
        var preferred := CoercePreferredWritten(ms, PreferredContentKeys, parse, fuel - 1);
        if preferred.None? then None
        else if preferred.value.Some? then preferred
        else
          var c := CleanStringWritten(PyDumps(v), parse, fuel - 1);
          if c.None? then None else Some(Some(c.value))
  }

  function CoerceItemsWritten(items: seq<Json>, parse: string -> Option<Json>, fuel: nat): Option<seq<string>>
    decreases fuel, |items|
  {
    if items == [] then Some([])
    else if fuel == 0 then None
    else
      var t := CoerceTextWritten(items[0], parse, fuel - 1);
      var rest := CoerceItemsWritten(items[1..], parse, fuel);
      if t.None? || rest.None? then None
      else Some((if t.value.Some? && t.value.value != "" then [t.value.value] else []) + rest.value)
  }

  function CoercePreferredWritten(ms: seq<Member>, keys: seq<string>, parse: string -> Option<Json>, fuel: nat): Option<Option<string>>
    decreases fuel, |keys|
  {
    if keys == [] then Some(None)
    else
      var v := Get(ms, keys[0]);
      if v.Some? && Truthy(v.value) then
        if fuel == 0 then None
        else
          var nested := CoerceTextWritten(v.value, parse, fuel - 1);
          if nested.None? then None
          else if nested.value.Some? && nested.value.value != "" then nested
          else CoercePreferredWritten(ms, keys[1..], parse, fuel)
      else CoercePreferredWritten(ms, keys[1..], parse, fuel)
  }

  /** As written, the preferred-key search of an object without content
      keys finishes with nothing, whatever the fuel. */
  lemma {:induction false} NoPreferredFoundWritten(ms: seq<Member>, keys: seq<string>, parse: string -> Option<Json>, fuel: nat)
    requires NoContentKey(ms)
    requires forall j :: 0 <= j < |keys| ==> keys[j] in PreferredContentKeys
    ensures CoercePreferredWritten(ms, keys, parse, fuel) == Some(None)
    decreases |keys|
  {
    if keys != [] {
      assert Get(ms, keys[0]).None?;
      NoPreferredFoundWritten(ms, keys[1..], parse, fuel);
    }
  }

  /** The dumped text of an object is an object text with no surrounding
      whitespace. */
  lemma ObjectTextShape(ms: seq<Member>)
    ensures LooksLikeObject(PyDumps(JObj(ms))) && Strip(PyDumps(JObj(ms))) == PyDumps(JObj(ms))
  {
    var s := PyDumps(JObj(ms));
    assert s == "{" + PyMembers(ms) + "}";
    assert IsStripped(s);
    StripOfStripped(s);
  }

  /** As written, an object without a content key never yields a text: each
      round parses its own dump back into the same object and starts over,
      so no amount of fuel is enough (Python ends it with a recursion
      error). */
  lemma {:induction false} WrittenObjectNeverReturns(ms: seq<Member>, parse: string -> Option<Json>, fuel: nat)
    requires NoContentKey(ms)
    requires parse(PyDumps(JObj(ms))) == Some(JObj(ms))
    ensures CoerceTextWritten(JObj(ms), parse, fuel).None?
    decreases fuel
  {
    if fuel > 0 {
      NoPreferredFoundWritten(ms, PreferredContentKeys, parse, fuel - 1);
      if fuel > 1 {
        ObjectTextShape(ms);
        WrittenObjectNeverReturns(ms, parse, fuel - 2);
      }
    }
  }

  /** The smallest instance: `_coerce_text({"a": 1})` does not return, while
      the corrected definition yields the object's text. */
  lemma WrittenCoerceDiverges(parse: string -> Option<Json>)
    requires ParseShrinks(parse)
    requires parse(PyDumps(JObj([Member("a", JNum(1))]))) == Some(JObj([Member("a", JNum(1))]))
    ensures forall fuel: nat :: CoerceTextWritten(JObj([Member("a", JNum(1))]), parse, fuel).None?
    ensures CoerceText(JObj([Member("a", JNum(1))]), parse).Some?
  {
    var ms := [Member("a", JNum(1))];
    SampleHasNoContentKey();
    DivergesWithoutContentKey(ms, parse);
  }

  lemma SampleHasNoContentKey()
    ensures NoContentKey([Member("a", JNum(1))])
  {
    assert "a" !in PreferredContentKeys;
  }

  /** On any object without a content key that the parser reads back, the
      written coercion finds nothing however long it runs while the
      corrected one answers. */
  lemma DivergesWithoutContentKey(ms: seq<Member>, parse: string -> Option<Json>)
    requires ParseShrinks(parse) && NoContentKey(ms)
    requires parse(PyDumps(JObj(ms))) == Some(JObj(ms))
    ensures forall fuel: nat :: CoerceTextWritten(JObj(ms), parse, fuel).None?
    ensures CoerceText(JObj(ms), parse).Some?
  {
    forall fuel: nat ensures CoerceTextWritten(JObj(ms), parse, fuel).None? {
      WrittenObjectNeverReturns(ms, parse, fuel);
    }
    ObjectWithoutContentKey(ms, parse);
  }
}

=== FILE: plot_events.dfy ===
/** Plot events, the units of story progress: each belongs to a project and
    a volume, has a sequence number, key points to cover, a progress
    percentage and a status derived from it. The table is a sequence of rows
    in scan order with distinct ids. */
module PlotEvents {
  import opened Wrappers

  datatype Status = Pending | InProgress | Completed

  datatype PlotEvent = PlotEvent(
    id: int, projectId: string, volumeId: int, eventNumber: int, title: string, sequence: int,
    keyPoints: seq<string>, completedKeyPoints: seq<string>, progress: int, status: Status)

  /** What a client supplies to create an event. */
  datatype EventDraft = EventDraft(eventNumber: int, title: string, sequence: int, keyPoints: seq<string>)

  predicate UniqueIds(rows: seq<PlotEvent>) {
    forall i, j :: 0 <= i < j < |rows| ==> rows[i].id != rows[j].id
  }

  /** `get_event_by_id`. */
  function FindEvent(rows: seq<PlotEvent>, id: int): (r: Option<PlotEvent>)
    ensures r.Some? ==> r.value in rows && r.value.id == id
    ensures r.None? <==> forall i :: 0 <= i < |rows| ==> rows[i].id != id
  {
    if rows == [] then None
    else if rows[0].id == id then Some(rows[0])
    else
      var r := FindEvent(rows[1..], id);
      assert forall i :: 0 < i < |rows| ==> rows[i] == rows[1..][i - 1];
      r
  }

  /** `create_event`: a new row with progress 0, status pending and nothing
      completed; the database supplies a fresh id. */
  function CreateEvent(rows: seq<PlotEvent>, id: int, projectId: string, volumeId: int, d: EventDraft): (r: seq<PlotEvent>)
    requires forall i :: 0 <= i < |rows| ==> rows[i].id != id
    ensures |r| == |rows| + 1 && r[..|rows|] == rows
    ensures var e := r[|rows|];
            e.id == id && e.projectId == projectId && e.volumeId == volumeId && e.sequence == d.sequence
            && e.keyPoints == d.keyPoints && e.progress == 0 && e.status == Pending && e.completedKeyPoints == []
    ensures UniqueIds(rows) ==> UniqueIds(r)
  {
    rows + [PlotEvent(id, projectId, volumeId, d.eventNumber, d.title, d.sequence, d.keyPoints, [], 0, Pending)]
  }

  /** The status a progress value implies. */
  function StatusFor(progress: int): (s: Status)
    ensures s == Pending <==> progress == 0
    ensures s == Completed <==> progress >= 100
    ensures s == InProgress <==> progress != 0 && progress < 100
  {
    if progress == 0 then Pending else if progress >= 100 then Completed else InProgress
  }

  /** Every row keeps its status in step with its progress. */
  predicate StatusesConsistent(rows: seq<PlotEvent>) {
    forall i :: 0 <= i < |rows| ==> rows[i].status == StatusFor(rows[i].progress)
  }

  /** The row with `id` replaced by `e`; the others are untouched. */
  function ReplaceRow(rows: seq<PlotEvent>, id: int, e: PlotEvent): (r: seq<PlotEvent>)
    ensures |r| == |rows|
    ensures forall i :: 0 <= i < |rows| ==> r[i] == (if rows[i].id == id then e else rows[i])
  {
    seq(|rows|, i requires 0 <= i < |rows| => if rows[i].id == id then e else rows[i])
  }

  /** `update_event_progress`: a missing id gives None and changes nothing;
      otherwise the progress is set, the completed key points are replaced
      only when given, and the status follows the progress. */
  function UpdateEventProgress(rows: seq<PlotEvent>, id: int, progress: int, completed: Option<seq<string>>)
    : (r: (seq<PlotEvent>, Option<PlotEvent>))
    ensures FindEvent(rows, id).None? ==> r.0 == rows && r.1.None?
    ensures FindEvent(rows, id).Some? <==> r.1.Some?
    ensures r.1.Some? ==>
              var prev := FindEvent(rows, id).value;
              var e := r.1.value;
              e.id == id && e.progress == progress && e.status == StatusFor(progress)
              && e.completedKeyPoints == completed.GetOr(prev.completedKeyPoints)
              && e.projectId == prev.projectId && e.volumeId == prev.volumeId && e.sequence == prev.sequence
              && e.keyPoints == prev.keyPoints
              && r.0 == ReplaceRow(rows, id, e)
    ensures StatusesConsistent(rows) ==> StatusesConsistent(r.0)
    ensures UniqueIds(rows) ==> UniqueIds(r.0)
  {
    var found := FindEvent(rows, id);
    if found.None? then (rows, None)
    else
      var e := found.value.(progress := progress, completedKeyPoints := completed.GetOr(found.value.completedKeyPoints),
                            status := StatusFor(progress));
      (ReplaceRow(rows, id, e), Some(e))
  }

  /** `mark_event_complete` is an update to 100, so it leaves the event
      completed. */
  function MarkEventComplete(rows: seq<PlotEvent>, id: int): (r: (seq<PlotEvent>, Option<PlotEvent>))
    ensures r.1.Some? <==> FindEvent(rows, id).Some?
    ensures r.1.Some? ==> r.1.value.status == Completed && r.1.value.progress == 100
  {
    UpdateEventProgress(rows, id, 100, None)
  }

  /** The answer of `validate_key_points_completion`. */
  datatype Validation =
    | Missing
    | Report(valid: bool, totalKeyPoints: nat, completedCount: nat, remaining: seq<string>, completionRate: real)

  /** The key points not in `completed`, in their order. */
  function Remaining(keyPoints: seq<string>, completed: seq<string>): (r: seq<string>)
    ensures forall x :: x in r <==> x in keyPoints && x !in completed
    ensures |r| <= |keyPoints|
  {
    if keyPoints == [] then []
    else (if keyPoints[0] in completed then [] else [keyPoints[0]]) + Remaining(keyPoints[1..], completed)
  }

  /** A single key point is listed exactly when it is not completed. */
  lemma RemainingOne(k: string, completed: seq<string>)
    ensures Remaining([k], completed) == (if k in completed then [] else [k])
  {
    assert [k][1..] == [];
  }

  /** The list keeps key-point order: the remaining points of a
      concatenation are those of its parts, concatenated. */
  lemma {:induction false} RemainingConcat(a: seq<string>, b: seq<string>, completed: seq<string>)
    ensures Remaining(a + b, completed) == Remaining(a, completed) + Remaining(b, completed)
    decreases |a|
  {
    if a == [] {
      assert a + b == b;
    } else {
      assert (a + b)[0] == a[0];
      assert (a + b)[1..] == a[1..] + b;
      RemainingConcat(a[1..], b, completed);
    }
  }

  /** `validate_key_points_completion`: valid exactly when every key point
      has been completed; the rate is 1.0 without key points. */
  function ValidateKeyPoints(rows: seq<PlotEvent>, id: int): (r: Validation)
    ensures r.Missing? <==> FindEvent(rows, id).None?
    ensures r.Report? ==>
              var e := FindEvent(rows, id).value;
              (r.valid <==> forall k :: k in e.keyPoints ==> k in e.completedKeyPoints)
              && r.valid == (r.remaining == [])
              && r.remaining == Remaining(e.keyPoints, e.completedKeyPoints)
              && r.totalKeyPoints == |e.keyPoints| && r.completedCount == |e.completedKeyPoints|
              && (e.keyPoints == [] ==> r.completionRate == 1.0)
              && (e.keyPoints != [] ==> r.completionRate == |e.completedKeyPoints| as real / |e.keyPoints| as real)
  {
    var found := FindEvent(rows, id);
    if found.None? then Missing
    else
      var e := found.value;
      var remaining := Remaining(e.keyPoints, e.completedKeyPoints);
      var valid := forall k :: k in e.keyPoints ==> k in e.completedKeyPoints;
      assert valid <==> remaining == [] by {
        if remaining != [] { assert remaining[0] in remaining; }
      }
      Report(valid, |e.keyPoints|, |e.completedKeyPoints|, remaining,
             if e.keyPoints == [] then 1.0 else |e.completedKeyPoints| as real / |e.keyPoints| as real)
  }

  /** The matching row with the smallest sequence (the first in scan order
      among equals): `order_by(sequence)` followed by `first()`. */
  function FirstBySequence(rows: seq<PlotEvent>, ok: PlotEvent -> bool): (r: Option<PlotEvent>)
    ensures r.Some? ==> r.value in rows && ok(r.value)
    ensures r.Some? ==> forall i :: 0 <= i < |rows| && ok(rows[i]) ==> r.value.sequence <= rows[i].sequence
    ensures r.None? <==> forall i :: 0 <= i < |rows| ==> !ok(rows[i])
  {
    if rows == [] then None
    else
      var rest := FirstBySequence(rows[1..], ok);
      assert forall i :: 0 < i < |rows| ==> rows[i] == rows[1..][i - 1];
      if ok(rows[0]) && (rest.None? || rows[0].sequence <= rest.value.sequence) then Some(rows[0]) else rest
  }

  /** Not yet finished. */
  predicate Open(e: PlotEvent) {
    e.status == Pending || e.status == InProgress
  }

  /** `get_current_event`: the open event of the project and volume with the
      smallest sequence, or None when every one of them is completed. */
  function GetCurrentEvent(rows: seq<PlotEvent>, projectId: string, volumeId: int): (r: Option<PlotEvent>)
    ensures r.Some? ==> r.value in rows && r.value.projectId == projectId && r.value.volumeId == volumeId && Open(r.value)
    ensures r.Some? ==> forall e :: e in rows && e.projectId == projectId && e.volumeId == volumeId && Open(e)
                                    ==> r.value.sequence <= e.sequence
    ensures r.None? <==> forall e :: e in rows && e.projectId == projectId && e.volumeId == volumeId ==> !Open(e)
  {
    FirstBySequence(rows, (e: PlotEvent) => e.projectId == projectId && e.volumeId == volumeId && Open(e))
  }
}

=== FILE: prompts.dfy ===
/** Prompt templates: the read schema that splits stored tags, and the
    service that keeps a process-wide cache of prompts by name in front of
    the table. The table is a sequence of rows in scan order; the id the
    database assigns is a parameter. */
module Prompts {
  import opened Wrappers
  import opened Text

  /** A row of the prompts table; tags are stored as one comma-joined text. */
  datatype PromptRow = PromptRow(id: int, name: string, title: Option<string>, content: string, tags: Option<string>)

  /** The tags attribute as the read schema finds it on an object. */
  datatype RawTags = NoTags | TagText(text: string) | TagList(items: seq<string>) | OtherTags

  /** `PromptRead`: what the API hands out and the cache holds. */
  datatype PromptRead = PromptRead(id: int, name: string, title: Option<string>, content: string,
                                   tags: Option<seq<string>>)

  const TagSep: char := ','

  // ---------------------------------------------------------------------------
  // Tags
  // ---------------------------------------------------------------------------

  /** The pieces that are not empty, in order. */
  function NonEmptyPieces(pieces: seq<string>): (r: seq<string>)
    ensures forall t :: t in r <==> t in pieces && t != ""
    ensures (forall i :: 0 <= i < |pieces| ==> pieces[i] != "") ==> r == pieces
    ensures |r| <= |pieces|
  {
    if pieces == [] then []
    else
      var rest := NonEmptyPieces(pieces[1..]);
      assert forall t :: t in pieces <==> t == pieces[0] || t in pieces[1..];
      if pieces[0] != "" then
        assert (forall i :: 0 <= i < |pieces| ==> pieces[i] != "") ==> rest == pieces[1..] by {
          if forall i :: 0 <= i < |pieces| ==> pieces[i] != "" {
            assert forall i :: 0 <= i < |pieces[1..]| ==> pieces[1..][i] == pieces[i + 1];
          }
        }
        [pieces[0]] + rest
      else rest
  }

  /** A tag that survives storing: not empty and without a comma. */
  predicate PlainTag(t: string) {
    t != "" && TagSep !in t
  }

  /** No piece of a split on a character holds that character. */
  lemma {:induction false} SplitFromCharPieces(s: string, c: char, cur: string)
    requires c !in cur
    ensures forall p :: p in SplitFrom(s, [c], cur) ==> c !in p
    decreases |s|
  {
    if |s| > 0 {
      if StartsWith(s, [c]) {
        SplitFromCharPieces(s[1..], c, "");
      } else {
        assert s[0] != c;
        SplitFromCharPieces(s[1..], c, cur + [s[0]]);
      }
    }
  }

  /** The read schema's tag handling: a text is split on commas with the
      empty pieces dropped, a list is kept, anything else is no tags. */
  function ReadTags(raw: RawTags): (r: Option<seq<string>>)
    ensures raw.TagList? ==> r == Some(raw.items)
    ensures raw.NoTags? || raw.OtherTags? ==> r == None
    ensures raw.TagText? ==> r.Some? && forall t :: t in r.value <==> t in Split(raw.text, [TagSep]) && t != ""
    ensures raw.TagText? ==> forall t :: t in r.value ==> PlainTag(t)
  {
    match raw
    case TagText(text) =>
      SplitFromCharPieces(text, TagSep, "");
      Some(NonEmptyPieces(Split(text, [TagSep])))
    case TagList(items) => Some(items)
    case _ => None
  }

  /** How `create_prompt` and `update_prompt` store a tag list. */
  function JoinTags(tags: seq<string>): string {
    Join(tags, [TagSep])
  }

  /** Storing plain tags and reading them back gives the same list; the
      empty list comes back as the empty list. */
  lemma TagsRoundTrip(tags: seq<string>)
    requires forall i :: 0 <= i < |tags| ==> PlainTag(tags[i])
    ensures ReadTags(TagText(JoinTags(tags))) == Some(tags)
  {
    if tags == [] {
      assert Split("", [TagSep]) == [""];
    } else {
      SplitJoinChar(tags, TagSep);
    }
  }

  /** Reading normalises: storing what was read and reading again changes
      nothing. */
  lemma ReadTagsIdempotent(text: string)
    ensures ReadTags(TagText(JoinTags(ReadTags(TagText(text)).value))) == ReadTags(TagText(text))
  {
    var tags := ReadTags(TagText(text)).value;
    TagsRoundTrip(tags);
  }

  /** A tag holding a comma comes back as its comma-free parts. */
  lemma CommaTagSplits()
    ensures ReadTags(TagText(JoinTags(["a,b"]))) == Some(["a", "b"])
  {
    assert JoinTags(["a,b"]) == "a,b";
    assert StartsWith(",b", [TagSep]);
    assert "a,b"[..1][0] == 'a' && "b"[..1][0] == 'b';
    assert !StartsWith("a,b", [TagSep]) && !StartsWith("b", [TagSep]);
    assert SplitFrom("a,b", [TagSep], "") == SplitFrom(",b", [TagSep], "a") by {
      assert "a,b"[1..] == ",b" && "" + ['a'] == "a";
    }
    assert SplitFrom(",b", [TagSep], "a") == ["a"] + SplitFrom("b", [TagSep], "") by {
      assert ",b"[1..] == "b";
    }
    assert SplitFrom("b", [TagSep], "") == ["b"] by {
      assert "b"[1..] == "" && "" + ['b'] == "b";
    }
    assert Split("a,b", [TagSep]) == ["a", "b"];
    var pieces := ["a", "b"];
    assert forall i :: 0 <= i < |pieces| ==> pieces[i] != "";
    assert NonEmptyPieces(pieces) == pieces;
  }

  /** The stored tags as the schema finds them on a row. */
  function StoredTags(tags: Option<string>): RawTags {
    if tags.Some? then TagText(tags.value) else NoTags
  }

  /** `PromptRead.model_validate` on a row: the scalar fields are copied and
      the tags read from their stored text. */
  function Validate(row: PromptRow): (r: PromptRead)
    ensures r.id == row.id && r.name == row.name && r.title == row.title && r.content == row.content
    ensures row.tags.None? <==> r.tags.None?
    ensures row.tags.Some? ==> forall t :: t in r.tags.value ==> PlainTag(t)
  {
    PromptRead(row.id, row.name, row.title, row.content, ReadTags(StoredTags(row.tags)))
  }

  // ---------------------------------------------------------------------------
  // The table
  // ---------------------------------------------------------------------------

  /** The `name` column is unique. */
  predicate UniqueNames(rows: seq<PromptRow>) {
    forall i, j :: 0 <= i < j < |rows| ==> rows[i].name != rows[j].name
  }

  /** What a prompt row is looked up by: its id (`get`) or its name
      (`get_by_name`). */
  datatype PromptKey = ById(id: int) | ByName(name: string)

  predicate Matches(row: PromptRow, key: PromptKey) {
    match key
    case ById(id) => row.id == id
    case ByName(name) => row.name == name
  }

  /** The position of the first row matching the key, None exactly when no
      row matches. */
  function IndexOf(rows: seq<PromptRow>, key: PromptKey): (r: Option<nat>)
    ensures r.Some? ==> r.value < |rows| && Matches(rows[r.value], key)
                        && forall j :: 0 <= j < r.value ==> !Matches(rows[j], key)
    ensures r.None? <==> forall i :: 0 <= i < |rows| ==> !Matches(rows[i], key)
  {
    if rows == [] then None
    else if Matches(rows[0], key) then Some(0)
    else
      var r := IndexOf(rows[1..], key);
      assert forall i :: 0 < i < |rows| ==> rows[i] == rows[1..][i - 1];
      if r.Some? then Some(r.value + 1) else None
  }

  // ---------------------------------------------------------------------------
  // The cache
  // ---------------------------------------------------------------------------

  /** The module-level cache and its loaded flag. */
  datatype Cache = Cache(entries: map<string, PromptRead>, loaded: bool)

  /** `read` is the read form of a row named `n`. */
  predicate ReadOfRow(read: PromptRead, n: string, rows: seq<PromptRow>) {
    exists i :: 0 <= i < |rows| && rows[i].name == n && read == Validate(rows[i])
  }

  /** Some row is named `n`. */
  predicate NameInRows(n: string, rows: seq<PromptRow>) {
    exists i :: 0 <= i < |rows| && rows[i].name == n
  }

  /** Every cached entry is the read form of a row of that name: the cache
      answers as the table would. */
  predicate Coherent(cache: Cache, rows: seq<PromptRow>) {
    forall n :: n in cache.entries ==> ReadOfRow(cache.entries[n], n, rows)
  }

  /** The dictionary built from every row, a later row winning a name. */
  function LoadAll(rows: seq<PromptRow>): (r: map<string, PromptRead>)
    ensures forall n :: n in r <==> NameInRows(n, rows)
    ensures forall n :: n in r ==> ReadOfRow(r[n], n, rows)
    decreases |rows|
  {
    if rows == [] then map[]
    else
      var init := rows[..|rows| - 1];
      var last := rows[|rows| - 1];
      var r := LoadAll(init);
      LoadAllStep(init, last, r);
      r[last.name := Validate(last)]
  }

  /** One row more for `LoadAll`. */
  lemma LoadAllStep(init: seq<PromptRow>, last: PromptRow, r: map<string, PromptRead>)
    requires forall n :: n in r <==> NameInRows(n, init)
    requires forall n :: n in r ==> ReadOfRow(r[n], n, init)
    ensures var rows := init + [last];
            var r' := r[last.name := Validate(last)];
            (forall n :: n in r' <==> NameInRows(n, rows)) && (forall n :: n in r' ==> ReadOfRow(r'[n], n, rows))
  {
    var rows := init + [last];
    var r' := r[last.name := Validate(last)];
    assert rows[|init|] == last;
    forall n ensures n in r' <==> NameInRows(n, rows) {
      if NameInRows(n, rows) && n != last.name {
        var i :| 0 <= i < |rows| && rows[i].name == n;
        assert i < |init| && init[i] == rows[i];
      }
      if n in r && n != last.name {
        var i :| 0 <= i < |init| && init[i].name == n;
        assert rows[i] == init[i];
      }
    }
    forall n | n in r' ensures ReadOfRow(r'[n], n, rows) {
      if n != last.name {
        var i :| 0 <= i < |init| && init[i].name == n && r[n] == Validate(init[i]);
        assert rows[i] == init[i];
      }
    }
  }

  /** Under unique names, a read form of a row named `n` is that of the row
      at any index named `n`. */
  lemma ReadOfNamedRow(read: PromptRead, rows: seq<PromptRow>, i: nat)
    requires UniqueNames(rows) && i < |rows| && ReadOfRow(read, rows[i].name, rows)
    ensures read == Validate(rows[i])
  {
    var j :| 0 <= j < |rows| && rows[j].name == rows[i].name && read == Validate(rows[j]);
    assert j == i;
  }

  /** `get_prompt`: the first call loads every row into the cache; a cached
      name is answered from the cache; otherwise the table is asked, and a
      hit is cached. An unknown name gives None. */
  function GetPrompt(cache: Cache, rows: seq<PromptRow>, name: string): (r: (Option<string>, Cache))
    ensures r.1.loaded
    ensures cache.loaded && name in cache.entries ==> r == (Some(cache.entries[name].content), cache)
    ensures r.0.None? <==> name !in cache.entries && forall i :: 0 <= i < |rows| ==> rows[i].name != name
    ensures r.0.Some? ==> name in r.1.entries && r.0.value == r.1.entries[name].content
    ensures cache.entries.Keys <= r.1.entries.Keys
  {
    var c := if cache.loaded then cache else Cache(cache.entries + LoadAll(rows), true);
    if name in c.entries then (Some(c.entries[name].content), c)
    else
      var i := IndexOf(rows, ByName(name));
      if i.None? then (None, c)
      else
        var read := Validate(rows[i.value]);
        (Some(read.content), c.(entries := c.entries[name := read]))
  }

  /** The payload of `create_prompt`. */
  datatype PromptCreate = PromptCreate(name: string, title: Option<string>, content: string, tags: Option<seq<string>>)

  /** Why a write failed: the unique name constraint refused the insert at
      commit. */
  datatype WriteError = NameTaken

  /** The row `create_prompt` inserts, tags joined. */
  function NewRow(req: PromptCreate, id: int): PromptRow {
    PromptRow(id, req.name, req.title, req.content, if req.tags.Some? then Some(JoinTags(req.tags.value)) else None)
  }

  /** `create_prompt`: the row is inserted, then its read form is cached and
      the cache counts as loaded. A name already in the table fails the
      commit and leaves table and cache alone. */
  function CreatePrompt(cache: Cache, rows: seq<PromptRow>, req: PromptCreate, id: int)
    : (r: Result<(Cache, seq<PromptRow>, PromptRead), WriteError>)
    ensures r.Failure? <==> exists i :: 0 <= i < |rows| && rows[i].name == req.name
    ensures r.Success? ==> r.value.1 == rows + [NewRow(req, id)]
    ensures r.Success? ==> r.value.2 == Validate(NewRow(req, id))
                           && r.value.2.name == req.name && r.value.2.content == req.content
    ensures r.Success? ==> r.value.0 == Cache(cache.entries[req.name := r.value.2], true)
  {
    if IndexOf(rows, ByName(req.name)).Some? then Failure(NameTaken)
    else
      var row := NewRow(req, id);
      var read := Validate(row);
      Success((Cache(cache.entries[req.name := read], true), rows + [row], read))
  }

  /** The payload of `update_prompt`. A field left out and a field sent as
      null are alike: `update_fields` skips None. */
  datatype PromptUpdate = PromptUpdate(title: Option<string>, content: Option<string>, tags: Option<seq<string>>)

  /** The row after `update_fields`: every given field replaced, tags
      joined, name and id kept. */
  function Patched(row: PromptRow, upd: PromptUpdate): (r: PromptRow)
    ensures r.id == row.id && r.name == row.name
    ensures r.title == (if upd.title.Some? then upd.title else row.title)
    ensures r.content == (if upd.content.Some? then upd.content.value else row.content)
    ensures r.tags == (if upd.tags.Some? then Some(JoinTags(upd.tags.value)) else row.tags)
  {
    row.(title := if upd.title.Some? then upd.title else row.title,
         content := if upd.content.Some? then upd.content.value else row.content,
         tags := if upd.tags.Some? then Some(JoinTags(upd.tags.value)) else row.tags)
  }

  /** `update_prompt`: None for an unknown id; otherwise the row is patched
      and its read form replaces the cache entry of its name. */
  function UpdatePrompt(cache: Cache, rows: seq<PromptRow>, id: int, upd: PromptUpdate)
    : (r: (Option<PromptRead>, Cache, seq<PromptRow>))
    ensures r.0.None? <==> forall i :: 0 <= i < |rows| ==> rows[i].id != id
    ensures r.0.None? ==> r.1 == cache && r.2 == rows
    ensures r.0.Some? ==> var i := IndexOf(rows, ById(id)).value;
              r.2 == rows[i := Patched(rows[i], upd)] && r.0.value == Validate(Patched(rows[i], upd))
              && r.1 == cache.(entries := cache.entries[rows[i].name := r.0.value])
  {
    var i := IndexOf(rows, ById(id));
    if i.None? then (None, cache, rows)
    else
      var row := Patched(rows[i.value], upd);
      var read := Validate(row);
      (Some(read), cache.(entries := cache.entries[row.name := read]), rows[i.value := row])
  }

  /** `delete_prompt`: False for an unknown id; otherwise the row goes and
      its name leaves the cache. */
  function DeletePrompt(cache: Cache, rows: seq<PromptRow>, id: int): (r: (bool, Cache, seq<PromptRow>))
    ensures !r.0 <==> forall i :: 0 <= i < |rows| ==> rows[i].id != id
    ensures !r.0 ==> r.1 == cache && r.2 == rows
    ensures r.0 ==> var i := IndexOf(rows, ById(id)).value;
              r.2 == rows[..i] + rows[i + 1..] && r.1 == cache.(entries := cache.entries - {rows[i].name})
  {
    var i := IndexOf(rows, ById(id));
    if i.None? then (false, cache, rows)
    else (true, cache.(entries := cache.entries - {rows[i.value].name}), rows[..i.value] + rows[i.value + 1..])
  }

  // ---------------------------------------------------------------------------
  // The cache stays coherent
  // ---------------------------------------------------------------------------

  /** Reading a prompt keeps the cache coherent. */
  lemma GetKeepsCoherent(cache: Cache, rows: seq<PromptRow>, name: string)
    requires Coherent(cache, rows)
    ensures Coherent(GetPrompt(cache, rows, name).1, rows)
  {
    var c := if cache.loaded then cache else Cache(cache.entries + LoadAll(rows), true);
    assert Coherent(c, rows);
    var i := IndexOf(rows, ByName(name));
    if name !in c.entries && i.Some? {
      assert ReadOfRow(Validate(rows[i.value]), name, rows);
    }
  }

  /** With a coherent cache and unique names, `get_prompt` answers exactly
      what the table holds under the name. */
  lemma GetAnswersTable(cache: Cache, rows: seq<PromptRow>, name: string, i: nat)
    requires Coherent(cache, rows) && UniqueNames(rows)
    requires i < |rows| && rows[i].name == name
    ensures GetPrompt(cache, rows, name).0 == Some(rows[i].content)
  {
    var c := if cache.loaded then cache else Cache(cache.entries + LoadAll(rows), true);
    assert Coherent(c, rows);
    if name in c.entries {
      ReadOfNamedRow(c.entries[name], rows, i);
    } else {
      var j := IndexOf(rows, ByName(name));
      assert j.Some? && rows[j.value].name == name;
      assert j.value == i;
    }
  }

  /** Creating a prompt keeps names unique and the cache coherent. */
  lemma CreateKeepsCoherent(cache: Cache, rows: seq<PromptRow>, req: PromptCreate, id: int)
    requires Coherent(cache, rows) && UniqueNames(rows)
    ensures var r := CreatePrompt(cache, rows, req, id);
            r.Success? ==> Coherent(r.value.0, r.value.1) && UniqueNames(r.value.1)
  {
    var r := CreatePrompt(cache, rows, req, id);
    if r.Success? {
      var after := r.value.1;
      assert after[|rows|] == NewRow(req, id);
      forall n | n in r.value.0.entries
        ensures ReadOfRow(r.value.0.entries[n], n, after)
      {
        if n != req.name {
          var i :| 0 <= i < |rows| && rows[i].name == n && cache.entries[n] == Validate(rows[i]);
          assert after[i] == rows[i];
        }
      }
    }
  }

  /** Updating a prompt keeps names unique and the cache coherent. */
  lemma UpdateKeepsCoherent(cache: Cache, rows: seq<PromptRow>, id: int, upd: PromptUpdate)
    requires Coherent(cache, rows) && UniqueNames(rows)
    ensures var r := UpdatePrompt(cache, rows, id, upd);
            Coherent(r.1, r.2) && UniqueNames(r.2)
  {
    var r := UpdatePrompt(cache, rows, id, upd);
    if r.0.Some? {
      var k := IndexOf(rows, ById(id)).value;
      var after := r.2;
      forall n | n in r.1.entries
        ensures ReadOfRow(r.1.entries[n], n, after)
      {
        if n != rows[k].name {
          var i :| 0 <= i < |rows| && rows[i].name == n && cache.entries[n] == Validate(rows[i]);
          assert after[i] == rows[i];
        } else {
          assert after[k] == Patched(rows[k], upd);
        }
      }
    }
  }

  /** Deleting a prompt keeps names unique and the cache coherent. */
  lemma DeleteKeepsCoherent(cache: Cache, rows: seq<PromptRow>, id: int)
    requires Coherent(cache, rows) && UniqueNames(rows)
    ensures var r := DeletePrompt(cache, rows, id);
            Coherent(r.1, r.2) && UniqueNames(r.2)
  {
    var r := DeletePrompt(cache, rows, id);
    if r.0 {
      var k := IndexOf(rows, ById(id)).value;
      RemoveKeepsUnique(rows, k);
      RemoveKeepsCoherent(cache, rows, k);
    }
  }

  /** Taking a row out keeps the names unique. */
  lemma RemoveKeepsUnique(rows: seq<PromptRow>, k: nat)
    requires UniqueNames(rows) && k < |rows|
    ensures UniqueNames(rows[..k] + rows[k + 1..])
  {
    var after := rows[..k] + rows[k + 1..];
    forall a, b | 0 <= a < b < |after| ensures after[a].name != after[b].name {
      assert after[a] == rows[if a < k then a else a + 1];
      assert after[b] == rows[if b < k then b else b + 1];
    }
  }

  /** Taking a row out and its name out of the cache keeps the cache
      coherent. */
  lemma RemoveKeepsCoherent(cache: Cache, rows: seq<PromptRow>, k: nat)
    requires Coherent(cache, rows) && k < |rows|
    ensures Coherent(cache.(entries := cache.entries - {rows[k].name}), rows[..k] + rows[k + 1..])
  {
    var after := rows[..k] + rows[k + 1..];
    var entries := cache.entries - {rows[k].name};
    forall n | n in entries ensures ReadOfRow(entries[n], n, after) {
      var i :| 0 <= i < |rows| && rows[i].name == n && cache.entries[n] == Validate(rows[i]);
      var j := if i < k then i else i - 1;
      assert after[j] == rows[i];
    }
  }

  /** A created prompt is then read from the cache with the content given. */
  lemma CreateThenGet(cache: Cache, rows: seq<PromptRow>, req: PromptCreate, id: int)
    requires CreatePrompt(cache, rows, req, id).Success?
    ensures var c := CreatePrompt(cache, rows, req, id).value;
            GetPrompt(c.0, c.1, req.name) == (Some(req.content), c.0)
  {
  }
}

=== FILE: py_json.dfy ===
/** Python's `json.dumps(value, ensure_ascii=False)` with its default
    separators: `", "` between items and `": "` after a key. Inside a string
    literal the quote, the backslash and every control character below
    U+0020 are escaped; everything else, non-ASCII included, is written as
    is. */
module PyJson {
  import opened Wrappers
  import opened Text
  import opened Sanitizer

  const HexDigits: string := "0123456789abcdef"

  /** The escape of one character: a short escape for the quote, the
      backslash, backspace, form feed, newline, carriage return and tab, a
      `\u00XX` escape in lower-case hex for the other control characters,
      the character itself otherwise. */
  function PyEscapeChar(c: char): (r: string)
    ensures r == [c] <==> c >= 0x20 as char && c != '"' && c != '\\'
    ensures r != [c] ==> |r| >= 2 && r[0] == '\\'
    ensures forall i :: 0 <= i < |r| ==> r[i] >= 0x20 as char
  {
    if c == '"' then "\\\"" else if c == '\\' then "\\\\"
    else if c == '\n' then "\\n" else if c == '\r' then "\\r" else if c == '\t' then "\\t"
    else if c == 8 as char then "\\b" else if c == 12 as char then "\\f"
    else if c < 0x20 as char then "\\u00" + [HexDigits[c as int / 16], HexDigits[c as int % 16]]
    else [c]
  }

  /** The body of a string literal. */
  function PyEscape(t: string): (r: string)
    ensures forall i :: 0 <= i < |r| ==> r[i] >= 0x20 as char
    decreases |t|
  {
    if t == [] then [] else PyEscapeChar(t[0]) + PyEscape(t[1..])
  }

  function PyQuote(t: string): string {
    "\"" + PyEscape(t) + "\""
  }

  /** The text of a value. */
  function PyDumps(v: Json): (r: string)
    ensures v.JObj? ==> |r| >= 2 && r[0] == '{' && r[|r| - 1] == '}'
    ensures v.JArr? ==> |r| >= 2 && r[0] == '[' && r[|r| - 1] == ']'
    ensures v.JStr? ==> r == PyQuote(v.text)
    decreases v, 1
  {
    match v
    case JNull => "null"
    case JBool(b) => if b then "true" else "false"
    case JNum(n) => NatToString(n)
    case JStr(t) => PyQuote(t)
    case JArr(items) => "[" + PyItems(items) + "]"
    case JObj(members) => "{" + PyMembers(members) + "}"
  }

  /** Array elements separated by a comma and a space. */
  function PyItems(vs: seq<Json>): string
    decreases vs, 0
  {
    if vs == [] then "" else PyDumps(vs[0]) + (if |vs| == 1 then "" else ", " + PyItems(vs[1..]))
  }

  /** Object members `"key": value` separated by a comma and a space. */
  function PyMembers(ms: seq<Member>): string
    decreases ms, 0
  {
    if ms == [] then ""
    else PyQuote(ms[0].key) + ": " + PyDumps(ms[0].value) + (if |ms| == 1 then "" else ", " + PyMembers(ms[1..]))
  }

  // ---------------------------------------------------------------------------
  // Reading a literal back
  // ---------------------------------------------------------------------------

  /** The value of a hex digit, upper or lower case. */
  function HexValue(c: char): Option<nat> {
    if '0' <= c <= '9' then Some(c as int - '0' as int)
    else if 'a' <= c <= 'f' then Some(c as int - 'a' as int + 10)
    else if 'A' <= c <= 'F' then Some(c as int - 'A' as int + 10)
    else None
  }

  /** The character a short escape stands for. */
  function ShortEscape(c: char): Option<char> {
    if c == '"' then Some('"') else if c == '\\' then Some('\\') else if c == '/' then Some('/')
    else if c == 'n' then Some('\n') else if c == 'r' then Some('\r') else if c == 't' then Some('\t')
    else if c == 'b' then Some(8 as char) else if c == 'f' then Some(12 as char)
    else None
  }

  /** The character a `\u` escape of four hex digits stands for, outside
      the surrogate range. */
  function UnicodeEscape(h: string): Option<char>
    requires |h| == 4
  {
    var a := HexValue(h[0]);
    var b := HexValue(h[1]);
    var c := HexValue(h[2]);
    var d := HexValue(h[3]);
    if a.None? || b.None? || c.None? || d.None? then None
    else
      var n := ((a.value * 16 + b.value) * 16 + c.value) * 16 + d.value;
      if n < 0xD800 then Some(n as char) else None
  }

  /** The text of a string literal's body, as a JSON reader gives it: None
      on a malformed escape. */
  function PyUnescape(s: string): (r: Option<string>)
    decreases |s|
  {
    if s == [] then Some([])
    else if s[0] != '\\' then
      var rest := PyUnescape(s[1..]);
      if rest.None? then None else Some([s[0]] + rest.value)
    else if |s| < 2 then None
    else if s[1] == 'u' then
      if |s| < 6 || UnicodeEscape(s[2..6]).None? then None
      else
        var rest := PyUnescape(s[6..]);
        if rest.None? then None else Some([UnicodeEscape(s[2..6]).value] + rest.value)
    else if ShortEscape(s[1]).None? then None
    else
      var rest := PyUnescape(s[2..]);
      if rest.None? then None else Some([ShortEscape(s[1]).value] + rest.value)
  }

  /** The hex digits written for a control character read back as it. */
  lemma HexDigitsRead(c: char)
    requires c < 0x20 as char
    ensures UnicodeEscape(['0', '0', HexDigits[c as int / 16], HexDigits[c as int % 16]]) == Some(c)
  {
    var hi := c as int / 16;
    var lo := c as int % 16;
    assert HexValue(HexDigits[hi]) == Some(hi);
    assert HexValue(HexDigits[lo]) == Some(lo);
  }

  /** A character in front of what the rest reads as. */
  function Prepend(c: char, rest: Option<string>): Option<string> {
    if rest.None? then None else Some([c] + rest.value)
  }

  lemma UnescapePlain(c: char, rest: string)
    requires c != '\\'
    ensures PyUnescape([c] + rest) == Prepend(c, PyUnescape(rest))
  {
    assert ([c] + rest)[1..] == rest;
  }

  lemma UnescapeShort(x: char, c: char, rest: string)
    requires x != 'u' && ShortEscape(x) == Some(c)
    ensures PyUnescape(['\\', x] + rest) == Prepend(c, PyUnescape(rest))
  {
    assert (['\\', x] + rest)[2..] == rest;
  }

  lemma UnescapeUnicode(h: string, c: char, rest: string)
    requires |h| == 4 && UnicodeEscape(h) == Some(c)
    ensures PyUnescape("\\u" + h + rest) == Prepend(c, PyUnescape(rest))
  {
    var s := "\\u" + h + rest;
    assert s[2..6] == h && s[6..] == rest;
  }

  /** Reading one escaped character and then the rest. */
  lemma UnescapeChar(c: char, rest: string)
    ensures PyUnescape(PyEscapeChar(c) + rest) == Prepend(c, PyUnescape(rest))
  {
    if c == '"' { UnescapeShort('"', c, rest); }
    else if c == '\\' { UnescapeShort('\\', c, rest); }
    else if c == '\n' { UnescapeShort('n', c, rest); }
    else if c == '\r' { UnescapeShort('r', c, rest); }
    else if c == '\t' { UnescapeShort('t', c, rest); }
    else if c == 8 as char { UnescapeShort('b', c, rest); }
    else if c == 12 as char { UnescapeShort('f', c, rest); }
    else if c < 0x20 as char {
      var h := ['0', '0', HexDigits[c as int / 16], HexDigits[c as int % 16]];
      HexDigitsRead(c);
      UnescapeUnicode(h, c, rest);
      assert PyEscapeChar(c) == "\\u" + h;
    } else {
      UnescapePlain(c, rest);
    }
  }

  /** Every string survives being written into a literal and read back. */
  lemma {:induction false} EscapeRoundTrip(t: string)
    ensures PyUnescape(PyEscape(t)) == Some(t)
    decreases |t|
  {
    if t != [] {
      EscapeRoundTrip(t[1..]);
      UnescapeChar(t[0], PyEscape(t[1..]));
      assert PyEscape(t) == PyEscapeChar(t[0]) + PyEscape(t[1..]);
      assert [t[0]] + t[1..] == t;
    }
  }
}

=== FILE: repository.dfy ===
/** The generic repository every table goes through. A row is a record of
    named attributes (`map<string, V>`); a table is a sequence of rows in
    the order the database scans them. */
module Repository {
  import opened Wrappers

  type Row<V> = map<string, V>

  /** `filter_by(**filters)`: every filter names an attribute the row holds
      with exactly that value. */
  predicate Matches<V(==)>(row: Row<V>, filters: map<string, V>) {
    forall k :: k in filters ==> k in row && row[k] == filters[k]
  }

  /** The first element satisfying `ok`, or None: what `.scalars().first()`
      returns for a filtered select. */
  function First<T>(rows: seq<T>, ok: T -> bool): (r: Option<T>)
    ensures r.Some? ==> ok(r.value)
    ensures r.Some? ==> exists i :: 0 <= i < |rows| && rows[i] == r.value
                                    && forall j :: 0 <= j < i ==> !ok(rows[j])
    ensures r.None? <==> forall i :: 0 <= i < |rows| ==> !ok(rows[i])
  {
    if rows == [] then None
    else if ok(rows[0]) then Some(rows[0])
    else
      var r := First(rows[1..], ok);
      assert forall i :: 0 < i < |rows| ==> rows[i] == rows[1..][i - 1];
      if r.Some? then
        assert exists i :: 0 <= i < |rows| && rows[i] == r.value && forall j :: 0 <= j < i ==> !ok(rows[j]) by {
          var i :| 0 <= i < |rows[1..]| && rows[1..][i] == r.value
                   && forall j :: 0 <= j < i ==> !ok(rows[1..][j]);
          assert rows[i + 1] == r.value;
        }
        r
      else r
  }

  /** `get`: the first row matching all filters, or None. */
  function Get<V(==)>(rows: seq<Row<V>>, filters: map<string, V>): (r: Option<Row<V>>)
    ensures r.Some? ==> Matches(r.value, filters)
    ensures r.Some? ==> exists i :: 0 <= i < |rows| && rows[i] == r.value
                                    && forall j :: 0 <= j < i ==> !Matches(rows[j], filters)
    ensures r.None? <==> forall i :: 0 <= i < |rows| ==> !Matches(rows[i], filters)
  {
    First(rows, (row: Row<V>) => Matches(row, filters))
  }

  /** The matching rows, in scan order. */
  function Filter<V(==,!new)>(rows: seq<Row<V>>, filters: map<string, V>): (r: seq<Row<V>>)
    ensures |r| <= |rows|
    ensures forall x :: x in r <==> x in rows && Matches(x, filters)
  {
    if rows == [] then []
    else (if Matches(rows[0], filters) then [rows[0]] else []) + Filter(rows[1..], filters)
  }

  /** `list`: all rows without filters (None or an empty dict, which Python
      treats alike), only the matching ones otherwise. */
  function List<V(==,!new)>(rows: seq<Row<V>>, filters: Option<map<string, V>>): (r: seq<Row<V>>)
    ensures filters.None? || filters == Some(map[]) ==> r == rows
    ensures filters.Some? ==> forall x :: x in r <==> x in rows && Matches(x, filters.value)
  {
    if filters.None? || filters.value == map[] then rows else Filter(rows, filters.value)
  }

  /** Filtering by an empty dict would keep every row anyway, so the
      falsy-dict shortcut of `list` changes nothing. */
  lemma {:induction false} EmptyFilterKeepsAll<V(!new)>(rows: seq<Row<V>>)
    ensures Filter(rows, map[]) == rows
  {
    if rows != [] {
      EmptyFilterKeepsAll(rows[1..]);
      assert rows == [rows[0]] + rows[1..];
    }
  }

  /** `add`: the instance is appended and handed back as it was given. */
  function Add<V>(rows: seq<Row<V>>, instance: Row<V>): (r: (seq<Row<V>>, Row<V>))
    ensures |r.0| == |rows| + 1 && r.0[..|rows|] == rows && r.0[|rows|] == instance && r.1 == instance
  {
    (rows + [instance], instance)
  }

  /** An added row is what `get` finds when no earlier row matches. */
  lemma AddThenGet<V>(rows: seq<Row<V>>, instance: Row<V>, filters: map<string, V>)
    requires Matches(instance, filters)
    requires forall i :: 0 <= i < |rows| ==> !Matches(rows[i], filters)
    ensures Get(Add(rows, instance).0, filters) == Some(instance)
  {
  }

  /** `update_fields`: every value given sets its attribute, a None value is
      skipped. */
  function UpdateFields<V>(instance: Row<V>, values: map<string, Option<V>>): (r: Row<V>)
    ensures forall k :: k in values && values[k].Some? ==> k in r && r[k] == values[k].value
    ensures forall k :: k in instance && (k !in values || values[k].None?) ==> k in r && r[k] == instance[k]
    ensures forall k :: k in r ==> k in instance || (k in values && values[k].Some?)
  {
    map k | k in instance.Keys + (set j | j in values && values[j].Some?) ::
      if k in values && values[k].Some? then values[k].value else instance[k]
  }

  /** Updating twice with the same values is updating once. */
  lemma UpdateFieldsIdempotent<V>(instance: Row<V>, values: map<string, Option<V>>)
    ensures UpdateFields(UpdateFields(instance, values), values) == UpdateFields(instance, values)
  {
    var once := UpdateFields(instance, values);
    var twice := UpdateFields(once, values);
    assert twice.Keys == once.Keys;
  }

  /** Only None values: nothing changes. */
  lemma UpdateFieldsAllNone<V>(instance: Row<V>, values: map<string, Option<V>>)
    requires forall k :: k in values ==> values[k].None?
    ensures UpdateFields(instance, values) == instance
  {
    var r := UpdateFields(instance, values);
    assert r.Keys == instance.Keys;
  }
}

=== FILE: router_guard.dfy ===
/** The front end's navigation guard: before every route change it loads the
    user when only a token is known, then sends a visitor without a token to
    the login page, a non-administrator away from administration pages, and
    an administrator who still has the default password to the password tab.
    The answer of the user endpoint is a parameter. */
module RouterGuard {
  import opened Wrappers

  /** A route of the table with its meta flags. */
  datatype RouteRecord = RouteRecord(path: string, name: string, requiresAuth: bool, requiresAdmin: bool)

  /** The route table, in declaration order. */
  const Routes: seq<RouteRecord> := [
    RouteRecord("/", "workspace-entry", true, false),
    RouteRecord("/workspace", "novel-workspace", true, false),
    RouteRecord("/inspiration", "inspiration-mode", true, false),
    RouteRecord("/detail/:id", "novel-detail", true, false),
    RouteRecord("/novel/:id", "writing-desk", true, false),
    RouteRecord("/login", "login", false, false),
    RouteRecord("/register", "register", false, false),
    RouteRecord("/admin", "admin", true, true),
    RouteRecord("/admin/novel/:id", "admin-novel-detail", true, true),
    RouteRecord("/settings", "settings", true, false)
  ]

  const Home: RouteRecord := Routes[0]
  const LoginPage: RouteRecord := Routes[5]
  const AdminPage: RouteRecord := Routes[7]
  const PasswordTab: string := "password"

  /** Where a navigation goes: the matched route (None when no route
      matches) and the `tab` query parameter. */
  datatype Target = Target(route: Option<RouteRecord>, tab: Option<string>)

  /** The user the store keeps: only the two flags the guard reads. */
  datatype AuthUser = AuthUser(isAdmin: bool, mustChangePassword: bool)

  /** The auth store: the token (from local storage) and the loaded user. */
  datatype AuthState = AuthState(token: Option<string>, user: Option<AuthUser>)

  /** `!!state.token`: an empty token counts as none. */
  predicate IsAuthenticated(st: AuthState) {
    st.token.Some? && st.token.value != ""
  }

  /** `user?.is_admin`, with a missing user falsy. */
  predicate IsAdmin(st: AuthState) {
    st.user.Some? && st.user.value.isAdmin
  }

  /** `user?.is_admin && store.mustChangePassword`: only administrators are
      held to the password change. */
  predicate MustChangePassword(st: AuthState) {
    IsAdmin(st) && st.user.value.mustChangePassword
  }

  predicate RequiresAuth(t: Target) {
    t.route.Some? && t.route.value.requiresAuth
  }

  predicate RequiresAdmin(t: Target) {
    t.route.Some? && t.route.value.requiresAdmin
  }

  /** Already on the password tab of the administration page. */
  predicate OnPasswordTab(t: Target) {
    t.route.Some? && t.route.value.name == AdminPage.name && t.tab == Some(PasswordTab)
  }

  /** `fetchUser` when a token is known but no user: the answer of the user
      endpoint (None when the request fails) becomes the user, and a failure
      logs out. */
  function LoadUser(st: AuthState, me: Option<AuthUser>): (r: AuthState)
    ensures !(IsAuthenticated(st) && st.user.None?) ==> r == st
    ensures IsAuthenticated(st) && st.user.None? && me.Some? ==> r == st.(user := me)
    ensures IsAuthenticated(st) && st.user.None? && me.None? ==> r == AuthState(None, None)
    ensures IsAuthenticated(r) ==> r.user.Some?
  {
    if IsAuthenticated(st) && st.user.None? then
      if me.Some? then st.(user := me) else AuthState(None, None)
    else st
  }

  /** What the guard decides: let the navigation through, or redirect. */
  datatype Decision = Proceed | ToLogin | ToHome | ToPasswordTab

  /** The `beforeEach` guard: the user is loaded first, then the checks run
      in the order login, administrator, password change. */
  function Guard(st: AuthState, me: Option<AuthUser>, to: Target): (r: (Decision, AuthState))
    ensures r.1 == LoadUser(st, me)
    ensures r.0 == ToLogin <==> RequiresAuth(to) && !IsAuthenticated(r.1)
    ensures r.0 == ToHome <==> (IsAuthenticated(r.1) || !RequiresAuth(to)) && RequiresAdmin(to) && !IsAdmin(r.1)
    ensures r.0 == ToPasswordTab ==> IsAdmin(r.1) && r.1.user.value.mustChangePassword
    ensures r.0 == ToPasswordTab <==>
              (IsAuthenticated(r.1) && MustChangePassword(r.1) && !OnPasswordTab(to)
               && !(RequiresAdmin(to) && !IsAdmin(r.1)))
    ensures r.0 == Proceed <==>
              !(RequiresAuth(to) && !IsAuthenticated(r.1)) && !(RequiresAdmin(to) && !IsAdmin(r.1))
              && !(IsAuthenticated(r.1) && MustChangePassword(r.1) && !OnPasswordTab(to))
  {
    var s := LoadUser(st, me);
    if RequiresAuth(to) && !IsAuthenticated(s) then (ToLogin, s)
    else if RequiresAdmin(to) && !IsAdmin(s) then (ToHome, s)
    else if IsAuthenticated(s) && MustChangePassword(s) then
      if !OnPasswordTab(to) then (ToPasswordTab, s) else (Proceed, s)
    else (Proceed, s)
  }

  /** Where a redirect leads. */
  function Redirected(d: Decision): (r: Target)
    requires d != Proceed
    ensures r.route.Some? && r.route.value in Routes
  {
    match d
    case ToLogin => Target(Some(LoginPage), None)
    case ToHome => Target(Some(Home), None)
    case ToPasswordTab => Target(Some(AdminPage), Some(PasswordTab))
  }

  /** Every administration route also asks for a login. */
  lemma AdminRoutesRequireAuth()
    ensures forall i :: 0 <= i < |Routes| && Routes[i].requiresAdmin ==> Routes[i].requiresAuth
  {
  }

  /** A non-administrator is never sent to the password tab. */
  lemma NonAdminNeverToPasswordTab(st: AuthState, me: Option<AuthUser>, to: Target)
    requires !IsAdmin(LoadUser(st, me))
    ensures Guard(st, me, to).0 != ToPasswordTab
  {
  }

  /** Following a redirect of the guard on a table route lands: the next
      guard run, from the state the first left, lets the navigation through
      and loads nothing more. */
  lemma RedirectSettles(st: AuthState, me: Option<AuthUser>, i: nat, tab: Option<string>, me2: Option<AuthUser>)
    requires i < |Routes|
    ensures var first := Guard(st, me, Target(Some(Routes[i]), tab));
            first.0 != Proceed ==>
              Guard(first.1, me2, Redirected(first.0)) == (Proceed, first.1)
  {
    var first := Guard(st, me, Target(Some(Routes[i]), tab));
    AdminRoutesRequireAuth();
    if first.0 == ToHome {
      assert IsAuthenticated(first.1) && !IsAdmin(first.1);
    }
  }
}

=== FILE: sanitize.dfy ===
/** `sanitize_json_like_text`: a character state machine that escapes raw
    control characters and stray quotes inside JSON string literals. The set
    of characters that may follow a closing quote is a parameter, so the
    machine as written and the corrected one share one definition. */
module Sanitizer {
  import opened Text

  /** Where the scanner is: outside any string literal, inside one, or
      inside one just after a backslash. */
  datatype Mode = Outside | Inside | Escaped

  /** The whitespace the lookahead after a quote skips. */
  predicate IsJsonBlank(c: char) {
    c == ' ' || c == '\t' || c == '\r' || c == '\n'
  }

  /** The closers the source accepts after a quote. */
  const WrittenClosers: set<char> := {'}', ']', ','}

  /** The closers a JSON text can put after a closing quote: a key is
      followed by `:`. */
  const IntendedClosers: set<char> := {'}', ']', ',', ':'}

  /** A quote inside a string closes it when the next non-blank character
      is a closer or the text ends. */
  predicate QuoteCloses(after: string, closers: set<char>)
    decreases |after|
  {
    after == [] || (if IsJsonBlank(after[0]) then QuoteCloses(after[1..], closers) else after[0] in closers)
  }

  /** The lookahead read off the first non-blank index `j` after `from`. */
  lemma {:induction false} QuoteClosesAt(s: string, from: nat, j: nat, closers: set<char>)
    requires from <= j <= |s|
    requires forall k :: from <= k < j ==> IsJsonBlank(s[k])
    requires j == |s| || !IsJsonBlank(s[j])
    ensures QuoteCloses(s[from..], closers) <==> j == |s| || s[j] in closers
    decreases j - from
  {
    if from < j {
      assert s[from..][1..] == s[from + 1..];
      QuoteClosesAt(s, from + 1, j, closers);
    }
  }

  /** Inside a string, a raw newline, carriage return or tab becomes its
      two-character escape; anything else is kept. */
  function EscapeControl(c: char): (r: string)
    ensures |r| >= 1
    ensures c != '\n' && c != '\r' && c != '\t' ==> r == [c]
  {
    if c == '\n' then "\\n" else if c == '\r' then "\\r" else if c == '\t' then "\\t" else [c]
  }

  /** What one character `c`, followed by `after`, emits in `mode`. Outside
      a string every character is copied. Inside, a backslash is copied and
      the next character passes untouched; a quote that closes is copied,
      one that does not becomes `\"`; control characters are escaped. */
  function Emit(c: char, after: string, mode: Mode, closers: set<char>): (r: string)
    ensures |r| >= 1
  {
    match mode
    case Outside => [c]
    case Escaped => [c]
    case Inside =>
      if c == '\\' then [c]
      else if c == '"' then (if QuoteCloses(after, closers) then [c] else "\\\"")
      else EscapeControl(c)
  }

  /** The mode after `c`: a quote opens a string; inside, a backslash arms
      the escape, a closing quote leaves the string; an escaped character
      disarms it. */
  function Next(c: char, after: string, mode: Mode, closers: set<char>): (m: Mode) {
    match mode
    case Outside => if c == '"' then Inside else Outside
    case Escaped => Inside
    case Inside =>
      if c == '\\' then Escaped
      else if c == '"' && QuoteCloses(after, closers) then Outside
      else Inside
  }

  /** The output for the rest `s` of the text, scanned in `mode`. */
  function San(s: string, mode: Mode, closers: set<char>): (r: string)
    decreases |s|
  {
    if s == [] then []
    else Emit(s[0], s[1..], mode, closers) + San(s[1..], Next(s[0], s[1..], mode, closers), closers)
  }

  /** One step of the scan over a text given as its first character and
      the rest. */
  lemma SanCons(c: char, after: string, mode: Mode, closers: set<char>)
    ensures San([c] + after, mode, closers)
            == Emit(c, after, mode, closers) + San(after, Next(c, after, mode, closers), closers)
  {
    assert ([c] + after)[0] == c;
    assert ([c] + after)[1..] == after;
  }

  /** `sanitize_json_like_text` with the given closers: never shorter than
      its input, and empty input comes back unchanged. */
  function Sanitize(raw: string, closers: set<char>): (r: string)
    ensures |r| >= |raw|
    ensures raw == "" ==> r == ""
  {
    SanLength(raw, Outside, closers);
    San(raw, Outside, closers)
  }

  /** Every character produces at least one. */
  lemma {:induction false} SanLength(s: string, mode: Mode, closers: set<char>)
    ensures |San(s, mode, closers)| >= |s|
    decreases |s|
  {
    if s != [] {
      SanLength(s[1..], Next(s[0], s[1..], mode, closers), closers);
    }
  }

  /** The scanner's mode from the source's two flags. */
  function ModeOf(inString: bool, escapeNext: bool): Mode {
    if !inString then Outside else if escapeNext then Escaped else Inside
  }

  /** The inner scan of the source: the first index at or after `from`
      whose character is not blank, or the length. */
  method SkipBlankIndex(raw: string, from: nat) returns (j: nat)
    requires from <= |raw|
    ensures from <= j <= |raw|
    ensures forall k :: from <= k < j ==> IsJsonBlank(raw[k])
    ensures j == |raw| || !IsJsonBlank(raw[j])
  {
    j := from;
    while j < |raw| && IsJsonBlank(raw[j])
      invariant from <= j <= |raw|
      invariant forall k :: from <= k < j ==> IsJsonBlank(raw[k])
    {
      j := j + 1;
    }
  }

  /** The body of the source's loop for the character at `i`: what it
      appends and the flags it leaves. */
  method Step(raw: string, i: nat, inString: bool, escapeNext: bool, closers: set<char>)
    returns (out: string, inString': bool, escapeNext': bool)
    requires i < |raw| && (escapeNext ==> inString)
    ensures out == Emit(raw[i], raw[i + 1..], ModeOf(inString, escapeNext), closers)
    ensures ModeOf(inString', escapeNext') == Next(raw[i], raw[i + 1..], ModeOf(inString, escapeNext), closers)
    ensures escapeNext' ==> inString'
  {
    var ch := raw[i];
    inString', escapeNext' := inString, escapeNext;
    if inString {
      if escapeNext {
        out := [ch];
        escapeNext' := false;
      } else if ch == '\\' {
        out := [ch];
        escapeNext' := true;
      } else if ch == '"' {
        var j := SkipBlankIndex(raw, i + 1);
        QuoteClosesAt(raw, i + 1, j, closers);
        if j >= |raw| || raw[j] in closers {
          inString' := false;
          out := [ch];
        } else {
          out := ['\\', '"'];
        }
      } else if ch == '\n' {
        out := ['\\', 'n'];
      } else if ch == '\r' {
        out := ['\\', 'r'];
      } else if ch == '\t' {
        out := ['\\', 't'];
      } else {
        out := [ch];
      }
    } else {
      if ch == '"' {
        inString' := true;
      }
      out := [ch];
    }
  }

  /** The loop of the source: one pass over the text, each character handled
      by `Step`. */
  method SanitizeJsonLikeText(raw: string, closers: set<char>) returns (r: string)
    ensures r == Sanitize(raw, closers)
    ensures |r| >= |raw|
  {
    if raw == "" {
      return raw;
    }
    var result: string := [];
    var inString := false;
    var escapeNext := false;
    var i := 0;
    while i < |raw|
      invariant 0 <= i <= |raw|
      invariant escapeNext ==> inString
      invariant result + San(raw[i..], ModeOf(inString, escapeNext), closers) == San(raw, Outside, closers)
    {
      ghost var mode := ModeOf(inString, escapeNext);
      assert raw[i..] == [raw[i]] + raw[i + 1..];
      SanCons(raw[i], raw[i + 1..], mode, closers);
      var out;
      out, inString, escapeNext := Step(raw, i, inString, escapeNext, closers);
      ghost var tail := San(raw[i + 1..], ModeOf(inString, escapeNext), closers);
      assert result + (out + tail) == (result + out) + tail;
      result := result + out;
      i := i + 1;
    }
    assert raw[i..] == [];
    r := result;
  }

  // ---------------------------------------------------------------------------
  // What the machine leaves alone
  // ---------------------------------------------------------------------------

  /** Text without a quote never enters a string and is copied verbatim. */
  lemma NoQuoteUnchanged(s: string, closers: set<char>)
    requires forall k :: 0 <= k < |s| ==> s[k] != '"'
    ensures Sanitize(s, closers) == s
  {
    CopyOutside(s, [], closers);
    assert s + [] == s;
  }

  /** Quote-free text outside a string is copied and the scan goes on
      outside. */
  lemma {:induction false} CopyOutside(w: string, rest: string, closers: set<char>)
    requires forall k :: 0 <= k < |w| ==> w[k] != '"'
    ensures San(w + rest, Outside, closers) == w + San(rest, Outside, closers)
    decreases |w|
  {
    if w != [] {
      var c := w[0];
      assert c != '"';
      assert w + rest == [c] + (w[1..] + rest);
      SanCons(c, w[1..] + rest, Outside, closers);
      assert Emit(c, w[1..] + rest, Outside, closers) == [c];
      assert Next(c, w[1..] + rest, Outside, closers) == Outside;
      CopyOutside(w[1..], rest, closers);
      var x := San(rest, Outside, closers);
      assert [c] + (w[1..] + x) == ([c] + w[1..]) + x;
      assert w == [c] + w[1..];
    } else {
      assert w + rest == rest;
    }
  }

  // ---------------------------------------------------------------------------
  // Serialised JSON is a fixed point of the corrected machine
  // ---------------------------------------------------------------------------

  /** A JSON value. */
  datatype Json =
    | JNull
    | JBool(b: bool)
    | JNum(n: nat)
    | JStr(text: string)
    | JArr(items: seq<Json>)
    | JObj(members: seq<Member>)

  datatype Member = Member(key: string, value: Json)

  /** The JSON escape of one character inside a string literal: quote,
      backslash, newline, carriage return and tab get a backslash escape. */
  function EscapeJsonChar(c: char): (r: string)
    ensures |r| >= 1
  {
    if c == '"' then "\\\"" else if c == '\\' then "\\\\"
    else if c == '\n' then "\\n" else if c == '\r' then "\\r" else if c == '\t' then "\\t"
    else [c]
  }

  function EscapeJson(t: string): string
    decreases |t|
  {
    if t == [] then [] else EscapeJsonChar(t[0]) + EscapeJson(t[1..])
  }

  /** A string literal. */
  function Quote(t: string): string {
    "\"" + EscapeJson(t) + "\""
  }

  /** The compact serialisation of a value. */
  function Serialize(v: Json): string
    decreases v, 1
  {
    match v
    case JNull => "null"
    case JBool(b) => if b then "true" else "false"
    case JNum(n) => NatToString(n)
    case JStr(t) => Quote(t)
    case JArr(items) => "[" + Items(items) + "]"
    case JObj(members) => "{" + Members(members) + "}"
  }

  /** Array elements separated by commas. */
  function Items(vs: seq<Json>): string
    decreases vs, 0
  {
    if vs == [] then "" else Serialize(vs[0]) + ItemsAfter(vs[1..])
  }

  /** The elements after the first, each preceded by a comma. */
  function ItemsAfter(vs: seq<Json>): string
    decreases vs, 1
  {
    if vs == [] then "" else "," + Items(vs)
  }

  /** Object members `"key":value` separated by commas. */
  function Members(ms: seq<Member>): string
    decreases ms, 0
  {
    if ms == [] then "" else MemberText(ms[0]) + MembersAfter(ms[1..])
  }

  function MembersAfter(ms: seq<Member>): string
    decreases ms, 1
  {
    if ms == [] then "" else "," + Members(ms)
  }

  function MemberText(m: Member): string
    decreases m, 0
  {
    Quote(m.key) + (":" + Serialize(m.value))
  }

  /** What may follow a value in a serialised text. */
  predicate Follows(rest: string) {
    rest == [] || rest[0] in IntendedClosers
  }

  /** A backslash and the character after it are copied inside a string. */
  lemma BackslashPair(b: char, tail: string, closers: set<char>)
    ensures San(['\\', b] + tail, Inside, closers) == ['\\', b] + San(tail, Inside, closers)
  {
    assert ['\\', b] + tail == ['\\'] + ([b] + tail);
    SanCons('\\', [b] + tail, Inside, closers);
    SanCons(b, tail, Escaped, closers);
  }

  /** A character other than a quote, a backslash or a control character is
      copied inside a string. */
  lemma PlainInside(c: char, tail: string, closers: set<char>)
    requires c != '"' && c != '\\' && c != '\n' && c != '\r' && c != '\t'
    ensures San([c] + tail, Inside, closers) == [c] + San(tail, Inside, closers)
  {
    SanCons(c, tail, Inside, closers);
  }

  /** The escape of one character passes through the machine unchanged
      inside a string. */
  lemma EscapedCharUnchanged(c: char, tail: string, closers: set<char>)
    ensures San(EscapeJsonChar(c) + tail, Inside, closers) == EscapeJsonChar(c) + San(tail, Inside, closers)
  {
    if c == '"' {
      BackslashPair('"', tail, closers);
    } else if c == '\\' {
      BackslashPair('\\', tail, closers);
    } else if c == '\n' {
      BackslashPair('n', tail, closers);
    } else if c == '\r' {
      BackslashPair('r', tail, closers);
    } else if c == '\t' {
      BackslashPair('t', tail, closers);
    } else {
      PlainInside(c, tail, closers);
    }
  }

  /** The escaped body of a string passes through the machine unchanged. */
  lemma {:induction false} EscapedBodyUnchanged(t: string, rest: string, closers: set<char>)
    ensures San(EscapeJson(t) + rest, Inside, closers) == EscapeJson(t) + San(rest, Inside, closers)
    decreases |t|
  {
    if t != [] {
      var e := EscapeJsonChar(t[0]);
      var body := EscapeJson(t[1..]);
      EscapedCharUnchanged(t[0], body + rest, closers);
      EscapedBodyUnchanged(t[1..], rest, closers);
      PrefixStep(e, body, rest, San(rest, Inside, closers), Inside, Inside, closers);
      assert EscapeJson(t) == e + body;
    } else {
      assert EscapeJson(t) + rest == rest;
    }
  }

  /** Two copied pieces in a row are one copied piece. */
  lemma PrefixStep(e: string, body: string, rest: string, x: string, m1: Mode, m2: Mode, closers: set<char>)
    requires San(e + (body + rest), m1, closers) == e + San(body + rest, m2, closers)
    requires San(body + rest, m2, closers) == body + x
    ensures San((e + body) + rest, m1, closers) == (e + body) + x
  {
    assert (e + body) + rest == e + (body + rest);
    assert e + (body + x) == (e + body) + x;
  }

  /** A string literal followed by a closer passes unchanged, and the scan
      resumes outside. */
  lemma StringUnchanged(t: string, rest: string)
    requires Follows(rest)
    ensures San(Quote(t) + rest, Outside, IntendedClosers) == Quote(t) + San(rest, Outside, IntendedClosers)
  {
    var body := EscapeJson(t);
    var q := "\"";
    var x := San(rest, Outside, IntendedClosers);
    ClosingQuote(rest);
    EscapedBodyUnchanged(t, q + rest, IntendedClosers);
    PrefixStep(body, q, rest, x, Inside, Inside, IntendedClosers);
    OpeningQuote((body + q) + rest, IntendedClosers);
    PrefixStep(q, body + q, rest, x, Outside, Inside, IntendedClosers);
    assert Quote(t) == q + (body + q);
  }

  /** A quote outside a string is copied and opens one. */
  lemma OpeningQuote(w: string, closers: set<char>)
    ensures San("\"" + w, Outside, closers) == "\"" + San(w, Inside, closers)
  {
    SanCons('"', w, Outside, closers);
  }

  /** A quote inside a string followed by a closer is copied and closes it. */
  lemma ClosingQuote(rest: string)
    requires Follows(rest)
    ensures San("\"" + rest, Inside, IntendedClosers) == "\"" + San(rest, Outside, IntendedClosers)
  {
    SanCons('"', rest, Inside, IntendedClosers);
  }

  /** Every serialised value followed by a closer is a fixed point. */
  lemma {:induction false} ValueUnchanged(v: Json, rest: string)
    requires Follows(rest)
    ensures San(Serialize(v) + rest, Outside, IntendedClosers) == Serialize(v) + San(rest, Outside, IntendedClosers)
    decreases v, 4
  {
    match v
    case JNull => CopyOutside("null", rest, IntendedClosers);
    case JBool(b) => CopyOutside(if b then "true" else "false", rest, IntendedClosers);
    case JNum(n) =>
      var d := NatToString(n);
      assert forall k :: 0 <= k < |d| ==> IsDigit(d[k]);
      CopyOutside(d, rest, IntendedClosers);
    case JStr(t) => StringUnchanged(t, rest);
    case JArr(items) =>
      ItemsUnchanged(items, "]" + rest);
      Bracketed("[", Items(items), "]", rest);
    case JObj(members) =>
      MembersUnchanged(members, "}" + rest);
      Bracketed("{", Members(members), "}", rest);
  }

  /** A fixed point between an opening and a closing bracket. */
  lemma Bracketed(open: string, inner: string, close: string, rest: string)
    requires open == "[" || open == "{"
    requires close == "]" || close == "}"
    requires San(inner + (close + rest), Outside, IntendedClosers) == inner + San(close + rest, Outside, IntendedClosers)
    ensures San(open + inner + close + rest, Outside, IntendedClosers)
            == open + inner + close + San(rest, Outside, IntendedClosers)
  {
    var x := San(rest, Outside, IntendedClosers);
    CopyOutside(close, rest, IntendedClosers);
    PrefixStep(inner, close, rest, x, Outside, Outside, IntendedClosers);
    CopyOutside(open, (inner + close) + rest, IntendedClosers);
    PrefixStep(open, inner + close, rest, x, Outside, Outside, IntendedClosers);
    assert open + inner + close == open + (inner + close);
  }

  lemma {:induction false} ItemsUnchanged(vs: seq<Json>, rest: string)
    requires Follows(rest)
    ensures San(Items(vs) + rest, Outside, IntendedClosers) == Items(vs) + San(rest, Outside, IntendedClosers)
    decreases vs, 2
  {
    if vs == [] {
      assert Items(vs) + rest == rest;
    } else {
      var x := San(rest, Outside, IntendedClosers);
      var after := ItemsAfter(vs[1..]);
      ItemsAfterUnchanged(vs[1..], rest);
      ValueUnchanged(vs[0], after + rest);
      PrefixStep(Serialize(vs[0]), after, rest, x, Outside, Outside, IntendedClosers);
    }
  }

  lemma {:induction false} ItemsAfterUnchanged(vs: seq<Json>, rest: string)
    requires Follows(rest)
    ensures San(ItemsAfter(vs) + rest, Outside, IntendedClosers) == ItemsAfter(vs) + San(rest, Outside, IntendedClosers)
    ensures Follows(ItemsAfter(vs) + rest)
    decreases vs, 3
  {
    if vs == [] {
      assert ItemsAfter(vs) + rest == rest;
    } else {
      ItemsUnchanged(vs, rest);
      CommaStep(Items(vs), rest, San(rest, Outside, IntendedClosers));
    }
  }

  /** A comma and a fixed point make a fixed point. */
  lemma CommaStep(tail: string, rest: string, x: string)
    requires San(tail + rest, Outside, IntendedClosers) == tail + x
    ensures San(("," + tail) + rest, Outside, IntendedClosers) == ("," + tail) + x
    ensures Follows(("," + tail) + rest)
  {
    CopyOutside(",", tail + rest, IntendedClosers);
    PrefixStep(",", tail, rest, x, Outside, Outside, IntendedClosers);
  }

  lemma {:induction false} MembersUnchanged(ms: seq<Member>, rest: string)
    requires Follows(rest)
    ensures San(Members(ms) + rest, Outside, IntendedClosers) == Members(ms) + San(rest, Outside, IntendedClosers)
    decreases ms, 2
  {
    if ms == [] {
      assert Members(ms) + rest == rest;
    } else {
      var x := San(rest, Outside, IntendedClosers);
      var after := MembersAfter(ms[1..]);
      MembersAfterUnchanged(ms[1..], rest);
      MemberUnchanged(ms[0], after + rest);
      PrefixStep(MemberText(ms[0]), after, rest, x, Outside, Outside, IntendedClosers);
    }
  }

  lemma {:induction false} MembersAfterUnchanged(ms: seq<Member>, rest: string)
    requires Follows(rest)
    ensures San(MembersAfter(ms) + rest, Outside, IntendedClosers) == MembersAfter(ms) + San(rest, Outside, IntendedClosers)
    ensures Follows(MembersAfter(ms) + rest)
    decreases ms, 3
  {
    if ms == [] {
      assert MembersAfter(ms) + rest == rest;
    } else {
      MembersUnchanged(ms, rest);
      CommaStep(Members(ms), rest, San(rest, Outside, IntendedClosers));
    }
  }

  /** One member `"key":value` followed by a closer is a fixed point. */
  lemma {:induction false} MemberUnchanged(m: Member, rest: string)
    requires Follows(rest)
    ensures San(MemberText(m) + rest, Outside, IntendedClosers) == MemberText(m) + San(rest, Outside, IntendedClosers)
    decreases m, 1
  {
    var x := San(rest, Outside, IntendedClosers);
    var val := Serialize(m.value);
    ValueUnchanged(m.value, rest);
    CopyOutside(":", val + rest, IntendedClosers);
    PrefixStep(":", val, rest, x, Outside, Outside, IntendedClosers);
    StringUnchanged(m.key, (":" + val) + rest);
    PrefixStep(Quote(m.key), ":" + val, rest, x, Outside, Outside, IntendedClosers);
  }

  /** The corrected machine leaves every serialised JSON value unchanged. */
  lemma SanitizeSerialized(v: Json)
    ensures Sanitize(Serialize(v), IntendedClosers) == Serialize(v)
  {
    ValueUnchanged(v, "");
    assert Serialize(v) + "" == Serialize(v);
  }

  /** The machine as written escapes the quote that closes a key: `:` is
      not among its closers, so the key's closing quote comes out as `\"`
      and the scan stays inside the string. */
  lemma WrittenEscapesKeyQuote(k: string, rest: string)
    ensures San(Quote(k) + (":" + rest), Outside, WrittenClosers)
            == "\"" + (EscapeJson(k) + ("\\\"" + San(":" + rest, Inside, WrittenClosers)))
  {
    var q := "\"";
    var body := EscapeJson(k);
    var r := ":" + rest;
    assert Quote(k) + r == q + (body + (q + r));
    calc {
      San(q + (body + (q + r)), Outside, WrittenClosers);
      { OpeningQuote(body + (q + r), WrittenClosers); }
      q + San(body + (q + r), Inside, WrittenClosers);
      { EscapedBodyUnchanged(k, q + r, WrittenClosers); }
      q + (body + San(q + r, Inside, WrittenClosers));
      { StrayQuote(rest); }
      q + (body + ("\\\"" + San(r, Inside, WrittenClosers)));
    }
  }

  /** A quote before `:` does not close a string for the machine as
      written; it is escaped. */
  lemma StrayQuote(rest: string)
    ensures San("\"" + (":" + rest), Inside, WrittenClosers) == "\\\"" + San(":" + rest, Inside, WrittenClosers)
  {
    SanCons('"', ":" + rest, Inside, WrittenClosers);
    assert (":" + rest)[0] == ':';
    assert !QuoteCloses(":" + rest, WrittenClosers);
  }

  /** The text of an object, split after its first key. */
  lemma ObjectText(ms: seq<Member>)
    requires |ms| > 0
    ensures Serialize(JObj(ms))
            == "{" + (Quote(ms[0].key) + (":" + ((Serialize(ms[0].value) + MembersAfter(ms[1..])) + "}")))
  {
    var k := Quote(ms[0].key);
    var v := Serialize(ms[0].value);
    var a := MembersAfter(ms[1..]);
    assert Members(ms) == (k + (":" + v)) + a;
    assert ("{" + ((k + (":" + v)) + a)) + "}" == "{" + (k + (":" + ((v + a) + "}")));
  }

  /** Hence no serialised non-empty object is a fixed point of the machine
      as written: the character after the first key differs. */
  lemma WrittenBreaksObjects(ms: seq<Member>)
    requires |ms| > 0
    ensures Sanitize(Serialize(JObj(ms)), WrittenClosers) != Serialize(JObj(ms))
  {
    ObjectText(ms);
    KeyQuoteBreaks(ms[0].key, (Serialize(ms[0].value) + MembersAfter(ms[1..])) + "}");
  }

  /** An object text whose first key is followed by `:` is changed by the
      machine as written. */
  lemma KeyQuoteBreaks(k: string, rest: string)
    ensures San("{" + (Quote(k) + (":" + rest)), Outside, WrittenClosers) != "{" + (Quote(k) + (":" + rest))
  {
    var text := "{" + (Quote(k) + (":" + rest));
    var q := "\"";
    var body := EscapeJson(k);
    var y := San(":" + rest, Inside, WrittenClosers);
    CopyOutside("{", Quote(k) + (":" + rest), WrittenClosers);
    WrittenEscapesKeyQuote(k, rest);
    assert Quote(k) + (":" + rest) == q + (body + (q + (":" + rest)));
    Differ(body, y, rest);
  }

  /** The two texts differ at the character after the key's body. */
  lemma Differ(body: string, y: string, rest: string)
    ensures "{" + ("\"" + (body + ("\\\"" + y))) != "{" + ("\"" + (body + ("\"" + (":" + rest))))
  {
    CharAfter("{", "\"", body, "\\\"" + y);
    CharAfter("{", "\"", body, "\"" + (":" + rest));
  }

  /** The character after three pieces is the first of the fourth. */
  lemma CharAfter(a: string, b: string, c: string, d: string)
    requires |d| > 0
    ensures (a + (b + (c + d)))[|a| + |b| + |c|] == d[0]
  {
  }

  /** For example, `{"a":1}` comes back as `{"a\":1}`, which no longer
      parses; the corrected machine returns it unchanged. */
  lemma WrittenCorruptsKeys()
    ensures Serialize(JObj([Member("a", JNum(1))])) == "{\"a\":1}"
    ensures Sanitize("{\"a\":1}", WrittenClosers) == "{\"a\\\":1}"
    ensures Sanitize("{\"a\":1}", IntendedClosers) == "{\"a\":1}"
  {
    ExampleText();
    SanitizeSerialized(JObj([Member("a", JNum(1))]));
    ExampleWritten();
  }

  lemma ExampleWritten()
    ensures San("{\"a\":1}", Outside, WrittenClosers) == "{\"a\\\":1}"
  {
    var q := "\"";
    ExampleText();
    CopyOutside("{", Quote("a") + (":" + "1}"), WrittenClosers);
    WrittenEscapesKeyQuote("a", "1}");
    ExampleTail();
    assert EscapeJson("a") == "a";
    assert "{" + (q + ("a" + ("\\\"" + ":1}"))) == "{\"a\\\":1}";
  }

  lemma ExampleText()
    ensures Serialize(JObj([Member("a", JNum(1))])) == "{\"a\":1}"
    ensures Quote("a") + (":" + "1}") == "\"a\":1}"
  {
    assert NatToString(1) == "1";
    assert EscapeJson("a") == "a";
  }

  lemma ExampleTail()
    ensures San(":1}", Inside, WrittenClosers) == ":1}"
  {
    PlainInside('}', "", WrittenClosers);
    PlainInside('1', "}", WrittenClosers);
    PlainInside(':', "1}", WrittenClosers);
  }
}

=== FILE: settings.dfy ===
/** The application settings: the validators that normalise the provider
    names and the logging level, and the bounds the numeric fields must
    respect. A validator's `ValueError` is a `Failure` carrying its
    message. */
module Settings {
  import opened Wrappers
  import opened Text

  /** The shared shape of the provider validators: a missing or empty value
      takes the default, then the value is stripped and lower-cased and must
      be one of the allowed names. */
  function NormalizeLower(value: Option<string>, default: string, allowed: set<string>, message: string)
    : (r: Result<string, string>)
    ensures r.Success? ==> r.value in allowed
    ensures r.Failure? ==> r.error == message
    ensures r.Success? <==> ToLower(Strip(if value.None? || value.value == "" then default else value.value)) in allowed
    ensures r.Success? ==> r.value == ToLower(Strip(if value.None? || value.value == "" then default else value.value))
  {
    var candidate := ToLower(Strip(if value.None? || value.value == "" then default else value.value));
    if candidate in allowed then Success(candidate) else Failure(message)
  }

  const DbProviders: set<string> := {"mysql", "sqlite"}
  const VectorProviders: set<string> := {"libsql", "qdrant"}
  const EmbeddingProviders: set<string> := {"openai", "ollama"}
  const LoggingLevels: set<string> := {"CRITICAL", "ERROR", "WARNING", "INFO", "DEBUG", "NOTSET"}

  /** `_normalize_db_provider`. */
  function DbProvider(value: Option<string>): (r: Result<string, string>)
    ensures r.Success? ==> r.value in DbProviders
    ensures value.None? ==> r == Success("mysql")
  {
    assert Strip("mysql") == "mysql" by { StripOfStripped("mysql"); }
    assert ToLower("mysql") == "mysql";
    NormalizeLower(value, "mysql", DbProviders, "DB_PROVIDER 仅支持 mysql 或 sqlite")
  }

  /** `_normalize_vector_provider`. */
  function VectorDbProvider(value: Option<string>): (r: Result<string, string>)
    ensures r.Success? ==> r.value in VectorProviders
    ensures value.None? ==> r == Success("libsql")
  {
    assert Strip("libsql") == "libsql" by { StripOfStripped("libsql"); }
    assert ToLower("libsql") == "libsql";
    NormalizeLower(value, "libsql", VectorProviders, "VECTOR_DB_PROVIDER 仅支持 libsql 或 qdrant")
  }

  /** `_normalize_embedding_provider`. */
  function EmbeddingProvider(value: Option<string>): (r: Result<string, string>)
    ensures r.Success? ==> r.value in EmbeddingProviders
    ensures value.None? ==> r == Success("openai")
  {
    assert Strip("openai") == "openai" by { StripOfStripped("openai"); }
    assert ToLower("openai") == "openai";
    NormalizeLower(value, "openai", EmbeddingProviders, "EMBEDDING_PROVIDER 仅支持 openai 或 ollama")
  }

  /** `_normalize_logging_level`: like the providers, but upper-cased. */
  function LoggingLevel(value: Option<string>): (r: Result<string, string>)
    ensures r.Success? ==> r.value in LoggingLevels
    ensures value.None? ==> r == Success("INFO")
    ensures r.Success? <==> ToUpper(Strip(if value.None? || value.value == "" then "INFO" else value.value)) in LoggingLevels
  {
    assert Strip("INFO") == "INFO" by { StripOfStripped("INFO"); }
    assert ToUpper("INFO") == "INFO";
    var candidate := ToUpper(Strip(if value.None? || value.value == "" then "INFO" else value.value));
    if candidate in LoggingLevels then Success(candidate)
    else Failure("LOGGING_LEVEL 仅支持 CRITICAL/ERROR/WARNING/INFO/DEBUG/NOTSET")
  }

  /** A name that strips and lower-cases to itself. */
  lemma LowerFixed(name: string)
    requires IsStripped(name)
    requires forall i :: 0 <= i < |name| ==> !('A' <= name[i] <= 'Z')
    ensures ToLower(Strip(name)) == name
  {
    StripOfStripped(name);
  }

  /** A name that strips and upper-cases to itself. */
  lemma UpperFixed(name: string)
    requires IsStripped(name)
    requires forall i :: 0 <= i < |name| ==> !('a' <= name[i] <= 'z')
    ensures ToUpper(Strip(name)) == name
  {
    StripOfStripped(name);
  }

  /** Every accepted database provider is a fixed point: validating it again
      gives it back, so settings normalised once stay as they are. */
  lemma DbProviderIdempotent(value: Option<string>)
    requires DbProvider(value).Success?
    ensures DbProvider(Some(DbProvider(value).value)) == DbProvider(value)
  {
    var v := DbProvider(value).value;
    if v == "mysql" { LowerFixed("mysql"); } else { LowerFixed("sqlite"); }
    assert v != "" && ToLower(Strip(v)) == v;
  }

  /** The same for the vector database provider. */
  lemma VectorDbProviderIdempotent(value: Option<string>)
    requires VectorDbProvider(value).Success?
    ensures VectorDbProvider(Some(VectorDbProvider(value).value)) == VectorDbProvider(value)
  {
    var v := VectorDbProvider(value).value;
    if v == "libsql" { LowerFixed("libsql"); } else { LowerFixed("qdrant"); }
    assert v != "" && ToLower(Strip(v)) == v;
  }

  /** The same for the embedding provider. */
  lemma EmbeddingProviderIdempotent(value: Option<string>)
    requires EmbeddingProvider(value).Success?
    ensures EmbeddingProvider(Some(EmbeddingProvider(value).value)) == EmbeddingProvider(value)
  {
    var v := EmbeddingProvider(value).value;
    if v == "openai" { LowerFixed("openai"); } else { LowerFixed("ollama"); }
    assert v != "" && ToLower(Strip(v)) == v;
  }

  /** The same for the logging level. */
  lemma LoggingLevelIdempotent(value: Option<string>)
    requires LoggingLevel(value).Success?
    ensures LoggingLevel(Some(LoggingLevel(value).value)) == LoggingLevel(value)
  {
    var v := LoggingLevel(value).value;
    LevelShape(v);
    LevelAccepted(v);
  }

  /** Every level name is stripped and has no lower-case letter. */
  lemma LevelShape(v: string)
    requires v in LoggingLevels
    ensures IsStripped(v) && forall i :: 0 <= i < |v| ==> !('a' <= v[i] <= 'z')
  {
    if v == "CRITICAL" { assert IsStripped("CRITICAL"); }
    else if v == "ERROR" { assert IsStripped("ERROR"); }
    else if v == "WARNING" { assert IsStripped("WARNING"); }
    else if v == "INFO" { assert IsStripped("INFO"); }
    else if v == "DEBUG" { assert IsStripped("DEBUG"); }
    else { assert IsStripped("NOTSET"); }
  }

  /** An upper-case level name is accepted as it is. */
  lemma LevelAccepted(name: string)
    requires name in LoggingLevels && IsStripped(name)
    requires forall i :: 0 <= i < |name| ==> !('a' <= name[i] <= 'z')
    ensures LoggingLevel(Some(name)) == Success(name)
  {
    UpperFixed(name);
  }

  /** A value made only of blanks is not empty, so it does not take the
      default: it strips to "" and is rejected. */
  lemma BlankProviderRejected(value: string)
    requires value != "" && IsBlank(value)
    ensures DbProvider(Some(value)).Failure?
  {
    StripRemovesBlank(value);
  }

  /** `_normalize_database_url`: a string with content is stripped; anything
      else is kept as it is. */
  function DatabaseUrl(value: Option<string>): (r: Option<string>)
    ensures value.None? ==> r.None?
    ensures value.Some? && Strip(value.value) != "" ==> r == Some(Strip(value.value))
    ensures value.Some? && Strip(value.value) == "" ==> r == value
  {
    if value.Some? && Strip(value.value) != "" then Some(Strip(value.value)) else value
  }

  /** The numeric fields with bounds. */
  datatype Limits = Limits(
    topKChunks: int, topKSummaries: int, chunkSize: int, chunkOverlap: int,
    duplicateThreshold: real, chapterVersions: int, maxTokens: Option<int>)

  /** The field constraints: both top-k at least 0, chunk size at least 128,
      overlap at least 0, the duplicate threshold in [0, 1], at least one
      chapter version, and a positive token cap when one is set. */
  predicate LimitsValid(l: Limits) {
    l.topKChunks >= 0 && l.topKSummaries >= 0 && l.chunkSize >= 128 && l.chunkOverlap >= 0
    && 0.0 <= l.duplicateThreshold <= 1.0 && l.chapterVersions >= 1
    && (l.maxTokens.Some? ==> l.maxTokens.value >= 1)
  }

  /** The defaults: 5 and 3 results, chunks of 480 with 120 overlap, a 0.9
      threshold, 2 versions and no token cap. */
  function DefaultLimits(): (l: Limits)
    ensures LimitsValid(l)
    ensures l.chunkOverlap < l.chunkSize / 2
  {
    Limits(5, 3, 480, 120, 0.9, 2, None)
  }
}

=== FILE: sse.dfy ===
/** Server-sent event frames: the text the blueprint routes write for each
    event, and the browser client that reads them back out of a growing
    buffer and updates its progress state. Payloads are JSON text; the
    client's `JSON.parse` is a parameter. */
module Sse {
  import opened Wrappers
  import opened Text
  import opened Sanitizer

  // ---------------------------------------------------------------------------
  // Frames on the wire
  // ---------------------------------------------------------------------------

  /** The blank line that ends a frame. */
  const FrameSep: string := "\n\n"

  /** An event as the server emits it: its name and its JSON text. */
  datatype ServerEvent = ServerEvent(kind: string, data: string)

  /** A frame without the blank line that ends it. */
  function FrameBody(e: ServerEvent): string {
    "event: " + e.kind + "\n" + "data: " + e.data
  }

  /** The frame text `event: <kind>\ndata: <data>\n\n`. */
  function Frame(e: ServerEvent): string {
    FrameBody(e) + FrameSep
  }

  function Bodies(events: seq<ServerEvent>): (r: seq<string>)
    ensures |r| == |events| && forall i :: 0 <= i < |events| ==> r[i] == FrameBody(events[i])
  {
    seq(|events|, i requires 0 <= i < |events| => FrameBody(events[i]))
  }

  /** What the client receives: the frames back to back. */
  function Wire(events: seq<ServerEvent>): string {
    JoinTerminated(Bodies(events), FrameSep)
  }

  /** A value that fits on one frame line and survives the client's trim:
      not empty, no line break, no surrounding whitespace. `json.dumps`
      without indentation writes such text. */
  predicate LineSafe(s: string) {
    s != [] && IsStripped(s) && forall i :: 0 <= i < |s| ==> s[i] != '\n'
  }

  predicate SafeEvent(e: ServerEvent) {
    LineSafe(e.kind) && LineSafe(e.data)
  }

  // ---------------------------------------------------------------------------
  // Reading one frame (useBlueprintSSE.ts)
  // ---------------------------------------------------------------------------

  /** The client's reading of one frame. */
  datatype Parsed = Skipped | Event(kind: string, data: string) | Crashed

  /** The lines of a frame, as `frame.split('\n')`. */
  function Lines(frame: string): (r: seq<string>)
    ensures |r| >= 1
  {
    Split(frame, "\n")
  }

  predicate NoNewline(s: string) {
    forall i :: 0 <= i < |s| ==> s[i] != '\n'
  }

  /** A frame has a second line exactly when it holds a line break, and its
      first line starts with `event:` exactly when the frame does. */
  lemma LinesOf(frame: string)
    ensures |Lines(frame)| == 1 <==> NoNewline(frame)
    ensures StartsWith(Lines(frame)[0], "event:") <==> StartsWith(frame, "event:")
  {
    SplitFromFind(frame, "\n", "");
    var f := Find(frame, "\n");
    if f == -1 {
      assert "" + frame == frame;
      forall i | 0 <= i < |frame| ensures frame[i] != '\n' {
        assert !OccursAt(frame, "\n", i);
      }
    } else {
      assert frame[f..f + 1] == "\n";
      assert frame[f] == '\n';
      assert "" + frame[..f] == frame[..f];
      assert Lines(frame)[0] == frame[..f];
      if StartsWith(frame, "event:") {
        forall j | 0 <= j < 6 ensures !OccursAt(frame, "\n", j) {
          assert frame[j..j + 1][0] == "event:"[j];
        }
        assert f >= 6;
        assert frame[..f][..6] == frame[..6];
      }
    }
  }

  /** The reading as written (lines 77-85): a blank frame is skipped; the
      first two lines are taken as the event line and the data line, and a
      frame whose lines do not start with `event:` and `data:` is skipped.
      A frame of one line that starts with `event:` has no data line, and
      asking it for its prefix throws outside the handler that guards
      parsing. */
  function ParseFrameWritten(frame: string): (r: Parsed)
    ensures r.Crashed? <==> StartsWith(frame, "event:") && NoNewline(frame)
    ensures r.Event? ==> StartsWith(frame, "event:")
  {
    LinesOf(frame);
    var lines := Lines(frame);
    assert StartsWith(frame, "event:") ==> !IsSpace(frame[0]);
    if IsBlank(frame) then Skipped
    else if !StartsWith(lines[0], "event:") then Skipped
    else if |lines| < 2 then Crashed
    else if !StartsWith(lines[1], "data:") then Skipped
    else Event(Strip(lines[0][6..]), Strip(lines[1][5..]))
  }

  /** The reading the skip at line 80-81 evidently intends: a frame without
      a data line is skipped like any other malformed frame. Every other
      frame reads as written. */
  function ParseFrame(frame: string): (r: Parsed)
    ensures !r.Crashed?
    ensures r == if ParseFrameWritten(frame).Crashed? then Skipped else ParseFrameWritten(frame)
  {
    var lines := Lines(frame);
    if IsBlank(frame) || !StartsWith(lines[0], "event:") || |lines| < 2 || !StartsWith(lines[1], "data:") then Skipped
    else Event(Strip(lines[0][6..]), Strip(lines[1][5..]))
  }

  /** A one-line frame starting with `event:` throws as written, and is
      skipped once corrected. */
  lemma WrittenOneLineFrameCrashes()
    ensures ParseFrameWritten("event: progress").Crashed?
    ensures ParseFrame("event: progress") == Skipped
  {
    assert StartsWith("event: progress", "event:");
    assert NoNewline("event: progress");
  }

  /** The two lines of a frame body. */
  lemma FrameLines(e: ServerEvent)
    requires SafeEvent(e)
    ensures Lines(FrameBody(e)) == ["event: " + e.kind, "data: " + e.data]
  {
    var parts := ["event: " + e.kind, "data: " + e.data];
    assert Join(parts, "\n") == FrameBody(e) by {
      assert Join(parts[1..], "\n") == parts[1];
    }
    forall k, i | 0 <= k < |parts| && 0 <= i < |parts[k]| ensures parts[k][i] != '\n' {
      if k == 0 {
        assert i < 7 ==> parts[0][i] == "event: "[i];
        assert i >= 7 ==> parts[0][i] == e.kind[i - 7];
      } else {
        assert i < 6 ==> parts[1][i] == "data: "[i];
        assert i >= 6 ==> parts[1][i] == e.data[i - 6];
      }
    }
    SplitJoinChar(parts, '\n');
  }

  /** The client reads back the event the server framed: its name and its
      JSON text. */
  lemma FrameRoundTrip(e: ServerEvent)
    requires SafeEvent(e)
    ensures ParseFrame(FrameBody(e)) == Event(e.kind, e.data)
  {
    var body := FrameBody(e);
    FrameLines(e);
    assert body[0] == 'e';
    assert !IsBlank(body);
    assert "event:" + " " + e.kind == "event: " + e.kind;
    assert "data:" + " " + e.data == "data: " + e.data;
    TrimmedField("event:", e.kind);
    TrimmedField("data:", e.data);
  }

  /** A field line read back: the tag, a space and the value, trimmed after
      the tag, is the value. */
  lemma TrimmedField(tag: string, v: string)
    requires LineSafe(v)
    ensures StartsWith(tag + " " + v, tag)
    ensures Strip((tag + " " + v)[|tag|..]) == v
  {
    assert (tag + " " + v)[..|tag|] == tag;
    assert (tag + " " + v)[|tag|..] == " " + v + "";
    StripPadded(" ", v, "");
  }

  // ---------------------------------------------------------------------------
  // Splitting the buffer into frames
  // ---------------------------------------------------------------------------

  /** The complete frames in a received text: every piece between blank
      lines except the last, which the client keeps as its buffer. */
  function Frames(text: string): (r: seq<string>)
    ensures r + [Split(text, FrameSep)[|Split(text, FrameSep)| - 1]] == Split(text, FrameSep)
  {
    var p := Split(text, FrameSep);
    p[..|p| - 1]
  }

  /** A frame body holds no blank line, not even where it meets the blank
      line that ends it. */
  lemma BodyHasNoBlankLine(e: ServerEvent)
    requires SafeEvent(e)
    ensures forall j :: 0 <= j < |FrameBody(e)| ==> !OccursAt(FrameBody(e) + FrameSep, FrameSep, j)
  {
    var b := FrameBody(e);
    var p := 7 + |e.kind|;
    assert b[p] == '\n' && b[p + 1] == 'd';
    forall j | 0 <= j < |b| && j != p ensures b[j] != '\n' {
      if j < 7 {
        assert b[j] == "event: "[j];
      } else if j < p {
        assert b[j] == e.kind[j - 7];
      } else if j < p + 7 {
        assert b[j] == "data: "[j - p - 1];
      } else {
        assert b[j] == e.data[j - p - 7];
      }
    }
    forall j | 0 <= j < |b| ensures !OccursAt(b + FrameSep, FrameSep, j) {
      var w := b + FrameSep;
      assert w[j] == b[j];
      if j + 2 <= |w| {
        assert w[j..j + 2][0] == w[j] && w[j..j + 2][1] == w[j + 1];
        if j == p {
          assert w[j + 1] == 'd';
        }
      }
    }
  }

  /** The frames the client finds in the server's output are the server's
      frames, in order, each read back as the event it was. */
  lemma WireRoundTrip(events: seq<ServerEvent>)
    requires forall i :: 0 <= i < |events| ==> SafeEvent(events[i])
    ensures Frames(Wire(events)) == Bodies(events)
    ensures forall i :: 0 <= i < |events| ==> ParseFrame(Frames(Wire(events))[i]) == Event(events[i].kind, events[i].data)
  {
    var bodies := Bodies(events);
    forall k, j | 0 <= k < |bodies| && 0 <= j < |bodies[k]| ensures !OccursAt(bodies[k] + FrameSep, FrameSep, j) {
      BodyHasNoBlankLine(events[k]);
    }
    SplitJoinTerminated(bodies, FrameSep);
    assert (bodies + [""])[..|bodies|] == bodies;
    forall i | 0 <= i < |events| ensures ParseFrame(bodies[i]) == Event(events[i].kind, events[i].data) {
      FrameRoundTrip(events[i]);
    }
  }

  // ---------------------------------------------------------------------------
  // Client state
  // ---------------------------------------------------------------------------

  /** JavaScript truthiness of a property value; None is `undefined`. */
  predicate JsTruthy(v: Option<Json>) {
    v.Some? &&
    match v.value
    case JNull => false
    case JBool(b) => b
    case JNum(n) => n != 0
    case JStr(s) => s != ""
    case _ => true
  }

  /** The value of the last member named `key`: `JSON.parse` keeps the last
      of duplicate keys. */
  function LastValue(ms: seq<Member>, key: string): (r: Option<Json>)
    ensures r.None? <==> forall i :: 0 <= i < |ms| ==> ms[i].key != key
    ensures r.Some? ==> Member(key, r.value) in ms
  {
    if ms == [] then None
    else if ms[|ms| - 1].key == key then Some(ms[|ms| - 1].value)
    else
      var r := LastValue(ms[..|ms| - 1], key);
      assert forall i :: 0 <= i < |ms| - 1 ==> ms[..|ms| - 1][i] == ms[i];
      r
  }

  /** A member no later member shares its key with is the one found. */
  lemma {:induction false} LastValueAt(ms: seq<Member>, key: string, i: nat)
    requires i < |ms| && ms[i].key == key
    requires forall j :: i < j < |ms| ==> ms[j].key != key
    ensures LastValue(ms, key) == Some(ms[i].value)
    decreases |ms|
  {
    if i < |ms| - 1 {
      var init := ms[..|ms| - 1];
      assert init[i] == ms[i];
      assert forall j :: i < j < |init| ==> init[j] == ms[j];
      LastValueAt(init, key, i);
    }
  }

  /** `data.key` on a parsed value that is not null: an object's member, or
      `undefined` for anything else. */
  function Prop(v: Json, key: string): (r: Option<Json>)
    ensures !v.JObj? ==> r.None?
    ensures v.JObj? ==> r == LastValue(v.members, key)
  {
    if v.JObj? then LastValue(v.members, key) else None
  }

  /** The reactive state. Fields copied from a payload hold what the payload
      gave, None where it had no such property. */
  datatype ClientState = ClientState(
    isGenerating: bool, progress: Option<Json>, currentStep: Option<Json>, totalSteps: Option<Json>,
    statusMessage: Option<Json>, error: Option<Json>)

  /** The state `startGeneration` sets before connecting. */
  const Connecting: ClientState :=
    ClientState(true, Some(JNum(0)), Some(JNum(0)), Some(JNum(7)), Some(JStr("正在连接...")), None)

  /** How the promise `startGeneration` returns settles: not yet, resolved
      with the blueprint, rejected with the server's error, or rejected by
      the exception a frame without data line throws. */
  datatype Outcome = Pending | Resolved(blueprint: Option<Json>) | ServerRejected(error: Option<Json>) | CrashRejected

  const DefaultError: string := "生成失败，请重试"
  const Completed: string := "生成完成！"

  /** The message of the exception thrown when the missing data line is
      asked for its prefix (the V8 wording). */
  const TypeErrorMessage: string := "Cannot read properties of undefined (reading 'startsWith')"

  /** One parsed event (lines 87-109). `data` is the result of `JSON.parse`,
      None when it threw; the handler then logs and goes on. A null payload
      throws at its first property access, after any assignments before it.
      A progress event copies step, total, percentage and message; a complete
      event sets the progress to 100, stops and resolves with the blueprint;
      an error event records the error, or a default when it is falsy, stops
      and rejects; other events change nothing. */
  function Handle(st: ClientState, kind: string, data: Option<Json>): (r: (ClientState, Outcome))
    ensures data.None? ==> r == (st, Pending)
    ensures kind != "progress" && kind != "complete" && kind != "error" ==> r == (st, Pending)
    ensures r.1.Resolved? <==> kind == "complete" && data.Some? && !data.value.JNull?
    ensures r.1.ServerRejected? <==> kind == "error" && data.Some? && !data.value.JNull?
    ensures !r.1.CrashRejected?
    ensures r.1 != Pending ==> !r.0.isGenerating
    ensures r.1.ServerRejected? ==> JsTruthy(r.0.error)
    ensures kind == "complete" && data == Some(JNull) ==>
              r == (st.(progress := Some(JNum(100)), statusMessage := Some(JStr(Completed)), isGenerating := false),
                    Pending)
    ensures (kind == "progress" || kind == "error") && data == Some(JNull) ==> r == (st, Pending)
  {
    if data.None? then (st, Pending)
    else
      var d := data.value;
      if kind == "progress" then
        if d.JNull? then (st, Pending)
        else (st.(currentStep := Prop(d, "step"), totalSteps := Prop(d, "total"),
                  progress := Prop(d, "percentage"), statusMessage := Prop(d, "message")), Pending)
      else if kind == "complete" then
        var done := st.(progress := Some(JNum(100)), statusMessage := Some(JStr(Completed)), isGenerating := false);
        if d.JNull? then (done, Pending) else (done, Resolved(Prop(d, "blueprint")))
      else if kind == "error" then
        if d.JNull? then (st, Pending)
        else
          var e := Prop(d, "error");
          var shown := if JsTruthy(e) then e.value else JStr(DefaultError);
          (st.(error := Some(shown), isGenerating := false), ServerRejected(e))
      else (st, Pending)
  }

  /** One frame: a skipped frame changes nothing, an event is handled, and
      the exception of a frame without data line is caught by the outer
      handler, which records its message, stops and rejects. */
  function Step(st: ClientState, p: Parsed, parse: string -> Option<Json>): (r: (ClientState, Outcome))
    ensures p.Skipped? ==> r == (st, Pending)
    ensures p.Event? ==> r == Handle(st, p.kind, parse(p.data))
    ensures p.Crashed? ==> r.1 == CrashRejected && !r.0.isGenerating
  {
    match p
    case Skipped => (st, Pending)
    case Event(kind, data) => Handle(st, kind, parse(data))
    case Crashed => (st.(error := Some(JStr(TypeErrorMessage)), isGenerating := false), CrashRejected)
  }

  /** The frames in order until one settles the promise. Read with the
      corrected parser, no frame throws. */
  function Fold(st: ClientState, frames: seq<string>, parse: string -> Option<Json>): (r: (ClientState, Outcome))
    ensures frames == [] ==> r == (st, Pending)
    ensures r.1 != CrashRejected
    ensures r.1 != Pending ==> !r.0.isGenerating
    decreases |frames|
  {
    if frames == [] then (st, Pending)
    else
      var next := Step(st, ParseFrame(frames[0]), parse);
      if next.1 != Pending then next else Fold(next.0, frames[1..], parse)
  }

  /** The whole stream: the frames, then, if nothing settled, the clean-up
      when the body ends. That clean-up also clears the ten-minute timer,
      so nothing is left to settle the promise: it stays pending for ever. */
  function Run(frames: seq<string>, parse: string -> Option<Json>): (r: (ClientState, Outcome))
    ensures !r.0.isGenerating
    ensures r.1 != CrashRejected
    ensures r.1 == Fold(Connecting, frames, parse).1
  {
    var f := Fold(Connecting, frames, parse);
    if f.1 == Pending then (f.0.(isGenerating := false), Pending) else f
  }

  /** The frames in order, read as written: a frame of one `event:` line
      throws, which ends the read. */
  function FoldWritten(st: ClientState, frames: seq<string>, parse: string -> Option<Json>)
    : (r: (ClientState, Outcome))
    ensures frames == [] ==> r == (st, Pending)
    ensures r.1 != Pending ==> !r.0.isGenerating
    decreases |frames|
  {
    if frames == [] then (st, Pending)
    else
      var next := Step(st, ParseFrameWritten(frames[0]), parse);
      if next.1 != Pending then next else FoldWritten(next.0, frames[1..], parse)
  }

  /** The whole stream read as written. */
  function RunWritten(frames: seq<string>, parse: string -> Option<Json>): (r: (ClientState, Outcome))
    ensures !r.0.isGenerating
    ensures r.1 == FoldWritten(Connecting, frames, parse).1
  {
    var f := FoldWritten(Connecting, frames, parse);
    if f.1 == Pending then (f.0.(isGenerating := false), Pending) else f
  }

  /** Where no frame lacks its data line, the written and the corrected
      reading agree. */
  lemma {:induction false} FoldWrittenAgrees(st: ClientState, frames: seq<string>, parse: string -> Option<Json>)
    requires forall i :: 0 <= i < |frames| ==> !ParseFrameWritten(frames[i]).Crashed?
    ensures FoldWritten(st, frames, parse) == Fold(st, frames, parse)
    decreases |frames|
  {
    if frames != [] {
      assert ParseFrame(frames[0]) == ParseFrameWritten(frames[0]);
      var next := Step(st, ParseFrame(frames[0]), parse);
      assert forall i :: 0 <= i < |frames[1..]| ==> frames[1..][i] == frames[i + 1];
      FoldWrittenAgrees(next.0, frames[1..], parse);
    }
  }

  /** The first frame that lacks its data line, reached while the promise
      is pending, rejects the written reading with the exception's message;
      the corrected reading skips it. */
  lemma {:induction false} FoldWrittenCrashes(st: ClientState, frames: seq<string>, k: nat,
                                              parse: string -> Option<Json>)
    requires k < |frames| && ParseFrameWritten(frames[k]).Crashed?
    requires forall i :: 0 <= i < k ==> !ParseFrameWritten(frames[i]).Crashed?
    requires Fold(st, frames[..k], parse).1 == Pending
    ensures FoldWritten(st, frames, parse)
            == (Fold(st, frames[..k], parse).0.(error := Some(JStr(TypeErrorMessage)), isGenerating := false),
                CrashRejected)
    ensures Fold(st, frames[..k + 1], parse) == (Fold(st, frames[..k], parse).0, Pending)
    decreases k
  {
    assert ParseFrame(frames[k]) == Skipped;
    if k == 0 {
      assert frames[..1] == [frames[0]];
    } else {
      assert ParseFrame(frames[0]) == ParseFrameWritten(frames[0]);
      var next := Step(st, ParseFrame(frames[0]), parse);
      assert frames[..k][0] == frames[0] && frames[..k][1..] == frames[1..][..k - 1];
      assert frames[..k + 1][0] == frames[0] && frames[..k + 1][1..] == frames[1..][..k];
      assert forall i :: 0 <= i < k - 1 ==> frames[1..][i] == frames[i + 1];
      FoldWrittenCrashes(next.0, frames[1..], k - 1, parse);
    }
  }

  /** The smallest stream that tells the two readings apart: one frame
      without its data line. */
  lemma WrittenStreamRejects(parse: string -> Option<Json>)
    ensures RunWritten(["event: progress"], parse).1 == CrashRejected
    ensures Run(["event: progress"], parse).1 == Pending
  {
    WrittenOneLineFrameCrashes();
    assert ["event: progress"][1..] == [];
  }

  /** Reading one more frame continues from where the fold stood. */
  lemma {:induction false} FoldSnoc(st: ClientState, frames: seq<string>, frame: string, parse: string -> Option<Json>)
    requires Fold(st, frames, parse).1 == Pending
    ensures Fold(st, frames + [frame], parse) == Step(Fold(st, frames, parse).0, ParseFrame(frame), parse)
    decreases |frames|
  {
    if frames == [] {
      assert [] + [frame] == [frame];
    } else {
      var next := Step(st, ParseFrame(frames[0]), parse);
      assert (frames + [frame])[0] == frames[0];
      assert (frames + [frame])[1..] == frames[1..] + [frame];
      FoldSnoc(next.0, frames[1..], frame, parse);
    }
  }

  /** Once a frame settles the promise, later frames are not read. */
  lemma {:induction false} FoldSettled(st: ClientState, frames: seq<string>, later: seq<string>,
                                       parse: string -> Option<Json>)
    requires Fold(st, frames, parse).1 != Pending
    ensures Fold(st, frames + later, parse) == Fold(st, frames, parse)
    decreases |frames|
  {
    var next := Step(st, ParseFrame(frames[0]), parse);
    assert (frames + later)[0] == frames[0];
    if next.1 == Pending {
      assert (frames + later)[1..] == frames[1..] + later;
      FoldSettled(next.0, frames[1..], later, parse);
    }
  }

  /** The frames of a text whose split begins with `pre` are `pre` and the
      frames of the rest. */
  lemma FramesAfter(all: string, pre: seq<string>, rest: string)
    requires pre + Split(rest, FrameSep) == Split(all, FrameSep)
    ensures Frames(all) == pre + Frames(rest)
  {
    var r := Split(rest, FrameSep);
    assert Frames(all) == (pre + r)[..|pre + r| - 1];
    assert (pre + r)[..|pre + r| - 1] == pre + r[..|r| - 1];
  }

  lemma JoinEmptyCons(chunks: seq<string>, k: nat)
    requires k < |chunks|
    ensures Join(chunks[k..], "") == chunks[k] + Join(chunks[k + 1..], "")
  {
    if k + 1 == |chunks| {
      assert chunks[k..] == [chunks[k]];
      assert chunks[k] + "" == chunks[k];
    } else {
      assert chunks[k..][1..] == chunks[k + 1..];
    }
  }

  /** `startGeneration`'s read loop (lines 65-113): each chunk is appended to
      the buffer, the buffer is split on blank lines, the last piece is kept
      as the new buffer and the others are read as frames; a settled promise
      ends the loop, and the end of the body cleans up. The result is that
      of reading the complete frames of the whole text at once, so where the
      network cuts the chunks does not matter. */
  method ReadStream(chunks: seq<string>, parse: string -> Option<Json>) returns (st: ClientState, outcome: Outcome)
    ensures (st, outcome) == Run(Frames(Join(chunks, "")), parse)
    ensures (forall i :: 0 <= i < |Frames(Join(chunks, ""))| ==> !ParseFrameWritten(Frames(Join(chunks, ""))[i]).Crashed?)
            ==> (st, outcome) == RunWritten(Frames(Join(chunks, "")), parse)
  {
    if forall i :: 0 <= i < |Frames(Join(chunks, ""))| ==> !ParseFrameWritten(Frames(Join(chunks, ""))[i]).Crashed? {
      FoldWrittenAgrees(Connecting, Frames(Join(chunks, "")), parse);
    }
    var buffer := "";
    st, outcome := Connecting, Pending;
    ghost var done: seq<string> := [];
    ghost var all := Join(chunks, "");
    var k := 0;
    assert chunks[0..] == chunks;
    assert buffer + Join(chunks[0..], "") == all;
    while k < |chunks|
      invariant 0 <= k <= |chunks|
      invariant done + Split(buffer + Join(chunks[k..], ""), FrameSep) == Split(all, FrameSep)
      invariant Find(buffer, FrameSep) == -1
      invariant Fold(Connecting, done, parse) == (st, Pending) && outcome == Pending
    {
      NextChunk(all, done, buffer, chunks, k);
      var pieces := Split(buffer + chunks[k], FrameSep);
      var frames := pieces[..|pieces| - 1];
      buffer := pieces[|pieces| - 1];
      st, outcome := ReadFrames(st, done, frames, parse);
      if outcome != Pending {
        SettledEarly(all, done, frames, buffer + Join(chunks[k + 1..], ""), parse);
        return;
      }
      done := done + frames;
      k := k + 1;
    }
    EndOfStream(all, done, buffer);
    st := st.(isGenerating := false);
  }

  /** One chunk more: the pieces before the last are complete frames, and
      the last one is the new buffer, which holds no blank line. */
  lemma NextChunk(all: string, done: seq<string>, buffer: string, chunks: seq<string>, k: nat)
    requires k < |chunks|
    requires done + Split(buffer + Join(chunks[k..], ""), FrameSep) == Split(all, FrameSep)
    ensures var pieces := Split(buffer + chunks[k], FrameSep);
            done + pieces[..|pieces| - 1] + Split(pieces[|pieces| - 1] + Join(chunks[k + 1..], ""), FrameSep)
              == Split(all, FrameSep)
            && Find(pieces[|pieces| - 1], FrameSep) == -1
  {
    JoinEmptyCons(chunks, k);
    var text := buffer + chunks[k];
    var later := Join(chunks[k + 1..], "");
    assert buffer + Join(chunks[k..], "") == text + later;
    SplitAppend(text, later, FrameSep);
    LastPieceHasNoSep(text, FrameSep);
  }

  /** The inner loop over the complete frames of one chunk (lines 72-110):
      each frame is read in turn until one settles the promise. The result
      is the fold over the frames read before and these. */
  method ReadFrames(st0: ClientState, ghost done: seq<string>, frames: seq<string>, parse: string -> Option<Json>)
    returns (st: ClientState, outcome: Outcome)
    requires Fold(Connecting, done, parse) == (st0, Pending)
    ensures Fold(Connecting, done + frames, parse) == (st, outcome)
  {
    st, outcome := st0, Pending;
    var i := 0;
    assert done + frames[..0] == done;
    while i < |frames|
      invariant 0 <= i <= |frames|
      invariant Fold(Connecting, done + frames[..i], parse) == (st, Pending) && outcome == Pending
    {
      FoldSnoc(Connecting, done + frames[..i], frames[i], parse);
      PrefixSteps(done, frames, i);
      var next := Step(st, ParseFrame(frames[i]), parse);
      st, outcome := next.0, next.1;
      if outcome != Pending {
        FoldSettled(Connecting, done + frames[..i + 1], frames[i + 1..], parse);
        return;
      }
      i := i + 1;
    }
    assert frames[..|frames|] == frames;
  }

  /** A prefix one longer is the prefix and the next frame; with the rest
      it is the whole. */
  lemma PrefixSteps(done: seq<string>, frames: seq<string>, i: nat)
    requires i < |frames|
    ensures done + frames[..i + 1] == done + frames[..i] + [frames[i]]
    ensures done + frames[..i + 1] + frames[i + 1..] == done + frames
  {
    assert frames[..i + 1] + frames[i + 1..] == frames;
  }

  /** A chunk whose frames settle the promise settles the whole read. */
  lemma SettledEarly(all: string, done: seq<string>, frames: seq<string>, rest: string,
                     parse: string -> Option<Json>)
    requires done + frames + Split(rest, FrameSep) == Split(all, FrameSep)
    requires Fold(Connecting, done + frames, parse).1 != Pending
    ensures Fold(Connecting, Frames(all), parse) == Fold(Connecting, done + frames, parse)
  {
    FramesAfter(all, done + frames, rest);
    FoldSettled(Connecting, done + frames, Frames(rest), parse);
  }

  /** When the body ends the buffer holds no blank line, so every complete
      frame has been read. */
  lemma EndOfStream(all: string, done: seq<string>, buffer: string)
    requires done + Split(buffer + Join([], ""), FrameSep) == Split(all, FrameSep)
    requires Find(buffer, FrameSep) == -1
    ensures Frames(all) == done
  {
    assert buffer + Join([], "") == buffer;
    SplitFromFind(buffer, FrameSep, "");
    assert "" + buffer == buffer;
    FramesAfter(all, done, buffer);
    assert done + [] == done;
  }
}

=== FILE: stores.dfy ===
/** The key-value tables behind the services: system configuration entries,
    administrator settings, and usage counters. Each table is a map keyed by
    its primary key. */
module Stores {
  import opened Wrappers

  // ---------------------------------------------------------------------------
  // System configuration
  // ---------------------------------------------------------------------------

  /** A `system_configs` row: the value is required, the description not. */
  datatype ConfigEntry = ConfigEntry(value: string, description: Option<string>)

  type ConfigTable = map<string, ConfigEntry>

  /** `get_config`: the entry, or None for a missing key. */
  function GetConfig(t: ConfigTable, key: string): (r: Option<ConfigEntry>)
    ensures r.None? <==> key !in t
    ensures r.Some? ==> r.value == t[key]
  {
    if key in t then Some(t[key]) else None
  }

  /** The value of a configuration entry, or None; what `_get_config_value`
      of the authentication service returns. */
  function ConfigValue(t: ConfigTable, key: string): (r: Option<string>)
    ensures r.None? <==> key !in t
    ensures r.Some? ==> r.value == t[key].value
  {
    if key in t then Some(t[key].value) else None
  }

  /** Only `key` may differ between the two tables. */
  ghost predicate OthersUnchanged<K(!new), V>(before: map<K, V>, after: map<K, V>, key: K) {
    forall k :: k != key ==> (k in after <==> k in before) && (k in before ==> after[k] == before[k])
  }

  /** `upsert_config`: an absent key is created as given; an existing key
      takes the new value and keeps its description when none is given. */
  function UpsertConfig(t: ConfigTable, key: string, value: string, description: Option<string>)
    : (r: (ConfigTable, ConfigEntry))
    ensures key in r.0 && r.0[key] == r.1 && r.1.value == value
    ensures key !in t ==> r.1.description == description
    ensures key in t && description.None? ==> r.1.description == t[key].description
    ensures key in t && description.Some? ==> r.1.description == description
    ensures OthersUnchanged(t, r.0, key)
  {
    var e := if key in t then ConfigEntry(value, if description.Some? then description else t[key].description)
             else ConfigEntry(value, description);
    (t[key := e], e)
  }

  /** `patch_config`: None for a missing key; otherwise only the fields given
      with a value change (a field left unset and a field set to None are
      both skipped). */
  function PatchConfig(t: ConfigTable, key: string, value: Option<string>, description: Option<string>)
    : (r: (ConfigTable, Option<ConfigEntry>))
    ensures key !in t <==> r.1.None?
    ensures key !in t ==> r.0 == t
    ensures r.1.Some? ==> key in r.0 && r.0[key] == r.1.value
                          && r.1.value.value == value.GetOr(t[key].value)
                          && r.1.value.description == (if description.Some? then description else t[key].description)
    ensures OthersUnchanged(t, r.0, key)
  {
    if key !in t then (t, None)
    else
      var prev := t[key];
      var e := ConfigEntry(value.GetOr(prev.value), if description.Some? then description else prev.description);
      (t[key := e], Some(e))
  }

  /** `remove_config`: False for a missing key, True once an existing one is
      deleted. */
  function RemoveConfig(t: ConfigTable, key: string): (r: (ConfigTable, bool))
    ensures r.1 <==> key in t
    ensures key !in r.0
    ensures OthersUnchanged(t, r.0, key)
  {
    if key !in t then (t, false) else (t - {key}, true)
  }

  /** A patch with nothing set changes nothing. */
  lemma EmptyPatchChangesNothing(t: ConfigTable, key: string)
    ensures PatchConfig(t, key, None, None).0 == t
  {
    if key in t {
      assert t[key := t[key]] == t;
    }
  }

  /** An upsert followed by a get reads the value back. */
  lemma UpsertThenGet(t: ConfigTable, key: string, value: string, description: Option<string>)
    ensures var r := UpsertConfig(t, key, value, description);
            GetConfig(r.0, key) == Some(r.1) && ConfigValue(r.0, key) == Some(value)
  {
  }

  /** A removed key is gone and a second removal reports False. */
  lemma RemoveTwice(t: ConfigTable, key: string)
    ensures GetConfig(RemoveConfig(t, key).0, key).None?
    ensures !RemoveConfig(RemoveConfig(t, key).0, key).1
  {
  }

  // ---------------------------------------------------------------------------
  // Administrator settings
  // ---------------------------------------------------------------------------

  type SettingTable = map<string, string>

  /** `AdminSettingService.get`: the stored value, or the default. */
  function GetSetting(t: SettingTable, key: string, default: Option<string>): (r: Option<string>)
    ensures key in t ==> r == Some(t[key])
    ensures key !in t ==> r == default
  {
    if key in t then Some(t[key]) else default
  }

  /** `AdminSettingService.set`: creates the key or overwrites its value. */
  function SetSetting(t: SettingTable, key: string, value: string): (r: SettingTable)
    ensures key in r && r[key] == value
    ensures OthersUnchanged(t, r, key)
  {
    t[key := value]
  }

  /** After `set(k, v)`, `get(k, d)` is v whatever the default. */
  lemma SetThenGet(t: SettingTable, key: string, value: string, default: Option<string>)
    ensures GetSetting(SetSetting(t, key, value), key, default) == Some(value)
  {
  }

  // ---------------------------------------------------------------------------
  // Usage counters
  // ---------------------------------------------------------------------------

  type CounterTable = map<string, int>

  /** The counter's value, 0 when there is none yet. */
  function Count(t: CounterTable, key: string): (n: int)
    ensures key !in t ==> n == 0
  {
    if key in t then t[key] else 0
  }

  /** `UsageService.increment`: `get_or_create` followed by one increment. */
  function Increment(t: CounterTable, key: string): (r: CounterTable)
    ensures key in r && Count(r, key) == Count(t, key) + 1
    ensures OthersUnchanged(t, r, key)
  {
    t[key := Count(t, key) + 1]
  }

  /** `UsageService.get_value`: the counter, created at 0 when unseen; the
      counter itself does not move. */
  function GetValue(t: CounterTable, key: string): (r: (CounterTable, int))
    ensures key in r.0 && r.0[key] == r.1 && r.1 == Count(t, key)
    ensures key in t ==> r.0 == t
    ensures OthersUnchanged(t, r.0, key)
  {
    if key in t then (t, t[key]) else (t[key := 0], 0)
  }

  /** The first increment of an unseen key gives 1. */
  lemma FirstIncrementIsOne(t: CounterTable, key: string)
    requires key !in t
    ensures GetValue(Increment(t, key), key).1 == 1
  {
  }

  /** Reading a counter never changes what the next read or increment sees. */
  lemma GetValueIsObservationallyPure(t: CounterTable, key: string, other: string)
    ensures Count(GetValue(t, key).0, other) == Count(t, other)
    ensures Count(Increment(GetValue(t, key).0, other), other) == Count(Increment(t, other), other)
  {
  }
}

=== FILE: text.dfy ===
/** String helpers with the semantics of the Python and JavaScript built-ins the
    services use: `strip`/`trim`, `split`, `join`, `replace`, `rfind`, `str(int)`
    and `int(str)`. Strings are sequences of Unicode scalar values, as Python's
    `str` is. */
module Text {
  import opened Wrappers

  /** ASCII whitespace as `str.strip()` and `str.split()` treat it. */
  predicate IsSpace(c: char) {
    c == ' ' || c == '\t' || c == '\n' || c == '\r' || c == '\U{000B}' || c == '\U{000C}'
  }

  /** Every character is whitespace (the empty string included). */
  predicate IsBlank(s: string) {
    forall i :: 0 <= i < |s| ==> IsSpace(s[i])
  }

  /** Neither the first nor the last character is whitespace. */
  predicate IsStripped(s: string) {
    s == [] || (!IsSpace(s[0]) && !IsSpace(s[|s| - 1]))
  }

  predicate StartsWith(s: string, prefix: string) {
    |prefix| <= |s| && s[..|prefix|] == prefix
  }

  predicate EndsWith(s: string, suffix: string) {
    |suffix| <= |s| && s[|s| - |suffix|..] == suffix
  }

  /** `pat` occurs in `s` starting at index `i`. */
  predicate OccursAt(s: string, pat: string, i: int) {
    0 <= i && i + |pat| <= |s| && s[i..i + |pat|] == pat
  }

  /** `pat` occurs somewhere in `s` (Python's `pat in s`). */
  predicate Contains(s: string, pat: string) {
    exists i :: 0 <= i <= |s| - |pat| && OccursAt(s, pat, i)
  }

  /** The first index at or after `i` whose character is not whitespace, or `|s|`. */
  function FirstNonSpace(s: string, i: nat): (a: nat)
    requires i <= |s|
    ensures i <= a <= |s|
    ensures forall j :: i <= j < a ==> IsSpace(s[j])
    ensures a == |s| || !IsSpace(s[a])
    decreases |s| - i
  {
    if i == |s| || !IsSpace(s[i]) then i else FirstNonSpace(s, i + 1)
  }

  /** The end of the last non-whitespace character in `s[lo..e]`, or `lo`. */
  function LastNonSpaceEnd(s: string, lo: nat, e: nat): (b: nat)
    requires lo <= e <= |s|
    ensures lo <= b <= e
    ensures forall j :: b <= j < e ==> IsSpace(s[j])
    ensures b == lo || !IsSpace(s[b - 1])
    decreases e
  {
    if e == lo || !IsSpace(s[e - 1]) then e else LastNonSpaceEnd(s, lo, e - 1)
  }

  /** Index of the first character `Strip` keeps. */
  function StripStart(s: string): (a: nat)
    ensures a <= |s|
  {
    FirstNonSpace(s, 0)
  }

  /** Index just past the last character `Strip` keeps. */
  function StripEnd(s: string): (b: nat)
    ensures StripStart(s) <= b <= |s|
  {
    LastNonSpaceEnd(s, StripStart(s), |s|)
  }

  /** `str.strip()` / JavaScript `trim()`: the slice of `s` between its
      leading and trailing whitespace runs. */
  function Strip(s: string): (r: string)
    ensures IsStripped(r)
    ensures |r| == StripEnd(s) - StripStart(s) && r == s[StripStart(s)..StripEnd(s)]
  {
    s[StripStart(s)..StripEnd(s)]
  }

  /** What `strip` removes is whitespace: the characters before and after the
      kept slice. */
  lemma StripRemovesBlank(s: string)
    ensures forall i :: 0 <= i < StripStart(s) ==> IsSpace(s[i])
    ensures forall i :: StripEnd(s) <= i < |s| ==> IsSpace(s[i])
  {
  }

  lemma StripEmptyIffBlank(s: string)
    ensures Strip(s) == [] <==> IsBlank(s)
  {
    StripRemovesBlank(s);
  }

  /** `strip` removes whitespace only: every other character of `s` lies in
      the kept slice. */
  lemma StripKeepsNonSpace(s: string)
    ensures forall j :: 0 <= j < |s| && !IsSpace(s[j]) ==> StripStart(s) <= j < StripEnd(s)
  {
    StripRemovesBlank(s);
  }

  /** A blank slice of `s` is a run of whitespace characters of `s`. */
  lemma BlankSlice(s: string, a: nat, b: nat)
    requires a <= b <= |s| && IsBlank(s[a..b])
    ensures forall i :: a <= i < b ==> IsSpace(s[i])
  {
    forall i | a <= i < b ensures IsSpace(s[i]) {
      assert s[a..b][i - a] == s[i];
    }
  }

  /** A slice of a slice is a slice of the original. */
  lemma SliceOfSlice(t: string, s: nat, e: nat, a: nat, b: nat)
    requires s <= e <= |t| && a <= b <= e - s
    ensures t[s..e][a..b] == t[s + a..s + b]
  {
    assert forall i :: 0 <= i < b - a ==> t[s..e][a..b][i] == t[s + a + i];
  }

  lemma StripOfStripped(s: string)
    requires IsStripped(s)
    ensures Strip(s) == s
  {
  }

  /** Trimming a stripped, non-empty text padded with whitespace gives it back. */
  lemma StripPadded(pre: string, body: string, post: string)
    requires IsBlank(pre) && IsBlank(post) && IsStripped(body) && body != ""
    ensures Strip(pre + body + post) == body
  {
    var s := pre + body + post;
    var a := |pre|;
    var b := |pre| + |body|;
    assert s[a] == body[0] && s[b - 1] == body[|body| - 1];
    assert forall j :: 0 <= j < a ==> s[j] == pre[j];
    assert forall j :: b <= j < |s| ==> s[j] == post[j - b];
    assert FirstNonSpace(s, 0) == a;
    assert LastNonSpaceEnd(s, a, |s|) == b;
    assert s[a..b] == body;
  }

  lemma StripIdempotent(s: string)
    ensures Strip(Strip(s)) == Strip(s)
  {
    StripOfStripped(Strip(s));
  }

  /** `str.lower()` on ASCII letters. */
  function ToLower(s: string): (r: string)
    ensures |r| == |s|
    ensures forall i :: 0 <= i < |s| ==> r[i] == LowerChar(s[i])
  {
    seq(|s|, i requires 0 <= i < |s| => LowerChar(s[i]))
  }

  /** `str.upper()` on ASCII letters. */
  function ToUpper(s: string): (r: string)
    ensures |r| == |s|
    ensures forall i :: 0 <= i < |s| ==> r[i] == UpperChar(s[i])
  {
    seq(|s|, i requires 0 <= i < |s| => UpperChar(s[i]))
  }

  function LowerChar(c: char): char {
    if 'A' <= c <= 'Z' then (c as int + 32) as char else c
  }

  function UpperChar(c: char): char {
    if 'a' <= c <= 'z' then (c as int - 32) as char else c
  }

  /** Python's `str.rfind`: the start of the last occurrence of `pat`, or -1. */
  function RFind(s: string, pat: string): (r: int)
    requires |pat| > 0
    ensures r == -1 || OccursAt(s, pat, r)
    ensures forall j :: r < j ==> !OccursAt(s, pat, j)
  {
    RFindBelow(s, pat, |s| - |pat| + 1)
  }

  /** The last occurrence of `pat` starting before `k`, or -1. */
  function RFindBelow(s: string, pat: string, k: int): (r: int)
    requires |pat| > 0
    requires k <= |s| - |pat| + 1
    ensures r == -1 || (r < k && OccursAt(s, pat, r))
    ensures forall j :: r < j < k ==> !OccursAt(s, pat, j)
    decreases k
  {
    if k <= 0 then -1
    else if OccursAt(s, pat, k - 1) then k - 1
    else RFindBelow(s, pat, k - 1)
  }

  /** Python's `str.find`: the start of the first occurrence of `pat`, or -1. */
  function Find(s: string, pat: string): (r: int)
    requires |pat| > 0
    ensures r == -1 || OccursAt(s, pat, r)
    ensures forall j :: 0 <= j && (r == -1 || j < r) ==> !OccursAt(s, pat, j)
  {
    FindFrom(s, pat, 0)
  }

  function FindFrom(s: string, pat: string, k: nat): (r: int)
    requires |pat| > 0
    ensures r == -1 || (k <= r && OccursAt(s, pat, r))
    ensures forall j :: k <= j && (r == -1 || j < r) ==> !OccursAt(s, pat, j)
    decreases |s| - k
  {
    if k + |pat| > |s| then -1
    else if OccursAt(s, pat, k) then k
    else FindFrom(s, pat, k + 1)
  }

  /** An occurrence with none before it, from `k` on, is the one found. */
  lemma FindFromAt(s: string, pat: string, k: nat, q: nat)
    requires |pat| > 0 && k <= q && OccursAt(s, pat, q)
    requires forall j :: k <= j < q ==> !OccursAt(s, pat, j)
    ensures FindFrom(s, pat, k) == q
  {
  }

  /** A string none of whose characters is the first character of `pat`
      holds no occurrence of `pat`; so `rfind` and `find` answer -1. */
  lemma AbsentPattern(s: string, pat: string)
    requires |pat| > 0
    requires forall i :: 0 <= i < |s| ==> s[i] != pat[0]
    ensures forall j :: !OccursAt(s, pat, j)
    ensures RFind(s, pat) == -1 && Find(s, pat) == -1
  {
    forall j ensures !OccursAt(s, pat, j) {
      if 0 <= j && j + |pat| <= |s| {
        assert s[j..j + |pat|][0] == s[j];
      }
    }
  }

  /** Replace every non-overlapping occurrence of `pat`, scanning left to right
      (Python's `str.replace` and JavaScript's `replace` with a global pattern). */
  function ReplaceAll(s: string, pat: string, rep: string): (r: string)
    requires |pat| > 0
    decreases |s|
  {
    if |s| < |pat| then s
    else if s[..|pat|] == pat then rep + ReplaceAll(s[|pat|..], pat, rep)
    else [s[0]] + ReplaceAll(s[1..], pat, rep)
  }

  /** The first character of a replacement result. */
  lemma ReplaceAllHead(s: string, pat: string, rep: string)
    requires |pat| > 0 && |rep| > 0 && |s| > 0
    ensures |ReplaceAll(s, pat, rep)| > 0
    ensures ReplaceAll(s, pat, rep)[0] == if StartsWith(s, pat) then rep[0] else s[0]
  {
  }

  /** No character `a` is directly followed by `b`. */
  predicate NoPair(s: string, a: char, b: char) {
    forall i :: 0 <= i < |s| - 1 ==> !(s[i] == a && s[i + 1] == b)
  }

  /** Replacing a two-character pattern `ab` by one character `c` distinct from
      `a` and `b` leaves no occurrence of `ab` behind. */
  lemma {:induction false} ReplacePairLeavesNone(s: string, a: char, b: char, c: char)
    requires c != a && c != b
    ensures NoPair(ReplaceAll(s, [a, b], [c]), a, b)
    decreases |s|
  {
    var r := ReplaceAll(s, [a, b], [c]);
    if |s| < 2 {
      assert r == s;
    } else if s[..2] == [a, b] {
      var rest := ReplaceAll(s[2..], [a, b], [c]);
      ReplacePairLeavesNone(s[2..], a, b, c);
      assert r == [c] + rest;
      forall i | 0 <= i < |r| - 1 ensures !(r[i] == a && r[i + 1] == b) {
        if i > 0 {
          assert r[i] == rest[i - 1] && r[i + 1] == rest[i];
        }
      }
    } else {
      var rest := ReplaceAll(s[1..], [a, b], [c]);
      ReplacePairLeavesNone(s[1..], a, b, c);
      assert r == [s[0]] + rest;
      forall i | 0 <= i < |r| - 1 ensures !(r[i] == a && r[i + 1] == b) {
        if i > 0 {
          assert r[i] == rest[i - 1] && r[i + 1] == rest[i];
        } else if s[0] == a {
          ReplaceAllHead(s[1..], [a, b], [c]);
          assert s[1] != b;
          assert r[1] == rest[0];
        }
      }
    }
  }

  /** Python's `sep.join(parts)`. */
  function Join(parts: seq<string>, sep: string): (r: string)
    decreases |parts|
  {
    if |parts| == 0 then ""
    else if |parts| == 1 then parts[0]
    else parts[0] + sep + Join(parts[1..], sep)
  }

  /** Python's `s.split(sep)` / JavaScript's `s.split(sep)` for a non-empty
      separator: the pieces between leftmost non-overlapping occurrences. */
  function Split(s: string, sep: string): (r: seq<string>)
    requires |sep| > 0
    ensures |r| >= 1
  {
    SplitFrom(s, sep, "")
  }

  /** Splitting `s` when the current piece already holds `cur`. */
  function SplitFrom(s: string, sep: string, cur: string): (r: seq<string>)
    requires |sep| > 0
    ensures |r| >= 1
    decreases |s|
  {
    if |s| == 0 then [cur]
    else if StartsWith(s, sep) then [cur] + SplitFrom(s[|sep|..], sep, "")
    else SplitFrom(s[1..], sep, cur + [s[0]])
  }

  /** Joining the pieces of a split with the same separator gives back the
      input: splitting loses nothing. */
  lemma {:induction false} JoinSplit(s: string, sep: string)
    requires |sep| > 0
    ensures Join(Split(s, sep), sep) == s
  {
    JoinSplitFrom(s, sep, "");
  }

  lemma {:induction false} JoinSplitFrom(s: string, sep: string, cur: string)
    requires |sep| > 0
    ensures Join(SplitFrom(s, sep, cur), sep) == cur + s
    decreases |s|
  {
    if |s| == 0 {
    } else if StartsWith(s, sep) {
      JoinSplitFrom(s[|sep|..], sep, "");
      var tail := SplitFrom(s[|sep|..], sep, "");
      assert SplitFrom(s, sep, cur) == [cur] + tail;
      assert ([cur] + tail)[1..] == tail;
      assert s == sep + s[|sep|..];
    } else {
      JoinSplitFrom(s[1..], sep, cur + [s[0]]);
      assert s == [s[0]] + s[1..];
    }
  }

  /** A run of characters that holds none of the separator's first character
      goes into the current piece unchanged. */
  lemma {:induction false} SplitFromFree(s: string, t: string, sep: string, cur: string)
    requires |sep| > 0
    requires forall i :: 0 <= i < |s| ==> s[i] != sep[0]
    ensures SplitFrom(s + t, sep, cur) == SplitFrom(t, sep, cur + s)
    decreases |s|
  {
    if |s| > 0 {
      assert (s + t)[0] == s[0];
      assert !StartsWith(s + t, sep);
      assert (s + t)[1..] == s[1..] + t;
      SplitFromFree(s[1..], t, sep, cur + [s[0]]);
      assert cur + [s[0]] + s[1..] == cur + s;
    } else {
      assert s + t == t;
      assert cur + s == cur;
    }
  }

  /** Splitting on a one-character separator undoes joining with it, provided
      no piece holds the separator. */
  lemma SplitJoinChar(parts: seq<string>, c: char)
    requires |parts| > 0
    requires forall k, i :: 0 <= k < |parts| && 0 <= i < |parts[k]| ==> parts[k][i] != c
    ensures Split(Join(parts, [c]), [c]) == parts
  {
    SplitFromJoinChar(parts, c, "");
    assert "" + parts[0] == parts[0];
    assert [parts[0]] + parts[1..] == parts;
  }

  lemma {:induction false} SplitFromJoinChar(parts: seq<string>, c: char, cur: string)
    requires |parts| > 0
    requires forall k, i :: 0 <= k < |parts| && 0 <= i < |parts[k]| ==> parts[k][i] != c
    ensures SplitFrom(Join(parts, [c]), [c], cur) == [cur + parts[0]] + parts[1..]
    decreases |parts|
  {
    var p := parts[0];
    assert forall i :: 0 <= i < |p| ==> p[i] != [c][0];
    if |parts| == 1 {
      SplitFromFree(p, "", [c], cur);
      assert p + "" == p;
    } else {
      var rest := Join(parts[1..], [c]);
      assert Join(parts, [c]) == p + ([c] + rest);
      SplitFromFree(p, [c] + rest, [c], cur);
      assert StartsWith([c] + rest, [c]);
      assert ([c] + rest)[1..] == rest;
      SplitFromJoinChar(parts[1..], c, "");
      assert [] + parts[1..][0] == parts[1];
      assert [parts[1]] + parts[1..][1..] == parts[1..];
    }
  }

  /** The first occurrence in `x` is the first one in `x + y`. */
  lemma FindPrefix(x: string, y: string, pat: string)
    requires |pat| > 0 && Find(x, pat) >= 0
    ensures Find(x + y, pat) == Find(x, pat)
  {
    var i := Find(x, pat);
    assert (x + y)[i..i + |pat|] == x[i..i + |pat|];
    forall j | 0 <= j < i ensures !OccursAt(x + y, pat, j) {
      assert !OccursAt(x, pat, j);
      assert (x + y)[j..j + |pat|] == x[j..j + |pat|];
    }
    FindFromAt(x + y, pat, 0, i);
  }

  /** `split` read through `find`: the first piece ends where the separator
      first occurs, and the rest is split afresh; with no occurrence there is
      one piece. */
  lemma SplitFromFind(s: string, sep: string, cur: string)
    requires |sep| > 0
    ensures Find(s, sep) == -1 ==> SplitFrom(s, sep, cur) == [cur + s]
    ensures Find(s, sep) >= 0 ==>
              SplitFrom(s, sep, cur) == [cur + s[..Find(s, sep)]] + SplitFrom(s[Find(s, sep) + |sep|..], sep, "")
  {
    SplitFromFindFrom(s, sep, 0, cur);
    assert s[0..] == s;
    assert SplitShape(s, sep, 0, cur);
  }

  /** What splitting from position `k` with current piece `cur` gives, read
      through the search from `k`. */
  predicate SplitShape(s: string, sep: string, k: nat, cur: string)
    requires |sep| > 0 && k <= |s|
  {
    var f := FindFrom(s, sep, k);
    (f == -1 ==> SplitFrom(s[k..], sep, cur) == [cur + s[k..]])
    && (f >= 0 ==> SplitFrom(s[k..], sep, cur) == [cur + s[k..f]] + SplitFrom(s[f + |sep|..], sep, ""))
  }

  /** The same from position `k`, following the search step by step. */
  lemma {:induction false} SplitFromFindFrom(s: string, sep: string, k: nat, cur: string)
    requires |sep| > 0 && k <= |s|
    ensures SplitShape(s, sep, k, cur)
    decreases |s| - k
  {
    if k == |s| {
      SplitAtEnd(s, sep, cur);
    } else if OccursAt(s, sep, k) {
      SplitStepAt(s, sep, k, cur);
    } else {
      SplitFromFindFrom(s, sep, k + 1, cur + [s[k]]);
      SplitStepPast(s, sep, k, cur);
    }
  }

  /** At the end of the text the current piece is the last one. */
  lemma SplitAtEnd(s: string, sep: string, cur: string)
    requires |sep| > 0
    ensures SplitShape(s, sep, |s|, cur)
  {
    assert FindFrom(s, sep, |s|) == -1;
    assert s[|s|..] == [] && cur + s[|s|..] == cur;
  }

  /** The case of `SplitFromFindFrom` where the separator sits at `k`. */
  lemma SplitStepAt(s: string, sep: string, k: nat, cur: string)
    requires |sep| > 0 && OccursAt(s, sep, k)
    ensures SplitShape(s, sep, k, cur)
  {
    assert FindFrom(s, sep, k) == k;
    SplitAtSeparator(s, sep, k, cur);
    assert cur + s[k..k] == cur;
  }

  /** The inductive step of `SplitFromFindFrom` at a position holding no
      separator, from its statement one position further on. */
  lemma SplitStepPast(s: string, sep: string, k: nat, cur: string)
    requires |sep| > 0 && k < |s| && !OccursAt(s, sep, k)
    requires SplitShape(s, sep, k + 1, cur + [s[k]])
    ensures SplitShape(s, sep, k, cur)
  {
    SplitPastNonSeparator(s, sep, k, cur);
    var f := FindFrom(s, sep, k);
    if f >= 0 {
      CarryChar(s, cur, k, f);
    } else {
      CarryChar(s, cur, k, |s|);
    }
  }

  /** Carrying one character into the current piece. */
  lemma CarryChar(s: string, cur: string, k: nat, f: nat)
    requires k < f <= |s|
    ensures (cur + [s[k]]) + s[k + 1..f] == cur + s[k..f]
    ensures f == |s| ==> (cur + [s[k]]) + s[k + 1..] == cur + s[k..]
  {
    assert s[k..f] == [s[k]] + s[k + 1..f];
  }

  /** A separator right at `k` closes the current piece there. */
  lemma SplitAtSeparator(s: string, sep: string, k: nat, cur: string)
    requires |sep| > 0 && OccursAt(s, sep, k)
    ensures SplitFrom(s[k..], sep, cur) == [cur] + SplitFrom(s[k + |sep|..], sep, "")
  {
    var t := s[k..];
    assert t[..|sep|] == s[k..k + |sep|];
    assert t[|sep|..] == s[k + |sep|..];
  }

  /** A position that holds no separator joins the current piece, and the
      search moves past it. */
  lemma {:induction false} SplitPastNonSeparator(s: string, sep: string, k: nat, cur: string)
    requires |sep| > 0 && k < |s| && !OccursAt(s, sep, k)
    ensures SplitFrom(s[k..], sep, cur) == SplitFrom(s[k + 1..], sep, cur + [s[k]])
    ensures FindFrom(s, sep, k) == FindFrom(s, sep, k + 1)
  {
    var t := s[k..];
    assert !StartsWith(t, sep) by {
      if |sep| <= |t| {
        assert t[..|sep|] == s[k..k + |sep|];
      }
    }
    assert t[1..] == s[k + 1..] && t[0] == s[k];
  }

  /** The last piece of a split holds no separator. */
  lemma {:induction false} LastPieceHasNoSep(s: string, sep: string)
    requires |sep| > 0
    ensures var p := Split(s, sep); Find(p[|p| - 1], sep) == -1
    decreases |s|
  {
    SplitFromFind(s, sep, "");
    var i := Find(s, sep);
    if i >= 0 {
      LastPieceHasNoSep(s[i + |sep|..], sep);
    } else {
      assert "" + s == s;
    }
  }

  /** Splitting a text that grows: every piece but the last is final, and the
      last piece, followed by what comes next, is split again. So a text read
      in chunks yields the same pieces however it is cut. */
  lemma {:induction false} SplitAppend(x: string, y: string, sep: string)
    requires |sep| > 0
    ensures var px := Split(x, sep);
            Split(x + y, sep) == px[..|px| - 1] + Split(px[|px| - 1] + y, sep)
    decreases |x|
  {
    SplitFromFind(x, sep, "");
    var i := Find(x, sep);
    if i == -1 {
      assert "" + x == x;
    } else {
      var head, rest := x[..i], x[i + |sep|..];
      SplitPastFirst(x, y, sep);
      var tr := Split(rest, sep);
      SplitAppend(rest, y, sep);
      ConsInitLast(head, tr);
    }
  }

  /** Both `x` and `x + y` split first at the first separator of `x`. */
  lemma SplitPastFirst(x: string, y: string, sep: string)
    requires |sep| > 0 && Find(x, sep) >= 0
    ensures var i := Find(x, sep);
            Split(x, sep) == [x[..i]] + Split(x[i + |sep|..], sep)
            && Split(x + y, sep) == [x[..i]] + Split(x[i + |sep|..] + y, sep)
  {
    var i := Find(x, sep);
    SplitFromFind(x, sep, "");
    FindPrefix(x, y, sep);
    SplitFromFind(x + y, sep, "");
    assert (x + y)[i + |sep|..] == x[i + |sep|..] + y;
    assert (x + y)[..i] == x[..i];
    assert "" + x[..i] == x[..i];
  }

  /** Dropping the last element of a sequence with a head. */
  lemma ConsInitLast<T>(a: T, tail: seq<T>)
    requires |tail| > 0
    ensures var s := [a] + tail; s[..|s| - 1] == [a] + tail[..|tail| - 1] && s[|s| - 1] == tail[|tail| - 1]
  {
  }

  /** Each piece followed by the separator: a stream of terminated records. */
  function JoinTerminated(parts: seq<string>, sep: string): string
    decreases |parts|
  {
    if parts == [] then "" else parts[0] + sep + JoinTerminated(parts[1..], sep)
  }

  /** A record free of the separator ends where the separator first
      occurs. */
  lemma FindAtRecordEnd(p: string, sep: string, rest: string)
    requires |sep| > 0
    requires forall j :: 0 <= j < |p| ==> !OccursAt(p + sep, sep, j)
    ensures Find(p + sep + rest, sep) == |p|
  {
    var s := p + sep + rest;
    assert s[|p|..|p| + |sep|] == sep;
    forall j | 0 <= j < |p| ensures !OccursAt(s, sep, j) {
      assert !OccursAt(p + sep, sep, j);
      assert s[j..j + |sep|] == (p + sep)[j..j + |sep|];
    }
    FindFromAt(s, sep, 0, |p|);
  }

  /** Splitting a stream of terminated records gives the records back, then
      the empty remainder, provided no record holds the separator (even one
      that runs into the separator after it). */
  lemma {:induction false} SplitJoinTerminated(parts: seq<string>, sep: string)
    requires |sep| > 0
    requires forall k, j :: 0 <= k < |parts| && 0 <= j < |parts[k]| ==> !OccursAt(parts[k] + sep, sep, j)
    ensures Split(JoinTerminated(parts, sep), sep) == parts + [""]
    decreases |parts|
  {
    if parts == [] {
      assert Split("", sep) == [""];
    } else {
      var p := parts[0];
      var rest := JoinTerminated(parts[1..], sep);
      var s := p + sep + rest;
      assert forall j :: 0 <= j < |p| ==> !OccursAt(p + sep, sep, j);
      FindAtRecordEnd(p, sep, rest);
      SplitFromFind(s, sep, "");
      assert s[..|p|] == p;
      assert s[|p| + |sep|..] == rest;
      assert forall k :: 0 <= k < |parts| - 1 ==> parts[1..][k] == parts[k + 1];
      SplitJoinTerminated(parts[1..], sep);
      assert "" + p == p;
      assert [p] + (parts[1..] + [""]) == parts + [""];
    }
  }

  /** Python's `s.split()` with no argument: the maximal runs of
      non-whitespace characters, in order. */
  function Words(s: string): (r: seq<string>)
  {
    WordsFrom(s, "")
  }

  function WordsFrom(s: string, cur: string): (r: seq<string>)
    decreases |s|
  {
    if |s| == 0 then (if cur == "" then [] else [cur])
    else if IsSpace(s[0]) then (if cur == "" then [] else [cur]) + WordsFrom(s[1..], "")
    else WordsFrom(s[1..], cur + [s[0]])
  }

  /** A word: non-empty and free of whitespace. */
  predicate IsWord(w: string) {
    |w| > 0 && forall i :: 0 <= i < |w| ==> !IsSpace(w[i])
  }

  lemma {:induction false} WordsFromAreWords(s: string, cur: string)
    requires forall i :: 0 <= i < |cur| ==> !IsSpace(cur[i])
    ensures forall k :: 0 <= k < |WordsFrom(s, cur)| ==> IsWord(WordsFrom(s, cur)[k])
    decreases |s|
  {
    if |s| > 0 {
      if IsSpace(s[0]) {
        WordsFromAreWords(s[1..], "");
      } else {
        WordsFromAreWords(s[1..], cur + [s[0]]);
      }
    }
  }

  /** Every piece `Words` returns is a word. */
  lemma WordsAreWords(s: string)
    ensures forall k :: 0 <= k < |Words(s)| ==> IsWord(Words(s)[k])
  {
    WordsFromAreWords(s, "");
  }

  /** A run of non-whitespace characters extends the current word. */
  lemma {:induction false} WordsFromWord(w: string, t: string, cur: string)
    requires forall i :: 0 <= i < |w| ==> !IsSpace(w[i])
    ensures WordsFrom(w + t, cur) == WordsFrom(t, cur + w)
    decreases |w|
  {
    if |w| > 0 {
      assert (w + t)[0] == w[0];
      assert (w + t)[1..] == w[1..] + t;
      WordsFromWord(w[1..], t, cur + [w[0]]);
      assert cur + [w[0]] + w[1..] == cur + w;
    } else {
      assert w + t == t;
      assert cur + w == cur;
    }
  }

  /** Splitting a space-joined list of words on whitespace gives the words back. */
  lemma WordsOfJoin(ws: seq<string>)
    requires forall k :: 0 <= k < |ws| ==> IsWord(ws[k])
    ensures Words(Join(ws, " ")) == ws
  {
    if |ws| > 0 {
      WordsFromJoin(ws);
    }
  }

  lemma {:induction false} WordsFromJoin(ws: seq<string>)
    requires |ws| > 0
    requires forall k :: 0 <= k < |ws| ==> IsWord(ws[k])
    ensures WordsFrom(Join(ws, " "), "") == ws
    decreases |ws|
  {
    var w := ws[0];
    if |ws| == 1 {
      WordsFromWord(w, "", "");
      assert w + "" == w;
      assert "" + w == w;
    } else {
      var rest := Join(ws[1..], " ");
      assert Join(ws, " ") == w + (" " + rest);
      WordsFromWord(w, " " + rest, "");
      assert "" + w == w;
      assert (" " + rest)[1..] == rest;
      WordsFromJoin(ws[1..]);
      assert [w] + ws[1..] == ws;
    }
  }

  // ---------------------------------------------------------------------------
  // Decimal numbers
  // ---------------------------------------------------------------------------

  predicate IsDigit(c: char) {
    '0' <= c <= '9'
  }

  function DigitChar(d: nat): (c: char)
    requires d < 10
    ensures IsDigit(c) && DigitValue(c) == d
  {
    (48 + d) as char
  }

  function DigitValue(c: char): (d: nat)
    requires IsDigit(c)
    ensures d < 10
  {
    c as int - 48
  }

  /** Python's `str(n)` for a natural number. */
  function NatToString(n: nat): (r: string)
    ensures |r| > 0 && AllDigits(r)
    decreases n
  {
    if n < 10 then [DigitChar(n)] else NatToString(n / 10) + [DigitChar(n % 10)]
  }

  predicate AllDigits(s: string) {
    forall i :: 0 <= i < |s| ==> IsDigit(s[i])
  }

  /** The value of a string of decimal digits. */
  function DigitsValue(s: string): (n: nat)
    requires AllDigits(s)
    decreases |s|
  {
    if |s| == 0 then 0 else DigitsValue(s[..|s| - 1]) * 10 + DigitValue(s[|s| - 1])
  }

  /** Reading back the decimal form of `n` gives `n`. */
  lemma {:induction false} DigitsValueOfNatToString(n: nat)
    ensures DigitsValue(NatToString(n)) == n
    decreases n
  {
    if n >= 10 {
      DigitsValueOfNatToString(n / 10);
      var s := NatToString(n);
      assert s[..|s| - 1] == NatToString(n / 10);
    }
  }

  /** Distinct numbers have distinct decimal forms. */
  lemma NatToStringInjective(m: nat, n: nat)
    requires NatToString(m) == NatToString(n)
    ensures m == n
  {
    DigitsValueOfNatToString(m);
    DigitsValueOfNatToString(n);
  }

  /** Python's `str(i)` for any integer. */
  function IntToString(i: int): (r: string)
    ensures |r| > 0
  {
    if i < 0 then "-" + NatToString(-i) else NatToString(i)
  }

  /** Python's `int(s)` on a string: surrounding whitespace, an optional sign
      and at least one decimal digit; anything else raises `ValueError`,
      modelled as `None`. */
  function ParseInt(s: string): (r: Option<int>)
    ensures r.Some? ==> |Strip(s)| > 0
  {
    var t := Strip(s);
    if |t| > 0 && (t[0] == '-' || t[0] == '+') then
      (if |t| > 1 && AllDigits(t[1..]) then
         var v: int := DigitsValue(t[1..]);
         Some(if t[0] == '-' then -v else v)
       else None)
    else if |t| > 0 && AllDigits(t) then Some(DigitsValue(t))
    else None
  }

  /** `int(str(i)) == i`. */
  lemma ParseIntOfIntToString(i: int)
    ensures ParseInt(IntToString(i)) == Some(i)
  {
    if i < 0 {
      var d := NatToString(-i);
      assert IntToString(i) == "-" + d;
      DigitsValueOfNatToString(-i);
      ParseNegated(d);
    } else {
      var d := NatToString(i);
      assert IntToString(i) == d;
      DigitsValueOfNatToString(i);
      ParseUnsigned(d);
    }
  }

  /** A string of digits reads as its value. */
  lemma {:induction false} ParseUnsigned(d: string)
    requires |d| > 0 && AllDigits(d)
    ensures ParseInt(d) == Some(DigitsValue(d))
  {
    assert IsDigit(d[0]) && IsDigit(d[|d| - 1]);
    StripOfStripped(d);
  }

  /** A minus sign before a string of digits reads as the negated value. */
  lemma ParseNegated(d: string)
    requires |d| > 0 && AllDigits(d)
    ensures ParseInt("-" + d) == Some(-(DigitsValue(d) as int))
  {
    var t := "-" + d;
    assert t[1..] == d && t[0] == '-';
    assert t[|t| - 1] == d[|d| - 1] && IsDigit(d[|d| - 1]);
    StripOfStripped(t);
  }
}

=== FILE: text_formatter.dfy ===
/** The frontend's text formatter: turning escaped line breaks into real
    ones for display, with a fallback for missing text, and cleaning chapter
    version content that may arrive as a JSON literal or object. */
module TextFormatter {
  import opened Wrappers
  import opened Text
  import opened Escapes

  /** The text shown when there is none. */
  const DefaultFallback: string := "待补充"

  /** `formatTextWithLineBreaks`: a missing or empty text gives ""; otherwise
      every backslash-n pair becomes a newline. A non-string argument is out
      of the model's types. */
  function FormatTextWithLineBreaks(text: Option<string>): (r: string)
    ensures text.None? || text == Some("") ==> r == ""
    ensures NoPair(r, '\\', 'n')
    ensures text.Some? ==> |r| <= |text.value|
  {
    if text.None? || text.value == "" then ""
    else
      ReplacePairLeavesNone(text.value, '\\', 'n', '\n');
      ReplaceShrinks(text.value, "\\n", "\n");
      ReplaceAll(text.value, "\\n", "\n")
  }

  /** Escaping the line breaks of a backslash-free text and formatting it
      gives the text back. */
  lemma FormatUnescapesNewlines(t: string)
    requires NoBackslash(t)
    ensures FormatTextWithLineBreaks(Some(EscapeWith(t, {'\n'}))) == t
  {
    if t != "" {
      UnescapeOne(t, {'\n'}, '\n');
      assert {'\n'} - {'\n'} == {};
    }
  }

  /** A text without backslashes is shown as it is. */
  lemma FormatPlainUnchanged(t: string)
    requires NoBackslash(t)
    ensures FormatTextWithLineBreaks(Some(t)) == t
  {
    if t != "" {
      ReplaceAbsent(t, "\\n", "\n");
    }
  }

  /** `safeFormatText`: the fallback for a missing or empty text, the
      formatted text otherwise. */
  function SafeFormatText(text: Option<string>, fallback: string): (r: string)
    ensures text.None? || text == Some("") ==> r == fallback
    ensures text.Some? && text.value != "" ==> NoPair(r, '\\', 'n') && |r| <= |text.value|
  {
    if text.None? || text.value == "" then fallback else FormatTextWithLineBreaks(text)
  }

  /** `content.replace(/^"|"$/g, '')`: one leading and one trailing double
      quote are dropped, each when present; a lone quote goes entirely. */
  function StripOuterQuotes(s: string): (r: string)
    ensures |s| >= 2 && s[0] == '"' && s[|s| - 1] == '"' ==> s == "\"" + r + "\""
    ensures (|s| == 0 || (s[0] != '"' && s[|s| - 1] != '"')) ==> r == s
    ensures s == r || s == "\"" + r || s == r + "\"" || s == "\"" + r + "\""
    ensures |s| > 0 && s[0] == '"' && (|s| == 1 || s[|s| - 1] != '"') ==> s == "\"" + r
    ensures |s| > 0 && s[0] != '"' && s[|s| - 1] == '"' ==> s == r + "\""
  {
    var a := if |s| > 0 && s[0] == '"' then 1 else 0;
    var b := if |s| > a && s[|s| - 1] == '"' then |s| - 1 else |s|;
    var r := s[a..b];
    assert s == s[..a] + r + s[b..];
    r
  }

  /** The four replacements of `cleanVersionContent`, in its order: `\n`,
      `\"`, `\t`, then `\\`. */
  function UnescapeChain(s: string): string {
    ReplaceAll(ReplaceAll(ReplaceAll(ReplaceAll(s, "\\n", "\n"), "\\\"", "\""), "\\t", "\t"), "\\\\", "\\")
  }

  /** `cleanVersionContent`. `parsedContent` is what `JSON.parse(content)`
      yields for the `content` field when the text parses to an object (None
      when it does not parse, is not an object, or has no such field); a
      non-empty field replaces the text. The outer quotes are then dropped and
      the escapes undone. */
  function CleanVersionContent(content: string, parsedContent: Option<string>): (r: string)
    ensures content == "" ==> r == ""
  {
    if content == "" then ""
    else
      var text := if parsedContent.Some? && parsedContent.value != "" then parsedContent.value else content;
      UnescapeChain(StripOuterQuotes(text))
  }

  /** The replacement chain inverts the escaping of a backslash-free text. */
  lemma UnescapeChainInverts(t: string)
    requires NoBackslash(t)
    ensures UnescapeChain(EscapeWith(t, AllEscapes)) == t
  {
    UnescapeOne(t, AllEscapes, '\n');
    assert AllEscapes - {'\n'} == {'\t', '"'};
    UnescapeOne(t, {'\t', '"'}, '"');
    assert {'\t', '"'} - {'"'} == {'\t'};
    UnescapeOne(t, {'\t'}, '\t');
    assert {'\t'} - {'\t'} == {};
    ReplaceAbsent(t, "\\\\", "\\");
  }

  /** A backslash-free text passes through the chain unchanged. */
  lemma UnescapeChainPlain(t: string)
    requires NoBackslash(t)
    ensures UnescapeChain(t) == t
  {
    ReplaceAbsent(t, "\\n", "\n");
    ReplaceAbsent(t, "\\\"", "\"");
    ReplaceAbsent(t, "\\t", "\t");
    ReplaceAbsent(t, "\\\\", "\\");
  }

  /** A version stored as a JSON string literal is shown as the text it
      encodes (for texts free of backslashes). */
  lemma CleanVersionContentRoundTrip(t: string)
    requires NoBackslash(t)
    ensures CleanVersionContent(QuoteLiteral(t), None) == t
  {
    var q := QuoteLiteral(t);
    assert StripOuterQuotes(q) == EscapeWith(t, AllEscapes);
    UnescapeChainInverts(t);
  }

  /** The `content` field of a parsed object wins over the raw text, and a
      plain field comes back unchanged. */
  lemma CleanVersionContentPrefersField(content: string, field: string)
    requires content != "" && field != ""
    requires NoBackslash(field) && field[0] != '"' && field[|field| - 1] != '"'
    ensures CleanVersionContent(content, Some(field)) == field
  {
    assert StripOuterQuotes(field) == field;
    UnescapeChainPlain(field);
  }

  /** The replacements run one after another, so an escaped backslash in
      front of `n` is read as a backslash and a line break: the literal
      `"\\n"`, which encodes a backslash followed by `n`, is shown as a
      backslash and a newline. */
  lemma EscapedBackslashBeforeN()
    ensures CleanVersionContent("\\\\n", None) == "\\\n"
  {
    var s := "\\\\n";
    assert StripOuterQuotes(s) == s;
    var s1 := ReplaceAll(s, "\\n", "\n");
    assert s[..2] != "\\n" by { assert s[..2][1] == '\\'; }
    assert s[1..][..2] == "\\n";
    assert s1 == "\\\n";
    ReplaceAbsent(s1[1..], "\\\"", "\"");
    var s2 := ReplaceAll(s1, "\\\"", "\"");
    assert s1[..2] != "\\\"" by { assert s1[..2][1] == '\n'; }
    assert s2 == s1;
    assert s1[..2] != "\\t";
    ReplaceAbsent(s1[1..], "\\t", "\t");
    var s3 := ReplaceAll(s2, "\\t", "\t");
    assert s3 == s1;
    assert s1[..2] != "\\\\";
    ReplaceAbsent(s1[1..], "\\\\", "\\");
  }
}

=== FILE: update_logs.dfy ===
/** The update-log service: announcements that administrators create, edit
    and delete, of which at most one is pinned. The table is a map from id
    to row; the id the database assigns and the creation time are
    parameters. */
module UpdateLogs {
  import opened Wrappers

  datatype Log = Log(id: int, content: string, createdBy: Option<string>, isPinned: bool, createdAt: int)

  type Logs = map<int, Log>

  const LogMissing: string := "更新记录不存在"

  /** The rows are filed under their own ids. */
  predicate WellKeyed(logs: Logs) {
    forall id :: id in logs ==> logs[id].id == id
  }

  /** The ids of the pinned logs. */
  function Pinned(logs: Logs): (r: set<int>)
    ensures forall id :: id in r <==> id in logs && logs[id].isPinned
  {
    set id | id in logs && logs[id].isPinned
  }

  /** What the service promises: at most one pinned log. */
  predicate AtMostOnePinned(logs: Logs) {
    forall a, b :: a in Pinned(logs) && b in Pinned(logs) ==> a == b
  }

  /** `_clear_pinned`: one bulk update unpinning every row. */
  function ClearPinned(logs: Logs): (r: Logs)
    ensures r.Keys == logs.Keys
    ensures forall id :: id in r ==> r[id] == logs[id].(isPinned := false)
    ensures Pinned(r) == {}
  {
    map id | id in logs :: logs[id].(isPinned := false)
  }

  /** `create_log`: a pinned log first clears every pin; the new row takes
      the id the database assigns. */
  function CreateLog(logs: Logs, content: string, creator: Option<string>, pinned: bool, id: int, now: int)
    : (r: (Logs, Log))
    requires id !in logs
    ensures r.1 == Log(id, content, creator, pinned, now)
    ensures r.0.Keys == logs.Keys + {id} && r.0[id] == r.1
    ensures pinned ==> Pinned(r.0) == {id}
    ensures !pinned ==> Pinned(r.0) == Pinned(logs)
    ensures WellKeyed(logs) ==> WellKeyed(r.0)
    ensures forall other :: other in logs ==>
              r.0[other].content == logs[other].content && r.0[other].createdBy == logs[other].createdBy
  {
    var log := Log(id, content, creator, pinned, now);
    var before := if pinned then ClearPinned(logs) else logs;
    (before[id := log], log)
  }

  /** `update_log`: a missing id is a 404; a given content replaces the
      text; pinning clears every pin first, unpinning touches this row only;
      with neither field given nothing changes. */
  function UpdateLog(logs: Logs, id: int, content: Option<string>, pinned: Option<bool>)
    : (r: Result<(Logs, Log), HttpError>)
    ensures id !in logs <==> r == Failure(HttpError(404, LogMissing))
    ensures r.Success? ==> r.value.0.Keys == logs.Keys && r.value.1 == r.value.0[id]
    ensures r.Success? ==> r.value.1.content == (if content.Some? then content.value else logs[id].content)
    ensures r.Success? ==> r.value.1.isPinned == (if pinned.Some? then pinned.value else logs[id].isPinned)
    ensures r.Success? ==> r.value.1.id == logs[id].id && r.value.1.createdBy == logs[id].createdBy
                           && r.value.1.createdAt == logs[id].createdAt
    ensures r.Success? && pinned == Some(true) ==> Pinned(r.value.0) == {id}
    ensures r.Success? && WellKeyed(logs) ==> WellKeyed(r.value.0)
    ensures r.Success? && pinned != Some(true) ==>
              forall other :: other in logs && other != id ==> r.value.0[other] == logs[other]
  {
    if id !in logs then Failure(HttpError(404, LogMissing))
    else
      var cleared := if pinned == Some(true) then ClearPinned(logs) else logs;
      var log := cleared[id];
      var log' := log.(content := if content.Some? then content.value else log.content,
                       isPinned := if pinned.Some? then pinned.value else log.isPinned);
      Success((cleared[id := log'], log'))
  }

  /** `delete_log`: a missing id is a 404; otherwise only that row goes. */
  function DeleteLog(logs: Logs, id: int): (r: Result<Logs, HttpError>)
    ensures id !in logs <==> r == Failure(HttpError(404, LogMissing))
    ensures r.Success? ==> r.value == logs - {id}
  {
    if id !in logs then Failure(HttpError(404, LogMissing)) else Success(logs - {id})
  }

  /** Creating a log keeps at most one pin. */
  lemma CreateKeepsOnePin(logs: Logs, content: string, creator: Option<string>, pinned: bool, id: int, now: int)
    requires id !in logs && AtMostOnePinned(logs)
    ensures AtMostOnePinned(CreateLog(logs, content, creator, pinned, id, now).0)
  {
  }

  /** Updating a log keeps at most one pin. */
  lemma UpdateKeepsOnePin(logs: Logs, id: int, content: Option<string>, pinned: Option<bool>)
    requires AtMostOnePinned(logs)
    ensures UpdateLog(logs, id, content, pinned).Success? ==>
              AtMostOnePinned(UpdateLog(logs, id, content, pinned).value.0)
  {
    var r := UpdateLog(logs, id, content, pinned);
    if r.Success? && pinned != Some(true) {
      var after := r.value.0;
      assert Pinned(after) <= Pinned(logs);
    }
  }

  /** Deleting a log keeps at most one pin. */
  lemma DeleteKeepsOnePin(logs: Logs, id: int)
    requires AtMostOnePinned(logs)
    ensures DeleteLog(logs, id).Success? ==> AtMostOnePinned(DeleteLog(logs, id).value)
  {
    if id in logs {
      assert Pinned(logs - {id}) <= Pinned(logs);
    }
  }

  /** An update that names neither field hands back the stored row and
      leaves the table as it was. */
  lemma EmptyUpdateChangesNothing(logs: Logs, id: int)
    requires id in logs
    ensures UpdateLog(logs, id, None, None) == Success((logs, logs[id]))
  {
    var r := UpdateLog(logs, id, None, None).value;
    assert r.0 == logs;
  }

  /** A row, once deleted, can be neither updated nor deleted again. */
  lemma DeleteThenMissing(logs: Logs, id: int, content: Option<string>, pinned: Option<bool>)
    requires id in logs
    ensures UpdateLog(DeleteLog(logs, id).value, id, content, pinned) == Failure(HttpError(404, LogMissing))
    ensures DeleteLog(DeleteLog(logs, id).value, id) == Failure(HttpError(404, LogMissing))
  {
  }
}

=== FILE: users.dfy ===
/** User rows and the per-day request counters used for rate limiting. */
module Users {
  import opened Wrappers
  import Repository
  import opened Stores

  datatype User = User(
    id: int, username: string, email: Option<string>, hashedPassword: string,
    externalId: Option<string>, isAdmin: bool, isActive: bool)

  /** The first user satisfying `ok` is `u`. */
  ghost predicate FirstWith(users: seq<User>, ok: User -> bool, u: User) {
    exists i :: 0 <= i < |users| && users[i] == u && ok(u) && forall j :: 0 <= j < i ==> !ok(users[j])
  }

  /** `get_by_username`: the first user with that name, or None. */
  function GetByUsername(users: seq<User>, name: string): (r: Option<User>)
    ensures r.Some? ==> FirstWith(users, (u: User) => u.username == name, r.value)
    ensures r.None? <==> forall i :: 0 <= i < |users| ==> users[i].username != name
  {
    Repository.First(users, (u: User) => u.username == name)
  }

  /** The optional unique columns a user can also be looked up by. */
  datatype OptionalColumn = EmailColumn | ExternalIdColumn

  function ColumnValue(u: User, column: OptionalColumn): Option<string> {
    match column
    case EmailColumn => u.email
    case ExternalIdColumn => u.externalId
  }

  /** `get_by_email` and `get_by_external_id`: the first user whose column
      holds the value, or None; a user with nothing in the column never
      matches. */
  function GetByColumn(users: seq<User>, column: OptionalColumn, value: string): (r: Option<User>)
    ensures r.Some? ==> FirstWith(users, (u: User) => ColumnValue(u, column) == Some(value), r.value)
    ensures r.None? <==> forall i :: 0 <= i < |users| ==> ColumnValue(users[i], column) != Some(value)
  {
    Repository.First(users, (u: User) => ColumnValue(u, column) == Some(value))
  }

  /** The table's unique constraint on usernames. */
  predicate UniqueUsernames(users: seq<User>) {
    forall i, j :: 0 <= i < j < |users| ==> users[i].username != users[j].username
  }

  /** Under the unique constraint, a lookup by name finds the one user who
      has it. */
  lemma GetByUsernameFindsTheUser(users: seq<User>, i: int)
    requires UniqueUsernames(users) && 0 <= i < |users|
    ensures GetByUsername(users, users[i].username) == Some(users[i])
  {
    var name := users[i].username;
    var r := GetByUsername(users, name);
    assert r.Some?;
    var k :| 0 <= k < |users| && users[k] == r.value && r.value.username == name
             && forall j :: 0 <= j < k ==> users[j].username != name;
    if k != i {
      assert users[k].username == users[i].username;
    }
  }

  // ---------------------------------------------------------------------------
  // Daily request counters
  // ---------------------------------------------------------------------------

  /** `user_daily_requests` is unique on (user, date); a date is a day
      number. */
  datatype DayKey = DayKey(userId: int, day: int)

  type DailyTable = map<DayKey, int>

  /** `get_daily_request`: the count of (user, today), 0 when there is no
      row. */
  function GetDailyRequest(t: DailyTable, userId: int, today: int): (n: int)
    ensures DayKey(userId, today) !in t ==> n == 0
    ensures DayKey(userId, today) in t ==> n == t[DayKey(userId, today)]
  {
    var k := DayKey(userId, today);
    if k in t && t[k] != 0 then t[k] else 0
  }

  /** `increment_daily_request`: a new row with count 1, or the existing
      count plus one; every other user and day is untouched. */
  function IncrementDailyRequest(t: DailyTable, userId: int, today: int): (r: DailyTable)
    ensures DayKey(userId, today) !in t ==> r == t[DayKey(userId, today) := 1]
    ensures DayKey(userId, today) in t ==> r == t[DayKey(userId, today) := t[DayKey(userId, today)] + 1]
    ensures OthersUnchanged(t, r, DayKey(userId, today))
  {
    var k := DayKey(userId, today);
    if k !in t then t[k := 1] else t[k := t[k] + 1]
  }

  /** An increment is seen by the next read as exactly one more request. */
  lemma IncrementThenGet(t: DailyTable, userId: int, today: int)
    ensures GetDailyRequest(IncrementDailyRequest(t, userId, today), userId, today)
            == GetDailyRequest(t, userId, today) + 1
  {
  }

  /** Another user's or another day's count is not affected. */
  lemma IncrementIsolated(t: DailyTable, userId: int, today: int, otherUser: int, otherDay: int)
    requires otherUser != userId || otherDay != today
    ensures GetDailyRequest(IncrementDailyRequest(t, userId, today), otherUser, otherDay)
            == GetDailyRequest(t, otherUser, otherDay)
  {
    assert DayKey(otherUser, otherDay) != DayKey(userId, today);
  }
}

=== FILE: vector_codec.dfy ===
/** The byte-level helpers of the vector store: the float32 blob codec, the
    64-bit point id derived from a digest, and metadata parsing. Float
    rounding, SHA-256, UTF-8 decoding and JSON parsing are parameters. */
module VectorCodec {
  import opened Wrappers
  import opened VectorStore

  // ---------------------------------------------------------------------------
  // The float32 blob
  // ---------------------------------------------------------------------------

  /** One float32 bit pattern as four bytes, least significant first (the
      byte order of the x86 and ARM hosts the service runs on). */
  function EncodeWord(w: bv32): (r: seq<bv8>)
    ensures |r| == 4
  {
    [(w & 0xFF) as bv8, ((w >> 8) & 0xFF) as bv8, ((w >> 16) & 0xFF) as bv8, ((w >> 24) & 0xFF) as bv8]
  }

  /** Four bytes, least significant first, as one bit pattern. */
  function DecodeWord(b: seq<bv8>): bv32
    requires |b| == 4
  {
    (b[0] as bv32) | ((b[1] as bv32) << 8) | ((b[2] as bv32) << 16) | ((b[3] as bv32) << 24)
  }

  /** Both directions of the word codec: it is a bijection. */
  lemma WordRoundTrip(w: bv32, b: seq<bv8>)
    requires |b| == 4
    ensures DecodeWord(EncodeWord(w)) == w
    ensures EncodeWord(DecodeWord(b)) == b
  {
  }

  /** `array("f", words).tobytes()`: four bytes per element. */
  function Encode(ws: seq<bv32>): (r: seq<bv8>)
    ensures |r| == 4 * |ws|
    decreases |ws|
  {
    if |ws| == 0 then [] else EncodeWord(ws[0]) + Encode(ws[1..])
  }

  /** `_from_f32_blob` on a present blob: the empty blob is []; a length that
      is not a multiple of four makes `array.frombytes` raise (None). */
  function Decode(bs: seq<bv8>): (r: Option<seq<bv32>>)
    ensures r.Some? <==> |bs| % 4 == 0
    ensures r.Some? ==> 4 * |r.value| == |bs|
    decreases |bs|
  {
    if |bs| == 0 then Some([])
    else if |bs| < 4 then None
    else
      match Decode(bs[4..])
      case None => None
      case Some(rest) => Some([DecodeWord(bs[..4])] + rest)
  }

  /** Decoding an encoded vector gives it back. */
  lemma {:induction false} DecodeEncode(ws: seq<bv32>)
    ensures Decode(Encode(ws)) == Some(ws)
    decreases |ws|
  {
    if |ws| > 0 {
      var bs := Encode(ws);
      assert bs[..4] == EncodeWord(ws[0]);
      assert bs[4..] == Encode(ws[1..]);
      DecodeEncode(ws[1..]);
      WordRoundTrip(ws[0], bs[..4]);
      assert [ws[0]] + ws[1..] == ws;
    }
  }

  /** Encoding a decodable blob gives it back. */
  lemma {:induction false} EncodeDecode(bs: seq<bv8>)
    requires |bs| % 4 == 0
    ensures Encode(Decode(bs).value) == bs
    decreases |bs|
  {
    if |bs| > 0 {
      EncodeDecode(bs[4..]);
      var ws := Decode(bs).value;
      WordRoundTrip(0, bs[..4]);
      assert ws[1..] == Decode(bs[4..]).value;
      assert bs == bs[..4] + bs[4..];
    }
  }

  /** `_to_f32_blob`: each component narrowed to float32 (the `toBits`
      parameter) and packed. */
  function ToBlob(embedding: seq<real>, toBits: real -> bv32): (r: seq<bv8>)
    ensures |r| == 4 * |embedding|
  {
    Encode(seq(|embedding|, i requires 0 <= i < |embedding| => toBits(embedding[i])))
  }

  /** `_from_f32_blob`: a missing or empty blob is []; otherwise the words,
      each widened back by `fromBits`; a ragged blob raises (None). */
  function FromBlob(blob: Option<seq<bv8>>, fromBits: bv32 -> real): (r: Option<seq<real>>)
    ensures blob.None? || blob.value == [] ==> r == Some([])
    ensures blob.Some? ==> (r.Some? <==> |blob.value| % 4 == 0)
    ensures r.Some? && blob.Some? ==> 4 * |r.value| == |blob.value|
  {
    if blob.None? || blob.value == [] then Some([])
    else
      match Decode(blob.value)
      case None => None
      case Some(ws) => Some(seq(|ws|, i requires 0 <= i < |ws| => fromBits(ws[i])))
  }

  /** What is stored comes back component by component, up to the float32
      rounding of each value. */
  lemma BlobRoundTrip(embedding: seq<real>, toBits: real -> bv32, fromBits: bv32 -> real)
    ensures var r := FromBlob(Some(ToBlob(embedding, toBits)), fromBits);
            r.Some? && |r.value| == |embedding|
            && forall i :: 0 <= i < |embedding| ==> r.value[i] == fromBits(toBits(embedding[i]))
  {
    var ws := seq(|embedding|, i requires 0 <= i < |embedding| => toBits(embedding[i]));
    DecodeEncode(ws);
  }

  // ---------------------------------------------------------------------------
  // Stable point ids
  // ---------------------------------------------------------------------------

  /** 256 to the power `n`. */
  function Pow256(n: nat): (r: nat)
    ensures r > 0
  {
    if n == 0 then 1 else 256 * Pow256(n - 1)
  }

  /** `int.from_bytes(bs, "big")`. */
  function BigEndian(bs: seq<bv8>): (r: nat)
    ensures r < Pow256(|bs|)
    decreases |bs|
  {
    if |bs| == 0 then 0
    else BigEndian(bs[..|bs| - 1]) * 256 + bs[|bs| - 1] as nat
  }

  /** `n.to_bytes(len, "big")` for `n < 256^len`. */
  function ToBigEndian(n: nat, len: nat): (r: seq<bv8>)
    requires n < Pow256(len)
    ensures |r| == len
    decreases len
  {
    if len == 0 then [] else ToBigEndian(n / 256, len - 1) + [(n % 256) as bv8]
  }

  /** The big-endian reading is lossless: the bytes come back from the number. */
  lemma {:induction false} BigEndianRoundTrip(bs: seq<bv8>)
    ensures ToBigEndian(BigEndian(bs), |bs|) == bs
    decreases |bs|
  {
    if |bs| > 0 {
      var init := bs[..|bs| - 1];
      var n := BigEndian(bs);
      assert n / 256 == BigEndian(init);
      assert n % 256 == bs[|bs| - 1] as nat;
      BigEndianRoundTrip(init);
      assert init + [bs[|bs| - 1]] == bs;
    }
  }

  /** `_stable_int_id`: 0 for the empty id, else the first eight digest bytes
      read big-endian, so always below 2^64 and determined by those bytes. */
  function StableIntId(text: string, sha256: string -> seq<bv8>): (r: nat)
    requires text != "" ==> |sha256(text)| == 32
    ensures text == "" ==> r == 0
    ensures r < 0x1_0000_0000_0000_0000
    ensures text != "" ==> ToBigEndian(r, 8) == sha256(text)[..8]
  {
    if text == "" then 0
    else
      var head := sha256(text)[..8];
      BigEndianRoundTrip(head);
      assert Pow256(8) == 0x1_0000_0000_0000_0000;
      BigEndian(head)
  }

  // ---------------------------------------------------------------------------
  // Metadata
  // ---------------------------------------------------------------------------

  /** The stored metadata column as the driver hands it over. */
  datatype RawMetadata = NoValue | DictValue(fields: Metadata) | TextValue(text: string)
                       | BytesValue(bytes: seq<bv8>) | OtherValue

  /** What `json.loads` yields: an object, or any other JSON value. */
  datatype Json = JsonObject(fields: Metadata) | JsonOther

  /** `_parse_metadata`: falsy input is {}; a dict passes through; bytes are
      decoded as UTF-8 first (a decoding error is not caught); text that
      parses to an object gives that object, anything else {}. */
  function ParseMetadata(raw: RawMetadata, utf8: seq<bv8> -> Option<string>, parse: string -> Option<Json>)
    : (r: Result<Metadata, string>)
    ensures r.Failure? ==> raw.BytesValue? && raw.bytes != [] && utf8(raw.bytes).None?
    ensures raw.DictValue? ==> r == Success(raw.fields)
    ensures raw.NoValue? || raw.OtherValue? ==> r == Success(map[])
    ensures raw.TextValue? && raw.text != "" ==>
              r == Success(match parse(raw.text) case Some(JsonObject(m)) => m case _ => map[])
  {
    match raw
    case NoValue => Success(map[])
    case DictValue(m) => Success(m)
    case TextValue(t) => Success(ParseText(t, parse))
    case BytesValue(b) =>
      if b == [] then Success(map[])
      else
        (match utf8(b)
         case None => Failure("UnicodeDecodeError")
         case Some(t) => Success(ParseText(t, parse)))
    case OtherValue => Success(map[])
  }

  /** The text branch of `_parse_metadata`. */
  function ParseText(t: string, parse: string -> Option<Json>): (m: Metadata)
    ensures t == "" ==> m == map[]
    ensures t != "" && parse(t).Some? && parse(t).value.JsonObject? ==> m == parse(t).value.fields
  {
    if t == "" then map[]
    else match parse(t)
      case Some(JsonObject(fields)) => fields
      case _ => map[]
  }

  /** Metadata written as JSON text comes back unchanged whenever the JSON
      serialiser and parser agree on it. */
  lemma MetadataRoundTrip(m: Metadata, dump: Metadata -> string, parse: string -> Option<Json>,
                          utf8: seq<bv8> -> Option<string>)
    requires dump(m) != "" && parse(dump(m)) == Some(JsonObject(m))
    ensures ParseMetadata(TextValue(dump(m)), utf8, parse) == Success(m)
  {
  }
}

=== FILE: vector_query.dfy ===
/** Retrieval from the vector store: the guards in front of every query, the
    resolution of `top_k`, and the in-process fallback ranking used when the
    libsql build lacks `vector_distance_cosine`. The native query (SQL or
    Qdrant search) is not modelled; its outcome is a parameter. */
module VectorQuery {
  import opened Wrappers
  import opened VectorStore

  // ---------------------------------------------------------------------------
  // Cosine distance
  // ---------------------------------------------------------------------------

  /** The sum of products over the common prefix (`zip` stops at the
      shorter vector). */
  function Dot(a: seq<real>, b: seq<real>): real
    decreases |a|
  {
    if |a| == 0 || |b| == 0 then 0.0 else a[0] * b[0] + Dot(a[1..], b[1..])
  }

  /** The squared norm. */
  function SumSquares(a: seq<real>): (r: real)
    ensures r >= 0.0
    decreases |a|
  {
    if |a| == 0 then 0.0 else a[0] * a[0] + SumSquares(a[1..])
  }

  predicate IsZeroVector(a: seq<real>) {
    forall i :: 0 <= i < |a| ==> a[i] == 0.0
  }

  /** A zero vector has zero norm, so the distance guard catches it. */
  lemma {:induction false} ZeroVectorHasZeroNorm(a: seq<real>)
    ensures IsZeroVector(a) ==> SumSquares(a) == 0.0
    decreases |a|
  {
    if |a| > 0 && IsZeroVector(a) {
      assert IsZeroVector(a[1..]) by {
        forall i | 0 <= i < |a[1..]| ensures a[1..][i] == 0.0 { assert a[1..][i] == a[i + 1]; }
      }
      ZeroVectorHasZeroNorm(a[1..]);
      var x := a[0];
      assert x == 0.0;
      assert x * x == 0.0;
    }
  }

  /** `_cosine_distance`: 1 minus the cosine similarity, and exactly 1.0 when
      either vector is empty or has zero norm. The cosine of two non-zero
      vectors is a parameter (it needs square roots). */
  function CosineDistance(a: seq<real>, b: seq<real>, cosine: (seq<real>, seq<real>) -> real): (d: real)
    ensures |a| == 0 || |b| == 0 || IsZeroVector(a) || IsZeroVector(b) ==> d == 1.0
    ensures |a| > 0 && |b| > 0 && SumSquares(a) != 0.0 && SumSquares(b) != 0.0 ==> d == 1.0 - cosine(a, b)
  {
    ZeroVectorHasZeroNorm(a);
    ZeroVectorHasZeroNorm(b);
    if |a| == 0 || |b| == 0 then 1.0
    else if SumSquares(a) == 0.0 || SumSquares(b) == 0.0 then 1.0
    else
      1.0 - cosine(a, b)
  }

  // ---------------------------------------------------------------------------
  // Stable sorting by score
  // ---------------------------------------------------------------------------

  predicate SortedBy<T>(s: seq<T>, key: T -> real) {
    forall i, j :: 0 <= i < j < |s| ==> key(s[i]) <= key(s[j])
  }

  /** Inserts `x` before the first element whose key is not below its own:
      placed in front of later equal keys, which keeps the sort stable. */
  function Insert<T>(x: T, s: seq<T>, key: T -> real): (r: seq<T>)
    requires SortedBy(s, key)
    ensures SortedBy(r, key)
    ensures multiset(r) == multiset(s) + multiset{x}
    decreases |s|
  {
    if |s| == 0 then [x]
    else if key(x) <= key(s[0]) then [x] + s
    else
      var rest := Insert(x, s[1..], key);
      assert s == [s[0]] + s[1..];
      assert forall y :: y in multiset(rest) ==> key(s[0]) <= key(y) by {
        forall y | y in multiset(rest) ensures key(s[0]) <= key(y) {
          assert y in multiset(s[1..]) || y == x;
          if y in multiset(s[1..]) {
            var j :| 0 <= j < |s[1..]| && s[1..][j] == y;
            assert s[j + 1] == y;
          }
        }
      }
      SortedCons(s[0], rest, key);
      [s[0]] + rest
  }

  lemma SortedCons<T>(x: T, s: seq<T>, key: T -> real)
    requires SortedBy(s, key)
    requires forall y :: y in multiset(s) ==> key(x) <= key(y)
    ensures SortedBy([x] + s, key)
  {
    var r := [x] + s;
    forall i, j | 0 <= i < j < |r| ensures key(r[i]) <= key(r[j]) {
      if i == 0 {
        assert r[j] == s[j - 1];
        assert s[j - 1] in multiset(s);
      } else {
        assert r[i] == s[i - 1] && r[j] == s[j - 1];
      }
    }
  }

  /** Python's `list.sort(key=…)`: ascending, stable, a permutation. */
  function SortBy<T>(xs: seq<T>, key: T -> real): (r: seq<T>)
    ensures SortedBy(r, key)
    ensures multiset(r) == multiset(xs)
    decreases |xs|
  {
    if |xs| == 0 then []
    else
      assert xs == [xs[0]] + xs[1..];
      Insert(xs[0], SortBy(xs[1..], key), key)
  }

  /** `xs[:k]`. */
  function Take<T>(xs: seq<T>, k: int): (r: seq<T>)
    ensures |r| == (if k <= 0 then 0 else if k < |xs| then k else |xs|)
    ensures r == xs[..|r|]
  {
    if k <= 0 then [] else if k < |xs| then xs[..k] else xs
  }

  // ---------------------------------------------------------------------------
  // The fallback ranking
  // ---------------------------------------------------------------------------

  /** A chunk hit: the record's content, chapter, title and metadata, scored
      by distance (smaller is closer). */
  datatype RetrievedChunk = RetrievedChunk(
    content: string, chapterNumber: int, chapterTitle: string, score: real, metadata: Metadata)

  /** A summary hit. */
  datatype RetrievedSummary = RetrievedSummary(chapterNumber: int, title: string, summary: string, score: real)

  function ChunkScore(c: RetrievedChunk): real { c.score }

  function SummaryScore(c: RetrievedSummary): real { c.score }

  /** The project's rows of a table scan, in scan order, each scored against
      the query vector. */
  function ScoreChunks(scan: seq<ChunkRecord>, projectId: string, query: seq<real>,
                       cosine: (seq<real>, seq<real>) -> real): (r: seq<RetrievedChunk>)
    ensures |r| <= |scan|
    ensures forall j :: 0 <= j < |scan| && scan[j].projectId == projectId ==> ChunkHit(scan[j], query, cosine) in r
    decreases |scan|
  {
    if |scan| == 0 then []
    else
      var rest := ScoreChunks(scan[1..], projectId, query, cosine);
      assert forall j :: 1 <= j < |scan| ==> scan[j] == scan[1..][j - 1];
      (if scan[0].projectId == projectId then [ChunkHit(scan[0], query, cosine)] else []) + rest
  }

  /** `h` is the hit of a row of the project. */
  predicate IsProjectHit(h: RetrievedChunk, scan: seq<ChunkRecord>, projectId: string, query: seq<real>,
                         cosine: (seq<real>, seq<real>) -> real)
  {
    exists j :: 0 <= j < |scan| && scan[j].projectId == projectId && h == ChunkHit(scan[j], query, cosine)
  }

  /** Every hit of `r` is the hit of a row of the project. */
  predicate HitsOfProject(r: seq<RetrievedChunk>, scan: seq<ChunkRecord>, projectId: string, query: seq<real>,
                          cosine: (seq<real>, seq<real>) -> real)
  {
    forall i :: 0 <= i < |r| ==> IsProjectHit(r[i], scan, projectId, query, cosine)
  }

  /** Every scored hit comes from a row of the project. */
  lemma {:induction false} ScoreChunksFromProject(scan: seq<ChunkRecord>, projectId: string, query: seq<real>,
                                                  cosine: (seq<real>, seq<real>) -> real)
    ensures HitsOfProject(ScoreChunks(scan, projectId, query, cosine), scan, projectId, query, cosine)
    decreases |scan|
  {
    if |scan| > 0 {
      ScoreChunksFromProject(scan[1..], projectId, query, cosine);
      var rest := ScoreChunks(scan[1..], projectId, query, cosine);
      var head := if scan[0].projectId == projectId then [ChunkHit(scan[0], query, cosine)] else [];
      HitsOfTail(rest, scan, projectId, query, cosine);
      assert HitsOfProject(head, scan, projectId, query, cosine) by {
        if head != [] {
          assert head[0] == ChunkHit(scan[0], query, cosine);
        }
      }
      HitsConcat(head, rest, scan, projectId, query, cosine);
    }
  }

  /** Hits of rows of the tail of a scan are hits of rows of the scan. */
  lemma HitsOfTail(r: seq<RetrievedChunk>, scan: seq<ChunkRecord>, projectId: string, query: seq<real>,
                   cosine: (seq<real>, seq<real>) -> real)
    requires |scan| > 0 && HitsOfProject(r, scan[1..], projectId, query, cosine)
    ensures HitsOfProject(r, scan, projectId, query, cosine)
  {
    forall i | 0 <= i < |r|
      ensures IsProjectHit(r[i], scan, projectId, query, cosine)
    {
      var t := scan[1..];
      assert IsProjectHit(r[i], t, projectId, query, cosine);
      var j :| 0 <= j < |t| && t[j].projectId == projectId && r[i] == ChunkHit(t[j], query, cosine);
      assert scan[j + 1] == t[j];
    }
  }

  lemma HitsConcat(a: seq<RetrievedChunk>, b: seq<RetrievedChunk>, scan: seq<ChunkRecord>, projectId: string,
                   query: seq<real>, cosine: (seq<real>, seq<real>) -> real)
    requires HitsOfProject(a, scan, projectId, query, cosine) && HitsOfProject(b, scan, projectId, query, cosine)
    ensures HitsOfProject(a + b, scan, projectId, query, cosine)
  {
    forall i | 0 <= i < |a + b|
      ensures IsProjectHit((a + b)[i], scan, projectId, query, cosine)
    {
      if i < |a| {
        assert (a + b)[i] == a[i];
      } else {
        assert (a + b)[i] == b[i - |a|];
      }
    }
  }

  /** The hit a stored chunk row yields. */
  function ChunkHit(row: ChunkRecord, query: seq<real>, cosine: (seq<real>, seq<real>) -> real): (h: RetrievedChunk)
    ensures h.content == row.content && h.chapterNumber == row.chapterNumber && h.chapterTitle == row.chapterTitle
    ensures h.metadata == row.metadata && h.score == CosineDistance(query, row.embedding, cosine)
  {
    RetrievedChunk(row.content, row.chapterNumber, row.chapterTitle, CosineDistance(query, row.embedding, cosine), row.metadata)
  }

  /** `_query_chunks_with_python_similarity`: the scored project rows sorted
      by ascending distance, cut to `topK`. The answer is the closest rows:
      none left out is closer than one kept. */
  function FallbackChunks(scan: seq<ChunkRecord>, projectId: string, query: seq<real>, topK: int,
                          cosine: (seq<real>, seq<real>) -> real): (r: seq<RetrievedChunk>)
    ensures SortedBy(r, ChunkScore)
    ensures var scored := ScoreChunks(scan, projectId, query, cosine);
            |r| == (if topK <= 0 then 0 else if topK < |scored| then topK else |scored|)
            && multiset(r) <= multiset(scored)
            && forall x, y :: x in r && y in multiset(scored) - multiset(r) ==> x.score <= y.score
  {
    var scored := ScoreChunks(scan, projectId, query, cosine);
    var ranked := SortBy(scored, ChunkScore);
    var r := Take(ranked, topK);
    TakeIsBest(ranked, topK, ChunkScore);
    r
  }

  /** The summaries of a project, scored. */
  function ScoreSummaries(scan: seq<SummaryRecord>, projectId: string, query: seq<real>,
                          cosine: (seq<real>, seq<real>) -> real): (r: seq<RetrievedSummary>)
    ensures |r| <= |scan|
    ensures forall j :: 0 <= j < |scan| && scan[j].projectId == projectId ==> SummaryHit(scan[j], query, cosine) in r
    decreases |scan|
  {
    if |scan| == 0 then []
    else
      var rest := ScoreSummaries(scan[1..], projectId, query, cosine);
      assert forall j :: 1 <= j < |scan| ==> scan[j] == scan[1..][j - 1];
      (if scan[0].projectId == projectId then [SummaryHit(scan[0], query, cosine)] else []) + rest
  }

  /** The hit a stored summary row yields. */
  function SummaryHit(row: SummaryRecord, query: seq<real>, cosine: (seq<real>, seq<real>) -> real): (h: RetrievedSummary)
    ensures h.chapterNumber == row.chapterNumber && h.title == row.title && h.summary == row.summary
    ensures h.score == CosineDistance(query, row.embedding, cosine)
  {
    RetrievedSummary(row.chapterNumber, row.title, row.summary, CosineDistance(query, row.embedding, cosine))
  }

  /** `_query_summaries_with_python_similarity`. */
  function FallbackSummaries(scan: seq<SummaryRecord>, projectId: string, query: seq<real>, topK: int,
                             cosine: (seq<real>, seq<real>) -> real): (r: seq<RetrievedSummary>)
    ensures SortedBy(r, SummaryScore)
    ensures var scored := ScoreSummaries(scan, projectId, query, cosine);
            |r| == (if topK <= 0 then 0 else if topK < |scored| then topK else |scored|)
            && multiset(r) <= multiset(scored)
            && forall x, y :: x in r && y in multiset(scored) - multiset(r) ==> x.score <= y.score
  {
    var scored := ScoreSummaries(scan, projectId, query, cosine);
    var ranked := SortBy(scored, SummaryScore);
    TakeIsBest(ranked, topK, SummaryScore);
    Take(ranked, topK)
  }

  /** The first `k` of a sorted permutation are a best `k`. */
  lemma TakeIsBest<T>(ranked: seq<T>, k: int, key: T -> real)
    requires SortedBy(ranked, key)
    ensures SortedBy(Take(ranked, k), key)
    ensures multiset(Take(ranked, k)) <= multiset(ranked)
    ensures forall x, y :: x in Take(ranked, k) && y in multiset(ranked) - multiset(Take(ranked, k)) ==> key(x) <= key(y)
  {
    var r := Take(ranked, k);
    var n := |r|;
    MultisetOfSplit(ranked, n);
    forall x, y | x in r && y in multiset(ranked) - multiset(r) ensures key(x) <= key(y) {
      BelowSplit(ranked, n, x, y, key);
    }
  }

  lemma MultisetOfSplit<T>(s: seq<T>, n: nat)
    requires n <= |s|
    ensures multiset(s) == multiset(s[..n]) + multiset(s[n..])
    ensures multiset(s) - multiset(s[..n]) == multiset(s[n..])
  {
    assert s == s[..n] + s[n..];
  }

  lemma BelowSplit<T>(s: seq<T>, n: nat, x: T, y: T, key: T -> real)
    requires SortedBy(s, key) && n <= |s|
    requires x in s[..n] && y in multiset(s[n..])
    ensures key(x) <= key(y)
  {
    var i :| 0 <= i < n && s[..n][i] == x;
    var j :| 0 <= j < |s[n..]| && s[n..][j] == y;
    assert s[i] == x && s[n + j] == y;
  }

  // ---------------------------------------------------------------------------
  // Query guards and top_k
  // ---------------------------------------------------------------------------

  /** What the native query came back with: its rows, the libsql error
      "no such function: vector_distance_cosine", or any other error. */
  datatype NativeAnswer<T> = Answered(rows: seq<T>) | MissingDistanceFunction | Failed

  /** `top_k or settings.default`, as written: 0 counts as "not given". */
  function WrittenTopK(topK: Option<int>, default: int): (k: int)
    ensures topK.Some? && topK.value != 0 ==> k == topK.value
    ensures topK.None? || topK.value == 0 ==> k == default
  {
    if topK.None? || topK.value == 0 then default else topK.value
  }

  /** The evidently intended resolution: only a missing `top_k` takes the
      default, so an explicit 0 asks for nothing. */
  function IntendedTopK(topK: Option<int>, default: int): (k: int)
    ensures topK.Some? ==> k == topK.value
    ensures topK.None? ==> k == default
  {
    if topK.None? then default else topK.value
  }

  /** The common shape of `query_chunks`/`query_summaries` once `top_k` is
      resolved to `k`: no client, an empty query vector or `k <= 0` give []
      without consulting the backend; otherwise the native rows, [] on an
      error, and on libsql the fallback ranking cut to `k` when the distance
      function is missing. */
  function Answer<T>(svc: Service, query: seq<real>, k: int, native: NativeAnswer<T>, ranked: seq<T>): (r: seq<T>)
    ensures !svc.hasClient || |query| == 0 || k <= 0 ==> r == []
    ensures native.Failed? ==> r == []
    ensures svc.hasClient && |query| > 0 && k > 0 && native.Answered? ==> r == native.rows
    ensures svc.hasClient && |query| > 0 && k > 0 && native.MissingDistanceFunction? ==>
              r == (if svc.provider == Qdrant then [] else Take(ranked, k))
  {
    if !svc.hasClient || |query| == 0 then []
    else if k <= 0 then []
    else match native
      case Answered(rows) => rows
      case MissingDistanceFunction => if svc.provider == Qdrant then [] else Take(ranked, k)
      case Failed => []
  }

  /** `query_chunks` as written: `top_k=0` falls back to the default. */
  function WrittenQueryChunks(svc: Service, scan: seq<ChunkRecord>, projectId: string, query: seq<real>,
                              topK: Option<int>, default: int, native: NativeAnswer<RetrievedChunk>,
                              cosine: (seq<real>, seq<real>) -> real): (r: seq<RetrievedChunk>)
    ensures topK == Some(0) && default > 0 && svc.hasClient && |query| > 0 && native.Answered? ==> r == native.rows
  {
    var k := WrittenTopK(topK, default);
    Answer(svc, query, k, native, FallbackChunks(scan, projectId, query, k, cosine))
  }

  /** With the shipped default of 5, asking for zero chunks still returns the
      backend's rows. */
  lemma ZeroTopKStillQueries(svc: Service, scan: seq<ChunkRecord>, p: string, query: seq<real>,
                             hit: RetrievedChunk, cosine: (seq<real>, seq<real>) -> real)
    requires svc.hasClient && |query| > 0
    ensures WrittenQueryChunks(svc, scan, p, query, Some(0), 5, Answered([hit]), cosine) == [hit]
  {
  }

  /** `query_chunks` with the intended `top_k` resolution: the result is
      empty exactly when the client, the query vector or a positive `top_k`
      is missing, or the backend gives nothing; the fallback answers with the
      closest `k` of the project's rows. */
  function QueryChunks(svc: Service, scan: seq<ChunkRecord>, projectId: string, query: seq<real>,
                       topK: Option<int>, default: int, native: NativeAnswer<RetrievedChunk>,
                       cosine: (seq<real>, seq<real>) -> real): (r: seq<RetrievedChunk>)
    ensures IntendedTopK(topK, default) <= 0 ==> r == []
    ensures !svc.hasClient || |query| == 0 ==> r == []
    ensures native.Failed? ==> r == []
    ensures svc.hasClient && |query| > 0 && IntendedTopK(topK, default) > 0 && native.Answered? ==> r == native.rows
    ensures svc.hasClient && |query| > 0 && IntendedTopK(topK, default) > 0 && native.MissingDistanceFunction?
            && svc.provider != Qdrant ==>
              r == FallbackChunks(scan, projectId, query, IntendedTopK(topK, default), cosine)
  {
    var k := IntendedTopK(topK, default);
    var ranked := SortBy(ScoreChunks(scan, projectId, query, cosine), ChunkScore);
    assert k > 0 ==> Take(ranked, k) == FallbackChunks(scan, projectId, query, k, cosine);
    Answer(svc, query, k, native, ranked)
  }

  /** The corrected resolution honours an explicit zero. */
  lemma ZeroTopKIsEmpty(svc: Service, scan: seq<ChunkRecord>, p: string, query: seq<real>, default: int,
                        native: NativeAnswer<RetrievedChunk>, cosine: (seq<real>, seq<real>) -> real)
    ensures QueryChunks(svc, scan, p, query, Some(0), default, native, cosine) == []
  {
  }

  /** `query_summaries` with the intended `top_k` resolution. */
  function QuerySummaries(svc: Service, scan: seq<SummaryRecord>, projectId: string, query: seq<real>,
                          topK: Option<int>, default: int, native: NativeAnswer<RetrievedSummary>,
                          cosine: (seq<real>, seq<real>) -> real): (r: seq<RetrievedSummary>)
    ensures IntendedTopK(topK, default) <= 0 ==> r == []
    ensures !svc.hasClient || |query| == 0 ==> r == []
    ensures native.Failed? ==> r == []
    ensures svc.hasClient && |query| > 0 && IntendedTopK(topK, default) > 0 && native.Answered? ==> r == native.rows
    ensures svc.hasClient && |query| > 0 && IntendedTopK(topK, default) > 0 && native.MissingDistanceFunction?
            && svc.provider != Qdrant ==>
              r == FallbackSummaries(scan, projectId, query, IntendedTopK(topK, default), cosine)
  {
    var k := IntendedTopK(topK, default);
    var ranked := SortBy(ScoreSummaries(scan, projectId, query, cosine), SummaryScore);
    assert k > 0 ==> Take(ranked, k) == FallbackSummaries(scan, projectId, query, k, cosine);
    Answer(svc, query, k, native, ranked)
  }
}

=== FILE: vector_store.dfy ===
/** The vector store service as a logical store: which backend it opens, the
    chunk and summary tables keyed by record id, upsert-on-conflict,
    delete-by-chapters with positional placeholders, and the counters. Both
    backends are modelled over the same id-keyed tables; the SQL text and the
    client calls are not. */
module VectorStore {
  import opened Wrappers
  import opened Text

  // ---------------------------------------------------------------------------
  // Provider selection
  // ---------------------------------------------------------------------------

  /** The backend in use; `Disabled` is the provider name "none". */
  datatype Provider = Disabled | LibSql | Qdrant

  /** The settings read when the service is constructed. */
  datatype StoreSettings = StoreSettings(url: Option<string>, provider: Option<string>, collectionPrefix: string)

  /** What the process offers: whether each client library is importable and
      whether creating the libsql client succeeds. */
  datatype Runtime = Runtime(qdrantInstalled: bool, libsqlInstalled: bool, libsqlConnects: bool)

  /** A constructed service: its provider, whether it holds a client, and the
      two Qdrant collection names (empty for the other providers). */
  datatype Service = Service(provider: Provider, hasClient: bool, chunkCollection: string, summaryCollection: string)

  /** `vector_store_enabled`: a non-empty database URL is configured. */
  predicate Enabled(s: StoreSettings) {
    s.url.Some? && s.url.value != ""
  }

  /** `(vector_db_provider or "libsql").lower()`. */
  function RequestedProvider(s: StoreSettings): string {
    ToLower(if s.provider.None? || s.provider.value == "" then "libsql" else s.provider.value)
  }

  /** The service constructor. A disabled store has provider "none" and no
      client. Qdrant is used only when asked for and the URL is not a
      `file:` URL; every other name is served by libsql. A missing client
      library raises; a failing libsql connection leaves the service without
      a client. */
  function OpenService(s: StoreSettings, rt: Runtime): (r: Result<Service, string>)
    ensures !Enabled(s) ==> r == Success(Service(Disabled, false, "", ""))
    ensures r.Success? && r.value.hasClient ==> Enabled(s)
    ensures r.Success? && r.value.provider == Qdrant ==>
              r.value.hasClient && RequestedProvider(s) == "qdrant" && !StartsWith(s.url.value, "file:")
              && r.value.chunkCollection == s.collectionPrefix + "_chunks"
              && r.value.summaryCollection == s.collectionPrefix + "_summaries"
    ensures r.Success? && r.value.provider == LibSql ==> (r.value.hasClient <==> rt.libsqlConnects)
    ensures r.Failure? ==> Enabled(s) && (!rt.qdrantInstalled || !rt.libsqlInstalled)
  {
    if !Enabled(s) then Success(Service(Disabled, false, "", ""))
    else
      var url := s.url.value;
      if RequestedProvider(s) == "qdrant" && !StartsWith(url, "file:") then
        if !rt.qdrantInstalled then Failure("qdrant-client is not installed")
        else Success(Service(Qdrant, true, s.collectionPrefix + "_chunks", s.collectionPrefix + "_summaries"))
      else if !rt.libsqlInstalled then Failure("libsql-client is not installed")
      else Success(Service(LibSql, rt.libsqlConnects, "", ""))
  }

  /** A `file:` URL never reaches Qdrant, whatever provider is named: the
      service comes up exactly when the libsql library is present. */
  lemma FileUrlFallsBackToLibsql(s: StoreSettings, rt: Runtime)
    requires Enabled(s) && StartsWith(s.url.value, "file:")
    ensures OpenService(s, rt).Success? <==> rt.libsqlInstalled
    ensures OpenService(s, rt).Success? ==> OpenService(s, rt).value.provider == LibSql
  {
  }

  // ---------------------------------------------------------------------------
  // Records and tables
  // ---------------------------------------------------------------------------

  /** A metadata value: the service only ever stores text and integers. */
  datatype MetaValue = MetaText(text: string) | MetaInt(n: int)

  type Metadata = map<string, MetaValue>

  /** A row of `rag_chunks` (or the payload of a Qdrant chunk point). */
  datatype ChunkRecord = ChunkRecord(
    id: string, projectId: string, chapterNumber: int, chunkIndex: int,
    chapterTitle: string, content: string, embedding: seq<real>, metadata: Metadata)

  /** A row of `rag_summaries`. */
  datatype SummaryRecord = SummaryRecord(
    id: string, projectId: string, chapterNumber: int,
    title: string, summary: string, embedding: seq<real>)

  /** Both tables, keyed by record id. */
  datatype Tables = Tables(chunks: map<string, ChunkRecord>, summaries: map<string, SummaryRecord>)

  /** Every row is stored under its own id. */
  predicate WellKeyed(t: Tables) {
    (forall k :: k in t.chunks ==> t.chunks[k].id == k)
    && (forall k :: k in t.summaries ==> t.summaries[k].id == k)
  }

  // ---------------------------------------------------------------------------
  // Upsert
  // ---------------------------------------------------------------------------

  /** One libsql chunk upsert: a new id is inserted; on an existing id only
      content, embedding, metadata and chapter title are taken from the new
      record, and its project, chapter and index stay as stored. */
  function UpsertChunk(rows: map<string, ChunkRecord>, rec: ChunkRecord): (r: map<string, ChunkRecord>)
    ensures r.Keys == rows.Keys + {rec.id}
    ensures forall k :: k in rows && k != rec.id ==> r[k] == rows[k]
    ensures rec.id !in rows ==> r[rec.id] == rec
    ensures rec.id in rows ==>
              var prev := rows[rec.id];
              r[rec.id].content == rec.content && r[rec.id].embedding == rec.embedding
              && r[rec.id].metadata == rec.metadata && r[rec.id].chapterTitle == rec.chapterTitle
              && r[rec.id].id == prev.id && r[rec.id].projectId == prev.projectId
              && r[rec.id].chapterNumber == prev.chapterNumber && r[rec.id].chunkIndex == prev.chunkIndex
  {
    if rec.id in rows then
      var prev := rows[rec.id];
      rows[rec.id := prev.(content := rec.content, embedding := rec.embedding,
                           metadata := rec.metadata, chapterTitle := rec.chapterTitle)]
    else rows[rec.id := rec]
  }

  /** One libsql summary upsert: on an existing id only summary, embedding
      and title change. */
  function UpsertSummary(rows: map<string, SummaryRecord>, rec: SummaryRecord): (r: map<string, SummaryRecord>)
    ensures r.Keys == rows.Keys + {rec.id}
    ensures forall k :: k in rows && k != rec.id ==> r[k] == rows[k]
    ensures rec.id !in rows ==> r[rec.id] == rec
    ensures rec.id in rows ==>
              var prev := rows[rec.id];
              r[rec.id].summary == rec.summary && r[rec.id].embedding == rec.embedding
              && r[rec.id].title == rec.title
              && r[rec.id].id == prev.id && r[rec.id].projectId == prev.projectId
              && r[rec.id].chapterNumber == prev.chapterNumber
  {
    if rec.id in rows then
      var prev := rows[rec.id];
      rows[rec.id := prev.(summary := rec.summary, embedding := rec.embedding, title := rec.title)]
    else rows[rec.id := rec]
  }

  /** Re-upserting a record whose key columns match the stored row replaces
      the row entirely: re-ingesting a chapter leaves exactly the new data. */
  lemma UpsertChunkSameKeyReplaces(rows: map<string, ChunkRecord>, rec: ChunkRecord)
    requires rec.id in rows
    requires rows[rec.id].id == rec.id && rows[rec.id].projectId == rec.projectId
    requires rows[rec.id].chapterNumber == rec.chapterNumber && rows[rec.id].chunkIndex == rec.chunkIndex
    ensures UpsertChunk(rows, rec)[rec.id] == rec
  {
  }

  /** Upserting the same record twice is the same as once. */
  lemma UpsertChunkIdempotent(rows: map<string, ChunkRecord>, rec: ChunkRecord)
    ensures UpsertChunk(UpsertChunk(rows, rec), rec) == UpsertChunk(rows, rec)
  {
  }

  /** The ids of a batch. */
  function ChunkIds(recs: seq<ChunkRecord>): (ids: set<string>)
    ensures forall i :: 0 <= i < |recs| ==> recs[i].id in ids
    ensures forall k :: k in ids ==> exists i :: 0 <= i < |recs| && recs[i].id == k
  {
    if |recs| == 0 then {} else {recs[0].id} + ChunkIds(recs[1..])
  }

  /** The libsql batch: each record upserted in order; the table gains the
      batch's ids and nothing else, and rows outside the batch are kept. */
  function UpsertChunkRows(rows: map<string, ChunkRecord>, recs: seq<ChunkRecord>): (r: map<string, ChunkRecord>)
    ensures r.Keys == rows.Keys + ChunkIds(recs)
    ensures forall k :: k in rows && k !in ChunkIds(recs) ==> r[k] == rows[k]
    decreases |recs|
  {
    if |recs| == 0 then rows
    else UpsertChunkRows(UpsertChunk(rows, recs[0]), recs[1..])
  }

  /** The ids of a summary batch. */
  function SummaryIds(recs: seq<SummaryRecord>): (ids: set<string>)
    ensures forall i :: 0 <= i < |recs| ==> recs[i].id in ids
    ensures forall k :: k in ids ==> exists i :: 0 <= i < |recs| && recs[i].id == k
  {
    if |recs| == 0 then {} else {recs[0].id} + SummaryIds(recs[1..])
  }

  /** The libsql summary batch: the table gains the batch's ids and nothing
      else, and rows outside the batch are kept. */
  function UpsertSummaryRows(rows: map<string, SummaryRecord>, recs: seq<SummaryRecord>): (r: map<string, SummaryRecord>)
    ensures forall i :: 0 <= i < |recs| ==> recs[i].id in r
    ensures forall k :: k in rows ==> k in r
    ensures forall k :: k in rows && (forall i :: 0 <= i < |recs| ==> recs[i].id != k) ==> r[k] == rows[k]
    ensures r.Keys == rows.Keys + SummaryIds(recs)
    decreases |recs|
  {
    if |recs| == 0 then rows
    else UpsertSummaryRows(UpsertSummary(rows, recs[0]), recs[1..])
  }

  /** The Qdrant batch: nothing is written when the batch is empty or its
      first record has no embedding (the collection dimension comes from
      it); otherwise every record with an embedding replaces its point
      whole, payload included. */
  function QdrantUpsertChunks(rows: map<string, ChunkRecord>, recs: seq<ChunkRecord>): (r: map<string, ChunkRecord>)
    ensures |recs| == 0 || |recs[0].embedding| == 0 ==> r == rows
    ensures |recs| > 0 && |recs[0].embedding| > 0 ==>
              forall i :: 0 <= i < |recs| && |recs[i].embedding| > 0 ==> recs[i].id in r
  {
    if |recs| == 0 || |recs[0].embedding| == 0 then rows
    else QdrantReplace(rows, recs)
  }

  /** Every record with a non-empty embedding replaces the stored point. */
  function QdrantReplace(rows: map<string, ChunkRecord>, recs: seq<ChunkRecord>): (r: map<string, ChunkRecord>)
    ensures forall i :: 0 <= i < |recs| && |recs[i].embedding| > 0 ==> recs[i].id in r
    ensures forall k :: k in rows ==> k in r
    ensures forall k :: k in rows && (forall i :: 0 <= i < |recs| ==> recs[i].id != k) ==> r[k] == rows[k]
    ensures forall k :: k in r && k !in rows ==> exists i :: 0 <= i < |recs| && |recs[i].embedding| > 0 && recs[i].id == k
    decreases |recs|
  {
    if |recs| == 0 then rows
    else
      var next := if |recs[0].embedding| > 0 then rows[recs[0].id := recs[0]] else rows;
      QdrantReplace(next, recs[1..])
  }

  /** `upsert_chunks`: a service without a client writes nothing. */
  function UpsertChunks(svc: Service, t: Tables, recs: seq<ChunkRecord>): (r: Tables)
    ensures !svc.hasClient ==> r == t
    ensures r.summaries == t.summaries
    ensures svc.hasClient && svc.provider != Qdrant ==> forall i :: 0 <= i < |recs| ==> recs[i].id in r.chunks
  {
    if !svc.hasClient then t
    else if svc.provider == Qdrant then t.(chunks := QdrantUpsertChunks(t.chunks, recs))
    else t.(chunks := UpsertChunkRows(t.chunks, recs))
  }

  /** `upsert_summaries`: a service without a client writes nothing. */
  function UpsertSummaries(svc: Service, t: Tables, recs: seq<SummaryRecord>): (r: Tables)
    ensures !svc.hasClient ==> r == t
    ensures r.chunks == t.chunks
    ensures svc.hasClient && svc.provider != Qdrant ==> forall i :: 0 <= i < |recs| ==> recs[i].id in r.summaries
  {
    if !svc.hasClient then t
    else if svc.provider == Qdrant then t.(summaries := QdrantUpsertSummaries(t.summaries, recs))
    else t.(summaries := UpsertSummaryRows(t.summaries, recs))
  }

  /** The Qdrant summary batch, with the same first-record dimension guard as
      the chunk batch. */
  function QdrantUpsertSummaries(rows: map<string, SummaryRecord>, recs: seq<SummaryRecord>): (r: map<string, SummaryRecord>)
    ensures |recs| == 0 || |recs[0].embedding| == 0 ==> r == rows
    ensures |recs| > 0 && |recs[0].embedding| > 0 ==>
              forall i :: 0 <= i < |recs| && |recs[i].embedding| > 0 ==> recs[i].id in r
  {
    if |recs| == 0 || |recs[0].embedding| == 0 then rows
    else QdrantReplaceSummaries(rows, recs)
  }

  /** Summary points with an embedding replace the stored ones. */
  function QdrantReplaceSummaries(rows: map<string, SummaryRecord>, recs: seq<SummaryRecord>): (r: map<string, SummaryRecord>)
    ensures forall i :: 0 <= i < |recs| && |recs[i].embedding| > 0 ==> recs[i].id in r
    ensures forall k :: k in rows ==> k in r
    ensures forall k :: k in rows && (forall i :: 0 <= i < |recs| ==> recs[i].id != k) ==> r[k] == rows[k]
    ensures forall k :: k in r && k !in rows ==> exists i :: 0 <= i < |recs| && |recs[i].embedding| > 0 && recs[i].id == k
    decreases |recs|
  {
    if |recs| == 0 then rows
    else
      var next := if |recs[0].embedding| > 0 then rows[recs[0].id := recs[0]] else rows;
      QdrantReplaceSummaries(next, recs[1..])
  }

  // ---------------------------------------------------------------------------
  // Delete by chapters
  // ---------------------------------------------------------------------------

  /** A bound SQL parameter. */
  datatype Param = TextParam(text: string) | IntParam(n: int)

  /** The name bound to the `i`-th chapter. */
  function ChapterKey(i: nat): (k: string)
    ensures |k| > 8 && k[..8] == "chapter_" && k[0] == 'c'
  {
    "chapter_" + NatToString(i)
  }

  /** The placeholder names `:chapter_0` … `:chapter_{n-1}`. */
  function PlaceholderNames(n: nat): (r: seq<string>)
    ensures |r| == n
    ensures forall i :: 0 <= i < n ==> r[i] == ":" + ChapterKey(i)
  {
    seq(n, i requires 0 <= i < n => ":" + ChapterKey(i))
  }

  /** The text inside `IN (…)`. */
  function PlaceholderList(n: nat): string {
    Join(PlaceholderNames(n), ",")
  }

  /** The parameters: the project id and each chapter under its position. */
  function DeleteParams(projectId: string, chapters: seq<int>): (m: map<string, Param>)
    ensures "project_id" in m && m["project_id"] == TextParam(projectId)
    ensures forall i :: 0 <= i < |chapters| ==> ChapterKey(i) in m && m[ChapterKey(i)] == IntParam(chapters[i])
  {
    ChapterParams(chapters, |chapters|)["project_id" := TextParam(projectId)]
  }

  /** The chapter parameters for the first `n` chapters. */
  function ChapterParams(chapters: seq<int>, n: nat): (m: map<string, Param>)
    requires n <= |chapters|
    ensures forall i :: 0 <= i < n ==> ChapterKey(i) in m && m[ChapterKey(i)] == IntParam(chapters[i])
    ensures forall k :: k in m ==> |k| > 8 && k[..8] == "chapter_"
  {
    if n == 0 then map[]
    else
      var m := ChapterParams(chapters, n - 1);
      forall i | 0 <= i < n - 1
        ensures ChapterKey(i) != ChapterKey(n - 1)
      {
        if ChapterKey(i) == ChapterKey(n - 1) {
          assert NatToString(i) == ChapterKey(i)[8..];
          NatToStringInjective(i, n - 1);
        }
      }
      m[ChapterKey(n - 1) := IntParam(chapters[n - 1])]
  }

  /** The chapter numbers an `IN (…)` list denotes: each placeholder, with
      its colon removed, looked up among the parameters. */
  function BoundValues(placeholders: string, params: map<string, Param>): set<int> {
    var names := Split(placeholders, ",");
    set i | 0 <= i < |names| && |names[i]| > 0 && names[i][1..] in params && params[names[i][1..]].IntParam?
      :: params[names[i][1..]].n
  }

  /** Splitting the placeholder list on "," gives back the names. */
  lemma PlaceholdersSplit(n: nat)
    requires n > 0
    ensures Split(PlaceholderList(n), ",") == PlaceholderNames(n)
  {
    var names := PlaceholderNames(n);
    forall k, i | 0 <= k < |names| && 0 <= i < |names[k]|
      ensures names[k][i] != ','
    {
      var d := NatToString(k);
      assert names[k] == ":chapter_" + d;
      if i >= 9 { assert names[k][i] == d[i - 9]; }
    }
    SplitJoinChar(names, ',');
  }

  /** The placeholders bind exactly the given chapter numbers. */
  lemma BoundValuesAreChapters(projectId: string, chapters: seq<int>)
    requires |chapters| > 0
    ensures BoundValues(PlaceholderList(|chapters|), DeleteParams(projectId, chapters)) == set i | 0 <= i < |chapters| :: chapters[i]
  {
    var names := PlaceholderNames(|chapters|);
    var params := DeleteParams(projectId, chapters);
    PlaceholdersSplit(|chapters|);
    forall i | 0 <= i < |names|
      ensures names[i][1..] == ChapterKey(i)
    {
    }
  }

  /** A chunk row the delete statement matches. */
  predicate ChunkMatches(r: ChunkRecord, projectId: string, chapters: seq<int>) {
    r.projectId == projectId && r.chapterNumber in chapters
  }

  /** A summary row the delete statement matches. */
  predicate SummaryMatches(r: SummaryRecord, projectId: string, chapters: seq<int>) {
    r.projectId == projectId && r.chapterNumber in chapters
  }

  /** `delete_by_chapters`: nothing happens without a client or with an
      empty list; otherwise the rows of that project whose chapter number is
      bound by the placeholders go, from both tables, and nothing else. */
  function DeleteByChapters(svc: Service, t: Tables, projectId: string, chapters: seq<int>): (r: Tables)
    ensures !svc.hasClient || chapters == [] ==> r == t
    ensures forall k :: k in r.chunks <==> k in t.chunks && !(svc.hasClient && ChunkMatches(t.chunks[k], projectId, chapters))
    ensures forall k :: k in r.summaries <==> k in t.summaries && !(svc.hasClient && SummaryMatches(t.summaries[k], projectId, chapters))
    ensures forall k :: k in r.chunks ==> r.chunks[k] == t.chunks[k]
    ensures forall k :: k in r.summaries ==> r.summaries[k] == t.summaries[k]
  {
    if !svc.hasClient || chapters == [] then t
    else
      var params := DeleteParams(projectId, chapters);
      var bound := BoundValues(PlaceholderList(|chapters|), params);
      BoundValuesAreChapters(projectId, chapters);
      assert forall c :: c in bound <==> c in chapters;
      Tables(
        map k | k in t.chunks && !(t.chunks[k].projectId == projectId && t.chunks[k].chapterNumber in bound) :: t.chunks[k],
        map k | k in t.summaries && !(t.summaries[k].projectId == projectId && t.summaries[k].chapterNumber in bound) :: t.summaries[k])
  }

  /** Deleting keeps the tables keyed by id. */
  lemma DeleteKeepsKeys(svc: Service, t: Tables, projectId: string, chapters: seq<int>)
    requires WellKeyed(t)
    ensures WellKeyed(DeleteByChapters(svc, t, projectId, chapters))
  {
  }

  // ---------------------------------------------------------------------------
  // Counters
  // ---------------------------------------------------------------------------

  datatype Counts = Counts(chunks: nat, summaries: nat)

  /** The ids of one project's chunks. */
  function ProjectChunkIds(t: Tables, projectId: string): (ids: set<string>)
    ensures ids <= t.chunks.Keys
    ensures forall k :: k in ids <==> k in t.chunks && t.chunks[k].projectId == projectId
  {
    set k | k in t.chunks && t.chunks[k].projectId == projectId
  }

  /** The ids of one project's summaries. */
  function ProjectSummaryIds(t: Tables, projectId: string): (ids: set<string>)
    ensures ids <= t.summaries.Keys
    ensures forall k :: k in ids <==> k in t.summaries && t.summaries[k].projectId == projectId
  {
    set k | k in t.summaries && t.summaries[k].projectId == projectId
  }

  /** `count_totals`: zero without a client, else the table sizes. */
  function CountTotals(svc: Service, t: Tables): (c: Counts)
    ensures !svc.hasClient ==> c == Counts(0, 0)
    ensures svc.hasClient ==> c.chunks == |t.chunks.Keys| && c.summaries == |t.summaries.Keys|
  {
    if !svc.hasClient then Counts(0, 0) else Counts(|t.chunks.Keys|, |t.summaries.Keys|)
  }

  /** `count_by_project`: zero without a client, else the number of the
      project's chunks and of its summaries, never more than the totals. */
  function CountByProject(svc: Service, t: Tables, projectId: string): (c: Counts)
    ensures !svc.hasClient ==> c == Counts(0, 0)
    ensures c.chunks <= CountTotals(svc, t).chunks && c.summaries <= CountTotals(svc, t).summaries
    ensures svc.hasClient ==> c.chunks == |ProjectChunkIds(t, projectId)|
    ensures svc.hasClient ==> c.summaries == |ProjectSummaryIds(t, projectId)|
  {
    if !svc.hasClient then Counts(0, 0)
    else
      var a := ProjectChunkIds(t, projectId);
      var b := ProjectSummaryIds(t, projectId);
      SubsetCard(a, t.chunks.Keys);
      SubsetCard(b, t.summaries.Keys);
      Counts(|a|, |b|)
  }

  /** A subset is no larger than its superset. */
  lemma {:induction false} SubsetCard<T>(a: set<T>, b: set<T>)
    requires a <= b
    ensures |a| <= |b|
    decreases |b|
  {
    if a != {} {
      var x :| x in a;
      SubsetCard(a - {x}, b - {x});
    }
  }

  /** After deleting chapters, no chunk of those chapters is left in that
      project, and the project's count dropped by the number removed. */
  lemma DeletedChaptersAreGone(svc: Service, t: Tables, projectId: string, chapters: seq<int>, k: string)
    requires svc.hasClient && k in t.chunks && ChunkMatches(t.chunks[k], projectId, chapters)
    ensures k !in DeleteByChapters(svc, t, projectId, chapters).chunks
    ensures CountByProject(svc, DeleteByChapters(svc, t, projectId, chapters), projectId).chunks
            < CountByProject(svc, t, projectId).chunks
  {
    var r := DeleteByChapters(svc, t, projectId, chapters);
    var before := ProjectChunkIds(t, projectId);
    var after := ProjectChunkIds(r, projectId);
    assert after <= before - {k};
    SubsetCard(after, before - {k});
  }

  /** A service without a client is inert: writes change nothing and the
      counters read zero. */
  lemma DisabledStoreIsInert(svc: Service, t: Tables, cs: seq<ChunkRecord>, ss: seq<SummaryRecord>, p: string, chs: seq<int>)
    requires !svc.hasClient
    ensures UpsertChunks(svc, t, cs) == t && UpsertSummaries(svc, t, ss) == t
    ensures DeleteByChapters(svc, t, p, chs) == t
    ensures CountTotals(svc, t) == Counts(0, 0) && CountByProject(svc, t, p) == Counts(0, 0)
  {
  }
}

=== FILE: wrappers.dfy ===
/** Failure-compatible result types shared by every module of the model. */
module Wrappers {

  /** An optional value; `None` plays the part of Python's `None` / JavaScript's `null`. */
  datatype Option<+T> = None | Some(value: T) {

    predicate IsFailure() {
      None?
    }

    function PropagateFailure<U>(): Option<U>
      requires None?
    {
      None
    }

    function Extract(): T
      requires Some?
    {
      value
    }

    /** The value, or `default` when there is none. */
    function GetOr(default: T): T {
      match this
      case Some(v) => v
      case None => default
    }
  }

  /** A value or an error; errors model the exceptions the services raise. */
  datatype Result<+R, +E> = Success(value: R) | Failure(error: E) {

    predicate IsFailure() {
      Failure?
    }

    function PropagateFailure<U>(): Result<U, E>
      requires Failure?
    {
      Failure(error)
    }

    function Extract(): R
      requires Success?
    {
      value
    }
  }

  /** An HTTP error as FastAPI's `HTTPException` carries it: a status code and a detail message. */
  datatype HttpError = HttpError(status: int, detail: string)
}

=== FILE: writer.dfy ===
/** Helpers of the chapter-writing router: the tail excerpt of the previous
    chapter, the number of versions to generate, the progress estimate, the
    content of each generated version, the blueprint rewriting before a
    prompt, the retrieval query, and the split of volume-completion
    criteria. */
module Writer {
  import opened Wrappers
  import opened Text
  import opened Sanitizer
  import opened NovelText
  import opened PyJson

  // ---------------------------------------------------------------------------
  // Tail excerpt
  // ---------------------------------------------------------------------------

  const DefaultExcerptLimit: int := 500

  /** Python's `s[-n:]`: for n > 0 the last n characters (all of them when
      n exceeds the length); `-0` is 0, so n == 0 keeps everything; a
      negative n drops the first -n characters. */
  function PyTail(s: string, n: int): (r: string)
    ensures EndsWith(s, r)
    ensures n > 0 ==> |r| == if n <= |s| then n else |s|
    ensures n == 0 ==> r == s
  {
    if n > 0 then (if n <= |s| then s[|s| - n..] else s)
    else if n == 0 then s
    else if -n <= |s| then s[-n..] else ""
  }

  /** `_extract_tail_excerpt`: "" for a missing or empty text; the trimmed
      text when it fits the limit; otherwise its tail as Python slices it. */
  function ExtractTailExcerpt(text: Option<string>, limit: int): (r: string)
    ensures text.None? || text == Some("") ==> r == ""
    ensures text.Some? ==> EndsWith(Strip(text.value), r)
    ensures text.Some? && text.value != "" && |Strip(text.value)| <= limit ==> r == Strip(text.value)
    ensures text.Some? && limit > 0 ==> |r| <= limit
    ensures text.Some? && text.value != "" && 0 < limit < |Strip(text.value)| ==> |r| == limit
  {
    if text.None? || text.value == "" then ""
    else
      var stripped := Strip(text.value);
      if |stripped| <= limit then stripped else PyTail(stripped, limit)
  }

  /** With the default limit, a long chapter contributes exactly its last
      500 characters. */
  lemma TailExcerptKeepsLast500(text: string)
    requires |Strip(text)| > DefaultExcerptLimit
    ensures ExtractTailExcerpt(Some(text), DefaultExcerptLimit) == Strip(text)[|Strip(text)| - 500..]
  {
  }

  /** A limit of zero keeps the whole trimmed text, because `s[-0:]` is `s`. */
  lemma ZeroLimitKeepsAll(text: string)
    requires text != ""
    ensures ExtractTailExcerpt(Some(text), 0) == Strip(text)
  {
  }

  // ---------------------------------------------------------------------------
  // Version count
  // ---------------------------------------------------------------------------

  const DefaultVersionCount: int := 3

  /** A positive integer, as `int(value)` reads it. */
  function PositiveInt(value: string): (r: Option<int>)
    ensures r.Some? ==> r.value > 0 && ParseInt(value) == Some(r.value)
    ensures r.None? <==> ParseInt(value).None? || ParseInt(value).value <= 0
  {
    var v := ParseInt(value);
    if v.Some? && v.value > 0 then v else None
  }

  /** `_resolve_version_count`: the stored `writer.chapter_versions` when it
      reads as a positive integer, else `WRITER_CHAPTER_VERSION_COUNT` when
      set and positive, else 3. */
  function ResolveVersionCount(stored: Option<string>, env: Option<string>): (r: int)
    ensures r >= 1
    ensures stored.Some? && PositiveInt(stored.value).Some? ==> r == PositiveInt(stored.value).value
    ensures ((stored.None? || PositiveInt(stored.value).None?) && env.Some? && env.value != ""
             && PositiveInt(env.value).Some?) ==> r == PositiveInt(env.value).value
    ensures ((stored.None? || PositiveInt(stored.value).None?)
             && (env.None? || env.value == "" || PositiveInt(env.value).None?)) ==> r == DefaultVersionCount
  {
    if stored.Some? && PositiveInt(stored.value).Some? then PositiveInt(stored.value).value
    else if env.Some? && env.value != "" && PositiveInt(env.value).Some? then PositiveInt(env.value).value
    else DefaultVersionCount
  }

  /** A count written back as text is read back unchanged. */
  lemma StoredCountRoundTrip(n: int, env: Option<string>)
    requires n >= 1
    ensures ResolveVersionCount(Some(IntToString(n)), env) == n
  {
    ParseIntOfIntToString(n);
  }

  // ---------------------------------------------------------------------------
  // Progress estimate
  // ---------------------------------------------------------------------------

  /** `min(100, progress + 25)`: a quarter more, capped at 100. */
  function EstimatedProgressAfter(progress: int): (r: int)
    ensures r <= 100
    ensures r == 100 || r == progress + 25
    ensures r >= progress || progress > 100
  {
    if progress + 25 < 100 then progress + 25 else 100
  }

  // ---------------------------------------------------------------------------
  // Version contents
  // ---------------------------------------------------------------------------

  /** The text and the metadata kept for each generated version. `pyStr` is
      Python's `str` on a value. */
  function VersionContent(variant: Json, pyStr: Json -> string): (r: (string, Json))
    ensures variant.JObj? ==> r.1 == variant
    ensures !variant.JObj? ==> r == (pyStr(variant), JObj([Member("raw", variant)]))
    ensures (variant.JObj? && Get(variant.members, "full_content").Some?
             && Get(variant.members, "full_content").value.JStr?)
            ==> r.0 == Get(variant.members, "full_content").value.text
  {
    match variant
    case JObj(ms) =>
      var full := Get(ms, "full_content");
      var content := Get(ms, "content");
      var chapter := Get(ms, "chapter_content");
      var text :=
        if full.Some? && full.value.JStr? then full.value.text
        else if content.Some? && content.value.JStr? then content.value.text
        else if chapter.Some? then pyStr(chapter.value)
        else PyDumps(variant);
      (text, variant)
    case _ => (pyStr(variant), JObj([Member("raw", variant)]))
  }

  /** The choice among the keys, in order of preference: `full_content`
      when it is a string, then `content` when it is a string, then
      `chapter_content` whatever it holds, then the whole object dumped. */
  lemma VersionContentPreference(ms: seq<Member>, pyStr: Json -> string)
    ensures var t := VersionContent(JObj(ms), pyStr).0;
            var full := Get(ms, "full_content");
            var content := Get(ms, "content");
            var chapter := Get(ms, "chapter_content");
            (!(full.Some? && full.value.JStr?) && content.Some? && content.value.JStr? ==> t == content.value.text)
            && (!(full.Some? && full.value.JStr?) && !(content.Some? && content.value.JStr?) && chapter.Some?
                ==> t == pyStr(chapter.value))
            && (full.None? && content.None? && chapter.None? ==> t == PyDumps(JObj(ms)))
  {
  }

  /** The contents and metadata of all versions, one of each per version. */
  function VersionContents(variants: seq<Json>, pyStr: Json -> string): (r: (seq<string>, seq<Json>))
    ensures |r.0| == |variants| && |r.1| == |variants|
    ensures forall i :: 0 <= i < |variants| ==> (r.0[i], r.1[i]) == VersionContent(variants[i], pyStr)
  {
    (seq(|variants|, i requires 0 <= i < |variants| => VersionContent(variants[i], pyStr).0),
     seq(|variants|, i requires 0 <= i < |variants| => VersionContent(variants[i], pyStr).1))
  }

  // ---------------------------------------------------------------------------
  // Blueprint rewriting
  // ---------------------------------------------------------------------------

  /** A relationship's `character_from`/`character_to` keys are renamed to
      `from`/`to`; every other key keeps its value. */
  function RenameRelationship(rel: map<string, Json>): (r: map<string, Json>)
    ensures "character_from" !in r && "character_to" !in r
    ensures "character_from" in rel ==> "from" in r && r["from"] == rel["character_from"]
    ensures "character_to" in rel ==> "to" in r && r["to"] == rel["character_to"]
    ensures forall k :: k in rel && k !in {"character_from", "character_to", "from", "to"} ==> k in r && r[k] == rel[k]
    ensures forall k :: k in r ==> k in rel || k == "from" || k == "to"
  {
    var a := if "character_from" in rel then (rel - {"character_from"})["from" := rel["character_from"]] else rel;
    if "character_to" in a then (a - {"character_to"})["to" := a["character_to"]] else a
  }

  /** The keys a blueprint may not carry into the writing prompt. */
  const BannedBlueprintKeys: set<string> :=
    {"chapter_summaries", "chapter_details", "chapter_dialogues", "chapter_events",
     "conversation_history", "character_timelines"}

  /** The banned keys are removed and every other key is kept. */
  function RemoveBannedKeys(blueprint: map<string, Json>): (r: map<string, Json>)
    ensures r.Keys == blueprint.Keys - BannedBlueprintKeys
    ensures forall k :: k in r ==> r[k] == blueprint[k]
  {
    blueprint - BannedBlueprintKeys
  }

  // ---------------------------------------------------------------------------
  // Retrieval query
  // ---------------------------------------------------------------------------

  /** The parts of the retrieval query: the event title (or `事件{n}`), the
      description (or `暂无描述`) and the writing notes when given. */
  function QueryParts(eventTitle: string, eventNumber: int, description: string, notes: Option<string>)
    : (parts: seq<string>)
    ensures |parts| == 2 || |parts| == 3
    ensures forall i :: 0 <= i < |parts| ==> parts[i] != ""
    ensures parts[0] == (if eventTitle != "" then eventTitle else "事件" + IntToString(eventNumber))
    ensures parts[1] == (if description != "" then description else "暂无描述")
    ensures |parts| == 3 <==> notes.Some? && notes.value != ""
    ensures |parts| == 3 ==> parts[2] == notes.value
  {
    var title := if eventTitle != "" then eventTitle else "事件" + IntToString(eventNumber);
    var desc := if description != "" then description else "暂无描述";
    if notes.Some? && notes.value != "" then [title, desc, notes.value] else [title, desc]
  }

  /** The query: the non-empty parts joined by newlines. */
  function RagQuery(eventTitle: string, eventNumber: int, description: string, notes: Option<string>): string {
    Join(QueryParts(eventTitle, eventNumber, description, notes), "\n")
  }

  /** Splitting the query on newlines gives back its parts when none of them
      spans lines. */
  lemma RagQuerySplits(eventTitle: string, eventNumber: int, description: string, notes: Option<string>)
    requires var parts := QueryParts(eventTitle, eventNumber, description, notes);
             forall k, i :: 0 <= k < |parts| && 0 <= i < |parts[k]| ==> parts[k][i] != '\n'
    ensures Split(RagQuery(eventTitle, eventNumber, description, notes), "\n")
            == QueryParts(eventTitle, eventNumber, description, notes)
  {
    SplitJoinChar(QueryParts(eventTitle, eventNumber, description, notes), '\n');
  }

  // ---------------------------------------------------------------------------
  // Completion criteria
  // ---------------------------------------------------------------------------

  datatype Criterion = Criterion(criterion: string, isMet: bool)

  /** The criteria that are met, in order. */
  function Completed(items: seq<Criterion>): (r: seq<string>)
    ensures |r| <= |items|
  {
    if items == [] then []
    else (if items[0].isMet then [items[0].criterion] else []) + Completed(items[1..])
  }

  /** The criteria that are not met, in order. */
  function RemainingCriteria(items: seq<Criterion>): (r: seq<string>)
    ensures |r| <= |items|
  {
    if items == [] then []
    else (if items[0].isMet then [] else [items[0].criterion]) + RemainingCriteria(items[1..])
  }

  /** A criterion name is completed exactly when some met criterion carries
      it, and remaining exactly when some unmet criterion does. */
  lemma {:induction false} CriteriaMembers(items: seq<Criterion>, x: string)
    ensures x in Completed(items) <==> exists i :: 0 <= i < |items| && items[i].isMet && items[i].criterion == x
    ensures x in RemainingCriteria(items) <==> exists i :: 0 <= i < |items| && !items[i].isMet && items[i].criterion == x
    decreases |items|
  {
    if items != [] {
      CriteriaMembers(items[1..], x);
      if exists i :: 0 <= i < |items| && items[i].isMet && items[i].criterion == x {
        var i :| 0 <= i < |items| && items[i].isMet && items[i].criterion == x;
        if i > 0 { assert items[1..][i - 1] == items[i]; }
      }
      if exists i :: 0 <= i < |items| && !items[i].isMet && items[i].criterion == x {
        var i :| 0 <= i < |items| && !items[i].isMet && items[i].criterion == x;
        if i > 0 { assert items[1..][i - 1] == items[i]; }
      }
      if exists i :: 0 <= i < |items[1..]| && items[1..][i].isMet && items[1..][i].criterion == x {
        var i :| 0 <= i < |items[1..]| && items[1..][i].isMet && items[1..][i].criterion == x;
        assert items[i + 1] == items[1..][i];
      }
      if exists i :: 0 <= i < |items[1..]| && !items[1..][i].isMet && items[1..][i].criterion == x {
        var i :| 0 <= i < |items[1..]| && !items[1..][i].isMet && items[1..][i].criterion == x;
        assert items[i + 1] == items[1..][i];
      }
    }
  }

  /** Both lists keep the order of the checklist: splitting the checklist
      anywhere splits each list at the same place. */
  lemma {:induction false} CriteriaConcat(a: seq<Criterion>, b: seq<Criterion>)
    ensures Completed(a + b) == Completed(a) + Completed(b)
    ensures RemainingCriteria(a + b) == RemainingCriteria(a) + RemainingCriteria(b)
    decreases |a|
  {
    if a == [] {
      assert a + b == b;
    } else {
      CriteriaConcat(a[1..], b);
      assert (a + b)[0] == a[0];
      assert (a + b)[1..] == a[1..] + b;
      var head := if a[0].isMet then [a[0].criterion] else [];
      assert Completed(a + b) == head + (Completed(a[1..]) + Completed(b));
      assert Completed(a) == head + Completed(a[1..]);
      var rest := if a[0].isMet then [] else [a[0].criterion];
      assert RemainingCriteria(a + b) == rest + (RemainingCriteria(a[1..]) + RemainingCriteria(b));
      assert RemainingCriteria(a) == rest + RemainingCriteria(a[1..]);
    }
  }

  /** A single criterion goes to exactly one side, according to its flag. */
  lemma CriterionSingle(c: Criterion)
    ensures Completed([c]) == (if c.isMet then [c.criterion] else [])
    ensures RemainingCriteria([c]) == (if c.isMet then [] else [c.criterion])
  {
    assert [c][1..] == [];
  }

  /** The criteria names, in order. */
  function Names(items: seq<Criterion>): seq<string> {
    seq(|items|, i requires 0 <= i < |items| => items[i].criterion)
  }

  /** Completed and remaining criteria split the list: together they hold
      each criterion exactly as often as the list does. */
  lemma {:induction false} CriteriaPartition(items: seq<Criterion>)
    ensures multiset(Completed(items)) + multiset(RemainingCriteria(items)) == multiset(Names(items))
    ensures |Completed(items)| + |RemainingCriteria(items)| == |items|
    decreases |items|
  {
    if items != [] {
      CriteriaPartition(items[1..]);
      assert Names(items) == [items[0].criterion] + Names(items[1..]);
    }
  }
}
